=== FILE: README.md ===
# recordWEB core in Dafny

This project models the deterministic core of recordWEB, a recorder for Chzzk
live streams. Under its Qt window, its threads and its network and subprocess
calls sits a set of decision and formatting functions:

- the streamlink command line and the recording's file name (`Live_recorder.py`,
  and the single-file recorder `Chzzk_recordLITE3d.py`);
- the live-status probe with its retry rule and track choice;
- each channel's recording thread, as a run over what each loop iteration meets;
- the per-channel bookkeeping of the recorder and of the shared store `RecorderManager`;
- the free-name searches that keep files from being overwritten;
- the ffmpeg post-processing command and the file operations after it;
- the chat logger's lines and the SAMI subtitle converter that reads them back;
- the VOD downloader's time arithmetic, segment splitting, DASH Representation
  choice (ISO/IEC 23009-1, section 5.3.5) and merge command;
- the configuration and channel files, the settings form, the API field
  extraction, the main window's channel list, and the batch stream-copy tool.

Every operation is a pure function or a short method over immutable data.
The file system is the set of paths that exist. Probe replies, process exit
codes, directory listings, the clock and generated tokens are parameters.
A Python exception is an explicit outcome: `None`, a `Raises`/`Raised` case,
or a `raised` flag.

One module per component:

- `wrappers.dfy` (`Wrappers`): `Option`
- `text.dfy` (`Text`): `str`, `int`, `strip`, `split`, `replace`, `os.path`
- `channel.dfy` (`Channels`): a `channels.json` entry
- `command_builder.dfy` (`CommandBuilder`): `module/Live_recorder.py` `buildCommand`, `_create_filename`
- `live_metadata.dfy` (`LiveMetadata`): `module/Live_recorder.py` `get_live_metadata`
- `supervisor.dfy` (`Supervisor`): `module/Live_recorder.py` `RecordingThread.run`
- `recorder.dfy` (`Recorder`): `module/Live_recorder.py` `LiveRecorder` bookkeeping
- `naming.dfy` (`Naming`): free-name searches in `data_manager.py`, `Live_recorder.py`
- `state_store.dfy` (`StateStore`): `module/data_manager.py`
- `post_processing.dfy` (`PostProcessing`): `module/copy_streams.py`, `runPostProcessing`
- `lite_recorder.dfy` (`LiteRecorder`): `Chzzk_recordLITE3d.py`
- `chat_log.dfy` (`ChatLog`): `module/run.py`
- `smi.dfy` (`Smi`): `module/convert_log_to_smi.py`
- `vod.dfy` (`Vod`): `module/VOD_downloader.py`
- `config.dfy` (`Config`): `module/channel_manager.py`
- `settings.dfy` (`SettingsWindow`): `module/settings_window.py`
- `api.dfy` (`Api`): `module/api.py`
- `channel_list.dfy` (`ChannelList`): `run_record.py`
- `dsc.dfy` (`Dsc`): `DSC/Chzzk_DSC.py`

## Model

| member | source | states |
|---|---|---|
| Api.GetHeaders | module/api.py:19-25 | the headers are exactly User-Agent (the fixed browser string) and Cookie, the Cookie value starts with `NID_AUT=`; `None` for the cookies raises |
| Api.HeadersSeeOnlyLoginCookies | module/api.py:23-24 | cookie dictionaries that agree on `NID_AUT` and `NID_SES` give identical headers: no other cookie reaches them |
| Api.HeadersWithoutLogin | module/api.py:24 | with neither login cookie the header is `NID_AUT=; NID_SES=`, a missing key read as the empty string |
| Api.CookieHeaderReadsBack | module/api.py:24 | split at `;`, the Cookie header gives back `NID_AUT=<aut>` and ` NID_SES=<ses>` whenever neither value contains `;` |
| Api.Index | module/api.py:37 | `v[key]` finds the field of an object, raises a caught `KeyError` for a missing key and an uncaught `TypeError` on a non-object |
| Api.HasKey | module/api.py:85-89 | `key in v` is membership of the keys of an object or the items of an array, and raises on null, booleans and numbers |
| Api.ContentField | module/api.py:28-54 | `data["content"][field]` gives `None` exactly on a failed request, a body that is not JSON or a missing key, and the field's value exactly when both keys exist |
| Api.ContentFieldOfObject | module/api.py:37 | a `content` object with the field yields that field's value, one without it yields `None` |
| Api.FetchUserIdHash | module/api.py:26-38 | missing cookies raise, and so does indexing a body or a `content` that is not an object (an uncaught `TypeError`); a failed request, a body that is not JSON, a missing `content` or a missing field give `None`; a value returned is exactly `content.userIdHash` of the reply |
| Api.FetchChatChannelId | module/api.py:41-52 | missing cookies raise, and so does indexing a body or a `content` that is not an object (an uncaught `TypeError`); a failed request, a body that is not JSON, a missing `content` or a missing field give `None`; a value returned is exactly `content.chatChannelId` of the reply |
| Api.FetchAccessToken | module/api.py:57-73 | missing cookies raise, as building the headers does; a failed request or a reply that is not JSON gives neither token; otherwise both tokens or neither: the pair holds values exactly when `accessToken` and `extraToken` both exist, and then holds those values |
| Api.AccessTokenNeedsBoth | module/api.py:69-73 | a reply with an access token but no extra token gives `(None, None)` |
| Api.FetchChannelName | module/api.py:76-100 | missing cookies raise; a failed request, a body that is not JSON or a document without `content` give `None` |
| Api.ChannelNameFirst | module/api.py:85-88 | a top-level `content.channelName` is returned whatever else `content` holds |
| Api.ChannelNameNested | module/api.py:89-93 | without `content.channelName`, `content.channel.channelName` is returned, and `None` when that is missing too |
| Channels.FindChannel | run_record.py:1421 | the channel found is one in the list with that id, and there is none exactly when no channel has that id |
| ChannelList.AddChannel | run_record.py:1301-1323 | an incomplete dialog changes nothing; a complete one appends exactly one channel with the five fields, the directory made absolute and reservation off, and keeps the others |
| ChannelList.AddedChannelNotReserved | run_record.py:1310-1317 | a newly added channel is not reserved for recording and its directory is absolute |
| ChannelList.RemoveChannel | run_record.py:551-558 | removal keeps exactly the channels with another id: none with the id remains and every other one stays |
| ChannelList.RemoveAppend | run_record.py:555-557 | removing from a concatenation removes from each part, so the kept channels keep their order |
| ChannelList.RemoveAbsent | run_record.py:555-557 | removing an id that no channel has changes nothing, so removing twice equals removing once |
| ChannelList.RemoveAfterAdd | run_record.py:541-558 | adding a channel and removing its id gives the list with that id removed |
| ChannelList.EditChannel | run_record.py:1393-1413 | a complete dialog replaces exactly the five fields of the first channel with the id, the directory made absolute as `save_channels` leaves it; an incomplete dialog or an unknown id changes nothing |
| ChannelList.EditKeepsTheRest | run_record.py:1403-1408 | an edit keeps every channel's reservation flag and platform and leaves every channel with another id unchanged |
| ChannelList.SetRecordEnabled | run_record.py:1420-1429 | only the first channel with the id gets the flag, and an unknown id changes nothing |
| ChannelList.RecordEnabledReadsBack | run_record.py:1420-1423 | after the toggle the channel looked up by id reads back the new flag, and of two toggles the last wins |
| ChannelList.GridPositions | run_record.py:954-967 | widget i goes to row i div 4, column i mod 4 |
| ChannelList.GridCellsDistinct | run_record.py:616-623 | two different widgets never share a cell, and no row has more than four columns |
| ChannelList.ParseOpenDate | run_record.py:789 | a start time that parses is a real calendar date and time |
| ChannelList.OpenDateRoundTrip | run_record.py:776-789 | every start time written with `%Y-%m-%d %H:%M:%S` (four-digit year) parses back to the same date and time |
| ChannelList.Elapsed | run_record.py:790-794 | the elapsed seconds are the difference less 3, and 0 when the difference is at most 3 |
| ChannelList.WhileRecording | run_record.py:787-809 | a start that does not parse shows "00:00:00" twice; one that parses shows itself and the elapsed time as HH:MM:SS |
| ChannelList.UpdateRecordingTime | run_record.py:765-811 | the start time is remembered on first sight (the clock standing in for a missing one) and kept afterwards; a channel not recording shows "00:00:00" |
| ChannelList.FirstSightShowsZero | run_record.py:775-794 | a recording channel first seen without a start time shows the current time and "00:00:00" |
| ChannelList.RecordingShowsElapsed | run_record.py:787-809 | with a remembered start that parses, the widget shows that start and the elapsed time, whatever the metadata says |
| ChannelList.MetadataTexts | module/Live_recorder.py:440-461 | the stored metadata holds the stream's start time under "recording_duration" and has no "openDate" entry |
| ChannelList.FirstSightOpenDateAsWritten | run_record.py:773-776 | a channel seen for the first time reads its metadata's "openDate" entry, and "00:00:00" when the entry or the metadata is missing |
| ChannelList.FirstSightIgnoresOpenDate | run_record.py:773-779 | read that way, the stored metadata always gives "00:00:00", so first sight remembers the clock even when the stream's start is known |
| ChannelList.FirstSightOpenDate | run_record.py:853-855 | the start time read under "recording_duration", the key `update_channel_info` uses, with "00:00:00" when it is missing |
| ChannelList.FirstSightUsesOpenDate | run_record.py:773-779 | read under "recording_duration", first sight remembers the stream's own start time, and the clock only when the start is "00:00:00" |
| ChannelList.ElapsedIs | run_record.py:790-794 | e seconds after the start, the elapsed time shown is e less 3 |
| ChatLog.DonationText | module/run.py:217-229 | a readable donation's text is the message followed by ` (amount currency)`, the amount defaulting to `0` and the currency to `KRW` |
| ChatLog.SpeakerOf | module/run.py:192-206 | the anonymous uid speaks as `익명의 후원자(anonymous)`; an entry is skipped exactly when a non-anonymous entry whose profile is not a non-object lacks `msg`; the lookup raises exactly on a missing uid or a profile that is not an object |
| ChatLog.EntryOutcome | module/run.py:192-251 | an entry is skipped exactly when its speaker is, and every line written starts with `[` |
| ChatLog.BodyLines | module/run.py:192-263 | at most one line per entry, and the body ends in an exception exactly when some entry raises |
| ChatLog.Handle | module/run.py:178-263 | a pong is sent exactly for a ping; lines are written only for chat and donation commands; an undecodable message reconnects; any other command is ignored |
| ChatLog.BodyWritesEveryLine | module/run.py:192-254 | when no entry raises, the lines are those of the readable entries, in order, and the client stays connected |
| ChatLog.RaiseDropsTheRest | module/run.py:192-263 | the first entry that raises ends the body: only the entries before it are logged and the client reconnects |
| ChatLog.LogLine | module/run.py:229-251 | a log line is `[<time>][<kind>] <nickname>(<uid>) : <text>`: it starts with the bracketed time and kind, the nickname and the uid in parentheses, ends with ` : ` and the text, and has exactly those characters and nothing else |
| ChatLog.ChatEntryLine | module/run.py:244-251 | a chat entry with a readable profile is logged as `[HH:MM:SS][채팅] nickname(uid) : msg` |
| ChatLog.DonationEntryLine | module/run.py:214-242 | a donation with readable extras and no amount or currency ends in ` (0 KRW)`; with unreadable extras it has no suffix; extras that are not an object raise |
| ChatLog.UnknownSpeaker | module/run.py:196-204 | an unreadable profile or one without a nickname logs the entry as `Unknown(Unknown)` |
| ChatLog.ColorComponents | module/run.py:55-58 | three components, each from 100 to 255, each byte i of the digest reduced modulo 156 and raised by 100 |
| ChatLog.ColorCodeReadsBack | module/run.py:55-59 | the colour sequence is `ESC[` … `m` whose `;`-fields read back as `38`, `2` and three numbers from 100 to 255 |
| CommandBuilder.PluginFolder | module/Live_recorder.py:520-528 | the plugin folder is one of `basic`, `timemachine`, `timemachine_plus`, and it is `basic` exactly when the plugin is not one of the two time-machine plugins (unknown names fall back to the basic plugin) |
| CommandBuilder.SafeTitle | module/Live_recorder.py:624 | every character of the cleaned title is a word character, whitespace, Hangul or one of `- _ . ! ~ * ' ( )`, and the title never grows (each disallowed run becomes a single `_`) |
| CommandBuilder.SafeTitleAppend | module/Live_recorder.py:624 | cleaning works piece by piece: a title cut anywhere except inside a run of disallowed characters cleans to its two cleaned pieces |
| CommandBuilder.SafeTitleRun | module/Live_recorder.py:624 | a whole run of disallowed characters, of any length, becomes exactly one `_` |
| CommandBuilder.DropAppend | module/Live_recorder.py:624 | skipping a leading disallowed run stops at the first allowed character, whatever follows it |
| CommandBuilder.DropRun | module/Live_recorder.py:624 | skipping a leading run of disallowed characters of any length ends exactly where the run ends, at an allowed character or the end of the title |
| CommandBuilder.SafeTitleKeeps | module/Live_recorder.py:624 | a title made only of allowed characters is left unchanged |
| CommandBuilder.SafeTitleIdempotent | module/Live_recorder.py:624 | cleaning a cleaned title changes nothing |
| CommandBuilder.SafeChannelName | module/Live_recorder.py:625-626 | the cleaned channel name holds only word characters and is no longer than the name |
| CommandBuilder.SafeChannelNameCount | module/Live_recorder.py:625-626 | the cleaned channel name is exactly the name's alphanumeric characters and underscores in order, spaces turned to underscores |
| CommandBuilder.SafeChannelNameIdempotent | module/Live_recorder.py:625-626 | cleaning a cleaned channel name changes nothing |
| CommandBuilder.WordOnlyUnchanged | module/Live_recorder.py:625-626 | a name made only of word characters is kept as it is |
| CommandBuilder.ParseUnparse | module/Live_recorder.py:628-639 | the `str.format` reading of a template inverts its writing: any sequence of literals and `{name}` fields (braces doubled in literals) parses back to itself |
| CommandBuilder.PlainTemplate | module/Live_recorder.py:628-639 | a template without braces parses, and filling it gives the template back whatever the field values |
| CommandBuilder.Fill | module/Live_recorder.py:628-639 | filling a template fails (the `KeyError` of `str.format`) exactly when some field of it is not among the supplied names |
| CommandBuilder.TemplateFields | module/Live_recorder.py:632-640 | the template is given exactly seven named values: `recording_time`, `start_time`, `safe_live_title`, `channel_name`, `record_quality`, `frame_rate` and `file_extension` |
| CommandBuilder.CreateFilename | module/Live_recorder.py:614-643 | no name exactly when the channel id is unknown; a name is the configured template filled with the clock strings, the cleaned title and channel name, the quality, the frame rate and the extension |
| CommandBuilder.ChatLogPath | module/Live_recorder.py:554 | the chat log path ends in `.log` and what precedes it is the recording path without its extension |
| CommandBuilder.ChatLogPathSplits | module/Live_recorder.py:554 | splitting the extension off the chat log path gives back the recording's stem and `.log`, whenever the stem's last path component is not all dots |
| CommandBuilder.Argv | module/Live_recorder.py:576-607 | the streamlink argv, word by word: the streamlink executable, `--ffmpeg-copyts`, `--plugin-dirs` and the plugin folder under `<app dir>/dependent/plugin`, the live URL `https://chzzk.naver.com/live/<channel id>`, the quality, `-o <output>`, `--ffmpeg-ffmpeg <ffmpeg>`, `--hls-live-edge 1`, `--http-header Cookie=<cookie>`, then `--hls-start-offset=<shift>` only for a time-machine plugin, then the fixed five-word tail; 20 words with a time-machine plugin and 19 otherwise |
| CommandBuilder.CookieHeader | module/Live_recorder.py:573-575 | a cookie header exists exactly when the cookie file was read and holds both `NID_SES` and `NID_AUT`, and it is `NID_SES=<value>; NID_AUT=<value>` |
| CommandBuilder.CookieHeaderParts | module/Live_recorder.py:573-575 | splitting the header at `;` gives back the two login cookies as `NID_SES=<ses>` and ` NID_AUT=<aut>`, whatever other cookies the file holds, when neither value contains `;` |
| CommandBuilder.OutputUnder | module/Live_recorder.py:549-552 | a path is made exactly when the channel has an output directory, and it is absolute |
| CommandBuilder.ChooseOutput | module/Live_recorder.py:543-568 | a non-empty given output path is used as it is; with metadata the path is the template-made name under the channel's absolute output directory, and there is no name exactly when the channel id is unknown; with neither, it is `<channel name>.ts` there whatever the configured extension; a missing output directory is an error |
| CommandBuilder.BuildCommand | module/Live_recorder.py:516-612 | a built command is exactly the streamlink argv for the channel id, the channel's quality (`best` when unset), the chosen output path and the cookie header; its chat log sits beside the output, and its offset is the configured shift only for a time-machine plugin; missing cookies fail after the given path was recorded; no filename exactly when metadata name an unknown channel |
| CommandBuilder.OffsetReadsBack | module/Live_recorder.py:536-539 | the `--hls-start-offset=` argument parses back to the configured time shift |
| Config.MergeDefaults | module/channel_manager.py:89-91 | the merged configuration has the file's keys and every default key; the file's values win, and each missing key takes its default value |
| Config.LoadConfig | module/channel_manager.py:85-100 | the configuration returned is the one written back; it always holds every default key; a decoded file keeps all its own values; a missing or undecodable file gives exactly the defaults |
| Config.LoadConfigIdempotent | module/channel_manager.py:85-100 | loading the file that a load wrote back returns the same configuration and writes the same object again |
| Config.ResolveOutputDir | module/channel_manager.py:21-23 | only the output directory changes; it stays present or absent, becomes absolute, and an absolute one is kept unchanged |
| Config.LoadChannels | module/channel_manager.py:15-28 | a missing or undecodable channel file gives the empty list; otherwise the list keeps its length and order, each channel with its output directory resolved against the application directory |
| Config.SaveChannels | module/channel_manager.py:31-37 | the list written keeps length, order and every field but the output directory, which stays present or absent and becomes absolute |
| Config.SaveAfterLoad | module/channel_manager.py:15-37 | a loaded list has only absolute output directories, so saving it writes it unchanged and saving twice equals saving once |
| Config.SaveOfAbsolute | module/channel_manager.py:31-34 | a list whose output directories are already absolute is saved as it is |
| Channels.FindIndex | module/Live_recorder.py:620 | the index found holds the id and no earlier channel has it; none exactly when no channel has the id |
| Dsc.Selected | DSC/Chzzk_DSC.py:28-30 | the files picked are stream files of the listing (`.ts` or `.mp4`), and every stream file of the listing is picked |
| Dsc.SelectedAppend | DSC/Chzzk_DSC.py:28-30 | selection works file by file: the files picked from two listings are those picked from each, in listing order |
| Dsc.SelectedOne | DSC/Chzzk_DSC.py:28-30 | a single file is picked exactly when its name ends in `.ts` or `.mp4` |
| Dsc.OutputName | DSC/Chzzk_DSC.py:32 | the output name is the input name behind the six-character prefix `fixed_` |
| Dsc.CopyArgv | DSC/Chzzk_DSC.py:11-18 | a job is `ffmpeg -i <dir>/<name> -c copy <dir>/fixed_<name>` |
| Dsc.ProcessFilesInDirectory | DSC/Chzzk_DSC.py:25-39 | one copy job is started per stream file, in listing order, and no other job |
| Dsc.OutputsDistinct | DSC/Chzzk_DSC.py:32 | two different files never write the same output |
| Dsc.OutputInSameDirectory | DSC/Chzzk_DSC.py:31-32 | the output lies in the input's directory under the name `fixed_<name>` |
| Dsc.OutputSelectedAgain | DSC/Chzzk_DSC.py:30-32 | an output keeps its stream extension, so a second run copies the copies as well |
| Dsc.TwoOfThree | DSC/Chzzk_DSC.py:28-35 | a listing of `a.ts`, `notes.txt`, `b.mp4` starts exactly the jobs for `a.ts` and `b.mp4`, in that order |
| LiteRecorder.LiteSafeTitle | Chzzk_recordLITE3d.py:242-243 | the safe title is the stripped title without line feeds, cut to 55 characters, with each of `\ / * ? : " < > \| +` replaced by `_` at the same position; none of those characters or a line feed remains |
| LiteRecorder.SafeTitleKeepsClean | Chzzk_recordLITE3d.py:242-243 | a title of at most 55 characters with no forbidden character, no line feed and no surrounding whitespace is kept as it is |
| LiteRecorder.LiteFilename | Chzzk_recordLITE3d.py:241-255 | without metadata the name is `[<recording time>] <channel name><extension>`; with metadata it is exactly the template, as `str.format` reads it, filled from the metadata and the channel name as it is, and none when the template cannot be read; a template without braces is the name itself |
| LiteRecorder.LiteFilenameKnownFields | Chzzk_recordLITE3d.py:241-255 | a template written from pieces whose fields all name values the script passes is read back as those pieces, and with metadata always yields a name, the pieces filled in |
| LiteRecorder.LiteCookie | Chzzk_recordLITE3d.py:236 | no cookies give an empty header value; with cookies the value exists exactly when both session cookies are present, and then reads `NID_SES=…; NID_AUT=…` |
| LiteRecorder.LiteArgv | Chzzk_recordLITE3d.py:262-283 | the first ten words are the streamlink executable, `--ffmpeg-copyts`, `--plugin-dirs <plugin dir>`, the live URL `https://chzzk.naver.com/live/<id>`, the quality, `-o <output>` and `--ffmpeg-ffmpeg <ffmpeg>`; then `--http-header Cookie=<value>` only for a non-empty value; then the five options `--hls-live-restart --stream-segment-timeout 5 --stream-segment-attempts 5`; then `--hls-start-offset <shift>` last only for a time-machine plugin; the length counts exactly those parts |
| LiteRecorder.LiteBuildCommand | Chzzk_recordLITE3d.py:231-283 | a command exists exactly when neither the cookie header nor the file name raises; its output path does not exist yet, lies in the channel's directory under the first free name, and the argv writes to it |
| LiteRecorder.Act | Chzzk_recordLITE3d.py:168-326 | a probe without metadata and a closed channel both give a wait of `recheckInterval`; an open channel gives a recording, post-processed exactly when auto post-processing is on; the loop crashes exactly when the probe raises an exception it does not catch or building the command fails |
| LiteRecorder.LiteLoop | Chzzk_recordLITE3d.py:287-326 | the loop acts once per probe, each action being `Act` of that probe; only the last action can be a crash, of the probe or of the command build, and the loop ends there, before the remaining probes |
| LiteRecorder.LoopWaits | Chzzk_recordLITE3d.py:287-326 | when no probe crashes, the loop acts once per probe and waits `recheckInterval` times the number of probes that found no open broadcast |
| LiteRecorder.LoopStep | Chzzk_recordLITE3d.py:288-326 | a probe that does not crash puts its own action in front of the actions of the remaining probes |
| LiteRecorder.LiteEncoder | Chzzk_recordLITE3d.py:364-371 | the quality-mode encoder is one of the four ffmpeg encoders, and the named one when the setting names a hardware encoder |
| LiteRecorder.LiteFfmpegArgs | Chzzk_recordLITE3d.py:342-376 | the ffmpeg argv starts `ffmpeg -i <input> -y` and ends with the output; stream copy is exactly `-c:v copy -c:a copy`; encoding starts with the preset and ends with the audio codec and bitrate |
| LiteRecorder.LiteEffectiveAudio | Chzzk_recordLITE3d.py:355-374 | when encoding, the audio codec and bitrate ffmpeg applies (the last given) are the configured ones, in both bitrate and quality mode |
| LiteRecorder.LiteBitrateIgnoresCodec | Chzzk_recordLITE3d.py:359-361 | in bitrate mode no video codec is named, so the video-codec setting has no effect |
| LiteRecorder.LiteQualityCodec | Chzzk_recordLITE3d.py:362-371 | in quality mode the video codec ffmpeg applies is the one the setting names, or `libx264` for any other name |
| LiteRecorder.FixedSibling | Chzzk_recordLITE3d.py:332 | the post-processing output is named `fixed_` plus the recording's name |
| LiteRecorder.MoveToDirectory | Chzzk_recordLITE3d.py:429-440 | the destination directory exists afterwards; a present file ends up under its own name in it and is gone from its old place; a missing file changes nothing else |
| LiteRecorder.HandleFileOperations | Chzzk_recordLITE3d.py:403-426 | with every step off the files are unchanged; deletion alone removes exactly the recording, and with no move the recording is gone unless the rename gave it back its own name; rename without move replaces the processed file by its `fixed_`-less name when that name is free, and otherwise changes nothing beyond the deletion; with move on, the processed file, renamed when asked and possible, ends up under its own name in the move directory |
| LiteRecorder.RenameAddsOnlyUnfixed | Chzzk_recordLITE3d.py:411-416 | the rename creates no file other than the `fixed_`-less name |
| LiteRecorder.LiteCopyStream | Chzzk_recordLITE3d.py:330-338 | a failed ffmpeg run leaves the files unchanged; a successful one behaves as the code does |
| LiteRecorder.FailedRunDeletesRecording | Chzzk_recordLITE3d.py:389-407 | a failed ffmpeg run with deletion on removes the recording while no processed copy exists; the corrected version keeps the recording |
| LiveMetadata.Resolution | module/Live_recorder.py:421-423 | a resolution exists exactly when both the width and the height convert to integers, a missing one counting as 0 |
| LiveMetadata.Step | module/Live_recorder.py:421-436 | one encoding raises exactly when its resolution does not convert, or when it is taken (greater than the maximum so far for `best`, its id equal to the setting otherwise) and its frame rate does not convert; a taken encoding gives its resolution, id and frame rate; otherwise the pick stays, except that under `best` an encoding without an id still raises the maximum |
| LiveMetadata.SelectFromSource | module/Live_recorder.py:417-436 | the selection loop picks only what the encodings carry: a quality and frame rate of one encoding or the starting ones; a named setting picks nothing but its own id; well-formed encodings never raise, and a raise comes from an encoding whose resolution or frame rate does not convert |
| LiveMetadata.SelectTrackSource | module/Live_recorder.py:415-436 | with no encodings the defaults are kept; a named setting yields the defaults or that id; any known quality chosen comes, with its frame rate, from one of the listed encodings |
| LiveMetadata.BestPicksFirstMaximal | module/Live_recorder.py:415-436 | with the `best` setting and well-formed encodings, the chosen quality and frame rate are those of the first encoding of greatest resolution when that resolution is positive, and the unknown defaults otherwise |
| LiveMetadata.BestFrom | module/Live_recorder.py:417-436 | the `best` loop keeps its invariant to the end: the pick so far is the first encoding of greatest positive resolution among those seen, or the defaults when none was positive |
| LiveMetadata.BestStep | module/Live_recorder.py:421-436 | one `best` step on a well-formed encoding never raises and keeps that invariant |
| LiveMetadata.StepBest | module/Live_recorder.py:424-436 | a `best` step takes a well-formed encoding exactly when its resolution exceeds the maximum so far |
| LiveMetadata.NamedPicksLastMatch | module/Live_recorder.py:415-436 | with a named quality setting and well-formed encodings, the pick is the last encoding whose id equals the setting, and the pick is unchanged when no encoding has that id |
| LiveMetadata.ParseContent | module/Live_recorder.py:440-459 | metadata exist exactly when the track loop does not raise; `open_live` holds exactly when the status is `OPEN`, a missing title, channel name, open date or category reads as its placeholder text, and the quality and frame rate are those of the track the selection picks |
| LiveMetadata.Classify | module/Live_recorder.py:366-486 | no cookies, a transport error, or an error status other than 5xx (400 included) ends with no metadata; a 5xx reply is retried; metadata come only from a 2xx reply whose body decodes and carries `content` |
| LiveMetadata.ProbeFrom | module/Live_recorder.py:364-486 | the attempts made stay within `retries`, each pause follows an attempt, and metadata returned are exactly what the last attempt made gives |
| LiveMetadata.Probe | module/Live_recorder.py:357-486 | at least one and at most `retries` attempts are made; the probe stops early only at a reply it does not retry, and any metadata returned come from the last attempt made |
| LiveMetadata.ProbeRetriesOnlyTransient | module/Live_recorder.py:464-486 | every attempt before the last one made ended in a 5xx reply or an unexpected exception: nothing final is ever retried |
| LiveMetadata.FirstReplyFinal | module/Live_recorder.py:366-478 | a first attempt without cookies, with a transport error, or with an error status other than 5xx ends the probe at once, with no pause and nothing returned |
| LiveMetadata.FirstFinalReplyWins | module/Live_recorder.py:464-486 | after any run of 5xx replies and exceptions, the first reply the probe does not retry decides: attempts up to and including it are made, a pause follows each earlier one, and its metadata are returned |
| LiveMetadata.TwoServerErrorsThenLive | module/Live_recorder.py:464-486 | two 5xx replies followed by a live reply with content give that reply's metadata after three attempts and two pauses |
| LiveMetadata.AllServerErrors | module/Live_recorder.py:469-472 | when every reply is a 5xx, every attempt is made, each followed by a pause, and nothing is returned |
| Naming.LeastFree | module/data_manager.py:340-342 | the counter search stops at the least number from its start whose name does not exist: every number before it names an existing file |
| Naming.FreeVariant | module/data_manager.py:340-344 | the numbered name found does not exist under the directory, and every lower-numbered name from the start does |
| Naming.UniqueFilename | module/data_manager.py:335-344 | the name returned does not exist under the directory; without the suffix flag a free name is kept as it is; otherwise it is the least-numbered free `base (n)ext`, counting from 1 with the flag and from 2 without |
| Naming.MoveDirectory | module/data_manager.py:348-369 | a missing file makes the move raise to the caller after printing the error, leaving only the created destination directory; otherwise the file disappears and exactly one new path appears: its own name in the directory when free, else the least-numbered free `name(n)ext` |
| Naming.MoveAfterProcessing | module/Live_recorder.py:722-736 | a missing file or a missing destination directory changes nothing, the error being only printed; otherwise the file is replaced by exactly one path that did not exist: its own name in the destination when free, else the least-numbered free `base (n)ext` of that path |
| PostProcessing.Encoder | module/copy_streams.py:74-81 | each hardware label of the codec menu names the encoder its label starts with; the x264 label and any unknown value give `libx264` |
| PostProcessing.ConvertBitrate | module/copy_streams.py:11-14 | a value not ending in `kbps` is passed through unchanged |
| PostProcessing.ConvertBitrateDigits | module/copy_streams.py:11-14 | the menu's `<digits>kbps` becomes ffmpeg's `<digits>k` |
| PostProcessing.FfmpegArgs | module/copy_streams.py:64-130 | stream copy is exactly `ffmpeg -i <input> -c:v copy -c:a copy -y <output>`; encoding is `ffmpeg -i <input> -c:v <mapped encoder>`, the preset, the audio codec, the converted audio bitrate and `-y`, then exactly the quality or bitrate options of the chosen encoder, then the output |
| PostProcessing.LastValue | module/copy_streams.py:89-130 | the value ffmpeg takes for a flag is the one after its last occurrence, and there is none exactly when the flag never appears before the last word |
| PostProcessing.EncoderOptions | module/copy_streams.py:103-128 | the encoder options are at most two flag-and-value pairs, four words for Intel's encoder and none for NVIDIA's or AMD's outside the quality mode |
| PostProcessing.RateControl | module/copy_streams.py:103-128 | the rate control ffmpeg reads: Intel's encoder gets `-global_quality` (25 when unset) and `-look_ahead 1`; in the quality mode NVIDIA's gets `-cq` and AMD's `-rc qvbr` with `-qvbr_quality_level` (23 when unset), x264 gets `-crf` when a quality is set; in the bitrate mode x264 gets `-b:v <bitrate>k` when one is set |
| PostProcessing.LastValueSuffix | module/copy_streams.py:89-130 | a flag's last value in the tail of a command is the value ffmpeg takes from the whole command |
| PostProcessing.EffectiveVideoCodec | module/copy_streams.py:81-128 | when encoding, the video codec ffmpeg applies is the mapped encoder, except that x264 without a quality (quality mode) or without a bitrate (bitrate mode) falls back to copying the video |
| PostProcessing.OptionsSetNoCodec | module/copy_streams.py:103-118 | the hardware encoders' options never name a video codec again |
| PostProcessing.UnfixedPath | module/copy_streams.py:156 | the renamed file stays in the same directory, and its name is the old name with every `fixed_` removed |
| PostProcessing.UnfixedOfFixed | module/copy_streams.py:156 | the `fixed_` copy of `dir/name` is renamed back to `dir/name`, a different path, whenever `name` holds no `fixed_` |
| PostProcessing.RenameUnfixed | module/copy_streams.py:155-160 | the rename either happens (the file existed, the target did not: the file moves to the `fixed_`-less name) or leaves everything as it was and returns the old path |
| PostProcessing.CopySpecificFile | module/copy_streams.py:134-167 | a failed ffmpeg run touches no file and returns the output path; after success the returned file exists, the source is deleted when asked (unless the rename gave its name back), and a failed deletion skips the rename |
| PostProcessing.AfterDelete | module/copy_streams.py:150-153 | the deletion removes exactly the source and nothing else |
| PostProcessing.RunPostProcessing | module/Live_recorder.py:690-720 | without a move destination the files are those `copy_specific_file` leaves; a failed run with no stale output file changes no file at all; a move destination that does not exist leaves the files as the copy left them |
| PostProcessing.RoundTripToOriginalName | module/copy_streams.py:150-167 | with deletion and renaming on, a successful run of `dir/name` into `dir/fixed_name` leaves the processed file under the recording's own path and no `fixed_` file |
| PostProcessing.RenameBack | module/copy_streams.py:150-160 | when the renamed output is the source's path, deletion then rename replaces the source by the processed file |
| Recorder.FixedPath | module/Live_recorder.py:672-685 | the post-processing target is named `fixed_` plus the recording's name, in the configured output directory or else next to the recording |
| Recorder.FinishState | module/Live_recorder.py:660-687 | a finished session drops the channel's start time and clears its status; with automatic post-processing and a known file name, the channel's `fixed_` target is recorded; nothing else changes |
| Recorder.OnRecordingFinishedAsWritten | module/Live_recorder.py:660-688 | the bookkeeping happens, but no post-processing job starts, and the handler raises exactly when automatic post-processing is on and the file name is known |
| Recorder.OnRecordingFinished | module/Live_recorder.py:660-688 | the same bookkeeping without an exception; a job starts exactly when automatic post-processing is on and the file name is known, from the recording to its recorded `fixed_` target |
| Recorder.FinishReadingsAgree | module/Live_recorder.py:660-688 | the two readings leave the same state, and the code raises exactly where the corrected version starts a job |
| Recorder.Cleanup | module/Live_recorder.py:781-805 | with auto mode on and an unknown channel the clean-up raises and changes nothing; otherwise exactly the channel's thread and start time are dropped and its status is cleared |
| Recorder.WaitingMatchesWatch | module/Live_recorder.py:787-796 | the clean-up's `WaitingMessage` (the "waiting" notice instead of "stopped") shows exactly in the case where the recording thread, after a session whose channel went offline, keeps watching |
| Recorder.CleanupIdempotent | module/Live_recorder.py:781-805 | cleaning up a channel twice leaves what cleaning up once leaves |
| Recorder.StopRecordingAsWritten | module/Live_recorder.py:750-772 | a channel without a thread is left alone; otherwise the process entry is dropped, and when post-processing is wanted the call raises before the clean-up, starting no job |
| Recorder.StopRecording | module/Live_recorder.py:750-772 | a channel without a thread is left alone; otherwise the process entry and the `fixed_` target are dropped, a job starts exactly when post-processing is wanted (from the recording to its target), and the channel's thread is gone and its status cleared unless the clean-up raises |
| Recorder.StopLeavesThreadBehind | module/Live_recorder.py:759-772 | as written, a stop that wants post-processing raises and leaves the thread registered and the `fixed_` target behind; the corrected stop removes both and starts the job |
| Recorder.StartBackgroundRecording | module/Live_recorder.py:807-842 | a running thread or an unknown channel changes nothing; otherwise the start fails exactly when no command can be built from the cached metadata; a built command leaves the thread running with exactly that command's output path and chat-log path recorded, chat on; a failed command leaves the thread registered but not started, and a missing-cookies failure records the path it names; the channel list and the metadata never change |
| Recorder.StartIdempotent | module/Live_recorder.py:807-842 | starting again a channel whose start succeeded changes nothing |
| Supervisor.Run | module/Live_recorder.py:64-171 | the run uses iterations while each lets the loop go on; it is still running exactly when every iteration given continues, and otherwise ends at the first that does not |
| Supervisor.RunIsFirstStop | module/Live_recorder.py:64-171 | how the run ends is decided by the first iteration that does not continue, and its pauses are the sum of the pauses of the iterations used |
| Supervisor.AfterSession | module/Live_recorder.py:137-163 | after a session's pause a forced stop ends the thread; otherwise the thread records again exactly when the channel is live again, and keeps watching exactly when it is offline with auto mode and recording enabled and the session did not fail (a failed session's `return` goes through unless the `finally` block continues the loop) |
| Supervisor.SessionDecision | module/Live_recorder.py:92-163 | a forced stop ends the thread; a new recording starts exactly when there is no forced stop and the channel is live again; the thread keeps watching only after a session that launched and finished without raising, with auto mode and recording enabled; a session that never launched and finds the channel offline ends the thread |
| Supervisor.TotalPauseCounts | module/Live_recorder.py:137-167 | the pauses are `retryDelay` per session plus the not-live wait per not-live iteration |
| Supervisor.AutoOffRestartsOnlyWhenLive | module/Live_recorder.py:148-163 | without auto mode, the thread goes on after a session only when the channel is live again |
| Supervisor.ForceStopEnds | module/Live_recorder.py:141-143 | a forced stop during a session ends the thread at that session |
| Supervisor.AsWritten | module/Live_recorder.py:164-167 | as the code behaves, a not-live iteration does not wait at all, and finishing a session raises whenever automatic post-processing is on |
| Supervisor.Intended | module/Live_recorder.py:164-167 | as intended, a not-live iteration waits `recheckInterval` seconds and finishing does not raise |
| Supervisor.OfflineBusyPoll | module/Live_recorder.py:164-167 | as written, any number of not-live probes in a row are made without any pause; the corrected loop pauses `recheckInterval` after each |
| Supervisor.PostProcessingEndsWatch | module/Live_recorder.py:126-156 | with auto mode, recording enabled and post-processing on, a session that ends with the broadcast ends the thread as written, while the corrected thread keeps watching |
| Smi.CutAt | module/convert_log_to_smi.py:31-31 | a lazy group followed by a literal stops at the literal's first occurrence: the text splits around that occurrence with none earlier, or there is none at all |
| Smi.CutAtFirst | module/convert_log_to_smi.py:31-31 | when the literal's first character is absent from the leading part, the cut falls exactly after that part |
| Smi.ParseLogLine | module/convert_log_to_smi.py:31-66 | a matching line begins with the bracketed time and kind and a space; the nickname group holds no `:` and the message does not begin with whitespace |
| Smi.ParseWrittenLine | module/convert_log_to_smi.py:63-66 | a line in the chat logger's layout gives back its time, kind, `nickname(uid)` and message, provided the time and kind hold no `]`, nickname and uid no `:`, and the message does not begin with whitespace |
| Smi.HexRun | module/convert_log_to_smi.py:33-33 | the length of the longest prefix of lower-case hexadecimal digits |
| Smi.RemoveHexGroups | module/convert_log_to_smi.py:33-67 | removing `(hex)` groups never lengthens the nickname |
| Smi.RemoveUidGroup | module/convert_log_to_smi.py:67-67 | appending the logger's `(uid)` to a nickname without hexadecimal groups and then removing the groups gives the nickname back |
| Smi.RemoveLoneGroup | module/convert_log_to_smi.py:67-67 | a nickname that is only a `(uid)` group becomes empty |
| Smi.NoGroupBeforeUid | module/convert_log_to_smi.py:33-33 | a nickname that does not begin with a group still does not once the uid group is appended |
| Smi.CleanNickname | module/convert_log_to_smi.py:67-67 | the cleaned nickname has no surrounding whitespace |
| Smi.CleanWrittenNickname | module/convert_log_to_smi.py:67-67 | the nickname the logger wrote, stripped and group-free, is recovered exactly from `nickname(uid)` |
| Smi.WordRun | module/convert_log_to_smi.py:32-32 | the length of the longest prefix of word characters (`\w`) |
| Smi.Emojify | module/convert_log_to_smi.py:77-77 | the rewritten message is the message with some `{…}` spans turned into `(…)`: same length, other characters unchanged |
| Smi.EmojifyAfterPlain | module/convert_log_to_smi.py:32-77 | plain text, an emoji code, then anything: the text is kept, the code alone becomes `(:name:)`, and the rest is rewritten on its own, so a message of plain pieces and codes is rewritten piece by piece |
| Smi.PlainPrefix | module/convert_log_to_smi.py:77-77 | text without `{` in front of a message is kept and does not change how the message is rewritten |
| Smi.CodeThenRest | module/convert_log_to_smi.py:32-77 | an emoji code at the start becomes `(:name:)` and the scan resumes right after it |
| Smi.RewritesConcat | module/convert_log_to_smi.py:77-77 | the brace-to-parenthesis rewriting composes over concatenation |
| Smi.ParenRewrites | module/convert_log_to_smi.py:77-77 | replacing the outer braces of a span by parentheses is such a rewriting |
| Smi.NoBraceUnchanged | module/convert_log_to_smi.py:77-77 | a message without `{` is left as it is |
| Smi.EmojiRewritten | module/convert_log_to_smi.py:32-77 | an emoji code `{:word:}` becomes `(:word:)` |
| Smi.WordRunIs | module/convert_log_to_smi.py:32-32 | a run of `m` word characters followed by a non-word character has word-run length `m` |
| Smi.ClockField | module/convert_log_to_smi.py:69-69 | a clock field is accepted exactly when it is one or two digits not above the field's maximum, and then reads as its decimal value |
| Smi.ParseClock | module/convert_log_to_smi.py:69-69 | a parsed chat time is a second of the day |
| Smi.ClockFieldOfPad2 | module/convert_log_to_smi.py:69-69 | a zero-padded two-digit field within the maximum reads back |
| Smi.ClockRoundTrip | module/convert_log_to_smi.py:69-69 | the `HH:MM:SS` the logger writes parses back to the same second of the day |
| Smi.ClockNoBracket | module/convert_log_to_smi.py:31-31 | the logged time holds no `]`, so the first lazy group ends after it |
| Smi.ShiftedStart | module/convert_log_to_smi.py:54-54 | the start moved back by the shift is a second of the day, and equals the difference when that stays within the day |
| Smi.SyncStart | module/convert_log_to_smi.py:69-71 | the corrected offset is less than a day in milliseconds and agrees with the code whenever the chat's clock time is not before the start's |
| Smi.SyncStartElapsed | module/convert_log_to_smi.py:69-71 | a chat `e` seconds after the start, less than a day later, is timed `1000·e` ms, also across midnight |
| Smi.MidnightChatGoesNegative | module/convert_log_to_smi.py:69-71 | started at 23:50:00, a chat at 00:10:00 gets `Start=-85200000` as written, 1200000 as intended |
| Smi.ShiftedChatOffset | module/convert_log_to_smi.py:43-71 | with a time-machine shift, a chat `e` seconds after the recording start is timed `e + shift` seconds in |
| Smi.ConvertLine | module/convert_log_to_smi.py:63-84 | a line yields a paragraph exactly when it matches the pattern and its time parses; the paragraph is timed by the chosen reading, the script's own difference (`AsWritten`) or the corrected one |
| Smi.LoggedLineConverts | module/convert_log_to_smi.py:63-82 | a line the chat logger wrote becomes the paragraph of the same kind, nickname and emojified message, timed by the chosen reading: `1000·(chat − start)` as written, possibly negative, or the corrected offset |
| Smi.ConvertParsed | module/convert_log_to_smi.py:63-82 | a line with readable fields converts into the paragraph built from them, timed by the chosen reading of the offset |
| Smi.LineReadingsAgree | module/convert_log_to_smi.py:63-82 | the script as written and the corrected converter give the same result for a line exactly when it is not a chat whose clock time is before the start |
| Smi.LoggedLineFields | module/convert_log_to_smi.py:64-66 | a logged line matches with the logger's time, kind, `nickname(uid)` and message as its groups |
| Smi.LineSync | module/convert_log_to_smi.py:63-84 | each line gives at most one paragraph, and one exactly when it converts |
| Smi.SyncLine | module/convert_log_to_smi.py:79-82 | a paragraph is `<SYNC Start=<ms>><P`, the donation tag for a donation or `>` for a chat, then `<nickname>: <message>` and a line feed, with nothing else: its length is the sum of those parts |
| Smi.Paragraph | module/convert_log_to_smi.py:79-82 | after `<P` a donation, and only a donation, continues with ` Class=DONATION><font color="red">[후원]</font> `; a chat continues with `>` alone; either way the rest is the nickname, `: `, the message and a line feed, and nothing else |
| Smi.SyncLinesAppend | module/convert_log_to_smi.py:63-84 | `SyncLines` converts lines independently: the paragraphs of two runs of lines are those of each, in order |
| Smi.SyncLinesOne | module/convert_log_to_smi.py:63-84 | a single line yields one paragraph if it converts and none otherwise |
| Smi.SyncLinesAgree | module/convert_log_to_smi.py:63-84 | when no chat of the log is timed before the start, both readings write the same paragraphs |
| Smi.StampOf | module/convert_log_to_smi.py:36-37 | a stamp found at the start of the file name is thirteen characters with `_` in the middle |
| Smi.TimeShift | module/convert_log_to_smi.py:43-52 | the integer `time_shift.txt` holds, whitespace around it ignored; a missing file or one that does not hold an integer gives 0 |
| Smi.TimeShiftReadsBack | module/convert_log_to_smi.py:43-52 | the file the chat logger writes with `str(time_shift)` (`module/run.py:297-298`) reads back as that shift |
| Smi.Convert | module/convert_log_to_smi.py:7-107 | under either reading: no subtitle file exactly when the log cannot be opened; only the header exactly when the name has no valid stamp; otherwise header, the paragraphs of the lines timed by that reading, and the footer |
| Smi.ConvertedFrame | module/convert_log_to_smi.py:14-89 | under either reading, a converted file starts with the SAMI header and ends with the footer |
| Smi.ConvertReadingsAgree | module/convert_log_to_smi.py:7-107 | both readings convert or abort alike, and write the same file when no chat is timed before the moved start |
| Smi.ExitStatus | module/convert_log_to_smi.py:93-107 | the corrected status is 0 exactly after a conversion |
| Smi.SuccessExitsAsFailure | module/convert_log_to_smi.py:91-107 | a log named with a valid stamp converts, yet the script as written exits with the same status as for a missing log, unlike the corrected status |
| Smi.StampOfName | module/convert_log_to_smi.py:37-37 | a name starting with a bracketed stamp yields that stamp |
| Smi.StampDigits | module/convert_log_to_smi.py:37-40 | the stamp the recorder writes is six digits, `_` and six digits, as the pattern demands |
| StateStore.Lookup | module/data_manager.py:42-44 | `dict.get` with a default: the stored value when the key is present, the default otherwise |
| StateStore.Find | module/data_manager.py:50-52 | `dict.get` without a default: a value exactly when the key is present, and then the stored one |
| StateStore.GetRecordingStatus | module/data_manager.py:42-44 | the status of a channel is true exactly when the channel has an entry and that entry is true; an unseen channel reads false |
| StateStore.GetRecordingFilename | module/data_manager.py:50-52 | a file name exactly when the channel has an entry, and then the stored one |
| StateStore.GetReservedRecording | module/data_manager.py:62-64 | the reserved flag is true exactly when the channel has an entry and that entry is true |
| StateStore.GetRecordingStartTime | module/data_manager.py:70-72 | a start stamp exactly when the channel has an entry, and then the stored one |
| StateStore.GetRecordingProcess | module/data_manager.py:99-101 | a process exactly when the channel has an entry, and then the stored one |
| StateStore.GetChatStatus | module/data_manager.py:137-139 | the chat status is true exactly when the channel has an entry and that entry is true |
| StateStore.GetChatProcess | module/data_manager.py:145-147 | a chat process exactly when the channel has an entry, and then the stored one |
| StateStore.GetChatLogPath | module/data_manager.py:157-159 | a log path exactly when the channel has an entry, and then the stored one |
| StateStore.SetRecordingStatus | module/data_manager.py:38-44 | the status reads back for that channel, every other channel reads as before, and no other part of the store changes |
| StateStore.SetRecordingFilename | module/data_manager.py:46-52 | the file name reads back for that channel, other channels read as before, nothing else changes |
| StateStore.RemoveRecordingFilename | module/data_manager.py:58-60 | afterwards the channel has no file name, other channels keep theirs, and removing an absent entry changes nothing |
| StateStore.SetReservedRecording | module/data_manager.py:54-64 | the reserved flag reads back for that channel, other channels read as before, nothing else changes |
| StateStore.SetRecordingStartTime | module/data_manager.py:66-72 | the stored start time is the `%y%m%d_%H%M%S` stamp of the given moment, and for a year from 1969 to 2068 it parses back to that moment; other channels' start times and the other fields are unchanged |
| StateStore.RemoveRecordingStartTime | module/data_manager.py:74-76 | afterwards the channel has no start time; other channels' start times and the other fields are unchanged; removing an absent entry changes nothing |
| StateStore.SetRecordingProcess | module/data_manager.py:95-101 | the process reads back for that channel, other channels read as before, nothing else changes |
| StateStore.RemoveRecordingProcess | module/data_manager.py:103-105 | afterwards the channel has no process; other channels' processes and the other fields are unchanged; removing an absent entry changes nothing |
| StateStore.AddStopRequested | module/data_manager.py:107-117 | afterwards `is_stop_requested` answers yes for the channel, and for no other channel does its answer change |
| StateStore.RemoveStopRequested | module/data_manager.py:111-117 | afterwards `is_stop_requested` answers no for the channel; other channels and the other fields are unaffected, and removing an absent id is a no-op |
| StateStore.AddProcessed | module/data_manager.py:119-131 | afterwards `is_channel_processed` answers yes for the channel; other channels' answers and the other fields are unchanged |
| StateStore.RemoveProcessed | module/data_manager.py:124-131 | afterwards `is_channel_processed` answers no for the channel; other channels' answers and the other fields are unchanged; removing an absent id is a no-op |
| StateStore.SetChatStatus | module/data_manager.py:133-139 | the chat status reads back for that channel, other channels read as before, nothing else changes |
| StateStore.SetChatProcess | module/data_manager.py:141-147 | the chat process reads back for that channel; other channels' chat processes and the other fields are unchanged |
| StateStore.RemoveChatProcess | module/data_manager.py:149-151 | afterwards the channel has no chat process; other channels' chat processes and the other fields are unchanged; removing an absent entry changes nothing |
| StateStore.SetChatLogPath | module/data_manager.py:153-159 | the log path reads back for that channel, other channels read as before, nothing else changes |
| StateStore.RemoveChatLogPath | module/data_manager.py:161-163 | afterwards the channel has no log path; other channels' log paths and the other fields are unchanged; removing an absent entry changes nothing |
| StateStore.UnknownChannelDefaults | module/data_manager.py:21-93 | on a fresh store every getter gives its default: False for the three statuses, None for file name, process, start time, chat process and log path, no stop request, not processed, duration `00:00:00` |
| StateStore.RemovalsIdempotent | module/data_manager.py:58-163 | removing an entry twice leaves the same store as removing it once |
| StateStore.DaysInMonth | module/data_manager.py:83-83 | a month of the Gregorian calendar has 28 to 31 days |
| StateStore.FormatStamp | module/data_manager.py:68 | the `%y%m%d_%H%M%S` stamp of a valid moment is thirteen characters with `_` at index 6 (the round trip is `StampRoundTrip`) |
| StateStore.Fields3 | module/data_manager.py:68-68 | three two-digit fields form six digits, each field zero-padded in its place |
| StateStore.Two | module/data_manager.py:83-83 | a two-digit field is read exactly when both characters are digits, as its decimal value below 100 |
| StateStore.ParseStamp | module/data_manager.py:83-83 | a parsed stamp is a valid date and time with a year from 1969 to 2068 |
| StateStore.StampRoundTrip | module/data_manager.py:66-83 | every stamp the store writes parses back to the moment it was written at |
| StateStore.TwoOfPad2 | module/data_manager.py:83-83 | a zero-padded two-digit field reads back as its number |
| StateStore.Hours | module/data_manager.py:88-88 | a non-negative hour count is zero-padded to two digits |
| StateStore.RecordingDuration | module/data_manager.py:79-93 | `00:00:00` when the channel has no start time or it does not parse; otherwise, for a moment not before the start, the elapsed seconds as `HH:MM:SS` |
| StateStore.ElapsedText | module/data_manager.py:86-88 | for a non-negative count, the `divmod` split gives the same `HH:MM:SS` text as the shared formatter |
| StateStore.DurationAfterStart | module/data_manager.py:66-88 | a recording started at a moment and viewed `e` seconds later shows `e` as `HH:MM:SS` |
| StateStore.LoadAccount | module/data_manager.py:167-183 | an account exactly when the file holds truthy username and password; they are returned as stored, and a stored secret key is kept |
| StateStore.SaveChannels | module/data_manager.py:235-252 | entries are written exactly when every channel has the required keys; one entry per channel in order, with id, name, output directory, quality and extension copied, platform defaulting to "unknown" and `record_enabled` to true |
| StateStore.ReloadAll | module/data_manager.py:218-232 | the list read back has one channel per saved entry, each carrying the entry's values |
| StateStore.SaveReloaded | module/data_manager.py:235-248 | saving a list read back from saved entries writes exactly those entries again |
| Vod.SanitizeFilename | module/VOD_downloader.py:419-422 | the name is cut to `maxLength` characters, each forbidden character of `<>:"/\|?*` becomes `_`, every other character is kept, and no forbidden character remains |
| Vod.SanitizeIdempotent | module/VOD_downloader.py:419-422 | sanitising a sanitised name changes nothing |
| Vod.SanitizeKeepsClean | module/VOD_downloader.py:419-422 | a short name without forbidden characters is returned unchanged |
| Vod.TimeToSeconds | module/VOD_downloader.py:786-790 | no time or an empty one gives 0 |
| Vod.PartsSeconds | module/VOD_downloader.py:789-790 | the split text reads as a time exactly when it has three parts that `int()` accepts |
| Vod.IntToStrNoColon | module/VOD_downloader.py:789-789 | the decimal text of an integer holds no `:` |
| Vod.TimeToSecondsOfSplit | module/VOD_downloader.py:786-790 | three colon-free integer texts joined by `:` read as `h*3600 + m*60 + s` |
| Vod.PartsSecondsOf | module/VOD_downloader.py:789-790 | three integer parts give `h*3600 + m*60 + s` |
| Vod.SplitTime | module/VOD_downloader.py:789-789 | three colon-free parts joined by `:` split back into the same three |
| Vod.TimeToSecondsOfParts | module/VOD_downloader.py:786-790 | `h:m:s` written as decimal integers, negative ones included, reads back as `h*3600 + m*60 + s` |
| Vod.PyIntOfPad2 | module/VOD_downloader.py:789-789 | a zero-padded two-digit field is accepted by `int()` as its number |
| Vod.TimeToSecondsOfHms | module/VOD_downloader.py:786-790 | a zero-padded `HH:MM:SS` reads back as the duration it shows |
| Vod.Pad3 | module/VOD_downloader.py:796-796 | three digits whose value is the number |
| Vod.SecondsToHhmmss | module/VOD_downloader.py:792-796 | the text ends in a decimal point and three decimals |
| Vod.ParseNatOfPad2 | module/VOD_downloader.py:796-796 | a zero-padded two-digit field reads back as its number |
| Vod.MillisOfGroups | module/VOD_downloader.py:792-796 | digit groups `h:m:s.f` read back as `((h*3600 + m*60 + s) * 1000) + f` milliseconds |
| Vod.SecondsGroup | module/VOD_downloader.py:796-796 | the seconds field holds no `:` and splits at `.` into its whole and fractional digits |
| Vod.GroupsMillisOf | module/VOD_downloader.py:792-796 | readable groups give their milliseconds |
| Vod.HhmmssRoundTrip | module/VOD_downloader.py:792-796 | the formatted time reads back as exactly the milliseconds formatted |
| Vod.MillisOfDivision | module/VOD_downloader.py:793-795 | the floor-division split into hours, minutes, seconds and milliseconds adds back to the whole |
| Vod.CutStep | module/VOD_downloader.py:820-823 | each cut point lies one segment length after the previous one |
| Vod.CutBelow | module/VOD_downloader.py:820-823 | with a positive length, later cut points lie strictly later |
| Vod.EvenSplit | module/VOD_downloader.py:818-823 | `n` segments, the `i`-th from the `i`-th to the next cut point |
| Vod.SegmentCount | module/VOD_downloader.py:810-816 | `segmentOption` segments for a span above 180 s when splitting is asked for, one otherwise |
| Vod.MergeTail | module/VOD_downloader.py:826-830 | a last segment of at least one second is kept; a lone short one is dropped; otherwise the short one is joined to the one before: one fewer segment, the rest unchanged, the joined one spanning both |
| Vod.CutRange | module/VOD_downloader.py:818-823 | the loop yields the even split of the range into `k` pieces |
| Vod.CutAll | module/VOD_downloader.py:810-823 | cutting a range into `k` pieces of a `k`-th of its length ends exactly at its end |
| Vod.CalculateSegments | module/VOD_downloader.py:806-832 | raises exactly when a given time does not parse, and otherwise yields the segments of the bounded range |
| Vod.CutSegments | module/VOD_downloader.py:810-832 | the body once the bounds are known yields the range's segments |
| Vod.LengthOfCount | module/VOD_downloader.py:810-816 | the segment length chosen branch by branch is the span over the segment count |
| Vod.EvenSplitChain | module/VOD_downloader.py:818-823 | the even split is a chain of non-empty contiguous segments |
| Vod.MergeTailChain | module/VOD_downloader.py:826-830 | joining the trailing fragment keeps a chain a chain with the same start and end |
| Vod.SegmentsCoverRange | module/VOD_downloader.py:806-832 | the segments `Segments` cuts form a contiguous chain from the start time to the end time, at most the segment count of them |
| Vod.SegmentsEmpty | module/VOD_downloader.py:826-830 | the result is empty exactly when the range gives a single piece shorter than one second |
| Vod.ShortRangeOneSegment | module/VOD_downloader.py:810-816 | a span of at most 180 s, or `segmentOption` 1, gives at most one segment |
| Vod.SegmentsEqualLength | module/VOD_downloader.py:810-816 | above 180 s with splitting, every segment before the last is `span / segmentOption` long |
| Vod.Heights | module/VOD_downloader.py:741-743 | one height reading per Representation, in document order |
| Vod.ScanBest | module/VOD_downloader.py:744-747 | the loop raises exactly on a height `int()` rejects; otherwise it keeps a maximal height, and a chosen index holds that height with none before it as tall |
| Vod.ScanExact | module/VOD_downloader.py:748-751 | a match is the first Representation of the requested height; no match means none has it; raising needs a height present where the request or the height is not an integer |
| Vod.Picked | module/VOD_downloader.py:757-761 | the chosen Representation raises exactly when it has no `<BaseURL>` child; otherwise the result is that child's text, possibly none, its id and the height |
| Vod.GetDashStreamLink | module/VOD_downloader.py:728-768 | `(None, None, None)` exactly when the document cannot be fetched or parsed; a three-value result from a parsed document comes with a height, and its first value is the `<BaseURL>` text of a Representation of that height (none when that element has no text) |
| Vod.ScanBestFirstTallest | module/VOD_downloader.py:744-747 | the "best" loop settles on the first strictly tallest positive height |
| Vod.BestIsFirstTallest | module/VOD_downloader.py:741-761 | with "best", the first Representation of strictly greatest positive height is chosen and its height returned |
| Vod.EmptyBaseUrlGivesNoUrl | module/VOD_downloader.py:757-761 | a chosen Representation whose `<BaseURL>` is empty gives no URL with its id and height, rather than raising |
| Vod.ExactIsFirstMatch | module/VOD_downloader.py:741-761 | with an explicit quality, the first Representation of exactly that height is chosen |
| Vod.ScanExactFirst | module/VOD_downloader.py:748-751 | the explicit-quality loop stops at the first equal height |
| Vod.NoHeightReturnsPair | module/VOD_downloader.py:753-755 | when no Representation carries a height, the two-value `(None, None)` comes back |
| Vod.VideoBitrate | module/VOD_downloader.py:512-516 | 8000k for best and 1080p, 5000k for 720p, none for any other quality |
| Vod.ParseOneLabel | module/VOD_downloader.py:548-548 | one `[i:v:0][i:a:0]` label reads back as its index, continuing after it |
| Vod.ParseLabelsOfLabels | module/VOD_downloader.py:548-548 | the labels of inputs `i` to `n-1` read back as those indices in order |
| Vod.FilterRoundTrip | module/VOD_downloader.py:548-549 | `FilterComplex`, the concat filter, names the video and audio stream of every input `0` to `n-1` in order and concatenates `n` of them |
| Vod.InputArgs | module/VOD_downloader.py:545-546 | one `-i` pair per segment, in order, with backslashes turned into slashes |
| Vod.EncodeArgs | module/VOD_downloader.py:556-588 | methods 1 to 4 select libx264, h264_qsv, h264_amf and h264_nvenc at the given bitrate; AMD takes `-quality fast`, NVIDIA `-preset p2`, the others `-preset veryfast`; audio is always AAC at 192k |
| Vod.MergeCommand | module/VOD_downloader.py:511-591 | a command exists exactly for method 0 with a first segment or methods 1-4 with a bitrate; method 0 is the stream-copy concat of the list file; methods 1-4 are ffmpeg, the inputs, the filter, the encoder options and the output last |
| Vod.ReencodeSlices | module/VOD_downloader.py:543-591 | where the four parts of a re-encoding command lie in it |
| Vod.GetAuthHeaders | module/VOD_downloader.py:354-360 | the User-Agent always, a Cookie header exactly for a non-empty cookie dictionary, holding every cookie as `name=value` joined by `; ` so that it reads back as the dictionary, nothing else |
| Vod.KeyValueOf | module/VOD_downloader.py:359-359 | a `key=value` pair whose key has no `=` reads back as the pair |
| Vod.ParseCookiesCons | module/VOD_downloader.py:359-359 | the first pair of a header ends at its first `;` |
| Vod.CookieRoundTrip | module/VOD_downloader.py:354-360 | the Cookie header built from the saved cookies reads back through `ParseCookies` as the same pairs in the same order |
| SettingsWindow.TextOrNull | module/settings_window.py:393-394 | null exactly when the stripped text is empty, otherwise the stripped text, with no whitespace at either end |
| SettingsWindow.VideoQuality | module/settings_window.py:399-409 | non-empty stripped text is kept; empty text gives '25' for exactly `h264_qsv`, '23' for exactly `h264_nvenc` or `h264_amf`, null for any other codec value |
| SettingsWindow.EmptyQualityIsNull | module/settings_window.py:194-409 | the codec value stored is a label of the codec box, none of which equals a bare encoder name, so an empty quality field is always stored as null |
| SettingsWindow.ApplySettings | module/settings_window.py:371-416 | a non-integer shift, recheck or auto-stop text raises before saving, leaving only the fields set before it changed in memory; otherwise every field is saved from the form: the five flags true exactly for '사용', the message box for '표시', the file-name pattern, post-processing method, move directory, video codec, quality-or-bitrate mode, preset, audio codec, audio bitrate and plugin as given, the output directory and video bitrate stripped or null, the quality through its codec default, the three numbers as read; only `auto_record_mode` is kept; the continuous-recording notice shows exactly for an interval of 0 |
| SettingsWindow.ApplyForgetsPrevious | module/settings_window.py:371-416 | a saved result depends on the previous configuration only through `auto_record_mode` |
| SettingsWindow.ApplyIdempotent | module/settings_window.py:371-416 | applying the same form to what it saved saves the same again |
| SettingsWindow.ZeroAutoStopStored | module/settings_window.py:375-383 | an auto-stop interval of 0 is stored like any other value; only the notice differs |
| SettingsWindow.PresetsFor | module/settings_window.py:438-449 | a mapped codec label offers its encoder's preset list, an unmapped one nothing |
| SettingsWindow.SelectedPreset | module/settings_window.py:447-450 | the configured preset when the codec's list has it, otherwise the first preset of the list, and nothing exactly when the list is empty |
| SettingsWindow.SelectedPresetStable | module/settings_window.py:412-450 | saving the selected preset and refilling the box for the same codec selects the same preset again |
| SettingsWindow.PresetLists | module/settings_window.py:13-18 | every codec-box label has a preset list; 'medium' is offered for x264 and NVENC only |
| SettingsWindow.QsvDefaultPreset | module/settings_window.py:13-450 | with the default preset 'medium', switching to the QSV encoder selects 'veryfast' |
| Text.PyInt | module/settings_window.py:373-375 | `int()` of a text accepts only text with something left after stripping |
| Text.PyIntOfIntToStr | module/settings_window.py:373-375 | `int()` reads back every integer written in decimal, negative ones included |
| Text.Strip | module/settings_window.py:393-393 | the stripped text is no longer than the text, has no whitespace at either end, and is the text itself when that has none there |
| Text.StripIsMiddle | module/settings_window.py:393-393 | the stripped text is a contiguous middle part of the text, with only whitespace cut off before and after it |
| Text.StripNoSpace | module/settings_window.py:393-393 | a text without whitespace at either end strips to itself |
| Text.HmsOfDivision | module/data_manager.py:87-88 | the floor-division split of a second count into hours, minutes and seconds adds back to the count |
| Text.SplitJoin | module/VOD_downloader.py:789-789 | splitting a join of separator-free pieces gives the pieces back |
| Text.SplitExt | module/data_manager.py:336-336 | the stem and extension concatenate to the name; the extension is empty or a `.` followed by no further `.` or separator |

## Left out

- Qt widgets, signals, message boxes, thumbnails and timers: the user interface. Only the arithmetic and list edits behind them are modelled. This includes the channel-settings dialog of `openChannelSettings` and the `QTimer` polling in `RecordingThread.stop`/`checkStopRequest`.
- Threads, asyncio tasks, `gather` and the `RLock` of `RecorderManager`. Each accessor is one atomic update, and a recording thread is a run over the iterations it meets. Sleeps appear only as pause counts.
- HTTP requests, the chat websocket and the DASH XML download. Their replies are input datatypes: a status code or failure, a decoded JSON value, or a list of parsed `Representation` elements.
- Launching and waiting for streamlink, ffmpeg and ffprobe. Exit codes are inputs; `getFrameRate`, `getResolution`, `verifySegment` and `getVideoDuration` are ffprobe wrappers and are not modelled. Neither are the `Popen` environment, console-window flags and `startupinfo`.
- The executable lookups (`get_ffmpeg_path` and the streamlink path): the paths are parameters.
- The clock: `datetime.now()` is a parameter, in whole seconds on a proleptic Gregorian scale.
- The md5 digest in `get_color_for_user`: the hexadecimal digest is a parameter.
- Console output (`print`) and log messages.
- JSON text itself. A file's contents are modelled as an already-decoded value or as "missing"/"not JSON".
- `loadCookies`, `saveCookies`, `yloadCookies`, `saveAccount` and the config helpers of `data_manager.py`: plain file reads and writes outside the recorder's decisions.
- `module/naver_login.py` (browser automation) and `module/path_config.py` (existence checks and `sys.exit`) are not part of this model. Nor are the `install_missing_modules` bootstraps.
- `copy_streams.copy_stream`: a helper that nothing in the recorder calls.
- The earlier `load_config`/`save_config` of `module/channel_manager.py` (lines 65-76). Later definitions in the same module replace them, so only lines 80-100 are modelled.
- Path normalisation: `os.path.abspath` is a join onto the working directory. Clean-up of `.`, `..` and doubled separators is not modelled, and paths use the single separator `/`.
- Text.IsSpace: only the ASCII whitespace Python accepts. Unicode spaces such as U+00A0 or U+3000 are not treated as whitespace.
- Text.IsAlnum: every non-ASCII character counts as alphanumeric. Python is exact per Unicode category; the approximation is right for Hangul and other letters, and wrong for non-ASCII punctuation and symbols.
- Text.PyInt: underscores between digits (`int("1_000")`) and non-ASCII decimal digits are not accepted.
- Log lines are given without their line terminator, as file iteration yields them once the terminator is dropped.
- The SAMI converter cannot open its output file: that failure is not modelled, only a missing log.
- Smi.ShiftedStart: a shift that moves the start before year 1 or after year 9999 raises `OverflowError` in the source. The model wraps the start within the day instead.
- StateStore.SetRecordingStartTime: the stamp read-back is stated for years 1969 to 2068 only. `%y` keeps two digits, so a stamp written in another year reads back as a year in that range, as `strptime` does.
- StateStore.ParseStamp: reads only the fixed-width stamps the store writes. `strptime` also accepts one-digit fields, which never occur there.
- ChannelList.ParseOpenDate: years with four digits only.
- StateStore.RecordingDuration: the moment is given in whole seconds. The truncation of a sub-second negative elapsed time toward zero is not modelled.
- Vod.SecondsToHhmmss: takes a whole number of milliseconds. The float rounding of `%06.3f` is not modelled.
- Vod.CalculateSegments: times are exact reals where the source uses floats. It requires `segmentOption > 0`; the source divides by zero for 0 above 180 seconds and produces no useful segments for negative values.
- CommandBuilder.Fill: a field is looked up under the whole text between its braces. A format specification or conversion (`{title:>20}`, `{title!r}`), an attribute or index (`{a.b}`, `{a[0]}`) and a positional field (`{}`, `{0}`) are therefore unknown names and give `None`. `str.format` would format, convert, index or raise `IndexError` instead. Nested braces in a specification make the template unreadable.
- The module-level defects of `module/VOD_downloader.py` (the stray `else:`, functions that take `self` at module level, `if name == "main"`): those functions are modelled as plain functions.
- The VOD merge's side effects: writing `merge_list.txt` and deleting the segments and the temporary folder. Also not modelled: `generateRandomFilename`, which is random.
- The live-status probe of `Chzzk_recordLITE3d.py` (`get_live_metadata`): its HTTP request and track selection are not modelled; what it ends in (no metadata, a closed or open channel, or an uncaught exception) is an input of the loop model.
- The recorder reads `deleteAfterPostProcessing` once into an attribute (`module/Live_recorder.py:307`). The model takes it equal to the configuration value.
- An empty metadata dictionary counts as no metadata, as the truthiness tests in `buildCommand` treat it.
- `get_unique_filename` of `Chzzk_recordLITE3d.py` is the same code as `uniqueFilename` and is modelled by `Naming.UniqueFilename`.

## Findings

| source | as written | input that shows it | evidently intended | confidence | as-written member | corrected member |
|---|---|---|---|---|---|---|
| module/Live_recorder.py:164-167 | a not-live probe schedules `asyncio.sleep(recheck_interval)` on the thread's own event loop, which is not running, and never waits for it, so the next probe follows at once | auto mode on, channel offline for any number of iterations: total pause 0 (`Supervisor.OfflineBusyPoll`) | wait `recheck_interval` seconds between probes | not executed; medium | Supervisor.AsWritten | Supervisor.Intended |
| module/Live_recorder.py:126 | the recording thread calls `onRecordingFinished`, whose `asyncio.create_task` (line 688) has no running loop in that thread and raises, so no post-processing starts | auto post-processing on, a recording that ends with a known file name (`Supervisor.PostProcessingEndsWatch`) | the post-processing job is scheduled and the thread keeps watching | not executed; medium | Recorder.OnRecordingFinishedAsWritten | Recorder.OnRecordingFinished |
| module/Live_recorder.py:764-766 | `stopRecording` calls `self.runStreamCopy`, which the class does not define, so it raises before the clean-up | stopping a running channel with auto post-processing on and a recorded `fixed_` path (`Recorder.StopLeavesThreadBehind`) | the post-processing runs and the clean-up follows | not executed; high | Recorder.StopRecordingAsWritten | Recorder.StopRecording |
| Chzzk_recordLITE3d.py:330-407 | `copy_specific_file` swallows an ffmpeg failure and `handle_file_operations` runs anyway, so the recording is deleted | ffmpeg exits 1, deletion on, no move (`LiteRecorder.FailedRunDeletesRecording`) | the file operations follow only a successful run | not executed; high | LiteRecorder.LiteCopyStreamAsWritten | LiteRecorder.LiteCopyStream |
| module/convert_log_to_smi.py:107 | after a successful conversion the function ends in `sys.exit(1)`, the same status as every error | a log named `[yymmdd_HHMMSS]…` with a valid stamp (`Smi.SuccessExitsAsFailure`) | exit status 0 after a conversion | not executed; high | Smi.ExitStatusAsWritten | Smi.ExitStatus |
| module/convert_log_to_smi.py:69-71 | the chat time is put on the start's date, so a chat after midnight gets a negative `Start`; `Smi.Convert` with the `AsWritten` reading writes such paragraphs, and `Smi.ConvertReadingsAgree` shows the two readings differ only there | start 23:50:00, no shift, chat at 00:10:00: `Start=-85200000` (`Smi.MidnightChatGoesNegative`) | `Start=1200000`, the offset to the next time the clock shows the chat time | not executed; high | Smi.SyncStartAsWritten | Smi.SyncStart |
| run_record.py:776 | a channel seen for the first time reads `metadata.get("openDate", …)`, but `get_live_metadata` stores the stream's start under "recording_duration" (`module/Live_recorder.py:452`), so the entry is never there and the clock is remembered; the right start appears only once `update_channel_info` overwrites it (lines 853-855) | a recording channel whose metadata says it opened at 10:00, first seen by the timer at 12:00: the widget counts from 12:00 (`ChannelList.FirstSightIgnoresOpenDate`) | remember the stream's start, read under "recording_duration" | not executed; medium | ChannelList.FirstSightOpenDateAsWritten | ChannelList.FirstSightOpenDate |

=== FILE: api.dfy ===
/**
 * Request headers and the fields the chat client reads out of Chzzk's API
 * replies (`module/api.py`).
 *
 * The HTTP request itself is an input: a reply is either a failure the
 * functions catch (a connection error or an error status, both
 * `RequestException`s), a body that is not JSON, or a decoded JSON document.
 * Subscripting with `[...]` follows Python: a missing key of an object raises
 * `KeyError`, which the functions catch, while subscripting anything that is
 * not an object with a string raises `TypeError`, which they do not.
 */
module Api {
  import opened Wrappers
  import opened Text

  const UserAgent: string := "Mozilla/5.0 (Windows NT 10.0; Win64; x64)"

  /** A decoded JSON document. */
  datatype Value =
    | Null
    | Bool(b: bool)
    | Number(n: int)
    | Str(s: string)
    | Array(items: seq<Value>)
    | Object(fields: map<string, Value>)

  /** What an HTTP request gave back. */
  datatype Reply = RequestFailed | NotJson | Json(data: Value)

  /** `v[key]` for a string key: the value, a caught `KeyError`, or an uncaught `TypeError`. */
  datatype Lookup = Found(v: Value) | KeyError | TypeError

  /** The result of a call: its return value, or an exception that escapes it. */
  datatype Call<T> = Returns(value: T) | Raises

  // ---------------------------------------------------------------------------
  // Headers
  // ---------------------------------------------------------------------------

  /** The value of the `Cookie` header for these cookies. */
  function CookieHeader(cookies: map<string, string>): string {
    "NID_AUT=" + (if "NID_AUT" in cookies then cookies["NID_AUT"] else "")
      + "; NID_SES=" + (if "NID_SES" in cookies then cookies["NID_SES"] else "")
  }

  /**
   * `get_headers(cookies)`: a fixed User-Agent and the two login cookies, a
   * missing one as the empty string. `None` in place of the cookies raises
   * (`None.get` is an `AttributeError`).
   */
  function GetHeaders(cookies: Option<map<string, string>>): (r: Call<map<string, string>>)
    ensures r.Raises? <==> cookies.None?
    ensures r.Returns? ==> r.value.Keys == {"User-Agent", "Cookie"}
    ensures r.Returns? ==> r.value["User-Agent"] == UserAgent
    ensures r.Returns? ==> StartsWith(r.value["Cookie"], "NID_AUT=")
  {
    match cookies
    case None => Raises
    case Some(c) => Returns(map["User-Agent" := UserAgent, "Cookie" := CookieHeader(c)])
  }

  /** Only the two login cookies reach the header: cookies that agree on them give the same headers. */
  lemma HeadersSeeOnlyLoginCookies(a: map<string, string>, b: map<string, string>)
    requires forall k :: k in {"NID_AUT", "NID_SES"} ==> (k in a <==> k in b)
    requires forall k :: k in {"NID_AUT", "NID_SES"} && k in a ==> a[k] == b[k]
    ensures GetHeaders(Some(a)) == GetHeaders(Some(b))
  {
    assert "NID_AUT" in {"NID_AUT", "NID_SES"};
    assert "NID_SES" in {"NID_AUT", "NID_SES"};
  }

  /** With neither login cookie the header still names both, with empty values. */
  lemma HeadersWithoutLogin(c: map<string, string>)
    requires "NID_AUT" !in c && "NID_SES" !in c
    ensures GetHeaders(Some(c)).value["Cookie"] == "NID_AUT=; NID_SES="
  {
  }

  /** The two login cookies read back from the header when neither contains `;`. */
  lemma CookieHeaderReadsBack(aut: string, ses: string, others: map<string, string>)
    requires ';' !in aut && ';' !in ses
    ensures var c := others["NID_AUT" := aut]["NID_SES" := ses];
      Split(CookieHeader(c), ';') == ["NID_AUT=" + aut, " NID_SES=" + ses]
  {
    var c := others["NID_AUT" := aut]["NID_SES" := ses];
    var x, y := "NID_AUT=" + aut, " NID_SES=" + ses;
    assert ';' !in x by {
      forall i | 0 <= i < |x| ensures x[i] != ';' {
        if i >= 8 { assert x[i] == aut[i - 8]; }
      }
    }
    assert ';' !in y by {
      forall i | 0 <= i < |y| ensures y[i] != ';' {
        if i >= 9 { assert y[i] == ses[i - 9]; }
      }
    }
    assert CookieHeader(c) == x + [';'] + y;
    Split2(x, y, ';');
  }

  // ---------------------------------------------------------------------------
  // Subscripts
  // ---------------------------------------------------------------------------

  /** `v[key]` with a string key. */
  function Index(v: Value, key: string): (r: Lookup)
    ensures r.KeyError? <==> v.Object? && key !in v.fields
    ensures r.TypeError? <==> !v.Object?
    ensures r.Found? ==> v.Object? && key in v.fields && r.v == v.fields[key]
  {
    match v
    case Object(fields) => if key in fields then Found(fields[key]) else KeyError
    case _ => TypeError
  }

  /**
   * `key in v`: a key of an object, an element of an array, a substring of a
   * string; on anything else Python raises `TypeError`.
   */
  function HasKey(v: Value, key: string): (r: Call<bool>)
    ensures r.Raises? <==> (v.Null? || v.Bool? || v.Number?)
    ensures v.Object? ==> r == Returns(key in v.fields)
    ensures v.Array? ==> r == Returns(Str(key) in v.items)
  {
    match v
    case Object(fields) => Returns(key in fields)
    case Array(items) => Returns(Str(key) in items)
    case Str(s) => Returns(Contains(s, key))
    case _ => Raises
  }

  /**
   * `data["content"][field]` inside `try … except (RequestException,
   * JSONDecodeError, KeyError): return None`.
   */
  function ContentField(reply: Reply, field: string): (r: Call<Option<Value>>)
    ensures reply.RequestFailed? || reply.NotJson? ==> r == Returns(None)
    ensures r == Returns(None) <==> (reply.RequestFailed? || reply.NotJson? ||
      Index(reply.data, "content").KeyError? ||
      (Index(reply.data, "content").Found? && Index(Index(reply.data, "content").v, field).KeyError?))
    ensures r.Returns? && r.value.Some? <==>
      (reply.Json? && Index(reply.data, "content").Found? && Index(Index(reply.data, "content").v, field).Found?)
    ensures r.Returns? && r.value.Some? ==> r.value.value == reply.data.fields["content"].fields[field]
  {
    match reply
    case RequestFailed => Returns(None)
    case NotJson => Returns(None)
    case Json(data) =>
      match Index(data, "content")
      case KeyError => Returns(None)
      case TypeError => Raises
      case Found(content) =>
        match Index(content, field)
        case KeyError => Returns(None)
        case TypeError => Raises
        case Found(x) => Returns(Some(x))
  }

  /** A `content` object that has the field yields it, and one that lacks it yields None. */
  lemma ContentFieldOfObject(content: map<string, Value>, field: string, others: map<string, Value>)
    ensures var data := Object(others["content" := Object(content)]);
      ContentField(Json(data), field) == Returns(if field in content then Some(content[field]) else None)
  {
  }

  // ---------------------------------------------------------------------------
  // The four fetches
  // ---------------------------------------------------------------------------

  /**
   * `fetch_userIdHash(cookies)`: `content.userIdHash` of the user-status reply.
   * The headers are built inside the `try`, but `None` cookies raise an error it
   * does not catch.
   */
  function FetchUserIdHash(cookies: Option<map<string, string>>, reply: Reply): (r: Call<Option<Value>>)
    ensures r.Raises? <==> cookies.None? || ContentField(reply, "userIdHash").Raises?
    ensures cookies.Some? && (reply.RequestFailed? || reply.NotJson?) ==> r == Returns(None)
    ensures r.Returns? && r.value.Some? ==>
      reply.Json? && Index(reply.data, "content").Found? &&
      Index(Index(reply.data, "content").v, "userIdHash") == Found(r.value.value)
    ensures cookies.Some? && reply.Json? && Index(reply.data, "content").KeyError? ==> r == Returns(None)
  {
    match GetHeaders(cookies)
    case Raises => Raises
    case Returns(_) => ContentField(reply, "userIdHash")
  }

  /**
   * `fetch_chatChannelId(streamer, cookies)`: `content.chatChannelId` of the
   * live-detail reply; `None` cookies raise as above.
   */
  function FetchChatChannelId(cookies: Option<map<string, string>>, reply: Reply): (r: Call<Option<Value>>)
    ensures r.Raises? <==> cookies.None? || ContentField(reply, "chatChannelId").Raises?
    ensures cookies.Some? && (reply.RequestFailed? || reply.NotJson?) ==> r == Returns(None)
    ensures r.Returns? && r.value.Some? ==>
      reply.Json? && Index(reply.data, "content").Found? &&
      Index(Index(reply.data, "content").v, "chatChannelId") == Found(r.value.value)
    ensures cookies.Some? && reply.Json? && Index(reply.data, "content").KeyError? ==> r == Returns(None)
  {
    match GetHeaders(cookies)
    case Raises => Raises
    case Returns(_) => ContentField(reply, "chatChannelId")
  }

  /**
   * `fetch_accessToken(chatChannelId, cookies)`: both tokens, or `(None, None)`
   * when the request fails, the body is not JSON or either key is missing;
   * `None` cookies raise as above.
   */
  function FetchAccessToken(cookies: Option<map<string, string>>, reply: Reply): (r: Call<(Option<Value>, Option<Value>)>)
    ensures cookies.None? ==> r.Raises?
    ensures cookies.Some? && (reply.RequestFailed? || reply.NotJson?) ==> r == Returns((None, None))
    ensures r.Returns? ==> (r.value.0.Some? <==> r.value.1.Some?)
    ensures r.Returns? && r.value.0.Some? <==>
      cookies.Some? &&
      ContentField(reply, "accessToken").Returns? && ContentField(reply, "accessToken").value.Some? &&
      ContentField(reply, "extraToken").Returns? && ContentField(reply, "extraToken").value.Some?
    ensures r.Returns? && r.value.0.Some? ==>
      r.value == (ContentField(reply, "accessToken").value, ContentField(reply, "extraToken").value)
  {
    match GetHeaders(cookies)
    case Raises => Raises
    case Returns(_) =>
      match ContentField(reply, "accessToken")
      case Raises => Raises
      case Returns(None) => Returns((None, None))
      case Returns(Some(token)) =>
        match ContentField(reply, "extraToken")
        case Raises => Raises
        case Returns(None) => Returns((None, None))
        case Returns(Some(extra)) => Returns((Some(token), Some(extra)))
  }

  /** A token reply that lacks only the extra token still gives no access token. */
  lemma AccessTokenNeedsBoth(cookies: map<string, string>, token: Value, content: map<string, Value>)
    requires "extraToken" !in content
    ensures FetchAccessToken(Some(cookies), Json(Object(map["content" := Object(content["accessToken" := token])]))) ==
      Returns((None, None))
  {
    var c := content["accessToken" := token];
    assert "accessToken" in c && "extraToken" !in c;
  }

  /**
   * `fetch_channelName(streamer, cookies)`: `content.channelName` if there is
   * one, else `content.channel.channelName`, else None; missing cookies raise
   * before the request.
   */
  function FetchChannelName(cookies: Option<map<string, string>>, reply: Reply): (r: Call<Option<Value>>)
    ensures cookies.None? ==> r.Raises?
    ensures cookies.Some? && (reply.RequestFailed? || reply.NotJson?) ==> r == Returns(None)
    ensures cookies.Some? && reply.Json? && reply.data.Object? && "content" !in reply.data.fields ==> r == Returns(None)
  {
    if cookies.None? then Raises
    else
      match reply
      case RequestFailed => Returns(None)
      case NotJson => Returns(None)
      case Json(data) =>
        match HasKey(data, "content")
        case Raises => Raises
        case Returns(false) => Returns(None)
        case Returns(true) =>
          match Index(data, "content")
          case KeyError => Returns(None)
          case TypeError => Raises
          case Found(content) =>
            match HasKey(content, "channelName")
            case Raises => Raises
            case Returns(true) =>
              (match Index(content, "channelName")
               case Found(name) => Returns(Some(name))
               case KeyError => Returns(None)
               case TypeError => Raises)
            case Returns(false) =>
              match HasKey(content, "channel")
              case Raises => Raises
              case Returns(false) => Returns(None)
              case Returns(true) =>
                match Index(content, "channel")
                case KeyError => Returns(None)
                case TypeError => Raises
                case Found(channel) =>
                  match HasKey(channel, "channelName")
                  case Raises => Raises
                  case Returns(false) => Returns(None)
                  case Returns(true) =>
                    match Index(channel, "channelName")
                    case Found(name) => Returns(Some(name))
                    case KeyError => Returns(None)
                    case TypeError => Raises
  }

  /** A top-level `channelName` wins over the nested one. */
  lemma ChannelNameFirst(cookies: map<string, string>, content: map<string, Value>, others: map<string, Value>)
    requires "channelName" in content
    ensures FetchChannelName(Some(cookies), Json(Object(others["content" := Object(content)]))) ==
      Returns(Some(content["channelName"]))
  {
  }

  /** Without a top-level `channelName`, the name under `channel` is used, and None when that is missing too. */
  lemma ChannelNameNested(cookies: map<string, string>, channel: map<string, Value>, content: map<string, Value>,
                          others: map<string, Value>)
    requires "channelName" !in content
    ensures var c := content["channel" := Object(channel)];
      FetchChannelName(Some(cookies), Json(Object(others["content" := Object(c)]))) ==
      Returns(if "channelName" in channel then Some(channel["channelName"]) else None)
  {
    var c := content["channel" := Object(channel)];
    assert "channelName" !in c;
  }
}

=== FILE: channel.dfy ===
/**
 * A channel entry of the channel list (`channels.json`), as the recorder reads it:
 * a dictionary whose `id` and `name` are always there and whose other keys may be
 * missing. A missing key is `None` here.
 */
module Channels {
  import opened Wrappers

  datatype Channel = Channel(
    id: string,
    name: string,
    outputDir: Option<string>,
    quality: Option<string>,
    extension: Option<string>,
    recordEnabled: Option<bool>,
    platform: Option<string>)

  /** Python's `next((ch for ch in channels if ch["id"] == id), None)`: the first match. */
  function FindChannel(channels: seq<Channel>, id: string): (r: Option<Channel>)
    ensures r.Some? ==> r.value in channels && r.value.id == id
    ensures r.None? <==> forall k :: 0 <= k < |channels| ==> channels[k].id != id
  {
    if |channels| == 0 then None
    else if channels[0].id == id then Some(channels[0])
    else FindChannel(channels[1..], id)
  }

  /** Index of the first channel with this id, when there is one. */
  function FindIndex(channels: seq<Channel>, id: string): (r: Option<nat>)
    ensures r.Some? ==> r.value < |channels| && channels[r.value].id == id
    ensures r.Some? ==> forall k :: 0 <= k < r.value ==> channels[k].id != id
    ensures r.None? <==> forall k :: 0 <= k < |channels| ==> channels[k].id != id
  {
    if |channels| == 0 then None
    else if channels[0].id == id then Some(0)
    else match FindIndex(channels[1..], id)
      case None => None
      case Some(i) => Some(i + 1)
  }

  /** `channel.get("record_enabled", False)`, the reading the recorder threads use. */
  function RecordEnabled(c: Channel): bool {
    c.recordEnabled.GetOr(false)
  }
}

=== FILE: channel_list.dfy ===
/**
 * The main window's channel list (`run_record.py`): adding, editing, removing
 * and toggling channels, where each channel's widget goes in the grid, and the
 * start time and elapsed recording time each widget shows.
 */
module ChannelList {
  import opened Wrappers
  import opened Text
  import opened Channels
  import StateStore
  import Smi
  import LiveMetadata

  // ---------------------------------------------------------------------------
  // List edits
  // ---------------------------------------------------------------------------

  /** The texts of the add and edit dialogs. */
  datatype Dialog = Dialog(uid: string, name: string, directory: string, quality: string, extension: string)

  /** All five fields filled in: the condition both dialogs check before they change anything. */
  predicate Complete(d: Dialog) {
    |d.uid| > 0 && |d.name| > 0 && |d.directory| > 0 && |d.quality| > 0 && |d.extension| > 0
  }

  /**
   * `onAddChannelButtonClick()` and the add event it posts: a complete dialog
   * appends a channel with the directory made absolute against `cwd` and
   * reserved recording off; an incomplete one changes nothing.
   */
  function AddChannel(chs: seq<Channel>, d: Dialog, cwd: string): (r: seq<Channel>)
    requires IsAbs(cwd)
    ensures !Complete(d) ==> r == chs
    ensures Complete(d) ==> |r| == |chs| + 1 && r[..|chs|] == chs
    ensures Complete(d) ==> (r[|chs|] ==
      Channel(d.uid, d.name, Some(AbsPath(cwd, d.directory)), Some(d.quality), Some(d.extension), Some(false), None))
  {
    if Complete(d) then
      chs + [Channel(d.uid, d.name, Some(AbsPath(cwd, d.directory)), Some(d.quality), Some(d.extension), Some(false), None)]
    else chs
  }

  /** A newly added channel is not reserved for recording. */
  lemma AddedChannelNotReserved(chs: seq<Channel>, d: Dialog, cwd: string)
    requires IsAbs(cwd) && Complete(d)
    ensures var r := AddChannel(chs, d, cwd); !RecordEnabled(r[|r| - 1]) && IsAbs(r[|r| - 1].outputDir.value)
  {
  }

  /** The channel-removed event: every channel with that id goes, the others stay in order. */
  function RemoveChannel(chs: seq<Channel>, id: string): (r: seq<Channel>)
    ensures |r| <= |chs|
    ensures forall k :: 0 <= k < |r| ==> r[k].id != id && r[k] in chs
    ensures forall c :: c in chs && c.id != id ==> c in r
  {
    if |chs| == 0 then []
    else if chs[0].id == id then RemoveChannel(chs[1..], id)
    else [chs[0]] + RemoveChannel(chs[1..], id)
  }

  /** Removal works channel by channel: removing from a concatenation removes from each part. */
  lemma {:induction false} RemoveAppend(a: seq<Channel>, b: seq<Channel>, id: string)
    ensures RemoveChannel(a + b, id) == RemoveChannel(a, id) + RemoveChannel(b, id)
  {
    if |a| > 0 {
      assert (a + b)[0] == a[0];
      assert (a + b)[1..] == a[1..] + b;
      RemoveAppend(a[1..], b, id);
    } else {
      assert a + b == b;
    }
  }

  /** Removing an id no channel has changes nothing, and so removing twice is removing once. */
  lemma {:induction false} RemoveAbsent(chs: seq<Channel>, id: string)
    requires forall k :: 0 <= k < |chs| ==> chs[k].id != id
    ensures RemoveChannel(chs, id) == chs
  {
    if |chs| > 0 {
      RemoveAbsent(chs[1..], id);
      assert [chs[0]] + chs[1..] == chs;
    }
  }

  /** Adding a channel and then removing its id leaves the list without that id. */
  lemma RemoveAfterAdd(chs: seq<Channel>, d: Dialog, cwd: string)
    requires IsAbs(cwd) && Complete(d)
    ensures RemoveChannel(AddChannel(chs, d, cwd), d.uid) == RemoveChannel(chs, d.uid)
  {
    var c := AddChannel(chs, d, cwd)[|chs|];
    RemoveAppend(chs, [c], d.uid);
    assert [c][1..] == [];
  }

  /**
   * `confirmChannelSettings(...)` on the channel the edit dialog was opened
   * for, the first with id `id`: a complete dialog replaces exactly the five
   * fields, and `save_channels`, which runs next on the same list, makes the
   * new directory absolute against `cwd`; otherwise, or when no channel has
   * that id (the dialog does not open), nothing changes. The other channels'
   * directories are absolute already, since loading made them so.
   */
  function EditChannel(chs: seq<Channel>, id: string, d: Dialog, cwd: string): (r: seq<Channel>)
    requires IsAbs(cwd)
    ensures |r| == |chs|
    ensures FindIndex(chs, id).None? || !Complete(d) ==> r == chs
    ensures FindIndex(chs, id).Some? && Complete(d) ==>
      var i := FindIndex(chs, id).value;
      r == chs[i := chs[i].(id := d.uid, name := d.name, outputDir := Some(AbsPath(cwd, d.directory)),
                            quality := Some(d.quality), extension := Some(d.extension))]
    ensures FindIndex(chs, id).Some? && Complete(d) ==>
      IsAbs(r[FindIndex(chs, id).value].outputDir.value)
  {
    match FindIndex(chs, id)
    case None => chs
    case Some(i) =>
      if Complete(d) then
        chs[i := chs[i].(id := d.uid, name := d.name, outputDir := Some(AbsPath(cwd, d.directory)),
                         quality := Some(d.quality), extension := Some(d.extension))]
      else chs
  }

  /** An edit keeps the reservation flag and platform of the channel and touches no other channel. */
  lemma EditKeepsTheRest(chs: seq<Channel>, id: string, d: Dialog, cwd: string)
    requires IsAbs(cwd)
    ensures var r := EditChannel(chs, id, d, cwd);
      forall k :: 0 <= k < |chs| ==> r[k].recordEnabled == chs[k].recordEnabled && r[k].platform == chs[k].platform
    ensures var r := EditChannel(chs, id, d, cwd);
      forall k :: 0 <= k < |chs| && chs[k].id != id ==> r[k] == chs[k]
  {
  }

  /**
   * `set_channel_record_enabled(channel_id, enabled)`: the first channel with
   * that id gets the flag; an unknown id changes nothing.
   */
  function SetRecordEnabled(chs: seq<Channel>, id: string, enabled: bool): (r: seq<Channel>)
    ensures |r| == |chs|
    ensures FindIndex(chs, id).None? ==> r == chs
    ensures FindIndex(chs, id).Some? ==>
      var i := FindIndex(chs, id).value; r == chs[i := chs[i].(recordEnabled := Some(enabled))]
  {
    match FindIndex(chs, id)
    case None => chs
    case Some(i) => chs[i := chs[i].(recordEnabled := Some(enabled))]
  }

  /** After the toggle the channel the recorder finds for the id reads back the flag, and the last toggle wins. */
  lemma RecordEnabledReadsBack(chs: seq<Channel>, id: string, a: bool, b: bool)
    requires FindChannel(chs, id).Some?
    ensures var r := SetRecordEnabled(chs, id, b); FindChannel(r, id).Some? && RecordEnabled(FindChannel(r, id).value) == b
    ensures SetRecordEnabled(SetRecordEnabled(chs, id, a), id, b) == SetRecordEnabled(chs, id, b)
  {
    var i := FindIndex(chs, id).value;
    var r := SetRecordEnabled(chs, id, b);
    FindIndexIsFirst(chs, id);
    FindIndexIsFirst(r, id);
    assert FindIndex(r, id) == Some(i);
    FindIndexIsFirst(SetRecordEnabled(chs, id, a), id);
  }

  /** The index `FindIndex` gives is the first with that id, and `FindChannel` returns the channel there. */
  lemma {:induction false} FindIndexIsFirst(chs: seq<Channel>, id: string)
    ensures FindIndex(chs, id).None? <==> FindChannel(chs, id).None?
    ensures FindIndex(chs, id).Some? ==> FindChannel(chs, id) == Some(chs[FindIndex(chs, id).value])
    ensures forall i :: 0 <= i < |chs| && chs[i].id == id && (forall k :: 0 <= k < i ==> chs[k].id != id) ==>
      FindIndex(chs, id) == Some(i)
  {
    if |chs| > 0 && chs[0].id != id {
      FindIndexIsFirst(chs[1..], id);
      forall i | 0 <= i < |chs| && chs[i].id == id && (forall k :: 0 <= k < i ==> chs[k].id != id)
        ensures FindIndex(chs, id) == Some(i)
      {
        assert i > 0;
        assert chs[1..][i - 1].id == id;
        forall k | 0 <= k < i - 1 ensures chs[1..][k].id != id {
          assert chs[1..][k] == chs[k + 1];
        }
      }
    }
  }

  // ---------------------------------------------------------------------------
  // Grid
  // ---------------------------------------------------------------------------

  /**
   * `initChannelWidgets()` and `rearrange_grid_layout()`: the (row, column) of
   * each of `n` widgets, placed left to right, four to a row.
   */
  method GridPositions(n: nat) returns (cells: seq<(nat, nat)>)
    ensures |cells| == n
    ensures forall i :: 0 <= i < n ==> cells[i] == (i / 4, i % 4)
  {
    cells := [];
    var row, col := 0, 0;
    var i := 0;
    while i < n
      invariant 0 <= i <= n && |cells| == i
      invariant row == i / 4 && col == i % 4
      invariant forall j :: 0 <= j < i ==> cells[j] == (j / 4, j % 4)
    {
      cells := cells + [(row, col)];
      col := col + 1;
      if col > 3 {
        col := 0;
        row := row + 1;
      }
      i := i + 1;
    }
  }

  /** No two widgets share a cell, and no row holds more than four. */
  lemma GridCellsDistinct(i: nat, j: nat)
    requires i != j
    ensures (i / 4, i % 4) != (j / 4, j % 4)
    ensures i % 4 < 4
  {
    assert i == 4 * (i / 4) + i % 4;
    assert j == 4 * (j / 4) + j % 4;
  }

  // ---------------------------------------------------------------------------
  // Times shown on a widget
  // ---------------------------------------------------------------------------

  /** The dates `%Y` reads and writes with four digits. */
  predicate FourDigitYear(t: StateStore.DateTime) {
    StateStore.ValidDateTime(t) && 1000 <= t.year <= 9999
  }

  /** `strftime("%Y-%m-%d %H:%M:%S")`. */
  function FormatOpenDate(t: StateStore.DateTime): (s: string)
    requires FourDigitYear(t)
  {
    NatToStr(t.year) + "-" + Pad2(t.month) + "-" + Pad2(t.day) + " " +
      (Pad2(t.hour) + ":" + Pad2(t.minute) + ":" + Pad2(t.second))
  }

  /**
   * `strptime(s, "%Y-%m-%d %H:%M:%S")`: four year digits, one or two digits for
   * each other field, and a real date and time.
   */
  function ParseOpenDate(s: string): (r: Option<StateStore.DateTime>)
    ensures r.Some? ==> StateStore.ValidDateTime(r.value) && r.value.year >= 1
  {
    var halves := Split(s, ' ');
    if |halves| != 2 then None
    else
      var date, time := Split(halves[0], '-'), Split(halves[1], ':');
      if |date| != 3 || |time| != 3 || |date[0]| != 4 || !AllDigits(date[0]) then None
      else
        match (Smi.ClockField(date[1], 12), Smi.ClockField(date[2], 31),
               Smi.ClockField(time[0], 23), Smi.ClockField(time[1], 59), Smi.ClockField(time[2], 59))
        case (Some(mo), Some(d), Some(h), Some(mi), Some(sec)) =>
          var t := StateStore.DateTime(DigitsValue(date[0]), mo, d, h, mi, sec);
          if t.year >= 1 && StateStore.ValidDateTime(t) then Some(t) else None
        case _ => None
  }

  lemma NatToStrFourDigits(n: nat)
    requires 1000 <= n <= 9999
    ensures |NatToStr(n)| == 4
  {
    assert NatToStr(n) == NatToStr(n / 10) + [DigitChar(n % 10)];
    assert NatToStr(n / 10) == NatToStr(n / 100) + [DigitChar(n / 10 % 10)];
    assert NatToStr(n / 100) == NatToStr(n / 1000) + [DigitChar(n / 100 % 10)];
  }

  /** Every start time the window writes reads back as the same date and time. */
  lemma OpenDateRoundTrip(t: StateStore.DateTime)
    requires FourDigitYear(t)
    ensures ParseOpenDate(FormatOpenDate(t)) == Some(t)
  {
    var y, mo, d := NatToStr(t.year), Pad2(t.month), Pad2(t.day);
    var h, mi, sec := Pad2(t.hour), Pad2(t.minute), Pad2(t.second);
    var date, time := y + "-" + mo + "-" + d, h + ":" + mi + ":" + sec;
    NatToStrFourDigits(t.year);
    DigitsValueOfNatToStr(t.year);
    DigitsExclude(y, '-'); DigitsExclude(mo, '-'); DigitsExclude(d, '-');
    DigitsExclude(h, ':'); DigitsExclude(mi, ':'); DigitsExclude(sec, ':');
    DigitsExclude(y, ' '); DigitsExclude(mo, ' '); DigitsExclude(d, ' ');
    DigitsExclude(h, ' '); DigitsExclude(mi, ' '); DigitsExclude(sec, ' ');
    assert ' ' !in date;
    assert ' ' !in time;
    assert FormatOpenDate(t) == date + [' '] + time;
    Split2(date, time, ' ');
    Split3(y, mo, d, '-');
    Split3(h, mi, sec, ':');
    Smi.ClockFieldOfPad2(t.month, 12);
    Smi.ClockFieldOfPad2(t.day, 31);
    Smi.ClockFieldOfPad2(t.hour, 23);
    Smi.ClockFieldOfPad2(t.minute, 59);
    Smi.ClockFieldOfPad2(t.second, 59);
  }

  /** What a widget shows: the start time, and the time recorded so far. */
  datatype Shown = Shown(openDate: string, recordingTime: string)

  /** Seconds from `start` to `now`, less the 3-second correction, never below zero. */
  function Elapsed(start: StateStore.DateTime, now: StateStore.DateTime): (e: nat)
    requires StateStore.ValidDateTime(start) && start.year >= 1 && StateStore.ValidDateTime(now) && now.year >= 1
    ensures StateStore.Seconds(now) - StateStore.Seconds(start) >= 3 ==> e == StateStore.Seconds(now) - StateStore.Seconds(start) - 3
    ensures StateStore.Seconds(now) - StateStore.Seconds(start) <= 3 ==> e == 0
  {
    var d := StateStore.Seconds(now) - StateStore.Seconds(start) - 3;
    if d > 0 then d else 0
  }

  /**
   * What a recording channel's widget shows for the start time `openDate`: the
   * start and the elapsed time, or "00:00:00" for both when the start does not
   * parse.
   */
  function WhileRecording(openDate: string, now: StateStore.DateTime): (r: Shown)
    requires FourDigitYear(now)
    ensures ParseOpenDate(openDate).None? ==> r == Shown("00:00:00", "00:00:00")
    ensures ParseOpenDate(openDate).Some? ==> r == Shown(openDate, FormatHms(Elapsed(ParseOpenDate(openDate).value, now)))
  {
    match ParseOpenDate(openDate)
    case None => Shown("00:00:00", "00:00:00")
    case Some(start) => Shown(openDate, FormatHms(Elapsed(start, now)))
  }

  /**
   * `updateRecordingTime()` for one channel with a widget: the start time to
   * remember and what the widget shows. `cached` is the start time remembered
   * for the channel, `metaOpenDate` what the channel's metadata holds under the
   * key it is read with ("00:00:00" when the key is missing; see
   * `FirstSightOpenDateAsWritten`), and `now` the clock. The
   * start time is remembered the first time, with `now` standing in for a
   * missing one; a channel that is not recording shows "00:00:00".
   */
  function UpdateRecordingTime(cached: Option<string>, metaOpenDate: string, recording: bool, now: StateStore.DateTime)
    : (r: (string, Shown))
    requires FourDigitYear(now)
    ensures cached.Some? ==> r.0 == cached.value
    ensures cached.None? && metaOpenDate != "00:00:00" ==> r.0 == metaOpenDate
    ensures cached.None? && metaOpenDate == "00:00:00" ==> r.0 == FormatOpenDate(now)
    ensures !recording ==> r.1 == Shown(r.0, "00:00:00")
    ensures recording ==> r.1 == WhileRecording(r.0, now)
  {
    var openDate :=
      match cached
      case Some(d) => d
      case None => if metaOpenDate == "00:00:00" then FormatOpenDate(now) else metaOpenDate;
    (openDate, if recording then WhileRecording(openDate, now) else Shown(openDate, "00:00:00"))
  }

  /** A channel first seen without a start time, while recording, shows no time recorded yet. */
  lemma FirstSightShowsZero(now: StateStore.DateTime)
    requires FourDigitYear(now)
    ensures UpdateRecordingTime(None, "00:00:00", true, now).1 == Shown(FormatOpenDate(now), "00:00:00")
  {
    var d := FormatOpenDate(now);
    OpenDateRoundTrip(now);
    assert UpdateRecordingTime(None, "00:00:00", true, now).1 == WhileRecording(d, now);
    assert WhileRecording(d, now) == Shown(d, FormatHms(Elapsed(now, now)));
    assert Elapsed(now, now) == 0;
    ZeroHms();
  }

  lemma ZeroHms()
    ensures FormatHms(0) == "00:00:00"
  {
    assert Pad2(0) == "00";
  }

  /**
   * The text entries of the dictionary `get_live_metadata` stores for a channel:
   * the stream's `openDate` is kept under "recording_duration". The thumbnail URL
   * and the boolean `open_live` are not modelled.
   */
  function MetadataTexts(info: LiveMetadata.LiveInfo): (m: map<string, string>)
    ensures "openDate" !in m
    ensures "recording_duration" in m && m["recording_duration"] == info.recordingDuration
  {
    map["live_title" := info.liveTitle, "channel_name" := info.channelName,
        "recording_duration" := info.recordingDuration, "category" := info.category,
        "record_quality" := info.recordQuality, "frame_rate" := info.frameRate]
  }

  /**
   * The start time `updateRecordingTime` reads for a channel it sees for the
   * first time: `metadata.get("openDate", "00:00:00")` on the channel's
   * metadata, or on `{}` when there is none.
   */
  function FirstSightOpenDateAsWritten(meta: Option<map<string, string>>): (d: string)
    ensures meta.Some? && "openDate" in meta.value ==> d == meta.value["openDate"]
    ensures meta.None? || "openDate" !in meta.value ==> d == "00:00:00"
  {
    StateStore.Lookup(meta.GetOr(map[]), "openDate", "00:00:00")
  }

  /**
   * The stored metadata never has an "openDate" entry, so a channel seen for
   * the first time always remembers the clock, even when the stream's start
   * time is known.
   */
  lemma FirstSightIgnoresOpenDate(info: LiveMetadata.LiveInfo, recording: bool, now: StateStore.DateTime)
    requires FourDigitYear(now)
    ensures FirstSightOpenDateAsWritten(Some(MetadataTexts(info))) == "00:00:00"
    ensures UpdateRecordingTime(None, FirstSightOpenDateAsWritten(Some(MetadataTexts(info))), recording, now).0 ==
      FormatOpenDate(now)
  {
  }

  /**
   * The start time read under the key the metadata uses, "recording_duration",
   * as `update_channel_info` does after a thumbnail update.
   */
  function FirstSightOpenDate(meta: Option<map<string, string>>): (d: string)
    ensures meta.Some? && "recording_duration" in meta.value ==> d == meta.value["recording_duration"]
    ensures meta.None? || "recording_duration" !in meta.value ==> d == "00:00:00"
  {
    match meta
    case Some(m) => StateStore.Lookup(m, "recording_duration", "00:00:00")
    case None => "00:00:00"
  }

  /**
   * Read under the right key, a channel seen for the first time remembers the
   * stream's own start time whenever the metadata has one, and the clock only
   * when it has none.
   */
  lemma FirstSightUsesOpenDate(info: LiveMetadata.LiveInfo, recording: bool, now: StateStore.DateTime)
    requires FourDigitYear(now)
    ensures var d := UpdateRecordingTime(None, FirstSightOpenDate(Some(MetadataTexts(info))), recording, now).0;
      d == if info.recordingDuration == "00:00:00" then FormatOpenDate(now) else info.recordingDuration
  {
  }

  /**
   * A recording channel with a remembered start that parses shows that start
   * and the seconds since it less 3 (see `Elapsed`), whatever the stream's
   * metadata now says.
   */
  lemma RecordingShowsElapsed(d: string, meta: string, start: StateStore.DateTime, now: StateStore.DateTime)
    requires FourDigitYear(now) && ParseOpenDate(d) == Some(start)
    ensures UpdateRecordingTime(Some(d), meta, true, now) == (d, Shown(d, FormatHms(Elapsed(start, now))))
  {
    var shown := UpdateRecordingTime(Some(d), meta, true, now).1;
    assert shown == WhileRecording(d, now);
  }


  lemma ElapsedIs(start: StateStore.DateTime, now: StateStore.DateTime, e: nat)
    requires StateStore.ValidDateTime(now) && now.year >= 1 && StateStore.ValidDateTime(start) && start.year >= 1
    requires StateStore.Seconds(now) == StateStore.Seconds(start) + e && e >= 3
    ensures Elapsed(start, now) == e - 3
  {
  }

}

=== FILE: chat_log.dfy ===
/**
 * The chat logger of `run.py` (`ChzzkChat.run`): each message received from the
 * chat server is a command; chat and donation commands carry a body of entries,
 * and each entry that can be read becomes one line of the chat log,
 * `[HH:MM:SS][채팅] nickname(uid) : message` or its `[후원]` form. A ping is
 * answered with a pong. Whatever raises inside the handling of a message ends
 * that message and makes the client reconnect.
 *
 * The socket, JSON decoding and the local-time conversion of `msgTime` are
 * outside the model: a message arrives already decoded, with the local time of
 * day of each entry in seconds.
 */
module ChatLog {
  import opened Wrappers
  import opened Text

  const ChatKind: string := "채팅"
  const DonationKind: string := "후원"
  const AnonymousUid: string := "anonymous"
  const AnonymousNickname: string := "익명의 후원자"
  const UnknownUser: string := "Unknown"
  const DefaultAmount: string := "0"
  const DefaultCurrency: string := "KRW"

  /** A time of day in seconds after midnight. */
  type TimeOfDay = t: nat | t < 86400

  /** The `cmd` of a message, as `CHZZK_CHAT_CMD` names them. */
  datatype Command = Ping | Chat | Donation | OtherCommand

  /**
   * The `profile` field of an entry: missing or not JSON, a JSON value that is
   * not an object (indexing it raises a `TypeError`, which is not caught), or an
   * object with or without a `nickname`.
   */
  datatype Profile = ProfileUnreadable | ProfileNotObject | ProfileObject(nickname: Option<string>)

  /** The `extras` field of a donation, read the same way; values are kept as the text `str()` gives them. */
  datatype Extras = ExtrasUnreadable | ExtrasNotObject | ExtrasObject(amount: Option<string>, currency: Option<string>)

  /** One element of a message body; a missing key is `None`. */
  datatype Entry = Entry(uid: Option<string>, profile: Profile, msg: Option<string>, time: Option<TimeOfDay>, extras: Extras)

  /** A received message: not decodable or without `cmd`, or a command with its optional `bdy`. */
  datatype Raw = Unreadable | Message(cmd: Command, body: Option<seq<Entry>>)

  /** What the handling of one message did: the log lines written, whether a pong was sent, whether it reconnects. */
  datatype Handled = Handled(lines: seq<string>, pong: bool, reconnect: bool)

  /** One log line: `[time][kind] nickname(uid) : text`. */
  function LogLine(time: string, kind: string, nickname: string, uid: string, text: string): (r: string)
    ensures StartsWith(r, "[" + time + "][" + kind + "] " + nickname + "(" + uid + ")")
    ensures EndsWith(r, ") : " + text)
    ensures |r| == |time| + |kind| + |nickname| + |uid| + |text| + 10
  {
    "[" + (time + ("][" + (kind + ("] " + (nickname + ("(" + (uid + (") : " + text))))))))
  }

  /** The text after the colon of a donation whose extras could be read: the message and `(amount currency)`. */
  function DonationText(msg: string, amount: Option<string>, currency: Option<string>): (t: string)
    ensures EndsWith(t, " (" + amount.GetOr(DefaultAmount) + " " + currency.GetOr(DefaultCurrency) + ")")
    ensures StartsWith(t, msg)
  {
    msg + (" (" + amount.GetOr(DefaultAmount) + " " + currency.GetOr(DefaultCurrency) + ")")
  }

  /** Who speaks in an entry: a nickname and uid, an entry that is skipped, or a lookup that raises. */
  datatype Speaker = Skip | Raise | Speaker(nickname: string, uid: string)

  function SpeakerOf(e: Entry): (r: Speaker)
    ensures e.uid == Some(AnonymousUid) ==> r == Speaker(AnonymousNickname, AnonymousUid)
    ensures r.Skip? <==> e.uid.Some? && e.uid.value != AnonymousUid && !e.profile.ProfileNotObject? && e.msg.None?
    ensures r.Raise? <==> e.uid.None? || (e.uid.value != AnonymousUid && e.profile.ProfileNotObject?)
  {
    match e.uid
    case None => Raise
    case Some(uid) =>
      if uid == AnonymousUid then Speaker(AnonymousNickname, AnonymousUid)
      else
        var who :=
          match e.profile
          case ProfileObject(Some(n)) => Speaker(n, uid)
          case ProfileNotObject => Raise
          case _ => Speaker(UnknownUser, UnknownUser);
        if who.Raise? then Raise
        else if e.msg.None? then Skip
        else who
  }

  /** The outcome of one entry: its log line, nothing, or an exception. */
  datatype Outcome = Line(line: string) | Skipped | Raised

  /** The log line of one entry of a chat or donation command. */
  function EntryOutcome(cmd: Command, e: Entry): (r: Outcome)
    ensures r.Skipped? <==> SpeakerOf(e).Skip?
    ensures r.Line? ==> StartsWith(r.line, "[")
  {
    match SpeakerOf(e)
    case Skip => Skipped
    case Raise => Raised
    case Speaker(nickname, uid) =>
      if e.time.None? || e.msg.None? then Raised
      else
        var time := FormatHms(e.time.value);
        var msg := e.msg.value;
        if cmd == Donation then
          match e.extras
          case ExtrasNotObject => Raised
          case ExtrasUnreadable => Line(LogLine(time, DonationKind, nickname, uid, msg))
          case ExtrasObject(amount, currency) => Line(LogLine(time, DonationKind, nickname, uid, DonationText(msg, amount, currency)))
        else Line(LogLine(time, ChatKind, nickname, uid, msg))
  }

  /** The lines of a body up to the first entry that raises, and whether one did. */
  function BodyLines(cmd: Command, es: seq<Entry>): (r: (seq<string>, bool))
    ensures |r.0| <= |es|
    ensures !r.1 <==> forall i :: 0 <= i < |es| ==> !EntryOutcome(cmd, es[i]).Raised?
  {
    if |es| == 0 then ([], false)
    else
      match EntryOutcome(cmd, es[0])
      case Raised => ([], true)
      case Skipped => BodyLines(cmd, es[1..])
      case Line(l) => var rest := BodyLines(cmd, es[1..]); ([l] + rest.0, rest.1)
  }

  /**
   * The handling of one message. `channelMoved` is whether the chat channel id
   * fetched again on a ping differs from the one connected to.
   */
  function Handle(raw: Raw, channelMoved: bool): (r: Handled)
    ensures r.pong <==> raw.Message? && raw.cmd == Ping
    ensures |r.lines| > 0 ==> raw.Message? && (raw.cmd == Chat || raw.cmd == Donation)
    ensures raw.Unreadable? ==> r.reconnect
    ensures raw.Message? && raw.cmd == OtherCommand ==> r == Handled([], false, false)
  {
    match raw
    case Unreadable => Handled([], false, true)
    case Message(cmd, body) =>
      if cmd == Ping then Handled([], true, channelMoved)
      else if cmd == OtherCommand then Handled([], false, false)
      else if body.None? then Handled([], false, true)
      else
        var (lines, raised) := BodyLines(cmd, body.value);
        assert cmd == Chat || cmd == Donation;
        Handled(lines, false, raised)
  }

  /** The entries of a body that yield a line, each replaced by its line. */
  function Written(cmd: Command, es: seq<Entry>): seq<string> {
    if |es| == 0 then []
    else (if EntryOutcome(cmd, es[0]).Line? then [EntryOutcome(cmd, es[0]).line] else []) + Written(cmd, es[1..])
  }

  /** One step of `BodyLines` over an entry that does not raise. */
  lemma BodyStep(cmd: Command, es: seq<Entry>)
    requires |es| > 0 && !EntryOutcome(cmd, es[0]).Raised?
    ensures BodyLines(cmd, es).0 == Written(cmd, es[..1]) + BodyLines(cmd, es[1..]).0
    ensures BodyLines(cmd, es).1 == BodyLines(cmd, es[1..]).1
  {
    var o := EntryOutcome(cmd, es[0]);
    var one := es[..1];
    assert one[0] == es[0] && one[1..] == [];
    assert Written(cmd, one[1..]) == [];
    if o.Line? {
      assert Written(cmd, one) == [o.line];
    } else {
      assert Written(cmd, one) == [];
    }
  }

  /** When no entry raises, every readable entry is logged, in order, and the client stays connected. */
  lemma {:induction false} BodyWritesEveryLine(cmd: Command, es: seq<Entry>)
    requires forall i :: 0 <= i < |es| ==> !EntryOutcome(cmd, es[i]).Raised?
    ensures BodyLines(cmd, es) == (Written(cmd, es), false)
  {
    if |es| > 0 {
      assert !EntryOutcome(cmd, es[0]).Raised?;
      assert forall i :: 0 <= i < |es| - 1 ==> es[1..][i] == es[i + 1];
      BodyWritesEveryLine(cmd, es[1..]);
      BodyStep(cmd, es);
      WrittenSplit(cmd, es);
    }
  }

  /** `Written` of a body is that of its first entry followed by that of the rest. */
  lemma WrittenSplit(cmd: Command, es: seq<Entry>)
    requires |es| > 0
    ensures Written(cmd, es) == Written(cmd, es[..1]) + Written(cmd, es[1..])
  {
    assert es[..1][1..] == [];
    assert es[..1][0] == es[0];
  }

  /** An entry that raises ends the body: the entries after it are not logged and the client reconnects. */
  lemma {:induction false} RaiseDropsTheRest(cmd: Command, es: seq<Entry>, k: nat)
    requires k < |es| && EntryOutcome(cmd, es[k]).Raised?
    requires forall i :: 0 <= i < k ==> !EntryOutcome(cmd, es[i]).Raised?
    ensures BodyLines(cmd, es) == (Written(cmd, es[..k]), true)
  {
    if k == 0 {
      assert es[..0] == [];
    } else {
      assert !EntryOutcome(cmd, es[0]).Raised?;
      assert forall i :: 0 <= i < |es| - 1 ==> es[1..][i] == es[i + 1];
      RaiseDropsTheRest(cmd, es[1..], k - 1);
      BodyStep(cmd, es);
      WrittenSplit(cmd, es[..k]);
      assert es[..k][..1] == es[..1];
      assert es[1..][..k - 1] == es[..k][1..];
    }
  }

  /** A chat entry of a user with a readable profile is logged as `[HH:MM:SS][채팅] nickname(uid) : msg`. */
  lemma ChatEntryLine(e: Entry, nickname: string, uid: string, msg: string, time: TimeOfDay)
    requires e.uid == Some(uid) && uid != AnonymousUid
    requires e.profile == ProfileObject(Some(nickname)) && e.msg == Some(msg) && e.time == Some(time)
    ensures EntryOutcome(Chat, e) ==
      Line(LogLine(FormatHms(time), ChatKind, nickname, uid, msg))
  {
  }

  /** A donation is logged with `(amount currency)` after the message, defaulting to `0` and `KRW`, or without it when the extras cannot be read. */
  lemma DonationEntryLine(e: Entry, nickname: string, uid: string, msg: string, time: TimeOfDay)
    requires SpeakerOf(e) == Speaker(nickname, uid) && e.msg == Some(msg) && e.time == Some(time)
    ensures e.extras.ExtrasObject? && e.extras.amount.None? && e.extras.currency.None? ==>
      EntryOutcome(Donation, e) == Line(LogLine(FormatHms(time), DonationKind, nickname, uid, msg + " (0 KRW)"))
    ensures e.extras.ExtrasUnreadable? ==>
      EntryOutcome(Donation, e) == Line(LogLine(FormatHms(time), DonationKind, nickname, uid, msg))
    ensures e.extras.ExtrasNotObject? ==> EntryOutcome(Donation, e) == Raised
  {
    if e.extras.ExtrasObject? && e.extras.amount.None? && e.extras.currency.None? {
      assert DonationText(msg, e.extras.amount, e.extras.currency) == msg + " (0 KRW)";
    }
  }

  /** An unreadable profile logs the entry as `Unknown(Unknown)`; an anonymous donor as `익명의 후원자(anonymous)`. */
  lemma UnknownSpeaker(e: Entry)
    requires e.uid.Some? && e.uid.value != AnonymousUid && e.msg.Some?
    requires e.profile.ProfileUnreadable? || e.profile == ProfileObject(None)
    ensures SpeakerOf(e) == Speaker(UnknownUser, UnknownUser)
  {
  }

  // ---------------------------------------------------------------------------
  // get_color_for_user
  // ---------------------------------------------------------------------------

  /** The value of two lower-case hexadecimal digits, as `int(s, 16)`. */
  function HexByte(hi: char, lo: char): (v: nat)
    requires IsLowerHex(hi) && IsLowerHex(lo)
    ensures v < 256
  {
    HexValue(hi) * 16 + HexValue(lo)
  }

  predicate HexDigest(d: string) {
    |d| >= 6 && forall i :: 0 <= i < |d| ==> IsLowerHex(d[i])
  }

  /**
   * The three colour components `get_color_for_user` takes from the md5 hex
   * digest of the uid (the digest is given): bytes 0, 1 and 2, each reduced
   * modulo 156 and raised by 100.
   */
  function ColorComponents(digest: string): (c: seq<nat>)
    requires HexDigest(digest)
    ensures |c| == 3
    ensures forall i :: 0 <= i < 3 ==> 100 <= c[i] <= 255
    ensures forall i :: 0 <= i < 3 ==> c[i] - 100 == HexByte(digest[2 * i], digest[2 * i + 1]) % 156
  {
    seq(3, i requires 0 <= i < 3 => HexByte(digest[2 * i], digest[2 * i + 1]) % 156 + 100)
  }

  /** The ANSI 24-bit foreground colour sequence `ESC[38;2;r;g;bm`. */
  function ColorCode(digest: string): (s: string)
    requires HexDigest(digest)
  {
    var c := ColorComponents(digest);
    "\U{1B}[" + Join(["38", "2", NatToStr(c[0]), NatToStr(c[1]), NatToStr(c[2])], ';') + "m"
  }

  /** The colour sequence reads back as `38;2` and three components, each from 100 to 255. */
  lemma ColorCodeReadsBack(digest: string)
    requires HexDigest(digest)
    ensures var s := ColorCode(digest);
      StartsWith(s, "\U{1B}[") && EndsWith(s, "m") &&
      var fields := Split(s[2..|s| - 1], ';');
      |fields| == 5 && fields[0] == "38" && fields[1] == "2" &&
      forall i :: 2 <= i < 5 ==> ParseNat(fields[i]).Some? && 100 <= ParseNat(fields[i]).value <= 255
  {
    var c := ColorComponents(digest);
    var s := ColorCode(digest);
    var parts := ["38", "2", NatToStr(c[0]), NatToStr(c[1]), NatToStr(c[2])];
    var inner := Join(parts, ';');
    assert s == "\U{1B}[" + inner + "m";
    assert s[2..|s| - 1] == inner;
    ColorFields(parts, c[0], c[1], c[2]);
  }

  /** The `;`-separated fields of the colour sequence read back as `38`, `2` and the three components. */
  lemma ColorFields(parts: seq<string>, r: nat, g: nat, b: nat)
    requires |parts| == 5 && parts[0] == "38" && parts[1] == "2"
    requires parts[2] == NatToStr(r) && parts[3] == NatToStr(g) && parts[4] == NatToStr(b)
    requires 100 <= r <= 255 && 100 <= g <= 255 && 100 <= b <= 255
    ensures Split(Join(parts, ';'), ';') == parts
    ensures forall i :: 2 <= i < 5 ==> ParseNat(parts[i]).Some? && 100 <= ParseNat(parts[i]).value <= 255
  {
    assert ';' !in parts[0] && ';' !in parts[1];
    DigitsExclude(parts[2], ';');
    DigitsExclude(parts[3], ';');
    DigitsExclude(parts[4], ';');
    assert forall k :: 0 <= k < |parts| ==> ';' !in parts[k] by {
      forall k | 0 <= k < |parts| ensures ';' !in parts[k] {
        assert k == 0 || k == 1 || k == 2 || k == 3 || k == 4;
      }
    }
    SplitJoin(parts, ';');
    ParseNatOfNatToStr(r);
    ParseNatOfNatToStr(g);
    ParseNatOfNatToStr(b);
    forall i | 2 <= i < 5 ensures ParseNat(parts[i]).Some? && 100 <= ParseNat(parts[i]).value <= 255 {
      assert i == 2 || i == 3 || i == 4;
    }
  }
}

=== FILE: command_builder.dfy ===
/**
 * The streamlink command line of `Live_recorder.py` (`buildCommand` and
 * `_create_filename`). It covers the plugin directory, the time-machine start
 * offset, the file name made from the configured template, and the chat-log
 * path next to the recording.
 */
module CommandBuilder {
  import opened Wrappers
  import opened Text
  import opened Channels
  import opened LiveMetadata

  const BasicPlugin: string := "기본 플러그인"
  const TimeMachinePlugin: string := "타임머신 플러그인"
  const TimeMachinePlusPlugin: string := "타임머신 플러스 플러그인"

  predicate IsTimeMachine(plugin: string) {
    plugin == TimeMachinePlugin || plugin == TimeMachinePlusPlugin
  }

  /** The folder under `dependent/plugin` holding the selected streamlink plugin. */
  function PluginFolder(plugin: string): (f: string)
    ensures f in {"basic", "timemachine", "timemachine_plus"}
    ensures f == "basic" <==> !IsTimeMachine(plugin)
  {
    if plugin == BasicPlugin then "basic"
    else if plugin == TimeMachinePlugin then "timemachine"
    else if plugin == TimeMachinePlusPlugin then "timemachine_plus"
    else "basic"
  }

  // ---------------------------------------------------------------------------
  // File names
  // ---------------------------------------------------------------------------

  /**
   * The characters the title clean-up keeps: `\w`, `\s`, the Hangul ranges and
   * `- _ . ! ~ * ' ( )`.
   */
  predicate TitleChar(c: char) {
    IsWordChar(c) || IsSpace(c) || 'ㄱ' <= c <= 'ㅣ' || '가' <= c <= '힣' ||
    c in "-_.!~*'()"
  }

  function DropDisallowed(s: string): (r: string)
    ensures |r| <= |s| && r == s[|s| - |r|..]
    ensures |r| > 0 ==> TitleChar(r[0])
  {
    if |s| > 0 && !TitleChar(s[0]) then DropDisallowed(s[1..]) else s
  }

  /** `re.sub(r'[^...]+', '_', title)`: every run of other characters becomes one underscore. */
  function SafeTitle(s: string): (r: string)
    ensures forall i :: 0 <= i < |r| ==> TitleChar(r[i])
    ensures |r| <= |s|
    decreases |s|
  {
    if |s| == 0 then ""
    else if TitleChar(s[0]) then [s[0]] + SafeTitle(s[1..])
    else "_" + SafeTitle(DropDisallowed(s[1..]))
  }

  /** A title made only of kept characters is left as it is; in particular the clean-up is idempotent. */
  lemma {:induction false} SafeTitleKeeps(s: string)
    requires forall i :: 0 <= i < |s| ==> TitleChar(s[i])
    ensures SafeTitle(s) == s
    decreases |s|
  {
    if |s| > 0 {
      SafeTitleKeeps(s[1..]);
    }
  }

  lemma SafeTitleIdempotent(s: string)
    ensures SafeTitle(SafeTitle(s)) == SafeTitle(s)
  {
    SafeTitleKeeps(SafeTitle(s));
  }

  /** Dropping a leading disallowed run stops where an allowed character begins what follows. */
  lemma {:induction false} DropAppend(a: string, b: string)
    requires |b| == 0 || TitleChar(b[0])
    ensures DropDisallowed(a + b) == DropDisallowed(a) + b
    decreases |a|
  {
    if |a| == 0 {
      assert a + b == b;
    } else if !TitleChar(a[0]) {
      assert (a + b)[1..] == a[1..] + b;
      DropAppend(a[1..], b);
    }
  }

  /**
   * The clean-up works piece by piece: cut a title anywhere but inside a run of
   * disallowed characters, and the cleaned title is the two cleaned pieces.
   */
  lemma {:induction false} SafeTitleAppend(a: string, b: string)
    requires |b| == 0 || TitleChar(b[0])
    ensures SafeTitle(a + b) == SafeTitle(a) + SafeTitle(b)
    decreases |a|
  {
    if |a| == 0 {
      assert a + b == b;
    } else if TitleChar(a[0]) {
      assert (a + b)[1..] == a[1..] + b;
      SafeTitleAppend(a[1..], b);
    } else {
      assert (a + b)[1..] == a[1..] + b;
      DropAppend(a[1..], b);
      var d := DropDisallowed(a[1..]);
      SafeTitleAppend(d, b);
    }
  }

  /** A whole run of disallowed characters, however long, becomes a single `_`. */
  lemma SafeTitleRun(run: string, rest: string)
    requires |run| > 0 && forall i :: 0 <= i < |run| ==> !TitleChar(run[i])
    requires |rest| == 0 || TitleChar(rest[0])
    ensures SafeTitle(run + rest) == "_" + SafeTitle(rest)
  {
    RunSplit(run, rest);
    DropRun(run[1..], rest);
    SafeTitleSkips(run + rest, run[1..] + rest);
  }

  /** After its first character, a disallowed run is still a disallowed run. */
  lemma RunSplit(run: string, rest: string)
    requires |run| > 0 && forall i :: 0 <= i < |run| ==> !TitleChar(run[i])
    ensures !TitleChar((run + rest)[0]) && (run + rest)[1..] == run[1..] + rest
    ensures forall i :: 0 <= i < |run[1..]| ==> !TitleChar(run[1..][i])
  {
    var tail := run[1..];
    forall i | 0 <= i < |tail| ensures !TitleChar(tail[i]) {
      assert tail[i] == run[i + 1];
    }
  }

  /** Dropping a disallowed run stops exactly where the run ends. */
  lemma {:induction false} DropRun(tail: string, rest: string)
    requires forall i :: 0 <= i < |tail| ==> !TitleChar(tail[i])
    requires |rest| == 0 || TitleChar(rest[0])
    ensures DropDisallowed(tail + rest) == rest
    decreases |tail|
  {
    if |tail| == 0 {
      assert tail + rest == rest;
    } else {
      assert (tail + rest)[0] == tail[0];
      assert (tail + rest)[1..] == tail[1..] + rest;
      DropRun(tail[1..], rest);
    }
  }

  lemma SafeTitleSkips(s: string, tail: string)
    requires |s| > 0 && !TitleChar(s[0]) && s[1..] == tail
    ensures SafeTitle(s) == "_" + SafeTitle(DropDisallowed(tail))
  {
  }

  /** Channel name clean-up: spaces become underscores, then only alphanumerics and underscores stay. */
  function SafeChannelName(name: string): (r: string)
    ensures forall i :: 0 <= i < |r| ==> IsWordChar(r[i])
    ensures |r| <= |name|
  {
    if |name| == 0 then ""
    else
      var c := if name[0] == ' ' then '_' else name[0];
      (if IsWordChar(c) then [c] else []) + SafeChannelName(name[1..])
  }

  /** The clean-up keeps every word character and every space (as `_`), in order, and drops the rest. */
  lemma {:induction false} SafeChannelNameCount(name: string)
    ensures |SafeChannelName(name)| == |KeptChars(name)|
    ensures SafeChannelName(name) == KeptChars(name)
    decreases |name|
  {
    if |name| > 0 {
      SafeChannelNameCount(name[1..]);
    }
  }

  /** The reference: the characters of `name` that are word characters or spaces, spaces shown as `_`. */
  function KeptChars(name: string): (r: string)
    ensures |r| <= |name|
  {
    if |name| == 0 then ""
    else if name[0] == ' ' then "_" + KeptChars(name[1..])
    else if IsWordChar(name[0]) then [name[0]] + KeptChars(name[1..])
    else KeptChars(name[1..])
  }

  lemma {:induction false} SafeChannelNameIdempotent(name: string)
    ensures SafeChannelName(SafeChannelName(name)) == SafeChannelName(name)
  {
    WordOnlyUnchanged(SafeChannelName(name));
  }

  lemma {:induction false} WordOnlyUnchanged(s: string)
    requires forall i :: 0 <= i < |s| ==> IsWordChar(s[i])
    ensures SafeChannelName(s) == s
    decreases |s|
  {
    if |s| > 0 {
      WordOnlyUnchanged(s[1..]);
    }
  }

  // ---------------------------------------------------------------------------
  // The `str.format` template
  // ---------------------------------------------------------------------------

  /** A parsed format string: literal characters and `{name}` replacement fields. */
  datatype Piece = Lit(c: char) | Field(name: string)

  /**
   * `str.format`'s reading of a template: `{{` and `}}` are literal braces, `{name}`
   * is a field, and an unmatched brace is an error (`None`). Format specifications
   * and conversions are not split off: they stay part of the field name.
   */
  function ParseTemplate(s: string): (r: Option<seq<Piece>>)
    decreases |s|
  {
    if |s| == 0 then Some([])
    else if s[0] == '{' then
      if |s| > 1 && s[1] == '{' then
        match ParseTemplate(s[2..]) case None => None case Some(ps) => Some([Lit('{')] + ps)
      else if '}' !in s[1..] then None
      else
        var j := FirstIndex(s[1..], '}');
        var name := s[1..j + 1];
        if '{' in name then None
        else match ParseTemplate(s[j + 2..]) case None => None case Some(ps) => Some([Field(name)] + ps)
    else if s[0] == '}' then
      if |s| > 1 && s[1] == '}' then
        match ParseTemplate(s[2..]) case None => None case Some(ps) => Some([Lit('}')] + ps)
      else None
    else
      match ParseTemplate(s[1..]) case None => None case Some(ps) => Some([Lit(s[0])] + ps)
  }

  /** The template text of one piece: a brace doubled, a field in braces. */
  function PieceText(p: Piece): string {
    match p
    case Lit(c) => if c == '{' then "{{" else if c == '}' then "}}" else [c]
    case Field(n) => "{" + (n + "}")
  }

  /** The template text of a parsed template, braces doubled: the inverse of `ParseTemplate`. */
  function Unparse(ps: seq<Piece>): string {
    if |ps| == 0 then "" else PieceText(ps[0]) + Unparse(ps[1..])
  }

  predicate PlainFields(ps: seq<Piece>) {
    forall k :: 0 <= k < |ps| && ps[k].Field? ==> '{' !in ps[k].name && '}' !in ps[k].name
  }

  lemma {:induction false} ParseUnparse(ps: seq<Piece>)
    requires PlainFields(ps)
    ensures ParseTemplate(Unparse(ps)) == Some(ps)
    decreases |ps|
  {
    if |ps| > 0 {
      assert PlainFields(ps[1..]) by {
        forall k | 0 <= k < |ps[1..]| && ps[1..][k].Field?
          ensures '{' !in ps[1..][k].name && '}' !in ps[1..][k].name
        {
          assert ps[1..][k] == ps[k + 1];
        }
      }
      ParseUnparse(ps[1..]);
      ParsePiece(ps[0], Unparse(ps[1..]), ps[1..]);
      assert [ps[0]] + ps[1..] == ps;
    }
  }

  /** A piece's text in front of a template adds that piece in front of its parse. */
  lemma ParsePiece(p: Piece, rest: string, ps: seq<Piece>)
    requires p.Field? ==> '{' !in p.name && '}' !in p.name
    requires ParseTemplate(rest) == Some(ps)
    ensures ParseTemplate(PieceText(p) + rest) == Some([p] + ps)
  {
    match p
    case Lit(c) => ParseLit(c, rest, ps);
    case Field(n) => ParseField(n, rest, ps);
  }

  lemma ParseLit(c: char, rest: string, ps: seq<Piece>)
    requires ParseTemplate(rest) == Some(ps)
    ensures ParseTemplate(PieceText(Lit(c)) + rest) == Some([Lit(c)] + ps)
  {
    var s := PieceText(Lit(c)) + rest;
    if c == '{' || c == '}' {
      assert s[0] == c && s[1] == c && s[2..] == rest;
    } else {
      assert s[0] == c && s[1..] == rest;
    }
  }

  lemma ParseField(n: string, rest: string, ps: seq<Piece>)
    requires '{' !in n && '}' !in n
    requires ParseTemplate(rest) == Some(ps)
    ensures ParseTemplate(PieceText(Field(n)) + rest) == Some([Field(n)] + ps)
  {
    var s := PieceText(Field(n)) + rest;
    var t := s[1..];
    assert s[0] == '{';
    assert t == n + ("}" + rest);
    FirstIndexAfter(n, '}', rest);
    assert '}' in t && FirstIndex(t, '}') == |n|;
    assert s[1..|n| + 1] == n;
    assert s[|n| + 2..] == rest;
  }

  /** A template without braces is one literal run, and filling it gives it back. */
  lemma {:induction false} PlainTemplate(s: string, fields: map<string, string>)
    requires '{' !in s && '}' !in s
    ensures ParseTemplate(s).Some?
    ensures Fill(ParseTemplate(s).value, fields) == Some(s)
    decreases |s|
  {
    if |s| > 0 {
      assert '{' !in s[1..] && '}' !in s[1..];
      PlainTemplate(s[1..], fields);
      assert s == [s[0]] + s[1..];
    }
  }

  /** Substitutes every field; an unknown field name is the `KeyError` of `str.format` (`None`). */
  function Fill(ps: seq<Piece>, fields: map<string, string>): (r: Option<string>)
    ensures r.None? <==> exists k :: 0 <= k < |ps| && ps[k].Field? && ps[k].name !in fields
  {
    if |ps| == 0 then Some("")
    else
      var head: Option<string> := match ps[0]
        case Lit(c) => Some([c])
        case Field(n) => if n in fields then Some(fields[n]) else None;
      match (head, Fill(ps[1..], fields))
      case (Some(h), Some(t)) =>
        assert forall k :: 0 < k < |ps| ==> ps[k] == ps[1..][k - 1];
        Some(h + t)
      case _ =>
        assert forall k :: 0 <= k < |ps| - 1 ==> ps[1..][k] == ps[k + 1];
        None
  }

  /** The names of the values `_create_filename` passes to the template. */
  const TemplateFieldNames: set<string> :=
    {"recording_time", "start_time", "safe_live_title", "channel_name", "record_quality", "frame_rate", "file_extension"}

  /** The values `_create_filename` passes to the template. */
  function TemplateFields(recordingTime: string, startTime: string, title: string, channelName: string,
                          quality: string, frameRate: string, extension: string): (fields: map<string, string>)
    ensures fields.Keys == TemplateFieldNames
  {
    map["recording_time" := recordingTime, "start_time" := startTime,
        "safe_live_title" := title, "channel_name" := channelName,
        "record_quality" := quality, "frame_rate" := frameRate,
        "file_extension" := extension]
  }

  /** Why a command could not be built; `TemplateError` and `MissingOutputDir` are exceptions in the source. */
  datatype BuildError = TemplateError | MissingOutputDir | MissingCookies(recorded: string)

  /** What `_create_filename` produces: no channel (`None`), a template failure, or the name. */
  datatype NameResult = UnknownChannel | BadTemplate | Name(file: string)

  /**
   * `_create_filename(channel_id, metadata, extension)`: the configured template
   * filled from the clock strings, the cleaned-up title and channel name, and the
   * chosen quality and frame rate.
   */
  function CreateFilename(channels: seq<Channel>, id: string, info: LiveInfo, extension: string,
                          pattern: string, recordingTime: string, startTime: string): (r: NameResult)
    ensures r == UnknownChannel <==> FindChannel(channels, id).None?
    ensures r.Name? ==> ParseTemplate(pattern).Some?
    ensures r.Name? ==> Fill(ParseTemplate(pattern).value, TemplateFields(recordingTime, startTime, SafeTitle(info.liveTitle),
        SafeChannelName(FindChannel(channels, id).value.name), info.recordQuality, info.frameRate, extension)) == Some(r.file)
  {
    match FindChannel(channels, id)
    case None => UnknownChannel
    case Some(ch) =>
      var fields := TemplateFields(recordingTime, startTime, SafeTitle(info.liveTitle),
        SafeChannelName(ch.name), info.recordQuality, info.frameRate, extension);
      match ParseTemplate(pattern)
      case None => BadTemplate
      case Some(ps) =>
        match Fill(ps, fields)
        case None => BadTemplate
        case Some(f) => Name(f)
  }

  // ---------------------------------------------------------------------------
  // The command
  // ---------------------------------------------------------------------------

  /** What the environment supplies: directories, tool paths, the cookie file and the clock. */
  datatype Env = Env(
    appDir: string,
    cwd: string,
    streamlink: string,
    ffmpeg: string,
    cookies: Option<map<string, string>>,
    recordingTime: string,
    startTime: string)

  /** A built command with the paths it writes to and the start offset it asked for. */
  datatype Built = Built(argv: seq<string>, outputPath: string, chatLogPath: string, timeShift: int)

  datatype BuildResult = Command(built: Built) | NoFilename | Failed(error: BuildError)

  /** `os.path.splitext(path)[0] + ".log"`. */
  function ChatLogPath(path: string): (r: string)
    ensures EndsWith(r, ".log")
    ensures r[..|r| - 4] == SplitExt(path).0
  {
    var r := SplitExt(path).0 + ".log";
    assert r[|r| - 4..] == ".log";
    r
  }

  /** The chat log sits next to the recording, with the recording's extension replaced by `.log`. */
  lemma ChatLogPathSplits(path: string)
    requires exists k :: LastIndex(SplitExt(path).0, Sep) < k < |SplitExt(path).0| && SplitExt(path).0[k] != '.'
    ensures SplitExt(ChatLogPath(path)) == (SplitExt(path).0, ".log")
  {
    var root := SplitExt(path).0;
    var r := ChatLogPath(path);
    assert r == root + ".log";
    var k :| LastIndex(root, Sep) < k < |root| && root[k] != '.';
    LastIndexIsLast(r, '.', |root|);
    LastIndexOfExtension(root, r);
    assert r[k] == root[k];
  }

  lemma LastIndexOfExtension(root: string, r: string)
    requires r == root + ".log"
    ensures LastIndex(r, Sep) == LastIndex(root, Sep)
    decreases |r|
  {
    assert r[..|r| - 1] == root + ".lo";
    assert r[..|r| - 1][..|r| - 2] == root + ".l";
    assert r[..|r| - 1][..|r| - 2][..|r| - 3] == root + ".";
    assert r[..|r| - 1][..|r| - 2][..|r| - 3][..|r| - 4] == root;
  }

  const StreamlinkTail: seq<string> :=
    ["--hls-live-restart", "--stream-segment-timeout", "5", "--stream-segment-attempts", "5"]

  /** The argument vector, given the output path and the cookie header value. */
  function Argv(env: Env, plugin: string, timeShift: int, channelId: string, quality: string,
                out: string, cookie: string): (argv: seq<string>)
    ensures |argv| == if IsTimeMachine(plugin) then 20 else 19
    ensures argv[0] == env.streamlink && argv[1] == "--ffmpeg-copyts" && argv[2] == "--plugin-dirs"
    ensures argv[3] == PathJoin(PathJoin(PathJoin(env.appDir, "dependent"), "plugin"), PluginFolder(plugin))
    ensures argv[4] == "https://chzzk.naver.com/live/" + channelId
    ensures argv[5] == quality && argv[6] == "-o" && argv[7] == out
    ensures argv[8] == "--ffmpeg-ffmpeg" && argv[9] == env.ffmpeg && argv[10] == "--hls-live-edge" && argv[11] == "1"
    ensures argv[12] == "--http-header" && argv[13] == "Cookie=" + cookie
    ensures argv[|argv| - 5..] == StreamlinkTail
    ensures IsTimeMachine(plugin) ==> argv[14] == "--hls-start-offset=" + IntToStr(timeShift)
  {
    var pluginDir := PathJoin(PathJoin(PathJoin(env.appDir, "dependent"), "plugin"), PluginFolder(plugin));
    var offset := if IsTimeMachine(plugin) then ["--hls-start-offset=" + IntToStr(timeShift)] else [];
    Words(env.streamlink, pluginDir, "https://chzzk.naver.com/live/" + channelId, quality, out, env.ffmpeg,
          "Cookie=" + cookie, offset)
  }

  /** The streamlink words laid out in order, whatever the values are. */
  function Words(exe: string, pluginDir: string, url: string, quality: string, out: string, ffmpeg: string,
                 header: string, offset: seq<string>): (argv: seq<string>)
    ensures |argv| == 19 + |offset|
    ensures argv[0] == exe && argv[1] == "--ffmpeg-copyts" && argv[2] == "--plugin-dirs" && argv[3] == pluginDir
    ensures argv[4] == url && argv[5] == quality && argv[6] == "-o" && argv[7] == out
    ensures argv[8] == "--ffmpeg-ffmpeg" && argv[9] == ffmpeg && argv[10] == "--hls-live-edge" && argv[11] == "1"
    ensures argv[12] == "--http-header" && argv[13] == header
    ensures argv[14..14 + |offset|] == offset && argv[14 + |offset|..] == StreamlinkTail
  {
    var head := [exe, "--ffmpeg-copyts", "--plugin-dirs", pluginDir, url, quality, "-o", out,
                 "--ffmpeg-ffmpeg", ffmpeg, "--hls-live-edge", "1", "--http-header", header];
    assert (head + offset + StreamlinkTail)[14..14 + |offset|] == offset;
    head + offset + StreamlinkTail
  }

  /** `NID_SES=…; NID_AUT=…` from the cookie file; `None` when the file or a key is missing. */
  function CookieHeader(cookies: Option<map<string, string>>): (r: Option<string>)
    ensures r.Some? <==> cookies.Some? && "NID_SES" in cookies.value && "NID_AUT" in cookies.value
    ensures r.Some? ==> r.value == "NID_SES=" + cookies.value["NID_SES"] + "; NID_AUT=" + cookies.value["NID_AUT"]
  {
    match cookies
    case Some(m) =>
      if "NID_SES" in m && "NID_AUT" in m then Some("NID_SES=" + m["NID_SES"] + "; NID_AUT=" + m["NID_AUT"])
      else None
    case None => None
  }

  /** The two login cookies read back from the header when neither contains `;`. */
  lemma CookieHeaderParts(ses: string, aut: string, others: map<string, string>)
    requires ';' !in ses && ';' !in aut
    ensures var c := others["NID_SES" := ses]["NID_AUT" := aut];
      CookieHeader(Some(c)).Some? && Split(CookieHeader(Some(c)).value, ';') == ["NID_SES=" + ses, " NID_AUT=" + aut]
  {
    var x, y := "NID_SES=" + ses, " NID_AUT=" + aut;
    assert ';' !in x by {
      forall i | 0 <= i < |x| ensures x[i] != ';' {
        if i >= 8 { assert x[i] == ses[i - 8]; }
      }
    }
    assert ';' !in y by {
      forall i | 0 <= i < |y| ensures y[i] != ';' {
        if i >= 9 { assert y[i] == aut[i - 9]; }
      }
    }
    assert x + "; NID_AUT=" + aut == x + [';'] + y;
    Split2(x, y, ';');
  }

  /** Where the recording goes once a file name is known: under the channel's absolute output directory. */
  function OutputUnder(env: Env, ch: Channel, filename: string): (r: Option<string>)
    requires IsAbs(env.cwd)
    ensures r.Some? <==> ch.outputDir.Some?
    ensures r.Some? ==> IsAbs(r.value)
  {
    match ch.outputDir
    case None => None
    case Some(d) => Some(PathJoin(AbsPath(env.cwd, d), filename))
  }

  /** The intermediate outcome of choosing the output path. */
  datatype Result3 = NoName | Err(e: BuildError) | Path(p: string)

  /** The three branches of `buildCommand` that settle the output path. */
  function ChooseOutput(env: Env, pattern: string, channels: seq<Channel>, ch: Channel,
                        metadata: Option<LiveInfo>, outputPath: Option<string>): (r: Result3)
    requires IsAbs(env.cwd)
    ensures r.Path? ==> |r.p| > 0
    ensures outputPath.Some? && |outputPath.value| > 0 ==> r == Path(outputPath.value)
    ensures r == NoName <==>
      (outputPath.None? || |outputPath.value| == 0) && metadata.Some? && FindChannel(channels, ch.id).None?
    ensures r == Err(MissingOutputDir) ==> ch.outputDir.None?
    ensures r.Err? ==> r.e == MissingOutputDir || r.e == TemplateError
    ensures (outputPath.None? || |outputPath.value| == 0) && metadata.None? ==>
      r == (if ch.outputDir.Some? then Path(PathJoin(AbsPath(env.cwd, ch.outputDir.value), ch.name + ".ts"))
            else Err(MissingOutputDir))
    ensures (outputPath.None? || |outputPath.value| == 0) && metadata.Some? && r.Path? ==>
      ch.outputDir.Some? &&
      CreateFilename(channels, ch.id, metadata.value, ch.extension.GetOr(".ts"), pattern, env.recordingTime, env.startTime).Name? &&
      r.p == PathJoin(AbsPath(env.cwd, ch.outputDir.value),
        CreateFilename(channels, ch.id, metadata.value, ch.extension.GetOr(".ts"), pattern, env.recordingTime, env.startTime).file)
  {
    var ext := ch.extension.GetOr(".ts");
    if outputPath.Some? && |outputPath.value| > 0 then Path(outputPath.value)
    else match metadata
      case Some(info) =>
        (match CreateFilename(channels, ch.id, info, ext, pattern, env.recordingTime, env.startTime)
         case UnknownChannel => NoName
         case BadTemplate => Err(TemplateError)
         case Name(f) =>
           match OutputUnder(env, ch, f)
           case None => Err(MissingOutputDir)
           case Some(p) => Path(p))
      case None =>
        match OutputUnder(env, ch, ch.name + ".ts")
        case None => Err(MissingOutputDir)
        case Some(p) => Path(p)
  }

  /**
   * `buildCommand(channel, metadata, output_path)`. The output path is the one
   * given, else the template-made name (with metadata) or `<channel name>.ts`
   * (without) under the channel's output directory. The recorder's per-channel
   * file name is set before the cookies are read, so a cookie failure still
   * reports the path it recorded.
   */
  function BuildCommand(env: Env, plugin: string, timeShift: int, pattern: string,
                        channels: seq<Channel>, ch: Channel, metadata: Option<LiveInfo>,
                        outputPath: Option<string>): (r: BuildResult)
    requires IsAbs(env.cwd)
    ensures r.Command? ==> |r.built.argv| >= 19 && r.built.argv[7] == r.built.outputPath && |r.built.outputPath| > 0
    ensures r.Command? ==> |r.built.argv| >= 19 && r.built.argv[5] == ch.quality.GetOr(Best)
    ensures r.Command? ==> r.built.chatLogPath == ChatLogPath(r.built.outputPath)
    ensures r.Command? ==> r.built.timeShift == (if IsTimeMachine(plugin) then timeShift else 0)
    ensures r.Command? ==> |r.built.argv| == (if IsTimeMachine(plugin) then 20 else 19)
    ensures r.Command? && IsTimeMachine(plugin) ==> r.built.argv[14] == "--hls-start-offset=" + IntToStr(timeShift)
    ensures outputPath.Some? && |outputPath.value| > 0 && CookieHeader(env.cookies).None? ==>
      r == Failed(MissingCookies(outputPath.value))
    ensures outputPath.Some? && |outputPath.value| > 0 && r.Command? ==> r.built.outputPath == outputPath.value
    ensures r == NoFilename <==>
      (outputPath.None? || |outputPath.value| == 0) && metadata.Some? && FindChannel(channels, ch.id).None?
    ensures r == Failed(MissingOutputDir) ==> ch.outputDir.None?
    ensures r.Command? ==> CookieHeader(env.cookies).Some?
    ensures r.Command? ==> ChooseOutput(env, pattern, channels, ch, metadata, outputPath) == Path(r.built.outputPath)
    ensures r.Command? ==>
      r.built.argv == Argv(env, plugin, timeShift, ch.id, ch.quality.GetOr(Best), r.built.outputPath, CookieHeader(env.cookies).value)
  {
    var quality := ch.quality.GetOr(Best);
    var shift := if IsTimeMachine(plugin) then timeShift else 0;
    match ChooseOutput(env, pattern, channels, ch, metadata, outputPath)
    case NoName => NoFilename
    case Err(e) => Failed(e)
    case Path(p) =>
      match CookieHeader(env.cookies)
      case None => Failed(MissingCookies(p))
      case Some(cookie) =>
        var argv := Argv(env, plugin, timeShift, ch.id, quality, p, cookie);
        Command(Built(argv, p, ChatLogPath(p), shift))
  }


  /** The offset argument reads back as the configured time shift. */
  lemma OffsetReadsBack(timeShift: int)
    ensures var arg := "--hls-start-offset=" + IntToStr(timeShift);
      StartsWith(arg, "--hls-start-offset=") && PyInt(arg[19..]) == Some(timeShift)
  {
    var arg := "--hls-start-offset=" + IntToStr(timeShift);
    assert arg[19..] == IntToStr(timeShift);
    PyIntOfIntToStr(timeShift);
  }
}

=== FILE: config.dfy ===
/**
 * The recorder's configuration and channel-list files (`channel_manager.py`).
 *
 * A configuration file is a JSON object of scalar values. Loading fills in every
 * default key the file lacks and writes the merged object back; an undecodable or
 * missing file is replaced by the defaults. Channel lists keep their
 * output directories absolute.
 */
module Config {
  import opened Wrappers
  import opened Text
  import opened Channels

  datatype Json = JNull | JBool(b: bool) | JInt(i: int) | JStr(s: string)

  type ConfigMap = map<string, Json>

  /** The state of a JSON file on disk, as `json.load` sees it. */
  datatype JsonFile<T> = Missing | Undecodable | Decoded(content: T)

  const DefaultPattern: string :=
    "[{recording_time}] {channel_name} {safe_live_title} {record_quality}{frame_rate}{file_extension}"

  /** The default configuration object, key by key. */
  const DefaultConfig: ConfigMap := map[
    "auto_record_mode" := JBool(false),
    "autoPostProcessing" := JBool(false),
    "recheckInterval" := JInt(60),
    "showMessageBox" := JBool(true),
    "deleteAfterPostProcessing" := JBool(false),
    "minimizePostProcessing" := JBool(false),
    "removeFixedPrefix" := JBool(false),
    "filenamePattern" := JStr(DefaultPattern),
    "postProcessingMethod" := JStr("스트림복사"),
    "moveAfterProcessingEnabled" := JBool(false),
    "moveAfterProcessing" := JStr(""),
    "postProcessingOutputDir" := JStr(""),
    "videoCodec" := JStr("x264(CPU)"),
    "qualityOrBitrate" := JStr("퀄리티"),
    "videoQuality" := JNull,
    "videoBitrate" := JStr(""),
    "preset" := JStr("medium"),
    "audioCodec" := JStr("aac"),
    "audioBitrate" := JStr("128kbps"),
    "plugin" := JStr("기본 플러그인"),
    "time_shift" := JInt(600),
    "autoStopInterval" := JInt(0)
  ]

  /** The file's keys, each default key the file lacks added with its default value. */
  function MergeDefaults(file: ConfigMap): (cfg: ConfigMap)
    ensures cfg.Keys == file.Keys + DefaultConfig.Keys
    ensures forall k :: k in file ==> cfg[k] == file[k]
    ensures forall k :: k in DefaultConfig && k !in file ==> cfg[k] == DefaultConfig[k]
  {
    map k | k in file.Keys + DefaultConfig.Keys :: if k in file then file[k] else DefaultConfig[k]
  }

  /**
   * `load_config()`: the configuration it returns paired with the object it
   * writes back to the file; the two are always the same object.
   */
  function LoadConfig(file: JsonFile<ConfigMap>): (r: (ConfigMap, ConfigMap))
    ensures r.0 == r.1
    ensures DefaultConfig.Keys <= r.0.Keys
    ensures file.Decoded? ==> r.0.Keys == file.content.Keys + DefaultConfig.Keys
    ensures file.Decoded? ==> forall k :: k in file.content ==> r.0[k] == file.content[k]
    ensures !file.Decoded? ==> r.0 == DefaultConfig
  {
    match file
    case Decoded(m) => var cfg := MergeDefaults(m); (cfg, cfg)
    case _ => (DefaultConfig, DefaultConfig)
  }

  /** Loading what a load wrote back gives the same configuration again. */
  lemma LoadConfigIdempotent(file: JsonFile<ConfigMap>)
    ensures LoadConfig(Decoded(LoadConfig(file).1)) == LoadConfig(file)
  {
    var cfg := LoadConfig(file).0;
    assert MergeDefaults(cfg) == cfg;
  }

  // ---------------------------------------------------------------------------
  // The configuration as the components read it
  // ---------------------------------------------------------------------------

  /**
   * The configuration keys the recorder components read, typed as the defaults
   * type them (`null` and strings read as an optional string).
   */
  datatype Settings = Settings(
    autoRecordMode: bool,
    autoPostProcessing: bool,
    recheckInterval: int,
    showMessageBox: bool,
    deleteAfterPostProcessing: bool,
    minimizePostProcessing: bool,
    removeFixedPrefix: bool,
    filenamePattern: string,
    postProcessingMethod: string,
    moveAfterProcessingEnabled: bool,
    moveAfterProcessing: string,
    postProcessingOutputDir: Option<string>,
    videoCodec: string,
    qualityOrBitrate: string,
    videoQuality: Option<string>,
    videoBitrate: Option<string>,
    preset: string,
    audioCodec: string,
    audioBitrate: string,
    plugin: string,
    timeShift: int,
    autoStopInterval: int)

  // ---------------------------------------------------------------------------
  // Channel list
  // ---------------------------------------------------------------------------

  /** The channel with a relative output directory resolved against `base`. */
  function ResolveOutputDir(base: string, c: Channel): (r: Channel)
    requires IsAbs(base)
    ensures r.(outputDir := c.outputDir) == c
    ensures c.outputDir.None? <==> r.outputDir.None?
    ensures r.outputDir.Some? ==> IsAbs(r.outputDir.value)
    ensures c.outputDir.Some? && IsAbs(c.outputDir.value) ==> r == c
  {
    match c.outputDir
    case None => c
    case Some(d) => c.(outputDir := Some(AbsPath(base, PathJoin(base, d))))
  }

  /**
   * `load_channels()`: the channel list with every relative output directory
   * resolved against the application directory `base`; `[]` when the file is
   * missing or undecodable.
   */
  function LoadChannels(base: string, file: JsonFile<seq<Channel>>): (r: seq<Channel>)
    requires IsAbs(base)
    ensures !file.Decoded? ==> r == []
    ensures file.Decoded? ==> |r| == |file.content|
    ensures file.Decoded? ==> forall k :: 0 <= k < |r| ==> r[k] == ResolveOutputDir(base, file.content[k])
  {
    match file
    case Decoded(chs) => seq(|chs|, k requires 0 <= k < |chs| => ResolveOutputDir(base, chs[k]))
    case _ => []
  }

  /** `save_channels(channels)`: the list written, with output directories made absolute from `cwd`. */
  function SaveChannels(cwd: string, chs: seq<Channel>): (r: seq<Channel>)
    requires IsAbs(cwd)
    ensures |r| == |chs|
    ensures forall k :: 0 <= k < |r| ==> r[k].(outputDir := chs[k].outputDir) == chs[k]
    ensures forall k :: 0 <= k < |r| ==> (r[k].outputDir.Some? <==> chs[k].outputDir.Some?)
    ensures forall k :: 0 <= k < |r| && r[k].outputDir.Some? ==> IsAbs(r[k].outputDir.value)
  {
    seq(|chs|, k requires 0 <= k < |chs| =>
      match chs[k].outputDir
      case None => chs[k]
      case Some(d) => chs[k].(outputDir := Some(AbsPath(cwd, d))))
  }

  predicate AbsoluteDirs(chs: seq<Channel>) {
    forall k :: 0 <= k < |chs| && chs[k].outputDir.Some? ==> IsAbs(chs[k].outputDir.value)
  }

  /** Saving a loaded list writes it unchanged, and saving twice is saving once. */
  lemma {:induction false} SaveAfterLoad(base: string, cwd: string, file: JsonFile<seq<Channel>>)
    requires IsAbs(base) && IsAbs(cwd)
    ensures AbsoluteDirs(LoadChannels(base, file))
    ensures SaveChannels(cwd, LoadChannels(base, file)) == LoadChannels(base, file)
    ensures SaveChannels(cwd, SaveChannels(cwd, LoadChannels(base, file))) == LoadChannels(base, file)
  {
    var l := LoadChannels(base, file);
    SaveOfAbsolute(cwd, l);
  }

  lemma SaveOfAbsolute(cwd: string, chs: seq<Channel>)
    requires IsAbs(cwd) && AbsoluteDirs(chs)
    ensures SaveChannels(cwd, chs) == chs
  {
    var s := SaveChannels(cwd, chs);
    forall k | 0 <= k < |chs| ensures s[k] == chs[k] {
      if chs[k].outputDir.Some? {
        assert AbsPath(cwd, chs[k].outputDir.value) == chs[k].outputDir.value;
      }
    }
  }
}

=== FILE: dsc.dfy ===
/**
 * The stand-alone stream-copy tool (`DSC/Chzzk_DSC.py`): every `.ts` and
 * `.mp4` file of a directory is remuxed by ffmpeg into `fixed_<name>` next to
 * it, one copy job per file, and the tool waits for all of them.
 *
 * The directory listing and the ffmpeg path are inputs; a job is its argv.
 */
module Dsc {
  import opened Text

  /** `filename.endswith('.ts') or filename.endswith('.mp4')`. */
  predicate IsStream(name: string) {
    EndsWith(name, ".ts") || EndsWith(name, ".mp4")
  }

  /** The stream files of a listing, in listing order. */
  function Selected(listing: seq<string>): (sel: seq<string>)
    ensures |sel| <= |listing|
    ensures forall k :: 0 <= k < |sel| ==> IsStream(sel[k]) && sel[k] in listing
    ensures forall name :: name in listing && IsStream(name) ==> name in sel
  {
    if |listing| == 0 then []
    else
      var last := listing[|listing| - 1];
      Selected(listing[..|listing| - 1]) + (if IsStream(last) then [last] else [])
  }

  /** Selection works file by file: the stream files of two listings are those of each, in order. */
  lemma {:induction false} SelectedAppend(a: seq<string>, b: seq<string>)
    ensures Selected(a + b) == Selected(a) + Selected(b)
    decreases |b|
  {
    if |b| == 0 {
      assert a + b == a;
    } else {
      var n := |b| - 1;
      assert (a + b)[..|a + b| - 1] == a + b[..n] && (a + b)[|a + b| - 1] == b[n];
      SelectedAppend(a, b[..n]);
    }
  }

  /** A single file is selected exactly when it is a stream file. */
  lemma SelectedOne(name: string)
    ensures Selected([name]) == if IsStream(name) then [name] else []
  {
    assert [name][..0] == [];
  }

  /** The output of a copy job: `fixed_` before the file name, in the same directory. */
  function OutputName(name: string): (r: string)
    ensures |r| == |name| + 6 && r[6..] == name && StartsWith(r, "fixed_")
  {
    "fixed_" + name
  }

  /** `copy_stream(input_file, output_file)`: the ffmpeg argv of one job. */
  function CopyArgv(ffmpeg: string, dir: string, name: string): (argv: seq<string>)
    ensures |argv| == 6 && argv[0] == ffmpeg && argv[1] == "-i" && argv[3] == "-c" && argv[4] == "copy"
    ensures argv[2] == PathJoin(dir, name) && argv[5] == PathJoin(dir, OutputName(name))
  {
    [ffmpeg, "-i", PathJoin(dir, name), "-c", "copy", PathJoin(dir, OutputName(name))]
  }

  /**
   * `process_files_in_directory(directory)`: the jobs started, one per stream
   * file in listing order; every job is joined before the call returns.
   */
  method ProcessFilesInDirectory(ffmpeg: string, dir: string, listing: seq<string>) returns (jobs: seq<seq<string>>)
    ensures |jobs| == |Selected(listing)|
    ensures forall k :: 0 <= k < |jobs| ==> jobs[k] == CopyArgv(ffmpeg, dir, Selected(listing)[k])
  {
    jobs := [];
    var i := 0;
    while i < |listing|
      invariant 0 <= i <= |listing|
      invariant |jobs| == |Selected(listing[..i])|
      invariant forall k :: 0 <= k < |jobs| ==> jobs[k] == CopyArgv(ffmpeg, dir, Selected(listing[..i])[k])
    {
      var name := listing[i];
      assert listing[..i + 1][..i] == listing[..i];
      if IsStream(name) {
        jobs := jobs + [CopyArgv(ffmpeg, dir, name)];
      }
      i := i + 1;
    }
    assert listing[..i] == listing;
  }

  /** Distinct files never write to the same output. */
  lemma OutputsDistinct(a: string, b: string)
    requires a != b
    ensures OutputName(a) != OutputName(b)
  {
    assert OutputName(a)[6..] == a && OutputName(b)[6..] == b;
  }

  /** A listed file's output lies in the same directory under the name `fixed_<name>`. */
  lemma OutputInSameDirectory(dir: string, name: string)
    requires Sep !in name
    ensures Basename(PathJoin(dir, OutputName(name))) == "fixed_" + name
  {
    assert Sep !in OutputName(name) by {
      forall i | 0 <= i < |OutputName(name)| ensures OutputName(name)[i] != Sep {
        if i >= 6 { assert OutputName(name)[i] == name[i - 6]; }
      }
    }
    BasenameOfJoin(dir, OutputName(name));
  }

  /** An output keeps its extension, so running the tool again copies the copies too. */
  lemma OutputSelectedAgain(name: string)
    requires IsStream(name)
    ensures IsStream(OutputName(name))
  {
    var out := OutputName(name);
    if EndsWith(name, ".ts") {
      assert out[|out| - 3..] == name[|name| - 3..];
    } else {
      assert out[|out| - 4..] == name[|name| - 4..];
    }
  }

  /** A listing of `a.ts`, `notes.txt` and `b.mp4` starts exactly two jobs, for `a.ts` and then `b.mp4`. */
  lemma TwoOfThree()
    ensures Selected(["a.ts", "notes.txt", "b.mp4"]) == ["a.ts", "b.mp4"]
  {
    var l := ["a.ts", "notes.txt", "b.mp4"];
    assert l[..2] == ["a.ts", "notes.txt"];
    assert l[..2][..1] == ["a.ts"];
    assert ["a.ts"][..0] == [];
    assert "b.mp4"[1..] == ".mp4";
    assert "notes.txt"[6..] == "txt";
    assert "notes.txt"[5..] == ".txt";
    assert "a.ts"[1..] == ".ts";
  }
}

=== FILE: lite_recorder.dfy ===
/**
 * The single-file recorder `Chzzk_recordLITE3d.py`: its settings are constants at
 * the top of the script; per channel, a loop probes the channel, records while it
 * is open and then post-processes the recording (`copy_specific_file`,
 * `handle_file_operations`, `move_file_to_directory`).
 */
module LiteRecorder {
  import opened Wrappers
  import opened Text
  import opened Naming
  import opened CommandBuilder
  import opened PostProcessing

  /** The user settings of the script. */
  datatype LiteSettings = LiteSettings(
    plugin: string,
    timeShift: int,
    quality: string,
    extension: string,
    pattern: string,
    autoPostProcessing: bool,
    deleteAfter: bool,
    removeFixedPrefix: bool,
    moveEnabled: bool,
    moveDir: string,
    recheckInterval: nat,
    streamCopy: bool,
    videoCodec: string,
    preset: string,
    useBitrate: bool,
    videoQuality: int,
    videoBitrate: string,
    audioCodec: string,
    audioBitrate: string)

  datatype LiteChannel = LiteChannel(id: string, name: string, outputDir: string)

  /** The metadata `get_live_metadata` returns; it always carries these four entries. */
  datatype LiteMeta = LiteMeta(liveTitle: string, startTime: string, recordQuality: string, frameRate: string)

  // ---------------------------------------------------------------------------
  // File name and command
  // ---------------------------------------------------------------------------

  /** The characters the script's title clean-up replaces by `_`. */
  const LiteBad: set<char> := {'\\', '/', '*', '?', ':', '"', '<', '>', '|', '+'}

  const TitleLimit: nat := 55

  /** The title without surrounding whitespace and without line feeds. */
  function CleanTitle(title: string): string {
    RemoveChar(Strip(title), '\n')
  }

  /** The safe title: each forbidden character of the cleaned title becomes `_`, and only 55 characters are kept. */
  function LiteSafeTitle(title: string): (r: string)
    ensures var clean := CleanTitle(title);
      |r| == (if |clean| <= TitleLimit then |clean| else TitleLimit) &&
      forall i :: 0 <= i < |r| ==> r[i] == (if clean[i] in LiteBad then '_' else clean[i])
    ensures forall i :: 0 <= i < |r| ==> r[i] !in LiteBad && r[i] != '\n'
  {
    var clean := CleanTitle(title);
    assert '_' !in LiteBad;
    assert '\n' !in clean;
    TakeReplaced(clean, LiteBad, '_', TitleLimit, '\n');
    Take(ReplaceChars(clean, LiteBad, '_'), TitleLimit)
  }

  /** A short title without forbidden characters, line feeds or surrounding whitespace is kept as it is. */
  lemma SafeTitleKeepsClean(title: string)
    requires |title| <= TitleLimit && NoEdgeSpace(title)
    requires forall i :: 0 <= i < |title| ==> title[i] !in LiteBad && title[i] != '\n'
    ensures LiteSafeTitle(title) == title
  {
    StripNoSpace(title);
    assert '\n' !in title;
    assert CleanTitle(title) == title;
    ReplaceNothing(title, LiteBad, '_');
  }

  /**
   * The file name: the template filled from the metadata (the channel name as it
   * is), or `[<recording time>] <name><ext>` without metadata. A template the
   * values cannot fill raises, which is `None`.
   */
  function LiteFilename(s: LiteSettings, ch: LiteChannel, meta: Option<LiteMeta>, recordingTime: string): (r: Option<string>)
    ensures meta.None? ==> r == Some("[" + recordingTime + "] " + ch.name + s.extension)
    ensures meta.Some? && r.Some? ==> ParseTemplate(s.pattern).Some?
    ensures meta.Some? && r.Some? ==>
      Fill(ParseTemplate(s.pattern).value, LiteFields(s, ch, meta.value, recordingTime)) == r
    ensures meta.Some? && '{' !in s.pattern && '}' !in s.pattern ==> r == Some(s.pattern)
    ensures meta.Some? && ParseTemplate(s.pattern).Some? ==>
      r == Fill(ParseTemplate(s.pattern).value, LiteFields(s, ch, meta.value, recordingTime))
    ensures meta.Some? && ParseTemplate(s.pattern).None? ==> r.None?
  {
    match meta
    case None => Some("[" + recordingTime + "] " + ch.name + s.extension)
    case Some(m) =>
      if '{' !in s.pattern && '}' !in s.pattern then
        PlainTemplate(s.pattern, LiteFields(s, ch, m, recordingTime));
        Fill(ParseTemplate(s.pattern).value, LiteFields(s, ch, m, recordingTime))
      else
        match ParseTemplate(s.pattern)
        case None => None
        case Some(ps) => Fill(ps, LiteFields(s, ch, m, recordingTime))
  }

  /**
   * A template written from pieces whose fields are all among the values the
   * script passes (`start_time`, `channel_name`, `safe_live_title`, …) always
   * yields a name with metadata: it is read back as those pieces and no field is
   * unknown.
   */
  lemma LiteFilenameKnownFields(s: LiteSettings, ch: LiteChannel, m: LiteMeta, recordingTime: string, ps: seq<Piece>)
    requires PlainFields(ps) && s.pattern == Unparse(ps)
    requires forall k :: 0 <= k < |ps| && ps[k].Field? ==> ps[k].name in TemplateFieldNames
    ensures ParseTemplate(s.pattern) == Some(ps)
    ensures LiteFilename(s, ch, Some(m), recordingTime) == Fill(ps, LiteFields(s, ch, m, recordingTime))
    ensures LiteFilename(s, ch, Some(m), recordingTime).Some?
  {
    ParseUnparse(ps);
  }

  function LiteFields(s: LiteSettings, ch: LiteChannel, m: LiteMeta, recordingTime: string): map<string, string> {
    TemplateFields(recordingTime, m.startTime, LiteSafeTitle(m.liveTitle), ch.name, m.recordQuality, m.frameRate, s.extension)
  }

  predicate LiteTimeMachine(plugin: string) {
    plugin == "timemachine" || plugin == "timemachine_plus"
  }

  /**
   * The Cookie header value: empty without cookies; with cookies, both session
   * cookies are read, and a missing one raises `KeyError` (`None`).
   */
  function LiteCookie(cookies: map<string, string>): (r: Option<string>)
    ensures |cookies| == 0 ==> r == Some("")
    ensures |cookies| > 0 ==> (r.Some? <==> "NID_SES" in cookies && "NID_AUT" in cookies)
    ensures |cookies| > 0 && r.Some? ==> r.value == "NID_SES=" + cookies["NID_SES"] + "; NID_AUT=" + cookies["NID_AUT"]
  {
    if |cookies| == 0 then Some("")
    else if "NID_SES" in cookies && "NID_AUT" in cookies then
      Some("NID_SES=" + cookies["NID_SES"] + "; NID_AUT=" + cookies["NID_AUT"])
    else None
  }

  datatype LiteCommand = LiteCommand(argv: seq<string>, outputPath: string)

  /** The streamlink argv for the output path `out` and the Cookie value `cookie` (empty: no header). */
  function LiteArgv(streamlink: string, ffmpeg: string, pluginDir: string, s: LiteSettings, id: string,
                    out: string, cookie: string): (argv: seq<string>)
    ensures |argv| == 15 + (if |cookie| > 0 then 2 else 0) + (if LiteTimeMachine(s.plugin) then 2 else 0)
    ensures argv[..10] == [streamlink, "--ffmpeg-copyts", "--plugin-dirs", pluginDir,
      "https://chzzk.naver.com/live/" + id, s.quality, "-o", out, "--ffmpeg-ffmpeg", ffmpeg]
    ensures |cookie| > 0 ==> argv[10..12] == ["--http-header", "Cookie=" + cookie]
    ensures argv[|argv| - (if LiteTimeMachine(s.plugin) then 7 else 5)..][..5] == LiteTail
    ensures LiteTimeMachine(s.plugin) ==> argv[|argv| - 2..] == ["--hls-start-offset", IntToStr(s.timeShift)]
  {
    var head := [streamlink, "--ffmpeg-copyts", "--plugin-dirs", pluginDir,
                 "https://chzzk.naver.com/live/" + id, s.quality, "-o", out, "--ffmpeg-ffmpeg", ffmpeg];
    var header := if |cookie| > 0 then ["--http-header", "Cookie=" + cookie] else [];
    var offset := if LiteTimeMachine(s.plugin) then ["--hls-start-offset", IntToStr(s.timeShift)] else [];
    Joined(head, header, LiteTail, offset)
  }

  /** The five streamlink options that follow the Cookie header. */
  const LiteTail: seq<string> := ["--hls-live-restart", "--stream-segment-timeout", "5", "--stream-segment-attempts", "5"]

  /** Four word lists one after another, each found where the previous one ends. */
  function Joined(a: seq<string>, b: seq<string>, c: seq<string>, d: seq<string>): (r: seq<string>)
    ensures |r| == |a| + |b| + |c| + |d|
    ensures r[..|a|] == a && r[|a|..|a| + |b|] == b
    ensures r[|a| + |b|..|a| + |b| + |c|] == c && r[|a| + |b| + |c|..] == d
  {
    var r := a + b + c + d;
    assert r[..|a|] == a && r[|a|..|a| + |b|] == b;
    assert r[|a| + |b|..|a| + |b| + |c|] == c;
    r
  }

  /**
   * `buildCommand(channel, metadata, cookies, recording_time)`: the output goes to
   * a name that does not exist yet in the channel's directory (the file name
   * itself when it is free); the Cookie header only with cookies; the start offset
   * last and only for the time-machine plugins. `None` when it raises.
   */
  function LiteBuildCommand(fs: FileSystem, scriptDir: string, streamlink: string, ffmpeg: string,
                            s: LiteSettings, ch: LiteChannel, meta: Option<LiteMeta>,
                            cookies: map<string, string>, recordingTime: string): (r: Option<LiteCommand>)
    ensures r.Some? <==> LiteCookie(cookies).Some? && LiteFilename(s, ch, meta, recordingTime).Some?
    ensures r.Some? ==> r.value.outputPath !in fs
    ensures r.Some? ==> r.value.outputPath == PathJoin(PathJoin(scriptDir, ch.outputDir),
      UniqueFilename(fs, PathJoin(scriptDir, ch.outputDir), LiteFilename(s, ch, meta, recordingTime).value, false))
    ensures r.Some? ==> r.value.argv == LiteArgv(streamlink, ffmpeg,
      PathJoin(PathJoin(PathJoin(scriptDir, "dependent"), "plugin"), s.plugin), s, ch.id,
      r.value.outputPath, LiteCookie(cookies).value)
  {
    match (LiteCookie(cookies), LiteFilename(s, ch, meta, recordingTime))
    case (Some(cookie), Some(filename)) =>
      var outDir := PathJoin(scriptDir, ch.outputDir);
      var out := PathJoin(outDir, UniqueFilename(fs, outDir, filename, false));
      var pluginDir := PathJoin(PathJoin(PathJoin(scriptDir, "dependent"), "plugin"), s.plugin);
      Some(LiteCommand(LiteArgv(streamlink, ffmpeg, pluginDir, s, ch.id, out, cookie), out))
    case _ => None
  }

  // ---------------------------------------------------------------------------
  // The per-channel loop
  // ---------------------------------------------------------------------------

  /**
   * What one probe of the loop finds: no metadata (an HTTP status error, a
   * transport error or no content, all caught by the probe), a closed channel,
   * an open one, or an exception the probe does not catch (an unreadable
   * playback description, a missing key, an unparsable `openDate`).
   */
  datatype LiteProbe = NoMetadata | NotOpen | Open(commandBuilt: bool) | ProbeRaised

  /** A probe after which the loop waits: no metadata, or a channel that is not live. */
  predicate Closed(p: LiteProbe) {
    p.NoMetadata? || p.NotOpen?
  }

  /** What the loop does with it: wait, record (and start post-processing), or die of the exception. */
  datatype LiteAction = Sleep(seconds: nat) | Capture(postProcess: bool) | Crash

  /**
   * One probe's action: wait after a failed probe or a closed channel, record on
   * an open one, die when the probe raises or the command cannot be built.
   */
  function Act(p: LiteProbe, s: LiteSettings): (a: LiteAction)
    ensures a.Capture? <==> p == Open(true)
    ensures a.Sleep? <==> Closed(p)
    ensures a.Crash? <==> p == Open(false) || p == ProbeRaised
    ensures a.Sleep? ==> a.seconds == s.recheckInterval
    ensures a.Capture? ==> a.postProcess == s.autoPostProcessing
  {
    match p
    case Open(built) => if built then Capture(s.autoPostProcessing) else Crash
    case ProbeRaised => Crash
    case _ => Sleep(s.recheckInterval)
  }

  /**
   * `start_recording(channel, cookies)` over the probes it meets: it waits
   * `recheckInterval` after a failed probe and after a closed channel, records on
   * an open channel and probes again at once afterwards, and ends when the probe
   * raises or building the command raises (both calls are outside any `try`).
   */
  function LiteLoop(probes: seq<LiteProbe>, s: LiteSettings): (r: seq<LiteAction>)
    ensures |r| <= |probes|
    ensures forall k :: 0 <= k < |r| ==> r[k] == Act(probes[k], s)
    ensures forall k :: 0 <= k < |r| - 1 ==> !r[k].Crash?
    ensures |r| < |probes| ==> |r| > 0 && r[|r| - 1].Crash?
  {
    if |probes| == 0 then []
    else
      var a := Act(probes[0], s);
      if a.Crash? then [a]
      else
        var rest := LiteLoop(probes[1..], s);
        assert forall k :: 0 < k < |probes| ==> probes[k] == probes[1..][k - 1];
        assert forall k :: 0 < k <= |rest| ==> ([a] + rest)[k] == rest[k - 1];
        [a] + rest
  }

  /** The total waiting time of the loop. */
  function Waited(r: seq<LiteAction>): nat {
    if |r| == 0 then 0 else (if r[0].Sleep? then r[0].seconds else 0) + Waited(r[1..])
  }

  function ClosedProbes(probes: seq<LiteProbe>): nat {
    if |probes| == 0 then 0 else (if Closed(probes[0]) then 1 else 0) + ClosedProbes(probes[1..])
  }

  /** Without a crash, the loop waits `recheckInterval` once per probe that found no open broadcast. */
  lemma {:induction false} LoopWaits(probes: seq<LiteProbe>, s: LiteSettings)
    requires forall k :: 0 <= k < |probes| ==> !Act(probes[k], s).Crash?
    ensures |LiteLoop(probes, s)| == |probes|
    ensures Waited(LiteLoop(probes, s)) == s.recheckInterval * ClosedProbes(probes)
    decreases |probes|
  {
    if |probes| > 0 {
      var rest := probes[1..];
      assert forall k :: 0 <= k < |rest| ==> rest[k] == probes[k + 1];
      LoopWaits(rest, s);
      LoopStep(probes, s);
      var i, c, tail := s.recheckInterval, ClosedProbes(rest), LiteLoop(rest, s);
      if probes[0].Open? {
        WaitedCons(Capture(s.autoPostProcessing), tail);
      } else {
        WaitedCons(Sleep(i), tail);
        assert i * (1 + c) == i + i * c;
      }
    }
  }

  /** A probe that does not crash adds its action in front of the rest of the loop. */
  lemma LoopStep(probes: seq<LiteProbe>, s: LiteSettings)
    requires |probes| > 0 && !Act(probes[0], s).Crash?
    ensures LiteLoop(probes, s) ==
      [if probes[0].Open? then Capture(s.autoPostProcessing) else Sleep(s.recheckInterval)] + LiteLoop(probes[1..], s)
  {
  }

  lemma WaitedCons(a: LiteAction, r: seq<LiteAction>)
    ensures Waited([a] + r) == (if a.Sleep? then a.seconds else 0) + Waited(r)
  {
    assert ([a] + r)[1..] == r;
  }

  // ---------------------------------------------------------------------------
  // Post-processing
  // ---------------------------------------------------------------------------

  /** The encoder the quality mode names; anything else, `copy` included, is `libx264`. */
  function LiteEncoder(codec: string): (e: string)
    ensures e in {"libx264", "h264_qsv", "h264_nvenc", "h264_amf"}
    ensures codec in {"h264_qsv", "h264_nvenc", "h264_amf"} ==> e == codec
  {
    if codec == "h264_qsv" || codec == "h264_nvenc" || codec == "h264_amf" then codec else "libx264"
  }

  /** The quality-mode video options. */
  function QualityOptions(codec: string, quality: int): seq<string> {
    var q := IntToStr(quality);
    match LiteEncoder(codec)
    case "h264_qsv" => ["-c:v", "h264_qsv", "-global_quality", q, "-look_ahead", "1"]
    case "h264_nvenc" => ["-c:v", "h264_nvenc", "-cq", q]
    case "h264_amf" => ["-c:v", "h264_amf", "-rc", "qvbr", "-qvbr_quality_level", q]
    case _ => ["-c:v", "libx264", "-crf", q]
  }

  /**
   * The ffmpeg argv of the script's `copy_specific_file`. In bitrate mode the
   * audio options are given twice, with the same values.
   */
  function LiteFfmpegArgs(ffmpeg: string, input: string, output: string, s: LiteSettings): (argv: seq<string>)
    ensures |argv| >= 9 && argv[..4] == [ffmpeg, "-i", input, "-y"] && argv[|argv| - 1] == output
    ensures s.streamCopy ==> argv == [ffmpeg, "-i", input, "-y", "-c:v", "copy", "-c:a", "copy", output]
    ensures !s.streamCopy ==> argv[4..6] == ["-preset", s.preset]
    ensures !s.streamCopy ==> argv[|argv| - 5..|argv| - 1] == ["-c:a", s.audioCodec, "-b:a", s.audioBitrate]
  {
    var head := [ffmpeg, "-i", input, "-y"];
    if s.streamCopy then head + ["-c:v", "copy", "-c:a", "copy"] + [output]
    else
      var video := if s.useBitrate
        then ["-b:v", s.videoBitrate, "-c:a", s.audioCodec, "-b:a", s.audioBitrate]
        else QualityOptions(s.videoCodec, s.videoQuality);
      head + ["-preset", s.preset] + video + ["-c:a", s.audioCodec, "-b:a", s.audioBitrate] + [output]
  }

  /** Setting values that do not look like one of ffmpeg's codec flags. */
  predicate NotFlags(s: LiteSettings, ffmpeg: string, input: string, output: string) {
    var flags := {"-c:v", "-c:a", "-b:a"};
    ffmpeg !in flags && s.preset !in flags && s.videoBitrate !in flags && s.audioCodec !in flags &&
    s.audioBitrate !in flags && input !in flags && output !in flags
  }

  /** The audio codec and bitrate ffmpeg uses are the configured ones, whichever the mode. */
  lemma LiteEffectiveAudio(ffmpeg: string, input: string, output: string, s: LiteSettings)
    requires !s.streamCopy && NotFlags(s, ffmpeg, input, output)
    ensures LastValue(LiteFfmpegArgs(ffmpeg, input, output, s), "-c:a") == Some(s.audioCodec)
    ensures LastValue(LiteFfmpegArgs(ffmpeg, input, output, s), "-b:a") == Some(s.audioBitrate)
  {
    var argv := LiteFfmpegArgs(ffmpeg, input, output, s);
    var n := |argv|;
    assert argv[n - 5..n - 1] == ["-c:a", s.audioCodec, "-b:a", s.audioBitrate];
    assert argv[n - 5] == "-c:a" && argv[n - 4] == s.audioCodec;
    assert argv[n - 3] == "-b:a" && argv[n - 2] == s.audioBitrate;
    LastValueAt(argv, "-c:a", n - 5);
    LastValueAt(argv, "-b:a", n - 3);
  }

  /** In bitrate mode no video codec is named at all: the video-codec setting is ignored. */
  lemma LiteBitrateIgnoresCodec(ffmpeg: string, input: string, output: string, s: LiteSettings)
    requires !s.streamCopy && s.useBitrate && NotFlags(s, ffmpeg, input, output)
    ensures LastValue(LiteFfmpegArgs(ffmpeg, input, output, s), "-c:v") == None
  {
    var argv := LiteFfmpegArgs(ffmpeg, input, output, s);
    assert argv == [ffmpeg, "-i", input, "-y", "-preset", s.preset, "-b:v", s.videoBitrate, "-c:a", s.audioCodec,
      "-b:a", s.audioBitrate, "-c:a", s.audioCodec, "-b:a", s.audioBitrate, output];
    assert forall j :: 0 <= j < |argv| ==> argv[j] != "-c:v";
  }

  /** In quality mode ffmpeg encodes with the encoder the setting names (`libx264` for any other name). */
  lemma LiteQualityCodec(ffmpeg: string, input: string, output: string, s: LiteSettings)
    requires !s.streamCopy && !s.useBitrate && NotFlags(s, ffmpeg, input, output)
    ensures LastValue(LiteFfmpegArgs(ffmpeg, input, output, s), "-c:v") == Some(LiteEncoder(s.videoCodec))
  {
    var argv := LiteFfmpegArgs(ffmpeg, input, output, s);
    var opts := QualityOptions(s.videoCodec, s.videoQuality);
    assert argv == [ffmpeg, "-i", input, "-y", "-preset", s.preset] + opts +
      ["-c:a", s.audioCodec, "-b:a", s.audioBitrate, output];
    var q := IntToStr(s.videoQuality);
    assert q != "-c:v" by {
      if q[0] == '-' { assert q[1..] == NatToStr(-s.videoQuality); assert IsDigit(q[1]); }
    }
    assert opts[0] == "-c:v" && opts[1] == LiteEncoder(s.videoCodec);
    assert forall j :: 1 <= j < |opts| ==> opts[j] != "-c:v";
    forall j | 6 < j < |argv| - 1 ensures argv[j] != "-c:v" {
      if j < 6 + |opts| { assert argv[j] == opts[j - 6]; }
    }
    LastValueAt(argv, "-c:v", 6);
  }

  /** The `fixed_` file next to the recording that `copy_stream` asks ffmpeg to write. */
  function FixedSibling(input: string): (r: string)
    ensures Basename(r) == "fixed_" + Basename(input)
  {
    BasenameOfJoin(Dirname(input), "fixed_" + Basename(input));
    PathJoin(Dirname(input), "fixed_" + Basename(input))
  }

  /**
   * `move_file_to_directory`: the destination directory is created, and the file
   * moved under its own name, replacing a file of that name (`shutil.move` falls
   * back to copying over it). A missing file is an error that is only printed.
   */
  function MoveToDirectory(fs: FileSystem, file: string, dir: string): (r: FileSystem)
    ensures file !in fs ==> r == fs + {dir}
    ensures file in fs ==> PathJoin(dir, Basename(file)) in r
    ensures file in fs && file != PathJoin(dir, Basename(file)) ==> file !in r || file == dir
  {
    if file !in fs then fs + {dir}
    else fs + {dir} - {file} + {PathJoin(dir, Basename(file))}
  }

  /**
   * `handle_file_operations`: delete the recording, then rename the `fixed_` file,
   * then move what the rename left, each only when its setting is on; a failed
   * step is only printed and the next one still runs.
   */
  function HandleFileOperations(fs: FileSystem, input: string, output: string, s: LiteSettings): (r: FileSystem)
    ensures !s.deleteAfter && !s.removeFixedPrefix && !s.moveEnabled ==> r == fs
    ensures s.deleteAfter && !s.removeFixedPrefix && !s.moveEnabled ==> r == fs - {input}
    ensures s.deleteAfter && !s.moveEnabled ==> input !in r || (s.removeFixedPrefix && UnfixedPath(output) == input)
    ensures s.removeFixedPrefix && !s.moveEnabled ==>
      r == RenameUnfixed(if s.deleteAfter then fs - {input} else fs, output).fs
    ensures s.removeFixedPrefix && !s.moveEnabled && output in fs && output != input && UnfixedPath(output) !in fs ==>
      r == (if s.deleteAfter then fs - {input} else fs) - {output} + {UnfixedPath(output)}
    ensures s.removeFixedPrefix && !s.moveEnabled && (output !in fs || (output == input && s.deleteAfter)) ==>
      r == (if s.deleteAfter then fs - {input} else fs)
    ensures s.moveEnabled && s.removeFixedPrefix && output in fs && output != input && UnfixedPath(output) !in fs ==>
      PathJoin(s.moveDir, Basename(UnfixedPath(output))) in r
    ensures s.moveEnabled && !s.removeFixedPrefix && output in fs && output != input ==>
      PathJoin(s.moveDir, Basename(output)) in r
  {
    var fs1 := if s.deleteAfter then fs - {input} else fs;
    var c := if s.removeFixedPrefix then RenameUnfixed(fs1, output) else Copied(fs1, output);
    RenameAddsOnlyUnfixed(fs1, output, input);
    if s.moveEnabled then MoveToDirectory(c.fs, c.path, s.moveDir) else c.fs
  }

  /** The rename adds no file but the `fixed_`-less name. */
  lemma RenameAddsOnlyUnfixed(fs: FileSystem, output: string, file: string)
    ensures file !in fs && file in RenameUnfixed(fs, output).fs ==> file == UnfixedPath(output)
  {
  }

  /**
   * `copy_stream(channel)` as written: ffmpeg writes the `fixed_` file when it
   * succeeds, and the file operations follow whatever its exit status `rc` was,
   * because `copy_specific_file` swallows the failure.
   */
  function LiteCopyStreamAsWritten(fs: FileSystem, input: string, rc: int, s: LiteSettings): FileSystem {
    var output := FixedSibling(input);
    HandleFileOperations(if rc == 0 then fs + {output} else fs, input, output, s)
  }

  /** `copy_stream` as intended: the file operations only follow a successful ffmpeg run. */
  function LiteCopyStream(fs: FileSystem, input: string, rc: int, s: LiteSettings): (r: FileSystem)
    ensures rc != 0 ==> r == fs
    ensures rc == 0 ==> r == LiteCopyStreamAsWritten(fs, input, rc, s)
  {
    if rc != 0 then fs else LiteCopyStreamAsWritten(fs, input, rc, s)
  }

  /**
   * As written, a failed ffmpeg run with deletion on (and no move) deletes the
   * recording although no processed copy exists; the intended version keeps it.
   */
  lemma FailedRunDeletesRecording(fs: FileSystem, input: string, s: LiteSettings)
    requires input in fs && FixedSibling(input) !in fs
    requires s.deleteAfter && !s.moveEnabled
    ensures input !in LiteCopyStreamAsWritten(fs, input, 1, s)
    ensures FixedSibling(input) !in LiteCopyStreamAsWritten(fs, input, 1, s)
    ensures input in LiteCopyStream(fs, input, 1, s)
  {
    var output := FixedSibling(input);
    assert output != input by {
      assert |Basename(output)| != |Basename(input)|;
    }
    var fs1 := fs - {input};
    assert output !in fs1;
    if s.removeFixedPrefix {
      assert RenameUnfixed(fs1, output) == Copied(fs1, output);
    }
  }
}

=== FILE: live_metadata.dfy ===
/**
 * The live-status probe of `Live_recorder.py` (`get_live_metadata`): the HTTP
 * replies of up to `retries` attempts, the classification of each reply, and the
 * parsing of a live-detail body into the metadata the recorder keeps. That
 * includes choosing the recorded track among the advertised encodings.
 */
module LiveMetadata {
  import opened Wrappers
  import opened Text

  const UnknownTitle: string := "알 수 없는 제목"
  const UnknownChannel: string := "알 수 없는 채널"
  const UnknownCategory: string := "알 수 없는 카테고리"
  const UnknownQuality: string := "알 수 없는 품질"
  const UnknownFrameRate: string := "알 수 없는 프레임 속도"
  const DefaultOpenDate: string := "00:00:00"
  const Best: string := "best"

  /**
   * A numeric field of an encoding: `Valid(n)` when Python's `int(...)` (for the
   * frame rate `int(float(...))`) yields `n`, `Invalid` when it raises.
   */
  datatype NumField = Valid(n: int) | Invalid

  /** One entry of a track's `encodingTrack` list; a missing key is `None`. */
  datatype Encoding = Encoding(
    trackId: Option<string>,
    width: Option<NumField>,
    height: Option<NumField>,
    frameRate: Option<NumField>)

  /** One entry of `media`; `encodings` is `None` when it has no `encodingTrack` key. */
  datatype Track = Track(encodings: Option<seq<Encoding>>)

  /** `livePlaybackJson`: text that does not decode, or an object with an optional `media` list. */
  datatype Playback = NotJson | Media(tracks: Option<seq<Track>>)

  /** The `content` object of a live-detail reply; a missing (or empty) key is `None`. */
  datatype Content = Content(
    liveTitle: Option<string>,
    channelName: Option<string>,
    openDate: Option<string>,
    status: Option<string>,
    category: Option<string>,
    playback: Option<Playback>)

  /** The metadata the recorder stores per channel (the thumbnail is not modelled). */
  datatype LiveInfo = LiveInfo(
    liveTitle: string,
    channelName: string,
    recordingDuration: string,
    openLive: bool,
    category: string,
    recordQuality: string,
    frameRate: string)

  // ---------------------------------------------------------------------------
  // Track selection
  // ---------------------------------------------------------------------------

  /** The running state of the selection loop. */
  datatype Pick = Pick(maxRes: int, quality: string, frameRate: string)

  const NoPick: Pick := Pick(0, UnknownQuality, UnknownFrameRate)

  function NumOr(f: Option<NumField>, d: int): Option<int> {
    match f
    case None => Some(d)
    case Some(Valid(n)) => Some(n)
    case Some(Invalid) => None
  }

  /** `int(videoWidth) * int(videoHeight)`, each defaulting to 0; `None` when a conversion raises. */
  function Resolution(e: Encoding): (r: Option<int>)
    ensures r.Some? <==> NumOr(e.width, 0).Some? && NumOr(e.height, 0).Some?
  {
    match (NumOr(e.width, 0), NumOr(e.height, 0))
    case (Some(w), Some(h)) => Some(w * h)
    case _ => None
  }

  /** `str(int(float(videoFrameRate)))`, defaulting to "30". */
  function FrameRateText(e: Encoding): Option<string> {
    match NumOr(e.frameRate, 30)
    case Some(n) => Some(IntToStr(n))
    case None => None
  }

  /**
   * One iteration of the loop over encodings. `None` when `int()`/`float()`
   * raises, which leaves the loop and fails the whole attempt. A missing
   * `encodingTrackId` raises `KeyError`, which only skips this encoding, after
   * the maximum has already been raised in the `"best"` case.
   */
  function Step(p: Pick, e: Encoding, setting: string): (r: Option<Pick>)
    ensures r.None? <==> Resolution(e).None? || (Taken(p, e, setting) && FrameRateText(e).None?)
    ensures r.Some? && Taken(p, e, setting) ==>
      r.value == Pick(Resolution(e).value, e.trackId.value, FrameRateText(e).value)
    ensures r.Some? && !Taken(p, e, setting) ==>
      r.value == p || (setting == Best && e.trackId.None? && r.value == p.(maxRes := Resolution(e).value))
  {
    match Resolution(e)
    case None => None
    case Some(res) =>
      if setting == Best then
        if res > p.maxRes then
          match e.trackId
          case None => Some(p.(maxRes := res))
          case Some(id) =>
            match FrameRateText(e)
            case None => None
            case Some(fr) => Some(Pick(res, id, fr))
        else Some(p)
      else
        match e.trackId
        case None => Some(p)
        case Some(id) =>
          if id == setting then
            match FrameRateText(e)
            case None => None
            case Some(fr) => Some(Pick(res, id, fr))
          else Some(p)
  }

  /** The `if` of the loop body holds and the encoding has an id: the pick becomes this encoding. */
  predicate Taken(p: Pick, e: Encoding, setting: string) {
    Resolution(e).Some? && e.trackId.Some? &&
    (if setting == Best then Resolution(e).value > p.maxRes else e.trackId.value == setting)
  }

  function SelectFrom(p: Pick, encs: seq<Encoding>, setting: string): Option<Pick>
    decreases |encs|
  {
    if |encs| == 0 then Some(p)
    else match Step(p, encs[0], setting)
      case None => None
      case Some(q) => SelectFrom(q, encs[1..], setting)
  }

  /** All encodings of all tracks that carry an `encodingTrack` list, in order. */
  function Encodings(tracks: seq<Track>): seq<Encoding> {
    if |tracks| == 0 then []
    else (match tracks[0].encodings case Some(es) => es case None => []) + Encodings(tracks[1..])
  }

  function PlaybackTracks(pb: Option<Playback>): seq<Track> {
    match pb
    case Some(Media(Some(ts))) => ts
    case _ => []
  }

  /** The quality and frame rate chosen for a channel's quality setting; `None` when the loop raises. */
  function SelectTrack(pb: Option<Playback>, setting: string): Option<Pick> {
    SelectFrom(NoPick, Encodings(PlaybackTracks(pb)), setting)
  }

  /** `pick` carries the id and frame rate of one of `encs`. */
  predicate FromEncoding(encs: seq<Encoding>, pick: Pick) {
    exists k :: 0 <= k < |encs| && encs[k].trackId == Some(pick.quality) && FrameRateText(encs[k]) == Some(pick.frameRate)
  }

  /**
   * Whatever the selection picks comes from the encodings: the quality and
   * frame rate are those of an encoding taken (or the ones it started with), a
   * named setting picks nothing but that id, and only a conversion that
   * raises makes the selection fail.
   */
  lemma {:induction false} SelectFromSource(p: Pick, encs: seq<Encoding>, setting: string)
    ensures var r := SelectFrom(p, encs, setting);
      r.Some? ==> (r.value.quality == p.quality && r.value.frameRate == p.frameRate) || FromEncoding(encs, r.value)
    ensures var r := SelectFrom(p, encs, setting);
      setting != Best && r.Some? ==> r.value == p || r.value.quality == setting
    ensures (forall k :: 0 <= k < |encs| ==> WellFormed(encs[k])) ==> SelectFrom(p, encs, setting).Some?
    ensures SelectFrom(p, encs, setting).None? ==>
      exists k :: 0 <= k < |encs| && (Resolution(encs[k]).None? || FrameRateText(encs[k]).None?)
    decreases |encs|
  {
    if |encs| > 0 {
      var e := encs[0];
      match Step(p, e, setting)
      case None =>
      case Some(q) =>
        SelectFromSource(q, encs[1..], setting);
        var r := SelectFrom(q, encs[1..], setting);
        if r.Some? && !(r.value.quality == q.quality && r.value.frameRate == q.frameRate) {
          var k :| 0 <= k < |encs[1..]| && encs[1..][k].trackId == Some(r.value.quality) &&
            FrameRateText(encs[1..][k]) == Some(r.value.frameRate);
          assert encs[k + 1] == encs[1..][k];
        } else if r.Some? && !(q.quality == p.quality && q.frameRate == p.frameRate) {
          assert encs[0].trackId == Some(r.value.quality) && FrameRateText(encs[0]) == Some(r.value.frameRate);
        }
        if r.None? {
          var k :| 0 <= k < |encs[1..]| && (Resolution(encs[1..][k]).None? || FrameRateText(encs[1..][k]).None?);
          assert encs[k + 1] == encs[1..][k];
        }
        if forall k :: 0 <= k < |encs| ==> WellFormed(encs[k]) {
          assert forall k :: 0 <= k < |encs[1..]| ==> WellFormed(encs[1..][k]) by {
            forall k | 0 <= k < |encs[1..]| ensures WellFormed(encs[1..][k]) {
              assert encs[1..][k] == encs[k + 1];
            }
          }
        }
    }
  }

  /**
   * The track the channel's quality setting selects: with no playback or no
   * encodings the placeholders stay; a named setting yields that id or the
   * placeholders; a quality other than the placeholder is the id of some
   * encoding, paired with that encoding's frame rate.
   */
  lemma SelectTrackSource(pb: Option<Playback>, setting: string)
    ensures |Encodings(PlaybackTracks(pb))| == 0 ==> SelectTrack(pb, setting) == Some(NoPick)
    ensures var r := SelectTrack(pb, setting);
      r.Some? && setting != Best ==> r.value == NoPick || r.value.quality == setting
    ensures var r := SelectTrack(pb, setting);
      r.Some? && r.value.quality != UnknownQuality ==> FromEncoding(Encodings(PlaybackTracks(pb)), r.value)
  {
    SelectFromSource(NoPick, Encodings(PlaybackTracks(pb)), setting);
  }

  predicate WellFormed(e: Encoding) {
    e.trackId.Some? && NumOr(e.width, 0).Some? && NumOr(e.height, 0).Some? && NumOr(e.frameRate, 30).Some?
  }

  function Res(e: Encoding): int
    requires WellFormed(e)
  {
    NumOr(e.width, 0).value * NumOr(e.height, 0).value
  }

  /** `encs[i]` has a strictly greater resolution than all encodings before it and at least as great as all after. */
  predicate FirstMaximal(encs: seq<Encoding>, i: nat)
    requires forall k :: 0 <= k < |encs| ==> WellFormed(encs[k])
  {
    i < |encs| &&
    (forall k :: 0 <= k < i ==> Res(encs[k]) < Res(encs[i])) &&
    (forall k :: i < k < |encs| ==> Res(encs[k]) <= Res(encs[i]))
  }

  /**
   * With the "best" setting and well-formed encodings, the chosen track is the
   * first one of greatest resolution, provided that resolution is positive;
   * otherwise the "unknown" defaults remain.
   */
  lemma {:induction false} BestPicksFirstMaximal(encs: seq<Encoding>)
    requires forall k :: 0 <= k < |encs| ==> WellFormed(encs[k])
    ensures SelectFrom(NoPick, encs, Best).Some?
    ensures var p := SelectFrom(NoPick, encs, Best).value;
      (p == NoPick && forall k :: 0 <= k < |encs| ==> Res(encs[k]) <= 0) ||
      (exists i: nat :: FirstMaximal(encs, i) && Res(encs[i]) > 0 &&
         p == Pick(Res(encs[i]), encs[i].trackId.value, FrameRateText(encs[i]).value))
  {
    BestFrom(NoPick, encs, 0);
    var p := SelectFrom(NoPick, encs, Best).value;
    if p != NoPick {
      var i: nat :| i < |encs| && FirstMaximalUpTo(encs, i, |encs|) && PickOf(encs, i, p);
      assert FirstMaximal(encs, i);
    }
  }

  /** `p` is what `encs[i]` makes the "best" selection hold. */
  predicate PickOf(encs: seq<Encoding>, i: nat, p: Pick)
    requires forall k :: 0 <= k < |encs| ==> WellFormed(encs[k])
    requires i < |encs|
  {
    Res(encs[i]) > 0 && p == Pick(Res(encs[i]), encs[i].trackId.value, FrameRateText(encs[i]).value)
  }

  /** The loop invariant of the "best" selection after the encodings `encs[..end]`. */
  predicate BestSoFar(p: Pick, encs: seq<Encoding>, end: nat)
    requires forall k :: 0 <= k < |encs| ==> WellFormed(encs[k])
    requires end <= |encs|
  {
    (p == NoPick && forall k :: 0 <= k < end ==> Res(encs[k]) <= 0) ||
    (exists i: nat :: i < end && FirstMaximalUpTo(encs, i, end) && PickOf(encs, i, p))
  }

  /** The "best" selection from a prefix already consumed to the end. */
  lemma {:induction false} BestFrom(p: Pick, encs: seq<Encoding>, start: nat)
    requires forall k :: 0 <= k < |encs| ==> WellFormed(encs[k])
    requires start <= |encs| && BestSoFar(p, encs, start)
    ensures SelectFrom(p, encs[start..], Best).Some?
    ensures BestSoFar(SelectFrom(p, encs[start..], Best).value, encs, |encs|)
    decreases |encs| - start
  {
    if start == |encs| {
      assert encs[start..] == [];
    } else {
      assert encs[start..][0] == encs[start] && encs[start..][1..] == encs[start + 1..];
      BestStep(p, encs, start);
      BestFrom(Step(p, encs[start], Best).value, encs, start + 1);
    }
  }

  /** One step of the "best" selection keeps its invariant. */
  lemma BestStep(p: Pick, encs: seq<Encoding>, start: nat)
    requires forall k :: 0 <= k < |encs| ==> WellFormed(encs[k])
    requires start < |encs| && BestSoFar(p, encs, start)
    ensures Step(p, encs[start], Best).Some?
    ensures BestSoFar(Step(p, encs[start], Best).value, encs, start + 1)
  {
    var e := encs[start];
    StepBest(p, e);
    var q := Step(p, e, Best).value;
    if p == NoPick && Res(e) <= 0 {
      assert q == p;
    } else if p == NoPick {
      FirstPositive(encs, start);
      assert PickOf(encs, start, q);
    } else {
      var i: nat :| i < start && FirstMaximalUpTo(encs, i, start) && PickOf(encs, i, p);
      if Res(e) > p.maxRes {
        NewMaximum(encs, i, start);
        assert PickOf(encs, start, q);
      } else {
        KeepMaximum(encs, i, start);
        assert PickOf(encs, i, q);
      }
    }
  }

  /** The first encoding of positive resolution is the maximum of the prefix it ends. */
  lemma FirstPositive(encs: seq<Encoding>, start: nat)
    requires forall k :: 0 <= k < |encs| ==> WellFormed(encs[k])
    requires start < |encs| && Res(encs[start]) > 0
    requires forall k :: 0 <= k < start ==> Res(encs[k]) <= 0
    ensures FirstMaximalUpTo(encs, start, start + 1)
  {
  }

  /** An encoding greater than the maximum so far is the new maximum. */
  lemma NewMaximum(encs: seq<Encoding>, i: nat, start: nat)
    requires forall k :: 0 <= k < |encs| ==> WellFormed(encs[k])
    requires start < |encs| && FirstMaximalUpTo(encs, i, start)
    requires Res(encs[start]) > Res(encs[i])
    ensures FirstMaximalUpTo(encs, start, start + 1)
  {
    forall k | 0 <= k < start ensures Res(encs[k]) < Res(encs[start]) {
      assert Res(encs[k]) <= Res(encs[i]);
    }
  }

  /** An encoding no greater than the maximum so far leaves it in place. */
  lemma KeepMaximum(encs: seq<Encoding>, i: nat, start: nat)
    requires forall k :: 0 <= k < |encs| ==> WellFormed(encs[k])
    requires start < |encs| && FirstMaximalUpTo(encs, i, start)
    requires Res(encs[start]) <= Res(encs[i])
    ensures FirstMaximalUpTo(encs, i, start + 1)
  {
  }

  /** On a well-formed encoding, a "best" step takes it exactly when its resolution is greater than the maximum so far. */
  lemma StepBest(p: Pick, e: Encoding)
    requires WellFormed(e)
    ensures Step(p, e, Best) ==
      Some(if Res(e) > p.maxRes then Pick(Res(e), e.trackId.value, FrameRateText(e).value) else p)
  {
    assert Resolution(e) == Some(Res(e));
  }

  /** `FirstMaximal` restricted to the prefix `encs[..end]`. */
  predicate FirstMaximalUpTo(encs: seq<Encoding>, i: nat, end: nat)
    requires forall k :: 0 <= k < |encs| ==> WellFormed(encs[k])
    requires end <= |encs|
  {
    i < end &&
    (forall k :: 0 <= k < i ==> Res(encs[k]) < Res(encs[i])) &&
    (forall k :: i < k < end ==> Res(encs[k]) <= Res(encs[i]))
  }

  /** `encs[i]` is the last encoding whose id is `setting`. */
  predicate LastMatch(encs: seq<Encoding>, setting: string, i: int) {
    0 <= i < |encs| && encs[i].trackId == Some(setting) &&
    forall k :: i < k < |encs| ==> encs[k].trackId != Some(setting)
  }

  /**
   * With a named quality setting and well-formed encodings, the chosen track is
   * the last encoding whose id equals the setting, and the defaults remain when
   * none does.
   */
  lemma {:induction false} NamedPicksLastMatch(p: Pick, encs: seq<Encoding>, setting: string)
    requires setting != Best
    requires forall k :: 0 <= k < |encs| ==> WellFormed(encs[k])
    ensures SelectFrom(p, encs, setting).Some?
    ensures (forall k :: 0 <= k < |encs| ==> encs[k].trackId != Some(setting)) ==>
      SelectFrom(p, encs, setting).value == p
    ensures forall i :: LastMatch(encs, setting, i) ==>
      SelectFrom(p, encs, setting).value == Pick(Res(encs[i]), setting, FrameRateText(encs[i]).value)
    decreases |encs|
  {
    if |encs| > 0 {
      var q := Step(p, encs[0], setting).value;
      var rest := encs[1..];
      assert forall k :: 0 <= k < |rest| ==> rest[k] == encs[k + 1];
      NamedPicksLastMatch(q, rest, setting);
      forall i | LastMatch(encs, setting, i)
        ensures SelectFrom(p, encs, setting).value == Pick(Res(encs[i]), setting, FrameRateText(encs[i]).value)
      {
        if i == 0 {
          assert forall k :: 0 <= k < |rest| ==> rest[k].trackId != Some(setting) by {
            forall k | 0 <= k < |rest| ensures rest[k].trackId != Some(setting) {
              assert rest[k] == encs[k + 1];
            }
          }
        } else {
          assert rest[i - 1] == encs[i];
          forall k | i - 1 < k < |rest| ensures rest[k].trackId != Some(setting) {
            assert rest[k] == encs[k + 1];
          }
        }
      }
    }
  }

  // ---------------------------------------------------------------------------
  // Parsing a reply and retrying
  // ---------------------------------------------------------------------------

  /** The metadata built from a `content` object; `None` when the track loop raises. */
  function ParseContent(c: Content, setting: string): (r: Option<LiveInfo>)
    ensures r.Some? ==> (r.value.openLive <==> c.status == Some("OPEN"))
    ensures r.Some? ==> r.value.liveTitle == c.liveTitle.GetOr(UnknownTitle)
    ensures r.Some? <==> SelectTrack(c.playback, setting).Some?
    ensures r.Some? ==>
      r.value.recordQuality == SelectTrack(c.playback, setting).value.quality &&
      r.value.frameRate == SelectTrack(c.playback, setting).value.frameRate
    ensures r.Some? ==>
      r.value.channelName == c.channelName.GetOr(UnknownChannel) &&
      r.value.recordingDuration == c.openDate.GetOr(DefaultOpenDate) && r.value.category == c.category.GetOr(UnknownCategory)
  {
    match SelectTrack(c.playback, setting)
    case None => None
    case Some(p) =>
      Some(LiveInfo(
        c.liveTitle.GetOr(UnknownTitle),
        c.channelName.GetOr(UnknownChannel),
        c.openDate.GetOr(DefaultOpenDate),
        c.status == Some("OPEN"),
        c.category.GetOr(UnknownCategory),
        p.quality,
        p.frameRate))
  }

  /** The body of a 2xx reply: undecodable, or a JSON object with an optional `content`. */
  datatype Body = Undecodable | Decoded(content: Option<Content>)

  /** What one attempt meets: no cookie file, a transport error, or an HTTP reply. */
  datatype Reply = NoCookies | RequestFailed | Http(status: int, body: Body)

  /** How an attempt ends: with a value, by a 5xx retry, or by an unexpected exception. */
  datatype Outcome = Done(info: Option<LiveInfo>) | ServerError | Raised

  function Classify(reply: Reply, setting: string): (o: Outcome)
    ensures reply.NoCookies? || reply.RequestFailed? ==> o == Done(None)
    ensures reply.Http? && !(200 <= reply.status < 300) && !(500 <= reply.status < 600) ==> o == Done(None)
    ensures reply.Http? && 500 <= reply.status < 600 ==> o == ServerError
    ensures o.Done? && o.info.Some? ==>
      reply.Http? && 200 <= reply.status < 300 && reply.body.Decoded? && reply.body.content.Some?
  {
    match reply
    case NoCookies => Done(None)
    case RequestFailed => Done(None)
    case Http(status, body) =>
      if !(200 <= status < 300) then
        if status == 400 then Done(None)
        else if 500 <= status < 600 then ServerError
        else Done(None)
      else match body
        case Undecodable => Raised
        case Decoded(None) => Done(None)
        case Decoded(Some(c)) =>
          match ParseContent(c, setting)
          case None => Raised
          case Some(info) => Done(Some(info))
  }

  /** The probe's result, with the number of attempts made and of pauses taken. */
  datatype ProbeResult = ProbeResult(info: Option<LiveInfo>, attempts: nat, sleeps: nat)

  /**
   * `get_live_metadata(channel, client, retries)` from attempt `attempt` on;
   * `replies[k]` is what attempt `k` meets. A 5xx reply pauses and retries even on
   * the last attempt; an unexpected exception pauses only when attempts remain.
   */
  function ProbeFrom(replies: seq<Reply>, setting: string, attempt: nat): (r: ProbeResult)
    requires attempt <= |replies|
    ensures attempt <= r.attempts <= |replies|
    ensures r.sleeps <= r.attempts - attempt
    ensures r.info.Some? ==> r.attempts > attempt && Classify(replies[r.attempts - 1], setting) == Done(r.info)
    ensures attempt < |replies| ==> r.attempts > attempt
    ensures r.attempts < |replies| ==> Classify(replies[r.attempts - 1], setting) == Done(r.info)
    decreases |replies| - attempt
  {
    if attempt == |replies| then ProbeResult(None, attempt, 0)
    else match Classify(replies[attempt], setting)
      case Done(info) => ProbeResult(info, attempt + 1, 0)
      case ServerError =>
        var r := ProbeFrom(replies, setting, attempt + 1);
        r.(sleeps := r.sleeps + 1)
      case Raised =>
        if attempt + 1 < |replies| then
          var r := ProbeFrom(replies, setting, attempt + 1);
          r.(sleeps := r.sleeps + 1)
        else ProbeResult(None, attempt + 1, 0)
  }

  function Probe(replies: seq<Reply>, setting: string): (r: ProbeResult)
    ensures r.attempts <= |replies|
    ensures r.info.Some? ==> r.attempts > 0 && Classify(replies[r.attempts - 1], setting) == Done(r.info)
    ensures |replies| > 0 ==> r.attempts > 0
    ensures r.attempts < |replies| ==> Classify(replies[r.attempts - 1], setting) == Done(r.info)
  {
    ProbeFrom(replies, setting, 0)
  }

  /** Attempts before the one that ended the probe were all retried: a 5xx or an exception. */
  lemma {:induction false} ProbeRetriesOnlyTransient(replies: seq<Reply>, setting: string, attempt: nat)
    requires attempt <= |replies|
    ensures var r := ProbeFrom(replies, setting, attempt);
      forall k :: attempt <= k < r.attempts - 1 ==> !Classify(replies[k], setting).Done?
    decreases |replies| - attempt
  {
    if attempt < |replies| && !Classify(replies[attempt], setting).Done? {
      ProbeRetriesOnlyTransient(replies, setting, attempt + 1);
    }
  }

  /**
   * Retries lead to the first final reply: when attempt `j` meets a final reply
   * and every attempt before it a 5xx or an exception, the probe makes `j + 1`
   * attempts, pauses after each of the `j` failed ones, and returns what
   * attempt `j` read.
   */
  lemma {:induction false} FirstFinalReplyWins(replies: seq<Reply>, setting: string, attempt: nat, j: nat)
    requires attempt <= j < |replies| && Classify(replies[j], setting).Done?
    requires forall k :: attempt <= k < j ==> !Classify(replies[k], setting).Done?
    ensures ProbeFrom(replies, setting, attempt) == ProbeResult(Classify(replies[j], setting).info, j + 1, j - attempt)
    decreases j - attempt
  {
    if attempt < j {
      FirstFinalReplyWins(replies, setting, attempt + 1, j);
    }
  }

  /** Two server errors, then a live reply with content: the third attempt returns its metadata after two pauses. */
  lemma TwoServerErrorsThenLive(b1: Body, b2: Body, c: Content, setting: string, info: LiveInfo)
    requires ParseContent(c, setting) == Some(info)
    ensures Probe([Http(503, b1), Http(500, b2), Http(200, Decoded(Some(c)))], setting) == ProbeResult(Some(info), 3, 2)
  {
    var replies := [Http(503, b1), Http(500, b2), Http(200, Decoded(Some(c)))];
    FirstFinalReplyWins(replies, setting, 0, 2);
  }

  /**
   * A first attempt without cookies, with a transport error, or with an error
   * status other than 5xx (400 included) ends the probe at once with nothing.
   */
  lemma FirstReplyFinal(replies: seq<Reply>, setting: string)
    requires |replies| > 0
    requires replies[0] == NoCookies || replies[0] == RequestFailed ||
      (replies[0].Http? && !(200 <= replies[0].status < 300) && !(500 <= replies[0].status < 600))
    ensures Probe(replies, setting) == ProbeResult(None, 1, 0)
  {
  }

  /** Server errors on every attempt: all attempts are made, each followed by a pause, and nothing is returned. */
  lemma {:induction false} AllServerErrors(replies: seq<Reply>, setting: string, attempt: nat)
    requires attempt <= |replies|
    requires forall k :: 0 <= k < |replies| ==> replies[k].Http? && 500 <= replies[k].status < 600
    ensures ProbeFrom(replies, setting, attempt) == ProbeResult(None, |replies|, |replies| - attempt)
    decreases |replies| - attempt
  {
    if attempt < |replies| {
      AllServerErrors(replies, setting, attempt + 1);
    }
  }
}

=== FILE: naming.dfy ===
/**
 * Free-name searches over a file system. The recorder avoids overwriting files by
 * trying numbered variants of a name (`name (1).ts`, `name (2).ts`, …) until one
 * does not exist: `uniqueFilename` and `moveDirectory` in `data_manager.py`,
 * `moveFileAfterProcessing` in `Live_recorder.py`, and `get_unique_filename` in
 * `Chzzk_recordLITE3d.py`. The file system is the set of paths that exist.
 */
module Naming {
  import opened Wrappers
  import opened Text

  type FileSystem = set<string>

  /** The numbered variant `pre + str(n) + post`. */
  function Numbered(pre: string, post: string, n: nat): string {
    pre + NatToStr(n) + post
  }

  lemma NumberedInjective(pre: string, post: string, i: nat, j: nat)
    requires Numbered(pre, post, i) == Numbered(pre, post, j)
    ensures i == j
  {
    var a := Numbered(pre, post, i);
    var b := Numbered(pre, post, j);
    assert |NatToStr(i)| == |NatToStr(j)|;
    assert a[|pre|..|pre| + |NatToStr(i)|] == NatToStr(i);
    assert b[|pre|..|pre| + |NatToStr(j)|] == NatToStr(j);
    DigitsValueOfNatToStr(i);
    DigitsValueOfNatToStr(j);
  }

  function NumberedRange(pre: string, post: string, lo: nat, hi: nat): set<string> {
    set n: nat | lo <= n < hi :: Numbered(pre, post, n)
  }

  /** The variants numbered `lo` to `hi - 1` are `hi - lo` different names. */
  lemma {:induction false} NumberedRangeSize(pre: string, post: string, lo: nat, hi: nat)
    requires lo <= hi
    ensures |NumberedRange(pre, post, lo, hi)| == hi - lo
    decreases hi - lo
  {
    if lo < hi {
      NumberedRangeSize(pre, post, lo, hi - 1);
      var below, top := NumberedRange(pre, post, lo, hi - 1), Numbered(pre, post, hi - 1);
      assert NumberedRange(pre, post, lo, hi) == below + {top};
      assert top !in below by {
        if top in below {
          var k: nat :| lo <= k < hi - 1 && Numbered(pre, post, k) == top;
          NumberedInjective(pre, post, k, hi - 1);
        }
      }
      assert |below + {top}| == |below| + 1;
    }
  }

  lemma SubsetSize(a: set<string>, b: set<string>)
    requires a <= b
    ensures |a| <= |b|
  {
    assert b == a + (b - a);
  }

  /**
   * The first variant numbered `n` or more that does not exist, given that the
   * variants `lo` to `n - 1` all exist. Only finitely many names exist, so the
   * search ends.
   */
  function FirstFree(fs: FileSystem, pre: string, post: string, lo: nat, n: nat): (k: nat)
    requires lo <= n
    requires NumberedRange(pre, post, lo, n) <= fs
    ensures n <= k
    ensures Numbered(pre, post, k) !in fs
    ensures forall i :: n <= i < k ==> Numbered(pre, post, i) in fs
    decreases |fs| - (n - lo)
  {
    NumberedRangeSize(pre, post, lo, n);
    SubsetSize(NumberedRange(pre, post, lo, n), fs);
    if Numbered(pre, post, n) !in fs then n
    else
      assert NumberedRange(pre, post, lo, n + 1) == NumberedRange(pre, post, lo, n) + {Numbered(pre, post, n)};
      NumberedRangeSize(pre, post, lo, n + 1);
      SubsetSize(NumberedRange(pre, post, lo, n + 1), fs);
      FirstFree(fs, pre, post, lo, n + 1)
  }

  /** The least number `k >= lo` whose variant does not exist. */
  function LeastFree(fs: FileSystem, pre: string, post: string, lo: nat): (k: nat)
    ensures lo <= k
    ensures Numbered(pre, post, k) !in fs
    ensures forall i :: lo <= i < k ==> Numbered(pre, post, i) in fs
  {
    assert NumberedRange(pre, post, lo, lo) == {};
    FirstFree(fs, pre, post, lo, lo)
  }

  /** `path` is the numbered variant `k >= lo`, and the variants `lo` to `k - 1` all exist. */
  ghost predicate LeastNumbered(fs: FileSystem, pre: string, post: string, lo: nat, path: string) {
    exists k: nat ::
      lo <= k && path == Numbered(pre, post, k) &&
      forall i :: lo <= i < k ==> Numbered(pre, post, i) in fs
  }

  /** The part of `os.path.join(dir, name)` in front of `name`. */
  function JoinPrefix(dir: string, name: string): (pre: string)
    ensures PathJoin(dir, name) == pre + name
  {
    if IsAbs(name) || |dir| == 0 then ""
    else if dir[|dir| - 1] == Sep then dir
    else dir + [Sep]
  }

  // ---------------------------------------------------------------------------
  // The three searches
  // ---------------------------------------------------------------------------

  /** The file name `base + mid + str(n) + ")" + ext`. */
  function Variant(base: string, mid: string, ext: string, n: nat): string {
    base + mid + NatToStr(n) + ")" + ext
  }

  /** `name` is variant `k >= lo`, and every variant from `lo` to `k - 1` exists under `dir`. */
  ghost predicate LeastVariant(fs: FileSystem, dir: string, base: string, mid: string, ext: string, lo: nat, name: string) {
    exists k: nat ::
      lo <= k && name == Variant(base, mid, ext, k) &&
      forall i :: lo <= i < k ==> PathJoin(dir, Variant(base, mid, ext, i)) in fs
  }

  /** The least-numbered variant, from `lo` on, that does not exist under `dir`. */
  function FreeVariant(fs: FileSystem, dir: string, base: string, mid: string, ext: string, lo: nat): (name: string)
    requires |mid| > 0 && mid[0] != Sep
    ensures PathJoin(dir, name) !in fs
    ensures LeastVariant(fs, dir, base, mid, ext, lo, name)
  {
    var pre := JoinPrefix(dir, base + mid);
    forall n: nat ensures PathJoin(dir, Variant(base, mid, ext, n)) == Numbered(pre + base + mid, ")" + ext, n) {
      var v := Variant(base, mid, ext, n);
      assert v[0] == (base + mid)[0];
      assert JoinPrefix(dir, v) == pre;
    }
    var k := LeastFree(fs, pre + base + mid, ")" + ext, lo);
    Variant(base, mid, ext, k)
  }

  /**
   * `uniqueFilename(output_dir, filename, add_suffix)`: with `add_suffix` the
   * candidates are `base (1)ext`, `base (2)ext`, …; without it the name itself is
   * tried first and then `base (2)ext`, `base (3)ext`, …. The first candidate
   * whose path under `dir` does not exist is returned.
   */
  function UniqueFilename(fs: FileSystem, dir: string, filename: string, addSuffix: bool): (r: string)
    ensures PathJoin(dir, r) !in fs
    ensures !addSuffix && PathJoin(dir, filename) !in fs ==> r == filename
    ensures addSuffix || PathJoin(dir, filename) in fs ==>
      LeastVariant(fs, dir, SplitExt(filename).0, " (", SplitExt(filename).1, if addSuffix then 1 else 2, r)
  {
    if !addSuffix && PathJoin(dir, filename) !in fs then filename
    else FreeVariant(fs, dir, SplitExt(filename).0, " (", SplitExt(filename).1, if addSuffix then 1 else 2)
  }

  /** The outcome of a move: the new file system, and the destination path unless the move raised. */
  datatype Move = Moved(fs: FileSystem, dest: string) | MoveFailed(fs: FileSystem)

  /**
   * `moveDirectory(file_path, destination_directory)`: the file goes to the
   * destination directory under its own name, or under `name(1)ext`,
   * `name(2)ext`, … (no space) when that exists. The destination directory is
   * created first when it does not exist. A missing source makes the move fail:
   * the error is printed and raised again to the caller, which `MoveFailed`
   * stands for, and the directory created before stays.
   */
  function MoveDirectory(fs: FileSystem, file: string, destDir: string): (r: Move)
    ensures r.MoveFailed? <==> file !in fs
    ensures r.MoveFailed? ==> r.fs == fs + {destDir}
    ensures r.Moved? ==> r.dest !in fs + {destDir} && r.fs == fs + {destDir} - {file} + {r.dest}
    ensures r.Moved? && PathJoin(destDir, Basename(file)) !in fs + {destDir} ==>
      r.dest == PathJoin(destDir, Basename(file))
    ensures r.Moved? && PathJoin(destDir, Basename(file)) in fs + {destDir} ==>
      exists name :: r.dest == PathJoin(destDir, name) &&
        LeastVariant(fs + {destDir}, destDir, SplitExt(Basename(file)).0, "(", SplitExt(Basename(file)).1, 1, name)
  {
    if file !in fs then MoveFailed(fs + {destDir})
    else
      var fs1 := fs + {destDir};
      var plain := PathJoin(destDir, Basename(file));
      var dest :=
        if plain !in fs1 then plain
        else PathJoin(destDir, FreeVariant(fs1, destDir, SplitExt(Basename(file)).0, "(", SplitExt(Basename(file)).1, 1));
      Moved(fs1 - {file} + {dest}, dest)
  }

  /**
   * `moveFileAfterProcessing(src, dst)`: like `MoveDirectory`, but the numbered
   * candidates are `base (1)ext`, … with a space, `base` being the whole
   * destination path without its extension, and the destination directory is
   * not created: a missing source or a missing directory makes the move raise,
   * and since the error is only printed the file system stays as it was.
   */
  function MoveAfterProcessing(fs: FileSystem, src: string, dstDir: string): (r: FileSystem)
    ensures src !in fs || dstDir !in fs ==> r == fs
    ensures src in fs && dstDir in fs ==> exists d :: d !in fs && r == fs - {src} + {d}
    ensures src in fs && dstDir in fs && PathJoin(dstDir, Basename(src)) in fs ==>
      exists d :: r == fs - {src} + {d} &&
        LeastNumbered(fs, SplitExt(PathJoin(dstDir, Basename(src))).0 + " (", ")" + SplitExt(PathJoin(dstDir, Basename(src))).1, 1, d)
    ensures src in fs && dstDir in fs && PathJoin(dstDir, Basename(src)) !in fs ==>
      r == fs - {src} + {PathJoin(dstDir, Basename(src))}
  {
    if src !in fs || dstDir !in fs then fs
    else
      var plain := PathJoin(dstDir, Basename(src));
      if plain !in fs then fs - {src} + {plain}
      else
        var (base, ext) := SplitExt(plain);
        var k := LeastFree(fs, base + " (", ")" + ext, 1);
        fs - {src} + {Numbered(base + " (", ")" + ext, k)}
  }
}

=== FILE: post_processing.dfy ===
/**
 * Post-processing of a finished recording (`copy_streams.py`): the ffmpeg command
 * for a stream copy or a re-encode, and the file operations after a successful
 * run, which delete the source, drop the `fixed_` prefix, and optionally move
 * the result (`runPostProcessing` in `Live_recorder.py`).
 */
module PostProcessing {
  import opened Wrappers
  import opened Text
  import opened Config
  import opened Naming

  const StreamCopyMethod: string := "스트림복사"
  const QualityMode: string := "퀄리티"
  const BitrateMode: string := "비트레이트"

  /** The codec-menu labels and the ffmpeg encoders they name; anything else is `libx264`. */
  function Encoder(menu: string): (e: string)
    ensures e in {"libx264", "h264_qsv", "h264_nvenc", "h264_amf"}
    ensures menu == "x264(CPU)" ==> e == "libx264"
    ensures e != "libx264" <==> menu in {"h264_qsv(인텔 GPU가속)", "h264_nvenc(엔비디아 GPU가속)", "h264_amf(AMD GPU가속)"}
    ensures e != "libx264" ==> menu[..|e|] == e
  {
    if menu == "h264_qsv(인텔 GPU가속)" then "h264_qsv"
    else if menu == "h264_nvenc(엔비디아 GPU가속)" then "h264_nvenc"
    else if menu == "h264_amf(AMD GPU가속)" then "h264_amf"
    else "libx264"
  }

  /** `convert_bitrate`: a value ending in `kbps` has every `kbps` replaced by `k`. */
  function ConvertBitrate(s: string): (r: string)
    ensures !EndsWith(s, "kbps") ==> r == s
  {
    if EndsWith(s, "kbps") then ReplaceAll(s, "kbps", "k") else s
  }

  /** The settings menu's `<digits>kbps` becomes ffmpeg's `<digits>k`. */
  lemma ConvertBitrateDigits(d: string)
    requires AllDigits(d)
    ensures ConvertBitrate(d + "kbps") == d + "k"
  {
    assert EndsWith(d + "kbps", "kbps") by {
      assert (d + "kbps")[|d|..] == "kbps";
    }
    ReplaceDigitsKbps(d);
  }

  lemma {:induction false} ReplaceDigitsKbps(d: string)
    requires AllDigits(d)
    ensures ReplaceAll(d + "kbps", "kbps", "k") == d + "k"
    decreases |d|
  {
    var s := d + "kbps";
    if |d| == 0 {
      assert s[..4] == "kbps" && s[4..] == "";
    } else {
      assert s[0] == d[0] && s[0] != 'k';
      assert s[..4] != "kbps";
      assert s[1..] == d[1..] + "kbps";
      ReplaceDigitsKbps(d[1..]);
      assert d == [d[0]] + d[1..];
    }
  }

  /**
   * The encoder-specific options that follow `-y`: flag and value pairs, none
   * for the hardware encoders of NVIDIA and AMD outside the quality mode.
   */
  function EncoderOptions(encoder: string, mode: string, quality: Option<string>, bitrate: Option<string>): (r: seq<string>)
    ensures |r| % 2 == 0 && |r| <= 4
    ensures forall i :: 0 <= i < |r| && i % 2 == 0 ==> |r[i]| > 1 && r[i][0] == '-'
    ensures encoder in {"h264_nvenc", "h264_amf"} && mode != QualityMode ==> r == []
    ensures encoder == "h264_qsv" ==> |r| == 4
  {
    if encoder == "h264_qsv" then
      ["-global_quality", if quality.Some? && |quality.value| > 0 then quality.value else "25", "-look_ahead", "1"]
    else if encoder == "h264_nvenc" then
      if mode == QualityMode then ["-cq", quality.GetOr("23")] else []
    else if encoder == "h264_amf" then
      if mode == QualityMode then ["-rc", "qvbr", "-qvbr_quality_level", quality.GetOr("23")] else []
    else if mode == QualityMode then
      if quality.Some? then ["-crf", quality.value] else ["-c:v", "copy"]
    else if mode == BitrateMode then
      if bitrate.Some? && |bitrate.value| > 0 then ["-b:v", bitrate.value + "k"] else ["-c:v", "copy"]
    else []
  }

  /** The ffmpeg argument vector `copy_specific_file` runs. */
  function FfmpegArgs(ffmpeg: string, input: string, output: string, cfg: Settings): (argv: seq<string>)
    ensures |argv| >= 9 && argv[..3] == [ffmpeg, "-i", input] && argv[|argv| - 1] == output
    ensures argv[3] == "-c:v"
    ensures cfg.postProcessingMethod == StreamCopyMethod ==>
      argv == [ffmpeg, "-i", input, "-c:v", "copy", "-c:a", "copy", "-y", output]
    ensures cfg.postProcessingMethod != StreamCopyMethod ==> |argv| >= 13
    ensures cfg.postProcessingMethod != StreamCopyMethod ==>
      argv[4] == Encoder(cfg.videoCodec) &&
      argv[5..12] == ["-preset", cfg.preset, "-c:a", cfg.audioCodec, "-b:a", ConvertBitrate(cfg.audioBitrate), "-y"]
    ensures cfg.postProcessingMethod != StreamCopyMethod ==>
      argv[12..|argv| - 1] == EncoderOptions(Encoder(cfg.videoCodec), cfg.qualityOrBitrate, cfg.videoQuality, cfg.videoBitrate)
  {
    if cfg.postProcessingMethod == StreamCopyMethod then
      [ffmpeg, "-i", input, "-c:v", "copy", "-c:a", "copy", "-y", output]
    else
      var encoder := Encoder(cfg.videoCodec);
      [ffmpeg, "-i", input, "-c:v", encoder, "-preset", cfg.preset, "-c:a", cfg.audioCodec,
       "-b:a", ConvertBitrate(cfg.audioBitrate), "-y"]
      + EncoderOptions(encoder, cfg.qualityOrBitrate, cfg.videoQuality, cfg.videoBitrate)
      + [output]
  }

  /** `argv[i]` is the last occurrence of `flag` that has a value after it. */
  predicate LastFlagAt(argv: seq<string>, flag: string, i: int) {
    0 <= i < |argv| - 1 && argv[i] == flag && forall j :: i < j < |argv| - 1 ==> argv[j] != flag
  }

  /** The value following the last occurrence of `flag` (ffmpeg takes the last one given). */
  function LastValue(argv: seq<string>, flag: string): (r: Option<string>)
    ensures r.Some? ==> exists i :: LastFlagAt(argv, flag, i) && argv[i + 1] == r.value
    ensures r.None? ==> forall j :: 0 <= j < |argv| - 1 ==> argv[j] != flag
  {
    if |argv| < 2 then None
    else if argv[|argv| - 2] == flag then
      assert LastFlagAt(argv, flag, |argv| - 2);
      Some(argv[|argv| - 1])
    else
      var r := LastValue(argv[..|argv| - 1], flag);
      if r.Some? then
        var i :| LastFlagAt(argv[..|argv| - 1], flag, i) && argv[..|argv| - 1][i + 1] == r.value;
        assert LastFlagAt(argv, flag, i);
        r
      else r
  }

  /**
   * The video codec ffmpeg ends up using: the chosen encoder, except that the
   * x264 entry falls back to copying the video when its quality (or bitrate) is
   * not set.
   */
  lemma EffectiveVideoCodec(ffmpeg: string, input: string, output: string, cfg: Settings)
    requires cfg.postProcessingMethod != StreamCopyMethod
    requires output != "-c:v"
    requires cfg.preset != "-c:v" && cfg.audioCodec != "-c:v" && ConvertBitrate(cfg.audioBitrate) != "-c:v"
    requires cfg.videoQuality != Some("-c:v")
    ensures LastValue(FfmpegArgs(ffmpeg, input, output, cfg), "-c:v") == Some(
      if Encoder(cfg.videoCodec) == "libx264" &&
         ((cfg.qualityOrBitrate == QualityMode && cfg.videoQuality.None?) ||
          (cfg.qualityOrBitrate == BitrateMode && !(cfg.videoBitrate.Some? && |cfg.videoBitrate.value| > 0)))
      then "copy" else Encoder(cfg.videoCodec))
  {
    var argv := FfmpegArgs(ffmpeg, input, output, cfg);
    var encoder := Encoder(cfg.videoCodec);
    var extra := EncoderOptions(encoder, cfg.qualityOrBitrate, cfg.videoQuality, cfg.videoBitrate);
    var head := [ffmpeg, "-i", input, "-c:v", encoder, "-preset", cfg.preset, "-c:a", cfg.audioCodec,
       "-b:a", ConvertBitrate(cfg.audioBitrate), "-y"];
    assert argv == head + extra + [output];
    assert argv[3] == "-c:v" && argv[4] == encoder;
    var fallback := encoder == "libx264" &&
         ((cfg.qualityOrBitrate == QualityMode && cfg.videoQuality.None?) ||
          (cfg.qualityOrBitrate == BitrateMode && !(cfg.videoBitrate.Some? && |cfg.videoBitrate.value| > 0)));
    if fallback {
      assert extra == ["-c:v", "copy"];
      assert argv[12] == "-c:v" && argv[13] == "copy" && |argv| == 15;
      LastValueAt(argv, "-c:v", 12);
    } else {
      OptionsSetNoCodec(encoder, cfg.qualityOrBitrate, cfg.videoQuality, cfg.videoBitrate);
      forall j | 4 < j < |argv| - 1 ensures argv[j] != "-c:v" {
        if j >= 12 { assert argv[j] == extra[j - 12]; }
      }
      LastValueAt(argv, "-c:v", 3);
    }
  }

  /** Apart from the x264 fall-back, the encoder options never name a video codec. */
  lemma OptionsSetNoCodec(encoder: string, mode: string, quality: Option<string>, bitrate: Option<string>)
    requires encoder in {"libx264", "h264_qsv", "h264_nvenc", "h264_amf"}
    requires quality != Some("-c:v")
    requires !(encoder == "libx264" &&
         ((mode == QualityMode && quality.None?) ||
          (mode == BitrateMode && !(bitrate.Some? && |bitrate.value| > 0))))
    ensures forall j :: 0 <= j < |EncoderOptions(encoder, mode, quality, bitrate)| ==>
      EncoderOptions(encoder, mode, quality, bitrate)[j] != "-c:v"
  {
    if encoder !in {"h264_qsv", "h264_nvenc", "h264_amf"} && mode == BitrateMode && encoder == "libx264" {
      var b := bitrate.value + "k";
      assert b[|b| - 1] == 'k';
      assert EncoderOptions(encoder, mode, quality, bitrate) == ["-b:v", b];
    }
  }

  /** A quality value ffmpeg cannot mistake for a flag. */
  predicate PlainValue(q: Option<string>) {
    q.None? || |q.value| == 0 || q.value[0] != '-'
  }

  /**
   * The rate control ffmpeg reads from a re-encode command: Intel's encoder gets
   * a global quality (25 when unset) with look-ahead, NVIDIA's a constant
   * quality and AMD's the QVBR mode with a quality level (23 when unset) in the
   * quality mode, and x264 a CRF in the quality mode or a bitrate in `k` in the
   * bitrate mode, when those are set.
   */
  lemma RateControl(ffmpeg: string, input: string, output: string, cfg: Settings)
    requires cfg.postProcessingMethod != StreamCopyMethod
    ensures var argv, enc, q := FfmpegArgs(ffmpeg, input, output, cfg), Encoder(cfg.videoCodec), cfg.videoQuality;
      enc == "h264_qsv" && PlainValue(q) ==>
        LastValue(argv, "-global_quality") == Some(if q.Some? && |q.value| > 0 then q.value else "25") &&
        LastValue(argv, "-look_ahead") == Some("1")
    ensures var argv, enc, q := FfmpegArgs(ffmpeg, input, output, cfg), Encoder(cfg.videoCodec), cfg.videoQuality;
      enc == "h264_nvenc" && cfg.qualityOrBitrate == QualityMode && PlainValue(q) ==>
        LastValue(argv, "-cq") == Some(q.GetOr("23"))
    ensures var argv, enc, q := FfmpegArgs(ffmpeg, input, output, cfg), Encoder(cfg.videoCodec), cfg.videoQuality;
      enc == "h264_amf" && cfg.qualityOrBitrate == QualityMode && PlainValue(q) ==>
        LastValue(argv, "-rc") == Some("qvbr") && LastValue(argv, "-qvbr_quality_level") == Some(q.GetOr("23"))
    ensures var argv, enc, q := FfmpegArgs(ffmpeg, input, output, cfg), Encoder(cfg.videoCodec), cfg.videoQuality;
      enc == "libx264" && cfg.qualityOrBitrate == QualityMode && q.Some? && PlainValue(q) ==>
        LastValue(argv, "-crf") == Some(q.value)
    ensures var argv, enc, b := FfmpegArgs(ffmpeg, input, output, cfg), Encoder(cfg.videoCodec), cfg.videoBitrate;
      enc == "libx264" && cfg.qualityOrBitrate == BitrateMode && b.Some? && |b.value| > 0 ==>
        LastValue(argv, "-b:v") == Some(b.value + "k")
  {
    var enc, q := Encoder(cfg.videoCodec), cfg.videoQuality;
    if enc == "h264_qsv" && PlainValue(q) {
      var v := if q.Some? && |q.value| > 0 then q.value else "25";
      OptionsRead(ffmpeg, input, output, cfg, ["-global_quality", v, "-look_ahead", "1"]);
    } else if enc == "h264_nvenc" && cfg.qualityOrBitrate == QualityMode && PlainValue(q) {
      OptionsRead(ffmpeg, input, output, cfg, ["-cq", q.GetOr("23")]);
    } else if enc == "h264_amf" && cfg.qualityOrBitrate == QualityMode && PlainValue(q) {
      OptionsRead(ffmpeg, input, output, cfg, ["-rc", "qvbr", "-qvbr_quality_level", q.GetOr("23")]);
    } else if enc == "libx264" && cfg.qualityOrBitrate == QualityMode && q.Some? && PlainValue(q) {
      OptionsRead(ffmpeg, input, output, cfg, ["-crf", q.value]);
    } else if enc == "libx264" && cfg.qualityOrBitrate == BitrateMode && cfg.videoBitrate.Some? && |cfg.videoBitrate.value| > 0 {
      var b := cfg.videoBitrate.value + "k";
      assert b[|b| - 1] == 'k';
      OptionsRead(ffmpeg, input, output, cfg, ["-b:v", b]);
    }
  }

  /** When the encoder options are given pairs of distinct flags, ffmpeg reads each pair's value. */
  lemma OptionsRead(ffmpeg: string, input: string, output: string, cfg: Settings, opts: seq<string>)
    requires cfg.postProcessingMethod != StreamCopyMethod
    requires EncoderOptions(Encoder(cfg.videoCodec), cfg.qualityOrBitrate, cfg.videoQuality, cfg.videoBitrate) == opts
    requires |opts| == 2 || (|opts| == 4 && opts[2] != opts[0] && opts[3] != opts[0] && opts[3] != opts[2])
    requires opts[1] != opts[0]
    ensures LastValue(FfmpegArgs(ffmpeg, input, output, cfg), opts[0]) == Some(opts[1])
    ensures |opts| == 4 ==> LastValue(FfmpegArgs(ffmpeg, input, output, cfg), opts[2]) == Some(opts[3])
  {
    var argv := FfmpegArgs(ffmpeg, input, output, cfg);
    ReencodeSplit(ffmpeg, input, output, cfg);
    OptionRead(argv[..12], opts, output, 0);
    if |opts| == 4 {
      OptionRead(argv[..12], opts, output, 2);
    }
  }

  /** A re-encode command is its twelve fixed arguments, the encoder options and the output. */
  lemma ReencodeSplit(ffmpeg: string, input: string, output: string, cfg: Settings)
    requires cfg.postProcessingMethod != StreamCopyMethod
    ensures var argv := FfmpegArgs(ffmpeg, input, output, cfg);
      |argv| >= 13 &&
      argv == argv[..12] + EncoderOptions(Encoder(cfg.videoCodec), cfg.qualityOrBitrate, cfg.videoQuality, cfg.videoBitrate) + [output]
  {
  }

  /**
   * An encoder option whose flag is not repeated later among the options, and
   * whose value and later entries are no flags, is the value ffmpeg reads, whatever
   * came before.
   */
  lemma OptionRead(head: seq<string>, opts: seq<string>, output: string, i: nat)
    requires i + 1 < |opts|
    requires forall j :: i < j < |opts| ==> opts[j] != opts[i]
    ensures LastValue(head + opts + [output], opts[i]) == Some(opts[i + 1])
  {
    var tail := opts + [output];
    assert forall j :: i < j < |tail| - 1 ==> tail[j] == opts[j];
    LastValueAt(tail, opts[i], i);
    LastValueSuffix(head, tail, opts[i]);
    assert head + opts + [output] == head + tail;
  }

  /** What a flag's last occurrence in the tail of a command says is not undone by anything before the tail. */
  lemma {:induction false} LastValueSuffix(head: seq<string>, tail: seq<string>, flag: string)
    requires LastValue(tail, flag).Some?
    ensures LastValue(head + tail, flag) == LastValue(tail, flag)
    decreases |tail|
  {
    var argv := head + tail;
    assert argv[|argv| - 2] == tail[|tail| - 2] && argv[|argv| - 1] == tail[|tail| - 1];
    if tail[|tail| - 2] != flag {
      assert argv[..|argv| - 1] == head + tail[..|tail| - 1];
      LastValueSuffix(head, tail[..|tail| - 1], flag);
    }
  }

  lemma LastValueAt(argv: seq<string>, flag: string, i: nat)
    requires i < |argv| - 1 && argv[i] == flag
    requires forall j :: i < j < |argv| - 1 ==> argv[j] != flag
    ensures LastValue(argv, flag) == Some(argv[i + 1])
  {
    var r := LastValue(argv, flag);
    if r.Some? {
      var k :| LastFlagAt(argv, flag, k) && argv[k + 1] == r.value;
      assert k == i;
    }
  }

  // ---------------------------------------------------------------------------
  // File operations after the run
  // ---------------------------------------------------------------------------

  /** The name after `removeFixedPrefix`: every `fixed_` dropped from the basename. */
  function UnfixedPath(output: string): (r: string)
    ensures Basename(r) == ReplaceAll(Basename(output), "fixed_", "")
  {
    ReplaceKeepsSep(Basename(output), "fixed_", "");
    BasenameOfJoin(Dirname(output), ReplaceAll(Basename(output), "fixed_", ""));
    PathJoin(Dirname(output), ReplaceAll(Basename(output), "fixed_", ""))
  }

  lemma {:induction false} ReplaceKeepsSep(s: string, pat: string, rep: string)
    requires |pat| > 0 && Sep !in s && Sep !in rep
    ensures Sep !in ReplaceAll(s, pat, rep)
    decreases |s|
  {
    if |s| >= |pat| {
      if s[..|pat|] == pat {
        ReplaceKeepsSep(s[|pat|..], pat, rep);
      } else {
        ReplaceKeepsSep(s[1..], pat, rep);
      }
    }
  }

  /** Undoing the `fixed_` prefix of a post-processed copy gives back the recording's own name. */
  lemma UnfixedName(b: string)
    requires !Contains(b, "fixed_")
    ensures ReplaceAll("fixed_" + b, "fixed_", "") == b
  {
    var s := "fixed_" + b;
    assert s[..6] == "fixed_" && s[6..] == b;
  }

  /** The `fixed_` copy of `dir/name` is renamed back to `dir/name`. */
  lemma UnfixedOfFixed(dir: string, name: string)
    requires |dir| > 0 && dir[|dir| - 1] != Sep
    requires |name| > 0 && Sep !in name && !Contains(name, "fixed_")
    ensures UnfixedPath(PathJoin(dir, "fixed_" + name)) == PathJoin(dir, name)
    ensures PathJoin(dir, "fixed_" + name) != PathJoin(dir, name)
  {
    var out := PathJoin(dir, "fixed_" + name);
    DirBaseOfJoin(dir, "fixed_" + name);
    DirBaseOfJoin(dir, name);
    assert |Basename(out)| != |Basename(PathJoin(dir, name))|;
    UnfixedName(name);
  }

  /** The result of `copy_specific_file`: the file system afterwards and the path it returns. */
  datatype Copied = Copied(fs: FileSystem, path: string)

  /**
   * The rename of `removeFixedPrefix`. A missing file, or a destination that
   * exists (`os.rename` on Windows refuses to replace a file), makes it fail;
   * the path returned is then the one before the rename.
   */
  function RenameUnfixed(fs: FileSystem, output: string): (r: Copied)
    ensures r.path == output || r.path == UnfixedPath(output)
    ensures r.path == output ==> r.fs == fs
    ensures r.path != output ==> output in fs && r.path !in fs && r.fs == fs - {output} + {r.path}
    ensures output in fs ==> r.path in r.fs
    ensures output in fs && UnfixedPath(output) !in fs ==> r.path == UnfixedPath(output)
  {
    var fin := UnfixedPath(output);
    if output !in fs || fin in fs then Copied(fs, output)
    else Copied(fs - {output} + {fin}, fin)
  }

  /**
   * `copy_specific_file` after ffmpeg has run with exit status `rc`. On success
   * the output exists; then the source is deleted (when asked) and the output
   * renamed without `fixed_` (when asked). Both steps share one `try`, so a
   * failed deletion skips the rename. The returned path is the renamed one only
   * when the rename happened.
   */
  function CopySpecificFile(fs: FileSystem, input: string, output: string, rc: int,
                            deleteAfter: bool, removeFixedPrefix: bool): (r: Copied)
    ensures rc != 0 ==> r == Copied(fs, output)
    ensures rc == 0 && !deleteAfter && !removeFixedPrefix ==> r == Copied(fs + {output}, output)
    ensures r.path == output || r.path == UnfixedPath(output)
    ensures rc == 0 && input != output ==> r.path in r.fs
    ensures rc == 0 && deleteAfter && input != output ==> input !in r.fs || r.path == input
    ensures rc == 0 && deleteAfter && input !in fs && input != output ==> r == Copied(fs + {output}, output)
  {
    if rc != 0 then Copied(fs, output)
    else if deleteAfter && input !in fs + {output} then Copied(fs + {output}, output)
    else
      var fs2 := AfterDelete(fs + {output}, input, deleteAfter);
      if removeFixedPrefix then RenameUnfixed(fs2, output) else Copied(fs2, output)
  }

  /** The files after the optional deletion of the source. */
  function AfterDelete(fs: FileSystem, input: string, deleteAfter: bool): (r: FileSystem)
    ensures deleteAfter ==> input !in r
    ensures forall f :: f != input ==> (f in r <==> f in fs)
    ensures !deleteAfter ==> r == fs
  {
    if deleteAfter then fs - {input} else fs
  }

  /**
   * The post-processing task: ffmpeg on the job, then, when moving is enabled and
   * a destination is set, the move of whatever path the copy returned.
   */
  function RunPostProcessing(fs: FileSystem, input: string, output: string, rc: int, cfg: Settings): (r: FileSystem)
    ensures !cfg.moveAfterProcessingEnabled || |cfg.moveAfterProcessing| == 0 ==>
      r == CopySpecificFile(fs, input, output, rc, cfg.deleteAfterPostProcessing, cfg.removeFixedPrefix).fs
    ensures rc != 0 && output !in fs ==> r == fs
    ensures cfg.moveAfterProcessing !in CopySpecificFile(fs, input, output, rc, cfg.deleteAfterPostProcessing, cfg.removeFixedPrefix).fs ==>
      r == CopySpecificFile(fs, input, output, rc, cfg.deleteAfterPostProcessing, cfg.removeFixedPrefix).fs
  {
    var c := CopySpecificFile(fs, input, output, rc, cfg.deleteAfterPostProcessing, cfg.removeFixedPrefix);
    if cfg.moveAfterProcessingEnabled && |cfg.moveAfterProcessing| > 0
    then MoveAfterProcessing(c.fs, c.path, cfg.moveAfterProcessing)
    else c.fs
  }

  /**
   * A successful run with both options on, for a recording `dir/name` whose copy
   * is `dir/fixed_name`: the source is deleted and the copy takes its name, so
   * the recording's path names the processed file and no `fixed_` file is left.
   */
  lemma RoundTripToOriginalName(fs: FileSystem, dir: string, name: string)
    requires |dir| > 0 && dir[|dir| - 1] != Sep
    requires |name| > 0 && Sep !in name && !Contains(name, "fixed_")
    requires PathJoin(dir, name) in fs
    ensures var c := CopySpecificFile(fs, PathJoin(dir, name), PathJoin(dir, "fixed_" + name), 0, true, true);
      c.path == PathJoin(dir, name) && c.fs == fs - {PathJoin(dir, "fixed_" + name)}
  {
    UnfixedOfFixed(dir, name);
    RenameBack(fs, PathJoin(dir, name), PathJoin(dir, "fixed_" + name));
  }

  lemma RenameBack(fs: FileSystem, input: string, out: string)
    requires input in fs && input != out && UnfixedPath(out) == input
    ensures CopySpecificFile(fs, input, out, 0, true, true) == Copied(fs - {out}, input)
  {
    var fs2 := fs + {out} - {input};
    SwapBack(fs, input, out);
    assert CopySpecificFile(fs, input, out, 0, true, true) == RenameUnfixed(fs2, out);
  }

  /** Adding `out` and removing `input`, then the reverse, leaves the files without `out`. */
  lemma SwapBack(fs: FileSystem, input: string, out: string)
    requires input in fs && input != out
    ensures out in fs + {out} - {input} && input !in fs + {out} - {input}
    ensures (fs + {out} - {input}) - {out} + {input} == fs - {out}
  {
  }
}

=== FILE: recorder.dfy ===
/**
 * The per-channel bookkeeping of `LiveRecorder` in `Live_recorder.py`: which
 * channels have a recording thread, their recording status, file names and
 * post-processing targets, and the operations that start, finish, stop and
 * clean up a channel's recording.
 */
module Recorder {
  import opened Wrappers
  import opened Text
  import opened Channels
  import opened LiveMetadata
  import opened CommandBuilder
  import opened Supervisor

  /** A registered thread: created but not started, running, or finished. */
  datatype Phase = Created | Running | Exited

  datatype State = State(
    channels: seq<Channel>,
    threads: map<string, Phase>,
    processes: set<string>,
    startTimes: map<string, int>,
    status: map<string, bool>,
    filenames: map<string, string>,
    fixedPaths: map<string, string>,
    metadata: map<string, LiveInfo>,
    chatLogs: map<string, string>,
    chatStatus: map<string, bool>)

  /**
   * The settings the recorder reads. `autoPostProcessing` is read once, when the
   * recorder is created; `postProcessingOutputDir` is read at each use.
   */
  datatype RecorderConfig = RecorderConfig(
    autoRecordMode: bool,
    autoPostProcessing: bool,
    postProcessingOutputDir: Option<string>,
    plugin: string,
    timeShift: int,
    pattern: string)

  /** A post-processing run: the recording and the `fixed_` file it produces. */
  datatype PostJob = PostJob(input: string, output: string)

  /**
   * Where the post-processed copy of `file` goes: `fixed_<basename>` in the
   * configured output directory, or next to the recording when none is set.
   */
  function FixedPath(file: string, outDir: Option<string>): (r: string)
    ensures Sep !in Basename(file) && Basename(r) == "fixed_" + Basename(file)
  {
    var dir := if outDir.Some? && |outDir.value| > 0 then outDir.value else Dirname(file);
    BasenameOfJoin(dir, "fixed_" + Basename(file));
    PathJoin(dir, "fixed_" + Basename(file))
  }

  /** The state after a finished session, the post-processing it asks for, and whether the handler raised. */
  datatype Finish = Finish(s: State, job: Option<PostJob>, raised: bool)

  /** The bookkeeping part of `onRecordingFinished`, shared by both readings of it. */
  function FinishState(s: State, cfg: RecorderConfig, id: string): (r: State)
    ensures r.startTimes == s.startTimes - {id} && r.status == s.status[id := false]
    ensures cfg.autoPostProcessing && id in s.filenames ==>
      r.fixedPaths == s.fixedPaths[id := FixedPath(s.filenames[id], cfg.postProcessingOutputDir)]
    ensures !(cfg.autoPostProcessing && id in s.filenames) ==> r.fixedPaths == s.fixedPaths
    ensures r.(startTimes := s.startTimes, status := s.status, fixedPaths := s.fixedPaths) == s
  {
    var s1 := s.(startTimes := s.startTimes - {id}, status := s.status[id := false]);
    if cfg.autoPostProcessing && id in s.filenames then
      s1.(fixedPaths := s.fixedPaths[id := FixedPath(s.filenames[id], cfg.postProcessingOutputDir)])
    else s1
  }

  /**
   * `onRecordingFinished(channel_id)` as written: after recording the `fixed_`
   * path it calls `asyncio.create_task` from the recording thread, where no event
   * loop is running, so it raises and no post-processing starts.
   */
  function OnRecordingFinishedAsWritten(s: State, cfg: RecorderConfig, id: string): (r: Finish)
    ensures r.s == FinishState(s, cfg, id)
    ensures r.job.None?
    ensures r.raised <==> cfg.autoPostProcessing && id in s.filenames
  {
    Finish(FinishState(s, cfg, id), None, cfg.autoPostProcessing && id in s.filenames)
  }

  /** `onRecordingFinished(channel_id)` as intended: the post-processing job is handed on. */
  function OnRecordingFinished(s: State, cfg: RecorderConfig, id: string): (r: Finish)
    ensures r.s == FinishState(s, cfg, id) && !r.raised
    ensures r.job.Some? <==> cfg.autoPostProcessing && id in s.filenames
    ensures r.job.Some? ==> r.job.value.input == s.filenames[id] && r.s.fixedPaths[id] == r.job.value.output
    ensures r.job.Some? ==> Basename(r.job.value.output) == "fixed_" + Basename(r.job.value.input)
  {
    var job := if cfg.autoPostProcessing && id in s.filenames
      then Some(PostJob(s.filenames[id], FixedPath(s.filenames[id], cfg.postProcessingOutputDir)))
      else None;
    Finish(FinishState(s, cfg, id), job, false)
  }

  /** The recorder as the two readings leave it: the same state; only the job and the exception differ. */
  lemma FinishReadingsAgree(s: State, cfg: RecorderConfig, id: string)
    ensures OnRecordingFinishedAsWritten(s, cfg, id).s == OnRecordingFinished(s, cfg, id).s
    ensures OnRecordingFinishedAsWritten(s, cfg, id).raised <==> OnRecordingFinished(s, cfg, id).job.Some?
  {
  }

  /** The outcome of an operation that may raise part-way. */
  datatype Step = Step(s: State, raised: bool)

  /**
   * `cleanupAfterRecording(channel_id, force_stop)`: the channel's thread and
   * start time are dropped and its status cleared. With auto mode on and no
   * channel of that id, `None.get` raises first; the handler swallows the
   * exception (`raised` reports it) and everything stays as it was. `force_stop` only changes a message that is
   * never shown.
   */
  function Cleanup(s: State, cfg: RecorderConfig, id: string, force: bool): (r: Step)
    ensures r.raised <==> cfg.autoRecordMode && FindChannel(s.channels, id).None?
    ensures r.raised ==> r.s == s
    ensures !r.raised ==> id !in r.s.threads && id !in r.s.startTimes && id in r.s.status && !r.s.status[id]
    ensures !r.raised ==> r.s.threads == s.threads - {id} && r.s.startTimes == s.startTimes - {id}
    ensures r.s.(threads := s.threads, startTimes := s.startTimes, status := s.status) == s
  {
    if cfg.autoRecordMode && FindChannel(s.channels, id).None? then Step(s, true)
    else Step(s.(threads := s.threads - {id}, startTimes := s.startTimes - {id},
                 status := s.status[id := false]), false)
  }

  /**
   * Whether `cleanupAfterRecording` composes the "waiting for the broadcast"
   * message instead of the "stopped" one (the message itself is never shown).
   */
  predicate WaitingMessage(s: State, cfg: RecorderConfig, id: string, force: bool) {
    cfg.autoRecordMode && FindChannel(s.channels, id).Some? && RecordEnabled(FindChannel(s.channels, id).value) && !force
  }

  /**
   * The message says "waiting" exactly when the thread, after a successful session
   * whose channel went offline, keeps watching the channel.
   */
  lemma WaitingMatchesWatch(s: State, cfg: RecorderConfig, id: string, force: bool, ch: Channel)
    requires FindChannel(s.channels, id) == Some(ch)
    ensures WaitingMessage(s, cfg, id, force) <==>
      AfterSession(force, false, cfg.autoRecordMode, RecordEnabled(ch), false) == KeepWatching
  {
  }

  lemma CleanupIdempotent(s: State, cfg: RecorderConfig, id: string, force: bool, force2: bool)
    ensures Cleanup(Cleanup(s, cfg, id, force).s, cfg, id, force2).s == Cleanup(s, cfg, id, force).s
  {
  }

  /** The result of a stop request: the state, the post-processing started, and whether it raised. */
  datatype Stopping = Stopping(s: State, job: Option<PostJob>, raised: bool)

  predicate WantsPostProcessing(s: State, cfg: RecorderConfig, id: string) {
    cfg.autoPostProcessing && id in s.filenames && id in s.fixedPaths && |s.fixedPaths[id]| > 0
  }

  /**
   * `stopRecording(channel_id, force_stop)` as written: the recording process is
   * dropped, and then, whenever post-processing is wanted, the call of the
   * undefined `self.runStreamCopy` raises `AttributeError`, so neither the
   * clean-up nor the removal of the `fixed_` path happens.
   */
  function StopRecordingAsWritten(s: State, cfg: RecorderConfig, id: string, force: bool): (r: Stopping)
    ensures id !in s.threads ==> r == Stopping(s, None, false)
    ensures r.job.None?
    ensures id in s.threads ==> (r.raised <==> WantsPostProcessing(s, cfg, id))
    ensures id in s.threads && WantsPostProcessing(s, cfg, id) ==>
      r.s == s.(processes := s.processes - {id})
  {
    if id !in s.threads then Stopping(s, None, false)
    else
      var s1 := s.(processes := s.processes - {id});
      if WantsPostProcessing(s, cfg, id) then Stopping(s1, None, true)
      else
        var c := Cleanup(s1, cfg, id, force);
        Stopping(c.s.(fixedPaths := c.s.fixedPaths - {id}), None, false)
  }

  /** `stopRecording` as intended: post-processing of the recorded file starts, and the clean-up follows. */
  function StopRecording(s: State, cfg: RecorderConfig, id: string, force: bool): (r: Stopping)
    ensures id !in s.threads ==> r == Stopping(s, None, false)
    ensures id in s.threads ==> id !in r.s.processes && id !in r.s.fixedPaths
    ensures id in s.threads ==> (r.job.Some? <==> WantsPostProcessing(s, cfg, id))
    ensures r.job.Some? ==> r.job.value == PostJob(s.filenames[id], s.fixedPaths[id])
    ensures !r.raised
    ensures id in s.threads && !(cfg.autoRecordMode && FindChannel(s.channels, id).None?) ==>
      id !in r.s.threads && id in r.s.status && !r.s.status[id]
  {
    if id !in s.threads then Stopping(s, None, false)
    else
      var s1 := s.(processes := s.processes - {id});
      var job := if WantsPostProcessing(s, cfg, id) then Some(PostJob(s.filenames[id], s.fixedPaths[id])) else None;
      var c := Cleanup(s1, cfg, id, force);
      Stopping(c.s.(fixedPaths := c.s.fixedPaths - {id}), job, false)
  }

  /** As written, a stop that wants post-processing leaves the thread registered and the `fixed_` path behind. */
  lemma StopLeavesThreadBehind(s: State, cfg: RecorderConfig, id: string, force: bool)
    requires id in s.threads && WantsPostProcessing(s, cfg, id)
    requires FindChannel(s.channels, id).Some?
    ensures var w := StopRecordingAsWritten(s, cfg, id, force);
      w.raised && id in w.s.threads && id in w.s.fixedPaths
    ensures var c := StopRecording(s, cfg, id, force);
      !c.raised && id !in c.s.threads && id !in c.s.fixedPaths && c.job.Some?
  {
  }

  /**
   * `startBackgroundRecording(channel_id)`: nothing happens when the channel's
   * thread is running or the channel is unknown. Otherwise a new thread is
   * registered and a command is built from the cached metadata. When that
   * succeeds the thread starts and the chat logger starts with the command's
   * chat-log path; otherwise the exception leaves the thread registered but not
   * started.
   */
  function StartBackgroundRecording(s: State, cfg: RecorderConfig, env: Env, id: string): (r: Step)
    requires IsAbs(env.cwd)
    ensures id in s.threads && s.threads[id] == Running ==> r == Step(s, false)
    ensures FindChannel(s.channels, id).None? ==> r == Step(s, false)
    ensures !r.raised && r.s != s ==>
      r.s.threads == s.threads[id := Running] && id in r.s.filenames && id in r.s.chatLogs &&
      r.s.chatLogs[id] == ChatLogPath(r.s.filenames[id]) && id in r.s.chatStatus && r.s.chatStatus[id]
    ensures r.raised ==> r.s.threads == s.threads[id := Created] && r.s.chatLogs == s.chatLogs
    ensures FindChannel(s.channels, id).Some? && !(id in s.threads && s.threads[id] == Running) ==>
      var meta := if id in s.metadata then Some(s.metadata[id]) else None;
      var built := BuildCommand(env, cfg.plugin, cfg.timeShift, cfg.pattern, s.channels,
                                FindChannel(s.channels, id).value, meta, None);
      && (r.raised <==> !built.Command?)
      && (built.Command? ==>
            && r.s.threads == s.threads[id := Running]
            && r.s.filenames == s.filenames[id := built.built.outputPath]
            && r.s.chatLogs == s.chatLogs[id := built.built.chatLogPath])
      && (built.Failed? && built.error.MissingCookies? ==> r.s.filenames == s.filenames[id := built.error.recorded])
    ensures r.s.channels == s.channels && r.s.metadata == s.metadata
  {
    if id in s.threads && s.threads[id] == Running then Step(s, false)
    else match FindChannel(s.channels, id)
      case None => Step(s, false)
      case Some(ch) =>
        var meta := if id in s.metadata then Some(s.metadata[id]) else None;
        var s1 := s.(threads := s.threads[id := Created]);
        match BuildCommand(env, cfg.plugin, cfg.timeShift, cfg.pattern, s.channels, ch, meta, None)
        case Command(b) =>
          Step(s1.(threads := s.threads[id := Running],
                   filenames := s.filenames[id := b.outputPath],
                   chatLogs := s.chatLogs[id := b.chatLogPath],
                   chatStatus := s.chatStatus[id := true]), false)
        case Failed(MissingCookies(p)) => Step(s1.(filenames := s.filenames[id := p]), true)
        case _ => Step(s1, true)
  }

  /** Starting a channel whose start succeeded again changes nothing. */
  lemma StartIdempotent(s: State, cfg: RecorderConfig, env: Env, id: string)
    requires IsAbs(env.cwd)
    requires !StartBackgroundRecording(s, cfg, env, id).raised
    ensures var s1 := StartBackgroundRecording(s, cfg, env, id).s;
      StartBackgroundRecording(s1, cfg, env, id) == Step(s1, false)
  {
  }
}

=== FILE: settings.dfy ===
/**
 * The settings window (`module/settings_window.py`): how the form's texts
 * become configuration values when the user applies them, and which encoder
 * presets the preset box offers for the chosen video codec.
 */
module SettingsWindow {
  import opened Wrappers
  import opened Text
  import opened Config

  /** The current texts of the form's widgets. */
  datatype Form = Form(
    plugin: string,
    timeShift: string,
    recheckInterval: string,
    autoStopInterval: string,
    showMessageBox: string,
    autoPostProcessing: string,
    deleteAfterPostProcessing: string,
    minimizePostProcessing: string,
    removeFixedPrefix: string,
    moveAfterProcessingEnabled: string,
    moveAfterProcessing: string,
    filenamePattern: string,
    postProcessingMethod: string,
    postProcessingOutputDir: string,
    videoCodec: string,
    qualityOrBitrate: string,
    videoQuality: string,
    videoBitrate: string,
    preset: string,
    audioCodec: string,
    audioBitrate: string)

  /** The labels of the video-codec box, in order. */
  const CodecLabels: seq<string> :=
    ["x264(CPU)", "h264_qsv(인텔 GPU가속)", "h264_nvenc(엔비디아 GPU가속)", "h264_amf(AMD GPU가속)"]

  /** A yes/no box: on only for '사용'. */
  function Enabled(text: string): (b: bool)
    ensures b <==> text == "사용"
  {
    text == "사용"
  }

  /** A stripped text field, `None` when nothing is left (`s.strip() if s.strip() else None`). */
  function TextOrNull(text: string): (r: Option<string>)
    ensures r.None? <==> |Strip(text)| == 0
    ensures r.Some? ==> r.value == Strip(text) && NoEdgeSpace(r.value)
  {
    if |Strip(text)| > 0 then Some(Strip(text)) else None
  }

  /**
   * The `videoQuality` stored: the stripped text, or when it is empty the
   * encoder default for `h264_qsv` ('25'), `h264_nvenc` and `h264_amf` ('23'),
   * and null for any other codec value.
   */
  function VideoQuality(codec: string, text: string): (r: Option<string>)
    ensures |Strip(text)| > 0 ==> r == Some(Strip(text))
    ensures |Strip(text)| == 0 && codec == "h264_qsv" ==> r == Some("25")
    ensures |Strip(text)| == 0 && (codec == "h264_nvenc" || codec == "h264_amf") ==> r == Some("23")
    ensures |Strip(text)| == 0 && codec !in {"h264_qsv", "h264_nvenc", "h264_amf"} ==> r == None
  {
    var q := Strip(text);
    if codec == "h264_qsv" then Some(if |q| > 0 then q else "25")
    else if codec == "h264_nvenc" then Some(if |q| > 0 then q else "23")
    else if codec == "h264_amf" then Some(if |q| > 0 then q else "23")
    else TextOrNull(text)
  }

  /**
   * The codec value stored is a label of the codec box, and no label equals a
   * bare encoder name: an empty quality field is always stored as null.
   */
  lemma EmptyQualityIsNull(codecLabel: string, text: string)
    requires codecLabel in CodecLabels && |Strip(text)| == 0
    ensures VideoQuality(codecLabel, text) == None
  {
    var i :| 0 <= i < |CodecLabels| && CodecLabels[i] == codecLabel;
    assert |codecLabel| == 9 || |codecLabel| > 10 by {
      if i == 0 { assert |CodecLabels[0]| == 9; }
      else if i == 1 { assert |CodecLabels[1]| > 10; }
      else if i == 2 { assert |CodecLabels[2]| > 10; }
      else { assert |CodecLabels[3]| > 10; }
    }
    assert codecLabel != "h264_qsv" && codecLabel != "h264_nvenc" && codecLabel != "h264_amf";
  }

  /**
   * What pressing "apply" leaves behind: the configuration saved (and whether
   * the "continuous recording" notice for an auto-stop interval of 0 was shown),
   * or, when a number field does not hold an integer, the `ValueError` that
   * escapes with nothing saved and the in-memory configuration as far as it got.
   */
  datatype Applied = Saved(settings: Settings, continuousNotice: bool) | Raised(inMemory: Settings)

  /** `applySettings()` on the configuration `current`. */
  function ApplySettings(current: Settings, form: Form): (r: Applied)
    ensures r.Raised? <==>
      (PyInt(form.timeShift).None? || PyInt(form.recheckInterval).None? || PyInt(form.autoStopInterval).None?)
    ensures r.Raised? ==> r.inMemory.plugin == form.plugin
    ensures r.Raised? ==>
      r.inMemory.(plugin := current.plugin, timeShift := current.timeShift, recheckInterval := current.recheckInterval) == current
    ensures r.Saved? ==> (r.continuousNotice <==> PyInt(form.autoStopInterval) == Some(0))
    ensures r.Saved? ==> r.settings.autoRecordMode == current.autoRecordMode
    ensures r.Saved? ==> r.settings.timeShift == PyInt(form.timeShift).value
    ensures r.Saved? ==> r.settings.recheckInterval == PyInt(form.recheckInterval).value
    ensures r.Saved? ==> r.settings.autoStopInterval == PyInt(form.autoStopInterval).value
    ensures r.Saved? ==> (r.settings.showMessageBox <==> form.showMessageBox == "표시")
    ensures r.Saved? ==> (r.settings.autoPostProcessing <==> form.autoPostProcessing == "사용")
    ensures r.Saved? ==> (r.settings.deleteAfterPostProcessing <==> form.deleteAfterPostProcessing == "사용")
    ensures r.Saved? ==> (r.settings.minimizePostProcessing <==> form.minimizePostProcessing == "사용")
    ensures r.Saved? ==> (r.settings.removeFixedPrefix <==> form.removeFixedPrefix == "사용")
    ensures r.Saved? ==> (r.settings.moveAfterProcessingEnabled <==> form.moveAfterProcessingEnabled == "사용")
    ensures r.Saved? ==> r.settings.postProcessingOutputDir == TextOrNull(form.postProcessingOutputDir)
    ensures r.Saved? ==> r.settings.videoBitrate == TextOrNull(form.videoBitrate)
    ensures r.Saved? ==> r.settings.videoQuality == VideoQuality(form.videoCodec, form.videoQuality)
    ensures r.Saved? ==> r.settings.plugin == form.plugin && r.settings.videoCodec == form.videoCodec
    ensures r.Saved? ==> r.settings.preset == form.preset && r.settings.filenamePattern == form.filenamePattern
    ensures r.Saved? ==> r.settings.moveAfterProcessing == form.moveAfterProcessing
    ensures r.Saved? ==> r.settings.postProcessingMethod == form.postProcessingMethod
    ensures r.Saved? ==> r.settings.qualityOrBitrate == form.qualityOrBitrate
    ensures r.Saved? ==> r.settings.audioCodec == form.audioCodec && r.settings.audioBitrate == form.audioBitrate
  {
    var s1 := current.(plugin := form.plugin);
    match PyInt(form.timeShift)
    case None => Raised(s1)
    case Some(shift) =>
      var s2 := s1.(timeShift := shift);
      match PyInt(form.recheckInterval)
      case None => Raised(s2)
      case Some(recheck) =>
        var s3 := s2.(recheckInterval := recheck);
        match PyInt(form.autoStopInterval)
        case None => Raised(s3)
        case Some(autoStop) =>
          var saved := Settings(
            current.autoRecordMode,
            Enabled(form.autoPostProcessing),
            recheck,
            form.showMessageBox == "표시",
            Enabled(form.deleteAfterPostProcessing),
            Enabled(form.minimizePostProcessing),
            Enabled(form.removeFixedPrefix),
            form.filenamePattern,
            form.postProcessingMethod,
            Enabled(form.moveAfterProcessingEnabled),
            form.moveAfterProcessing,
            TextOrNull(form.postProcessingOutputDir),
            form.videoCodec,
            form.qualityOrBitrate,
            VideoQuality(form.videoCodec, form.videoQuality),
            TextOrNull(form.videoBitrate),
            form.preset,
            form.audioCodec,
            form.audioBitrate,
            form.plugin,
            shift,
            autoStop);
          Saved(saved, autoStop == 0)
  }

  /** The form fixes every setting but `auto_record_mode`: two configurations that agree on it save the same. */
  lemma ApplyForgetsPrevious(a: Settings, b: Settings, form: Form)
    requires a.autoRecordMode == b.autoRecordMode
    ensures ApplySettings(a, form).Saved? ==> ApplySettings(a, form) == ApplySettings(b, form)
  {
  }

  /** Applying the same form to what it saved saves the same again. */
  lemma ApplyIdempotent(current: Settings, form: Form)
    requires ApplySettings(current, form).Saved?
    ensures ApplySettings(ApplySettings(current, form).settings, form) == ApplySettings(current, form)
  {
    ApplyForgetsPrevious(ApplySettings(current, form).settings, current, form);
  }

  /** An interval of 0 is stored like any other value; only the notice differs. */
  lemma ZeroAutoStopStored(current: Settings, form: Form, other: string)
    requires PyInt(form.autoStopInterval) == Some(0) && PyInt(other).Some? && PyInt(other) != Some(0)
    requires ApplySettings(current, form).Saved?
    ensures var r0 := ApplySettings(current, form);
      var r1 := ApplySettings(current, form.(autoStopInterval := other));
      r1.Saved? && r0.continuousNotice && !r1.continuousNotice &&
      r0.settings == r1.settings.(autoStopInterval := 0)
  {
  }

  // ---------------------------------------------------------------------------
  // Presets
  // ---------------------------------------------------------------------------

  /** `codec_presets`. */
  const CodecPresets: map<string, seq<string>> := map[
    "x264" := ["ultrafast", "superfast", "veryfast", "faster", "fast", "medium", "slow", "slower", "veryslow", "placebo"],
    "h264_qsv" := ["veryfast", "faster", "fast", "balanced", "slow"],
    "h264_nvenc" := ["fast", "medium", "slow", "hq", "bd", "ll", "llhq", "llhp", "lossless", "losslesshp"],
    "h264_amf" := ["balanced", "fast", "quality"]
  ]

  /** `codec_map` of `updatePresetComboBox`: codec-box label to encoder name. */
  const CodecMap: map<string, string> := map[
    "x264(CPU)" := "x264",
    "h264_qsv(인텔 GPU가속)" := "h264_qsv",
    "h264_nvenc(엔비디아 GPU가속)" := "h264_nvenc",
    "h264_amf(AMD GPU가속)" := "h264_amf"
  ]

  /** The presets the preset box offers for a codec-box label. */
  function PresetsFor(codecLabel: string): (r: seq<string>)
    ensures codecLabel in CodecMap ==> r == CodecPresets[CodecMap[codecLabel]]
    ensures codecLabel !in CodecMap ==> r == []
  {
    if codecLabel in CodecMap && CodecMap[codecLabel] in CodecPresets then CodecPresets[CodecMap[codecLabel]] else []
  }

  /**
   * The preset selected after the box is refilled with the list for
   * `codecLabel`: the configured preset `wanted` when the list has it, otherwise
   * the first entry, and nothing for an empty list (a non-editable box only
   * selects listed items).
   */
  function SelectedPreset(codecLabel: string, wanted: string): (r: string)
    ensures r == "" <==> PresetsFor(codecLabel) == []
    ensures r != "" ==> r in PresetsFor(codecLabel)
    ensures wanted in PresetsFor(codecLabel) ==> r == wanted
    ensures wanted !in PresetsFor(codecLabel) && PresetsFor(codecLabel) != [] ==> r == PresetsFor(codecLabel)[0]
  {
    var items := PresetsFor(codecLabel);
    if |items| == 0 then ""
    else if wanted in items then wanted
    else items[0]
  }

  /**
   * Saving stores the box's selection as the configured preset; refilling the
   * box for the same codec from that configuration selects it again.
   */
  lemma SelectedPresetStable(codecLabel: string, wanted: string)
    ensures var first := SelectedPreset(codecLabel, wanted);
      SelectedPreset(codecLabel, first) == first
  {
    var first := SelectedPreset(codecLabel, wanted);
    if PresetsFor(codecLabel) != [] {
      assert first in PresetsFor(codecLabel);
    }
  }

  /** Every label of the codec box has a preset list, and 'medium' is offered by the x264 and NVENC lists only. */
  lemma PresetLists()
    ensures forall codecLabel :: codecLabel in CodecLabels ==> |PresetsFor(codecLabel)| > 0
    ensures "medium" in PresetsFor(CodecLabels[0]) && "medium" in PresetsFor(CodecLabels[2])
    ensures "medium" !in PresetsFor(CodecLabels[1]) && "medium" !in PresetsFor(CodecLabels[3])
  {
    assert CodecPresets["x264"][5] == "medium";
    assert CodecPresets["h264_nvenc"][1] == "medium";
  }

  /** With the default preset 'medium', a switch to the QSV encoder selects its first preset, 'veryfast'. */
  lemma QsvDefaultPreset()
    ensures SelectedPreset(CodecLabels[1], "medium") == "veryfast"
  {
    PresetLists();
  }
}

=== FILE: smi.dfy ===
/**
 * The chat-log to SAMI subtitle converter `convert_log_to_smi.py`. The recording
 * start time is read from the log's file name (`[yymmdd_HHMMSS]…`) and moved back
 * by the time-machine shift stored next to the log; each log line written by
 * the chat logger becomes one `<SYNC Start=ms>` paragraph timed relative to
 * that start.
 *
 * Log lines are given without their line terminator. The regular expression
 * `^\[(.*?)\]\[(.*?)\] (.*?)\s*:\s*(.*)$` is modelled by what its lazy groups
 * settle on: the first `][`, then the first `] ` after it, then the first `:`
 * after that (a later choice never lets the rest of the pattern match where the
 * first did not, since the rest only needs a later occurrence of the same
 * text).
 */
module Smi {
  import opened Wrappers
  import opened Text
  import StateStore
  import ChatLog

  const Header: string :=
    "<SAMI>\n<HEAD>\n<TITLE>Chzzk Chat Log</TITLE>\n<STYLE TYPE=\"text/css\">\n<!--\n" +
    "P { margin-left:8pt; margin-right:8pt; margin-bottom:2pt;\n" +
    "    margin-top:2pt; font-size:14pt; text-align:left;\n" +
    "    font-family:sans-serif; font-weight:normal; color:white;\n" +
    "    background-color:black; }\n" +
    ".DONATION { color: red; }\n-->\n</STYLE>\n</HEAD>\n<BODY>\n"

  const Footer: string := "</BODY>\n</SAMI>\n"

  // ---------------------------------------------------------------------------
  // Cutting at the first occurrence of a text
  // ---------------------------------------------------------------------------

  /** `pat` occurs in `s` at index `k`. */
  predicate At(s: string, pat: string, k: nat) {
    k + |pat| <= |s| && s[k..k + |pat|] == pat
  }

  /** The text before and after the first occurrence of `pat` in `s`, if any. */
  function CutAt(s: string, pat: string): (r: Option<(string, string)>)
    requires |pat| > 0
    ensures r.Some? ==> s == r.value.0 + pat + r.value.1
    ensures r.Some? ==> forall k :: 0 <= k < |r.value.0| ==> !At(s, pat, k)
    ensures r.None? ==> forall k :: 0 <= k <= |s| ==> !At(s, pat, k)
    decreases |s|
  {
    if |s| < |pat| then None
    else if s[..|pat|] == pat then Some(([], s[|pat|..]))
    else
      assert forall k :: 1 <= k <= |s| ==> (At(s, pat, k) <==> At(s[1..], pat, k - 1)) by {
        forall k | 1 <= k <= |s| ensures At(s, pat, k) <==> At(s[1..], pat, k - 1) {
          AtShift(s, pat, k);
        }
      }
      match CutAt(s[1..], pat)
      case None => None
      case Some((a, b)) => Some(([s[0]] + a, b))
  }

  /** An occurrence past the first character is one in the rest of the text. */
  lemma AtShift(s: string, pat: string, k: nat)
    requires 1 <= k <= |s|
    ensures At(s, pat, k) <==> At(s[1..], pat, k - 1)
  {
    if k + |pat| <= |s| {
      var rest := s[1..];
      assert forall i :: k - 1 <= i < k - 1 + |pat| ==> rest[i] == s[i + 1];
      assert s[k..k + |pat|] == rest[k - 1..k - 1 + |pat|];
    }
  }

  /** When the first character of `pat` is not in `a`, the first occurrence in `a + pat + b` is the one after `a`. */
  lemma {:induction false} CutAtFirst(a: string, pat: string, b: string)
    requires |pat| > 0 && pat[0] !in a
    ensures CutAt(a + (pat + b), pat) == Some((a, b))
    decreases |a|
  {
    var s := a + (pat + b);
    if |a| == 0 {
      assert s == pat + b;
      assert s[..|pat|] == pat;
    } else {
      assert s[0] == a[0] != pat[0];
      assert s[1..] == a[1..] + (pat + b);
      CutAtFirst(a[1..], pat, b);
      assert [s[0]] + a[1..] == a;
    }
  }

  // ---------------------------------------------------------------------------
  // Log lines
  // ---------------------------------------------------------------------------

  /** The four groups of `log_pattern`: time, chat type, nickname (with uid) and message. */
  datatype LogFields = LogFields(time: string, kind: string, nickname: string, message: string)

  /**
   * `log_pattern.match(line)`: `[time][kind] nickname : message`, the spaces
   * around the colon dropped.
   */
  function ParseLogLine(line: string): (r: Option<LogFields>)
    ensures r.Some? ==> StartsWith(line, "[" + r.value.time + "][" + r.value.kind + "] ")
    ensures r.Some? ==> ':' !in r.value.nickname
    ensures r.Some? ==> |r.value.message| == 0 || !IsSpace(r.value.message[0])
  {
    if |line| == 0 || line[0] != '[' then None
    else
      match CutAt(line[1..], "][")
      case None => None
      case Some((time, rest)) =>
        match CutAt(rest, "] ")
        case None => None
        case Some((kind, rest2)) =>
          match CutAt(rest2, ":")
          case None => None
          case Some((who, text)) =>
            assert ':' !in who by {
              forall k | 0 <= k < |who| ensures who[k] != ':' {
                assert rest2[k] == who[k];
                assert !At(rest2, ":", k);
              }
            }
            LineStart(line, time, rest, kind, rest2);
            Some(LogFields(time, kind, StripRight(who), StripLeft(text)))
  }

  lemma LineStart(line: string, time: string, rest: string, kind: string, rest2: string)
    requires |line| > 0 && line[0] == '['
    requires line[1..] == time + "][" + rest && rest == kind + "] " + rest2
    ensures StartsWith(line, "[" + time + "][" + kind + "] ")
  {
    assert line == "[" + line[1..];
  }

  /** A line in the shape the chat logger writes parses back into its parts, the uid still attached to the nickname. */
  lemma {:induction false} ParseWrittenLine(time: string, kind: string, nickname: string, uid: string, text: string)
    requires ']' !in time && ']' !in kind && ':' !in nickname && ':' !in uid
    requires |text| == 0 || !IsSpace(text[0])
    ensures ParseLogLine(ChatLog.LogLine(time, kind, nickname, uid, text)) ==
      Some(LogFields(time, kind, nickname + "(" + uid + ")", text))
  {
    var line := ChatLog.LogLine(time, kind, nickname, uid, text);
    var speaker := nickname + "(" + uid + ")";
    var who := speaker + " ";
    var rest2 := nickname + ("(" + (uid + (") : " + text)));
    var rest := kind + ("] " + rest2);
    assert line == "[" + (time + ("][" + rest));
    assert line[1..] == time + ("][" + rest);
    SpeakerSplit(nickname, uid, text);
    assert ':' !in who;
    CutAtFirst(time, "][", rest);
    CutAtFirst(kind, "] ", rest2);
    CutAtFirst(who, ":", " " + text);
    StripOneSpace(speaker);
    assert StripLeft(" " + text) == text;
    assert line[0] == '[';
    assert CutAt(line[1..], "][") == Some((time, rest));
    assert CutAt(rest, "] ") == Some((kind, rest2));
    assert CutAt(rest2, ":") == Some((who, " " + text));
  }

  /** The text after the kind splits at the colon into the nickname with its uid and a space, and the message with a space. */
  lemma SpeakerSplit(nickname: string, uid: string, text: string)
    ensures nickname + ("(" + (uid + (") : " + text))) == (nickname + "(" + uid + ")" + " ") + (":" + (" " + text))
  {
  }

  lemma StripOneSpace(s: string)
    requires |s| > 0 && !IsSpace(s[|s| - 1])
    ensures StripRight(s + " ") == s
  {
    assert (s + " ")[..|s|] == s;
  }

  // ---------------------------------------------------------------------------
  // Nickname and message rewriting
  // ---------------------------------------------------------------------------

  /** The length of the run of lower-case hexadecimal digits `s` starts with. */
  function HexRun(s: string): (n: nat)
    ensures n <= |s|
    ensures forall i :: 0 <= i < n ==> IsLowerHex(s[i])
    ensures n < |s| ==> !IsLowerHex(s[n])
  {
    if |s| > 0 && IsLowerHex(s[0]) then 1 + HexRun(s[1..]) else 0
  }

  /** A hexadecimal run followed by text that starts with a non-digit is just the run. */
  lemma {:induction false} HexRunPrefix(a: string, b: string)
    requires |b| > 0 && !IsLowerHex(b[0])
    ensures HexRun(a + b) == HexRun(a)
  {
    if |a| > 0 && IsLowerHex(a[0]) {
      assert (a + b)[1..] == a[1..] + b;
      HexRunPrefix(a[1..], b);
    }
  }

  /** `id_pattern` (`\([0-9a-f]+\)`) matches at the start of `s`. */
  predicate HexGroupAt(s: string) {
    |s| > 0 && s[0] == '(' && 0 < HexRun(s[1..]) && HexRun(s[1..]) + 1 < |s| && s[HexRun(s[1..]) + 1] == ')'
  }

  /** `id_pattern.sub('', s)`: every match, found left to right, removed. */
  function RemoveHexGroups(s: string): (r: string)
    ensures |r| <= |s|
    decreases |s|
  {
    if |s| == 0 then ""
    else if HexGroupAt(s) then RemoveHexGroups(s[HexRun(s[1..]) + 2..])
    else [s[0]] + RemoveHexGroups(s[1..])
  }

  predicate NoHexGroup(s: string) {
    forall i :: 0 <= i < |s| ==> !HexGroupAt(s[i..])
  }

  predicate IsUid(uid: string) {
    |uid| > 0 && forall i :: 0 <= i < |uid| ==> IsLowerHex(uid[i])
  }

  /** A name without a hexadecimal group loses exactly the `(uid)` written after it. */
  lemma {:induction false} RemoveUidGroup(name: string, uid: string)
    requires NoHexGroup(name) && IsUid(uid)
    ensures RemoveHexGroups(name + ("(" + uid + ")")) == name
    decreases |name|
  {
    var g := "(" + uid + ")";
    var s := name + g;
    if |name| == 0 {
      assert s == g;
      RemoveLoneGroup(uid);
    } else {
      assert !HexGroupAt(name) by { assert name[0..] == name; }
      NoGroupBeforeUid(name, uid);
      assert NoHexGroup(name[1..]) by {
        forall i | 0 <= i < |name| - 1 ensures !HexGroupAt(name[1..][i..]) {
          assert name[1..][i..] == name[i + 1..];
        }
      }
      assert s[0] == name[0] && s[1..] == name[1..] + g;
      calc {
        RemoveHexGroups(s);
        [name[0]] + RemoveHexGroups(name[1..] + g);
        { RemoveUidGroup(name[1..], uid); }
        [name[0]] + name[1..];
        name;
      }
    }
  }

  /** The `(uid)` alone is removed completely. */
  lemma RemoveLoneGroup(uid: string)
    requires IsUid(uid)
    ensures RemoveHexGroups("(" + uid + ")") == ""
  {
    var g := "(" + uid + ")";
    HexRunPrefix(uid, ")");
    assert g[1..] == uid + ")";
    assert g[|uid| + 2..] == "";
  }

  /** A name that does not start with a hexadecimal group does not start with one once the `(uid)` follows it. */
  lemma NoGroupBeforeUid(name: string, uid: string)
    requires |name| > 0 && !HexGroupAt(name) && IsUid(uid)
    ensures !HexGroupAt(name + ("(" + uid + ")"))
  {
    var g := "(" + uid + ")";
    var s := name + g;
    assert s[0] == name[0];
    if name[0] == '(' {
      assert s[1..] == name[1..] + g;
      HexRunPrefix(name[1..], g);
      var n := HexRun(name[1..]);
      if n + 1 < |name| {
        assert s[n + 1] == name[n + 1];
      } else {
        assert s[n + 1] == '(';
      }
    }
  }

  /** The nickname shown in a subtitle: hexadecimal groups removed, then stripped. */
  function CleanNickname(nickname: string): (r: string)
    ensures NoEdgeSpace(r)
  {
    Strip(RemoveHexGroups(nickname))
  }

  /** The nickname the chat logger wrote comes back from `nickname(uid)`. */
  lemma CleanWrittenNickname(nickname: string, uid: string)
    requires NoHexGroup(nickname) && IsUid(uid) && NoEdgeSpace(nickname)
    ensures CleanNickname(nickname + "(" + uid + ")") == nickname
  {
    assert nickname + "(" + uid + ")" == nickname + ("(" + uid + ")");
    RemoveUidGroup(nickname, uid);
    StripNoSpace(nickname);
  }

  /** The length of the run of word characters (`\w`) `s` starts with. */
  function WordRun(s: string): (n: nat)
    ensures n <= |s|
    ensures forall i :: 0 <= i < n ==> IsWordChar(s[i])
    ensures n < |s| ==> !IsWordChar(s[n])
  {
    if |s| > 0 && IsWordChar(s[0]) then 1 + WordRun(s[1..]) else 0
  }

  /** `emoji_pattern` (`{:\w+:}`) matches at the start of `s`. */
  predicate EmojiAt(s: string) {
    |s| >= 2 && s[0] == '{' && s[1] == ':' && 0 < WordRun(s[2..]) &&
    WordRun(s[2..]) + 3 < |s| && s[WordRun(s[2..]) + 2] == ':' && s[WordRun(s[2..]) + 3] == '}'
  }

  /**
   * `emoji_pattern.sub(lambda m: f"({m.group(0)[1:-1]})", message)`: each
   * `{:name:}` becomes `(:name:)`, nothing else changes.
   */
  function Emojify(s: string): (r: string)
    ensures Rewrites(s, r)
    decreases |s|
  {
    if |s| == 0 then ""
    else if EmojiAt(s) then
      var n := WordRun(s[2..]) + 4;
      var head := "(" + s[1..n - 1] + ")";
      var rest := Emojify(s[n..]);
      ParenRewrites(s[..n]);
      assert s[..n][1..n - 1] == s[1..n - 1];
      RewritesConcat(s[..n], head, s[n..], rest);
      assert s[..n] + s[n..] == s;
      head + rest
    else
      var rest := Emojify(s[1..]);
      RewritesConcat(s[..1], [s[0]], s[1..], rest);
      assert s[..1] + s[1..] == s;
      [s[0]] + rest
  }

  /** `r` is `s` with some `{` turned into `(` and some `}` into `)`, and nothing else changed. */
  predicate Rewrites(s: string, r: string) {
    |r| == |s| &&
    forall i :: 0 <= i < |s| ==> r[i] == s[i] || (s[i] == '{' && r[i] == '(') || (s[i] == '}' && r[i] == ')')
  }

  /** Rewritten pieces side by side are the rewritten whole. */
  lemma RewritesConcat(s1: string, r1: string, s2: string, r2: string)
    requires Rewrites(s1, r1) && Rewrites(s2, r2)
    ensures Rewrites(s1 + s2, r1 + r2)
  {
    forall i | |s1| <= i < |s1| + |s2|
      ensures (s1 + s2)[i] == s2[i - |s1|] && (r1 + r2)[i] == r2[i - |s1|]
    {
    }
  }

  /** `{…}` with its braces turned into parentheses. */
  lemma ParenRewrites(t: string)
    requires |t| >= 2 && t[0] == '{' && t[|t| - 1] == '}'
    ensures Rewrites(t, "(" + t[1..|t| - 1] + ")")
  {
    var r := "(" + t[1..|t| - 1] + ")";
    forall i | 0 < i < |t| - 1 ensures r[i] == t[i] {
    }
  }

  /** A message without `{` is not rewritten. */
  lemma {:induction false} NoBraceUnchanged(s: string)
    requires '{' !in s
    ensures Emojify(s) == s
    decreases |s|
  {
    if |s| > 0 {
      assert !EmojiAt(s);
      assert '{' !in s[1..] by {
        forall k | 0 <= k < |s| - 1 ensures s[1..][k] != '{' {
          assert s[1..][k] == s[k + 1];
        }
      }
      NoBraceUnchanged(s[1..]);
      assert [s[0]] + s[1..] == s;
    }
  }

  /** An emoji code `{:name:}` alone is rewritten as `(:name:)`: its braces become parentheses. */
  lemma EmojiRewritten(s: string)
    requires |s| >= 5 && s[0] == '{' && s[1] == ':' && s[|s| - 2] == ':' && s[|s| - 1] == '}'
    requires forall i :: 2 <= i < |s| - 2 ==> IsWordChar(s[i])
    ensures Emojify(s) == "(" + s[1..|s| - 1] + ")"
  {
    var n := |s|;
    var w := s[2..];
    forall i | 0 <= i < n - 4 ensures IsWordChar(w[i]) {
      assert w[i] == s[i + 2];
    }
    assert w[n - 4] == s[n - 2];
    ColonIsNoWordChar();
    WordRunIs(w, n - 4);
    assert EmojiAt(s);
    EmojifyAtCode(s);
    assert s[n..] == "" && Emojify(s[n..]) == "";
  }

  /** `{:name:}`: a whole match of `emoji_pattern`. */
  predicate EmojiCode(c: string) {
    && |c| >= 5 && c[0] == '{' && c[1] == ':' && c[|c| - 2] == ':' && c[|c| - 1] == '}'
    && forall i :: 2 <= i < |c| - 2 ==> IsWordChar(c[i])
  }

  /**
   * A message of plain text, one emoji code, then anything: the text is kept,
   * the code alone is rewritten, and the scan goes on right after the code.
   * Applied again to `q`, this spells out every message made of plain pieces
   * and codes.
   */
  lemma EmojifyAfterPlain(p: string, code: string, q: string)
    requires '{' !in p && EmojiCode(code)
    ensures Emojify(p + code + q) == Emojify(p) + Emojify(code) + Emojify(q)
    ensures Emojify(p) == p && Emojify(code) == "(" + code[1..|code| - 1] + ")"
  {
    Assoc(p, code, q);
    PlainPrefix(p, code + q);
    CodeThenRest(code, q);
    NoBraceUnchanged(p);
    Assoc(p, Emojify(code), Emojify(q));
  }

  /** Text without `{` is passed over character by character. */
  lemma {:induction false} PlainPrefix(p: string, s: string)
    requires '{' !in p
    ensures Emojify(p + s) == p + Emojify(s)
    decreases |p|
  {
    if |p| == 0 {
      assert p + s == s;
    } else {
      var t, u := p + s, p[1..];
      assert t[0] == p[0] && t[1..] == u + s;
      assert '{' !in u by {
        forall k | 0 <= k < |u| ensures u[k] != '{' {
          assert u[k] == p[k + 1];
        }
      }
      calc {
        Emojify(t);
        { PlainStep(t); }
        [p[0]] + Emojify(u + s);
        { PlainPrefix(u, s); }
        [p[0]] + (u + Emojify(s));
        { Assoc([p[0]], u, Emojify(s)); assert [p[0]] + u == p; }
        p + Emojify(s);
      }
    }
  }

  /** A first character other than `{` is kept and the scan moves on by one. */
  lemma PlainStep(t: string)
    requires |t| > 0 && t[0] != '{'
    ensures Emojify(t) == [t[0]] + Emojify(t[1..])
  {
    assert !EmojiAt(t);
  }

  /** An emoji code at the start is rewritten as it would be alone, and the scan resumes right after it. */
  lemma CodeThenRest(code: string, q: string)
    requires EmojiCode(code)
    ensures Emojify(code + q) == Emojify(code) + Emojify(q)
    ensures Emojify(code) == "(" + code[1..|code| - 1] + ")"
  {
    var s, n := code + q, |code|;
    var w := s[2..];
    forall i | 0 <= i < n - 4 ensures IsWordChar(w[i]) {
      assert w[i] == code[i + 2];
    }
    assert w[n - 4] == code[n - 2];
    ColonIsNoWordChar();
    WordRunIs(w, n - 4);
    assert EmojiAt(s);
    EmojifyAtCode(s);
    EmojiRewritten(code);
    assert s[n..] == q && s[1..n - 1] == code[1..n - 1];
  }

  /** At an emoji code, the code is rewritten and the rest follows. */
  lemma EmojifyAtCode(s: string)
    requires |s| > 0 && EmojiAt(s)
    ensures var n := WordRun(s[2..]) + 4; Emojify(s) == "(" + s[1..n - 1] + ")" + Emojify(s[n..])
  {
  }

  lemma ColonIsNoWordChar()
    ensures !IsWordChar(':')
  {
  }

  /** A run of `m` word characters followed by another character. */
  lemma {:induction false} WordRunIs(s: string, m: nat)
    requires m < |s| && !IsWordChar(s[m]) && forall i :: 0 <= i < m ==> IsWordChar(s[i])
    ensures WordRun(s) == m
  {
    if m > 0 {
      WordRunIs(s[1..], m - 1);
    }
  }

  // ---------------------------------------------------------------------------
  // Times
  // ---------------------------------------------------------------------------

  /** One field of `strptime(t, '%H:%M:%S')`: one or two digits, at most `max`. */
  function ClockField(s: string, max: nat): (r: Option<nat>)
    ensures r.Some? <==> 1 <= |s| <= 2 && AllDigits(s) && DigitsValue(s) <= max
    ensures r.Some? ==> r.value == DigitsValue(s)
  {
    if 1 <= |s| <= 2 && AllDigits(s) && DigitsValue(s) <= max then Some(DigitsValue(s)) else None
  }

  /**
   * `datetime.strptime(t, '%H:%M:%S')` as seconds after midnight. Seconds 60 and
   * 61 pass the format but not the `datetime` constructor, so both fail here.
   */
  function ParseClock(t: string): (r: Option<nat>)
    ensures r.Some? ==> r.value < 86400
  {
    var parts := Split(t, ':');
    if |parts| != 3 then None
    else
      match (ClockField(parts[0], 23), ClockField(parts[1], 59), ClockField(parts[2], 59))
      case (Some(h), Some(m), Some(s)) => Some(Hms(h, m, s))
      case _ => None
  }

  /** A two-digit field reads back. */
  lemma ClockFieldOfPad2(n: nat, max: nat)
    requires n < 100 && n <= max
    ensures ClockField(Pad2(n), max) == Some(n)
  {
    Pad2Value(n);
  }

  /** The `HH:MM:SS` the chat logger writes parses back to the same time of day. */
  lemma ClockRoundTrip(t: nat)
    requires t < 86400
    ensures ParseClock(FormatHms(t)) == Some(t)
  {
    var h, m, s := t / 3600, (t % 3600) / 60, t % 60;
    DigitsExclude(Pad2(h), ':');
    DigitsExclude(Pad2(m), ':');
    DigitsExclude(Pad2(s), ':');
    Split3(Pad2(h), Pad2(m), Pad2(s), ':');
    ClockFieldOfPad2(h, 23);
    ClockFieldOfPad2(m, 59);
    ClockFieldOfPad2(s, 59);
    HmsOfDivision(t);
  }

  /** The logged time contains no `]`. */
  lemma ClockNoBracket(t: nat)
    ensures ']' !in FormatHms(t)
  {
    DigitsExclude(Pad2(t / 3600), ']');
    DigitsExclude(Pad2((t % 3600) / 60), ']');
    DigitsExclude(Pad2(t % 60), ']');
  }

  /** The recording start as seconds after midnight, moved back by `shift` seconds: `recording_start_time -= timedelta(seconds=time_shift)`. */
  function ShiftedStart(t: StateStore.DateTime, shift: int): (s: nat)
    ensures s < 86400
    ensures 0 <= Hms(t.hour, t.minute, t.second) - shift < 86400 ==> s == Hms(t.hour, t.minute, t.second) - shift
  {
    (Hms(t.hour, t.minute, t.second) - shift) % 86400
  }

  /**
   * The `Start` of a chat at `chat` seconds after midnight as the converter
   * computes it: the chat time is put on the date of the (moved) start, so a
   * chat after midnight lies a day before its true place.
   */
  function SyncStartAsWritten(chat: nat, start: nat): int {
    1000 * (chat - start)
  }

  /** The `Start` the converter means: milliseconds from the start to the next time the clock shows `chat`. */
  function SyncStart(chat: nat, start: nat): (ms: nat)
    requires chat < 86400 && start < 86400
    ensures ms < 86400000
    ensures chat >= start ==> ms == SyncStartAsWritten(chat, start)
  {
    1000 * ((chat - start) % 86400)
  }

  /** A chat `e` seconds after the start, less than a day later, is shown `e` seconds in. */
  lemma SyncStartElapsed(start: nat, e: nat)
    requires start < 86400 && e < 86400
    ensures SyncStart((start + e) % 86400, start) == 1000 * e
  {
    var chat := (start + e) % 86400;
    if start + e < 86400 {
      assert chat == start + e;
    } else {
      assert chat == start + e - 86400;
      assert (chat - start) % 86400 == e;
    }
  }

  /** A recording started at 23:50:00 with no shift: a chat at 00:10:00 lands almost a day before the start. */
  lemma MidnightChatGoesNegative()
    ensures SyncStartAsWritten(600, 85800) == -85200000
    ensures SyncStart(600, 85800) == 1200000
  {
  }

  /**
   * Which `Start` the converter writes: the script as written
   * (`SyncStartAsWritten`, negative for a chat after midnight) or the corrected
   * offset (`SyncStart`). The converter below is defined for both.
   */
  datatype Reading = AsWritten | Corrected

  /** The `Start` of a chat at `chat` seconds after midnight under the given reading. */
  function Offset(reading: Reading, chat: nat, start: nat): (ms: int)
    requires chat < 86400 && start < 86400
    ensures chat >= start ==> ms == 1000 * (chat - start)
    ensures reading.Corrected? ==> 0 <= ms < 86400000
  {
    if reading.AsWritten? then SyncStartAsWritten(chat, start) else SyncStart(chat, start)
  }

  /** A time-machine recording shows a chat `e` seconds after the start `e + shift` seconds in. */
  lemma ShiftedChatOffset(t: StateStore.DateTime, shift: int, e: nat)
    requires StateStore.ValidDateTime(t)
    requires 0 <= Hms(t.hour, t.minute, t.second) - shift && 0 <= e + shift
    requires Hms(t.hour, t.minute, t.second) + e < 86400
    ensures SyncStart(Hms(t.hour, t.minute, t.second) + e, ShiftedStart(t, shift)) == 1000 * (e + shift)
  {
    var tod := Hms(t.hour, t.minute, t.second);
    assert ShiftedStart(t, shift) == tod - shift;
  }

  // ---------------------------------------------------------------------------
  // SYNC lines and the whole file
  // ---------------------------------------------------------------------------

  /** One subtitle paragraph; a donation gets the `DONATION` class and a red `[후원]` tag. */
  function SyncLine(start: int, kind: string, nickname: string, message: string): (r: string)
    ensures StartsWith(r, "<SYNC Start=" + IntToStr(start) + "><P")
    ensures EndsWith(r, nickname + ": " + message + "\n")
    ensures kind == ChatLog.DonationKind ==>
      && StartsWith(r, "<SYNC Start=" + IntToStr(start) + "><P" + DonationTag)
      && |r| == |IntToStr(start)| + |DonationTag| + |nickname| + |message| + 18
    ensures kind != ChatLog.DonationKind ==>
      && StartsWith(r, "<SYNC Start=" + IntToStr(start) + "><P>")
      && |r| == |IntToStr(start)| + |nickname| + |message| + 19
  {
    var pre, para := "<SYNC Start=" + IntToStr(start), Paragraph(kind, nickname, message);
    var tail := nickname + ": " + message + "\n";
    JoinedEnds(pre, para, "><P", "", tail);
    JoinedEnds(pre, para, "><P", if kind == ChatLog.DonationKind then DonationTag else ">", tail);
    pre + para
  }

  /** A prefix and a suffix of `b` stay a prefix and a suffix once `a` is put in front. */
  lemma JoinedEnds(a: string, b: string, head: string, tag: string, tail: string)
    requires StartsWith(b, head + tag) && EndsWith(b, tail)
    ensures StartsWith(a + b, a + head + tag) && EndsWith(a + b, tail)
  {
    assert a + head + tag == a + (head + tag);
    assert (a + b)[..|a + head + tag|] == a + b[..|head + tag|];
    assert (a + b)[|a + b| - |tail|..] == b[|b| - |tail|..];
  }

  /** What a donation paragraph carries between `<P` and the nickname. */
  const DonationTag: string := " " + "Class=DONATION><font color=\"red\">[후원]</font> "

  /** The text after the `Start` value: a `<P` tag, the tag's rest, then `nickname: message`. */
  function Paragraph(kind: string, nickname: string, message: string): (r: string)
    ensures StartsWith(r, "><P") && |r| > 3
    ensures StartsWith(r, "><P" + " ") <==> kind == ChatLog.DonationKind
    ensures kind == ChatLog.DonationKind ==> StartsWith(r, "><P" + DonationTag)
    ensures kind == ChatLog.DonationKind ==> |r| == |DonationTag| + |nickname| + |message| + 6
    ensures kind != ChatLog.DonationKind ==> StartsWith(r, "><P>") && |r| == |nickname| + |message| + 7
    ensures EndsWith(r, nickname + ": " + message + "\n")
  {
    var tag := if kind == ChatLog.DonationKind then DonationTag else ">";
    var tail := nickname + ": " + message + "\n";
    var r := "><P" + tag + tail;
    assert DonationTag[0] == ' ';
    assert r[..3] == "><P" && r[3] == tag[0];
    assert r[..3 + |tag|] == "><P" + tag;
    assert r[|r| - |tail|..] == tail;
    r
  }

  /** The paragraph of one log line, or none for a line that does not match or whose time does not parse. */
  function ConvertLine(line: string, start: nat, reading: Reading): (r: Option<string>)
    requires start < 86400
    ensures r.Some? <==> ParseLogLine(line).Some? && ParseClock(ParseLogLine(line).value.time).Some?
  {
    match ParseLogLine(line)
    case None => None
    case Some(f) =>
      match ParseClock(f.time)
      case None => None
      case Some(chat) => Some(SyncLine(Offset(reading, chat, start), f.kind, CleanNickname(f.nickname), Emojify(f.message)))
  }

  /**
   * A line the chat logger wrote for a chat or a donation becomes one paragraph
   * with the same nickname and message, timed from the start: provided the
   * nickname has no `:`, no hexadecimal group and no surrounding whitespace,
   * the uid is lower-case hexadecimal, and the message does not begin with
   * whitespace.
   */
  lemma LoggedLineConverts(time: ChatLog.TimeOfDay, kind: string, nickname: string, uid: string, text: string, start: nat,
                           reading: Reading)
    requires start < 86400
    requires kind == ChatLog.ChatKind || kind == ChatLog.DonationKind
    requires ':' !in nickname && NoHexGroup(nickname) && NoEdgeSpace(nickname) && IsUid(uid)
    requires |text| == 0 || !IsSpace(text[0])
    ensures ConvertLine(ChatLog.LogLine(FormatHms(time), kind, nickname, uid, text), start, reading) ==
      Some(SyncLine(Offset(reading, time, start), kind, nickname, Emojify(text)))
  {
    var line := ChatLog.LogLine(FormatHms(time), kind, nickname, uid, text);
    LoggedLineFields(time, kind, nickname, uid, text);
    ClockRoundTrip(time);
    CleanWrittenNickname(nickname, uid);
    var f := LogFields(FormatHms(time), kind, nickname + "(" + uid + ")", text);
    assert ParseLogLine(line) == Some(f);
    ConvertParsed(line, start, f, time, reading);
  }

  /** A line that parses with a readable time converts into the paragraph of its fields. */
  lemma ConvertParsed(line: string, start: nat, f: LogFields, chat: nat, reading: Reading)
    requires start < 86400
    ensures ParseLogLine(line) == Some(f) && ParseClock(f.time) == Some(chat) ==>
      ConvertLine(line, start, reading) ==
        Some(SyncLine(Offset(reading, chat, start), f.kind, CleanNickname(f.nickname), Emojify(f.message)))
  {
  }

  /** The line is a chat whose clock time is earlier in the day than the start. */
  predicate ChatBeforeStart(line: string, start: nat) {
    ParseLogLine(line).Some? && ParseClock(ParseLogLine(line).value.time).Some? &&
    ParseClock(ParseLogLine(line).value.time).value < start
  }

  /**
   * The script as written and the corrected converter write the same paragraph
   * for a line exactly when the line is not a chat timed before the start.
   */
  lemma LineReadingsAgree(line: string, start: nat)
    requires start < 86400
    ensures ConvertLine(line, start, AsWritten) == ConvertLine(line, start, Corrected) <==> !ChatBeforeStart(line, start)
  {
    var parsed := ParseLogLine(line);
    if parsed.Some? && ParseClock(parsed.value.time).Some? {
      var f := parsed.value;
      var chat := ParseClock(f.time).value;
      ConvertParsed(line, start, f, chat, AsWritten);
      ConvertParsed(line, start, f, chat, Corrected);
      var nick, msg := CleanNickname(f.nickname), Emojify(f.message);
      if chat < start {
        SyncLineSign(Offset(AsWritten, chat, start), Offset(Corrected, chat, start), f.kind, nick, msg);
      } else {
        assert Offset(AsWritten, chat, start) == Offset(Corrected, chat, start);
      }
    } else {
      assert ConvertLine(line, start, AsWritten).None? && ConvertLine(line, start, Corrected).None?;
    }
  }

  /** Paragraphs with a negative and a non-negative `Start` differ. */
  lemma SyncLineSign(neg: int, nonneg: int, kind: string, nickname: string, message: string)
    requires neg < 0 <= nonneg
    ensures SyncLine(neg, kind, nickname, message) != SyncLine(nonneg, kind, nickname, message)
  {
    var p, rest := "<SYNC Start=", Paragraph(kind, nickname, message);
    FirstAfter(p, IntToStr(neg), rest);
    FirstAfter(p, IntToStr(nonneg), rest);
    assert IntToStr(nonneg) == NatToStr(nonneg);
  }

  /** The character right after a prefix is the first of what follows it. */
  lemma FirstAfter(p: string, x: string, rest: string)
    requires |x| > 0
    ensures (p + x + rest)[|p|] == x[0]
  {
  }

  lemma LoggedLineFields(time: ChatLog.TimeOfDay, kind: string, nickname: string, uid: string, text: string)
    requires kind == ChatLog.ChatKind || kind == ChatLog.DonationKind
    requires ':' !in nickname && IsUid(uid)
    requires |text| == 0 || !IsSpace(text[0])
    ensures ParseLogLine(ChatLog.LogLine(FormatHms(time), kind, nickname, uid, text)) ==
      Some(LogFields(FormatHms(time), kind, nickname + "(" + uid + ")", text))
  {
    ClockNoBracket(time);
    assert ':' !in uid by {
      forall i | 0 <= i < |uid| ensures uid[i] != ':' {
        assert IsLowerHex(uid[i]);
      }
    }
    ParseWrittenLine(FormatHms(time), kind, nickname, uid, text);
  }

  /** The paragraphs of the lines, in order. */
  function SyncLines(lines: seq<string>, start: nat, reading: Reading): seq<string>
    requires start < 86400
  {
    if |lines| == 0 then [] else LineSync(lines[0], start, reading) + SyncLines(lines[1..], start, reading)
  }

  /** The paragraph of one line as a sequence of none or one. */
  function LineSync(line: string, start: nat, reading: Reading): (r: seq<string>)
    requires start < 86400
    ensures |r| <= 1 && (|r| == 1 <==> ConvertLine(line, start, reading).Some?)
  {
    match ConvertLine(line, start, reading)
    case Some(l) => [l]
    case None => []
  }

  /** Each line contributes on its own: the paragraphs of two runs of lines are those of each, in order. */
  lemma {:induction false} SyncLinesAppend(a: seq<string>, b: seq<string>, start: nat, reading: Reading)
    requires start < 86400
    ensures SyncLines(a + b, start, reading) == SyncLines(a, start, reading) + SyncLines(b, start, reading)
  {
    if |a| > 0 {
      assert (a + b)[0] == a[0];
      assert (a + b)[1..] == a[1..] + b;
      SyncLinesAppend(a[1..], b, start, reading);
      assert (LineSync(a[0], start, reading) + SyncLines(a[1..], start, reading)) + SyncLines(b, start, reading) == LineSync(a[0], start, reading) + (SyncLines(a[1..], start, reading) + SyncLines(b, start, reading));
    } else {
      assert a + b == b;
    }
  }

  /** No line of the log is a chat timed before the start. */
  predicate NoChatBeforeStart(lines: seq<string>, start: nat) {
    forall k :: 0 <= k < |lines| ==> !ChatBeforeStart(lines[k], start)
  }

  /** When no chat is timed before the start, the script as written and the corrected converter write the same paragraphs. */
  lemma {:induction false} SyncLinesAgree(lines: seq<string>, start: nat)
    requires start < 86400 && NoChatBeforeStart(lines, start)
    ensures SyncLines(lines, start, AsWritten) == SyncLines(lines, start, Corrected)
  {
    if |lines| > 0 {
      LineReadingsAgree(lines[0], start);
      assert LineSync(lines[0], start, AsWritten) == LineSync(lines[0], start, Corrected);
      assert NoChatBeforeStart(lines[1..], start) by {
        forall k | 0 <= k < |lines[1..]| ensures !ChatBeforeStart(lines[1..][k], start) {
          assert lines[1..][k] == lines[k + 1];
        }
      }
      SyncLinesAgree(lines[1..], start);
    }
  }

  /** A single line yields exactly one paragraph if it matches and its time parses, and none otherwise. */
  lemma SyncLinesOne(line: string, start: nat, reading: Reading)
    requires start < 86400
    ensures |SyncLines([line], start, reading)| == if ConvertLine(line, start, reading).Some? then 1 else 0
  {
    assert [line][1..] == [];
    assert SyncLines([line], start, reading) == LineSync(line, start, reading) + [];
  }

  function Concat(ss: seq<string>): string {
    if |ss| == 0 then "" else ss[0] + Concat(ss[1..])
  }

  /** `re.match(r"\[(\d{6}_\d{6})\]", filename)`: the stamp at the start of the log's file name. */
  function StampOf(name: string): (r: Option<string>)
    ensures r.Some? ==> |r.value| == 13 && r.value[6] == '_'
  {
    if |name| >= 15 && name[0] == '[' && AllDigits(name[1..7]) && name[7] == '_' && AllDigits(name[8..14]) && name[14] == ']'
    then Some(name[1..14])
    else None
  }

  /** The time-machine shift from the contents of `time_shift.txt`, 0 when it is missing or not an integer. */
  function TimeShift(file: Option<string>): (shift: int)
    ensures file.None? ==> shift == 0
    ensures file.Some? && PyInt(Strip(file.value)).None? ==> shift == 0
    ensures file.Some? && PyInt(Strip(file.value)).Some? ==> shift == PyInt(Strip(file.value)).value
  {
    match file
    case None => 0
    case Some(text) => PyInt(Strip(text)).GetOr(0)
  }

  /** The file the chat logger writes, `str(time_shift)`, reads back as that shift. */
  lemma TimeShiftReadsBack(shift: int)
    ensures TimeShift(Some(IntToStr(shift))) == shift
  {
    PyIntOfIntToStr(shift);
  }

  /** The (moved) start of a log whose file name carries a readable stamp, as seconds after midnight. */
  function LogStart(logPath: string, shiftFile: Option<string>): nat
    requires StampOf(Basename(logPath)).Some? && StateStore.ParseStamp(StampOf(Basename(logPath)).value).Some?
  {
    ShiftedStart(StateStore.ParseStamp(StampOf(Basename(logPath)).value).value, TimeShift(shiftFile))
  }

  /**
   * The outcome of `convert_log_to_smi`: no subtitle file (the log could not be
   * opened), a subtitle file holding only the header (no start time in the file
   * name), or the converted file.
   */
  datatype Conversion = NoLog | Aborted(smi: string) | Converted(smi: string)

  /**
   * `convert_log_to_smi(log_filepath, smi_filepath)`: `log` is the lines of the
   * log file, if it exists, and `shiftFile` the contents of `time_shift.txt` in
   * the same directory, if that exists.
   */
  function Convert(logPath: string, log: Option<seq<string>>, shiftFile: Option<string>, reading: Reading): (r: Conversion)
    ensures r.NoLog? <==> log.None?
    ensures r.Aborted? <==> (log.Some? &&
      (StampOf(Basename(logPath)).None? || StateStore.ParseStamp(StampOf(Basename(logPath)).value).None?))
    ensures r.Aborted? ==> r.smi == Header
    ensures r.Converted? ==>
      var t := StateStore.ParseStamp(StampOf(Basename(logPath)).value).value;
      r.smi == Header + Concat(SyncLines(log.value, ShiftedStart(t, TimeShift(shiftFile)), reading)) + Footer
  {
    if log.None? then NoLog
    else
      match StampOf(Basename(logPath))
      case None => Aborted(Header)
      case Some(stamp) =>
        match StateStore.ParseStamp(stamp)
        case None => Aborted(Header)
        case Some(t) =>
          var start := ShiftedStart(t, TimeShift(shiftFile));
          Converted(Header + Concat(SyncLines(log.value, start, reading)) + Footer)
  }

  /** The converted file starts with the SAMI header and ends with the footer. */
  lemma ConvertedFrame(logPath: string, log: Option<seq<string>>, shiftFile: Option<string>, reading: Reading)
    ensures var r := Convert(logPath, log, shiftFile, reading);
      r.Converted? ==> StartsWith(r.smi, Header) && EndsWith(r.smi, Footer)
  {
    if Convert(logPath, log, shiftFile, reading).Converted? {
      var start := ShiftedStart(StateStore.ParseStamp(StampOf(Basename(logPath)).value).value, TimeShift(shiftFile));
      var body := Concat(SyncLines(log.value, start, reading));
      assert (Header + body + Footer)[..|Header|] == Header;
      assert (Header + body + Footer)[|Header + body|..] == Footer;
    }
  }

  /**
   * The two readings abort alike, and they write the same file when no chat of
   * the log is timed before the (moved) start.
   */
  lemma ConvertReadingsAgree(logPath: string, log: Option<seq<string>>, shiftFile: Option<string>)
    ensures Convert(logPath, log, shiftFile, AsWritten).Converted? <==> Convert(logPath, log, shiftFile, Corrected).Converted?
    ensures !Convert(logPath, log, shiftFile, Corrected).Converted? ==>
      Convert(logPath, log, shiftFile, AsWritten) == Convert(logPath, log, shiftFile, Corrected)
    ensures (Convert(logPath, log, shiftFile, Corrected).Converted? &&
             NoChatBeforeStart(log.value, LogStart(logPath, shiftFile))) ==>
      Convert(logPath, log, shiftFile, AsWritten) == Convert(logPath, log, shiftFile, Corrected)
  {
    if Convert(logPath, log, shiftFile, Corrected).Converted? {
      var start := LogStart(logPath, shiftFile);
      if NoChatBeforeStart(log.value, start) {
        SyncLinesAgree(log.value, start);
      }
    }
  }

  /** The exit status of the script as written: `return 1` on every error and `sys.exit(1)` after success. */
  function ExitStatusAsWritten(r: Conversion): (code: int) {
    1
  }

  /** The exit status meant: 0 after a conversion, 1 otherwise. */
  function ExitStatus(r: Conversion): (code: int)
    ensures code == 0 <==> r.Converted?
  {
    if r.Converted? then 0 else 1
  }

  /** A log whose name carries a valid stamp is converted, yet the script exits as it does when the log is missing. */
  lemma SuccessExitsAsFailure(dir: string, t: StateStore.DateTime, rest: string, log: seq<string>)
    requires StateStore.ValidStampYear(t) && Sep !in rest
    ensures var r := Convert(PathJoin(dir, "[" + StateStore.FormatStamp(t) + "]" + rest), Some(log), None, AsWritten);
      r.Converted? && ExitStatusAsWritten(r) == ExitStatusAsWritten(NoLog) && ExitStatus(r) != ExitStatus(NoLog)
  {
    var stamp := StateStore.FormatStamp(t);
    var name := "[" + stamp + "]" + rest;
    StampDigits(t);
    StampOfName(stamp, rest);
    BasenameOfJoin(dir, name);
    StateStore.StampRoundTrip(t);
  }

  /** A file name that begins with a bracketed stamp yields that stamp. */
  lemma StampOfName(stamp: string, rest: string)
    requires |stamp| == 13 && stamp[6] == '_' && AllDigits(stamp[..6]) && AllDigits(stamp[7..])
    requires Sep !in rest
    ensures StampOf("[" + stamp + "]" + rest) == Some(stamp)
    ensures Sep !in "[" + stamp + "]" + rest
  {
    var name := "[" + stamp + "]" + rest;
    assert name[1..14] == stamp;
    assert name[1..7] == stamp[..6];
    assert name[8..14] == stamp[7..];
    forall i | 0 <= i < |stamp| ensures stamp[i] != Sep {
      if i < 6 { assert stamp[..6][i] == stamp[i]; }
      else if i > 6 { assert stamp[7..][i - 7] == stamp[i]; }
    }
  }

  /** The stamp the recorder writes is six digits, `_` and six digits. */
  lemma StampDigits(t: StateStore.DateTime)
    requires StateStore.ValidStampYear(t)
    ensures var s := StateStore.FormatStamp(t); AllDigits(s[..6]) && AllDigits(s[7..]) && s[6] == '_'
  {
    var s := StateStore.FormatStamp(t);
    assert s[..6] == StateStore.Fields3(t.year % 100, t.month, t.day);
    assert s[7..] == StateStore.Fields3(t.hour, t.minute, t.second);
  }
}

=== FILE: state_store.dfy ===
/**
 * The shared per-channel store `RecorderManager` of `data_manager.py`, with the
 * lock dropped: each accessor is one atomic update of a map or a set. Process
 * handles are opaque, written here as numbers. Also the account-file check and
 * the channel-list projection of the same file.
 */
module StateStore {
  import opened Wrappers
  import opened Text
  import opened Channels

  datatype Store = Store(
    recordingStatus: map<string, bool>,
    filenames: map<string, string>,
    reserved: map<string, bool>,
    startTimes: map<string, string>,
    processes: map<string, nat>,
    stopRequested: set<string>,
    processed: set<string>,
    chatProcesses: map<string, nat>,
    chatLogPaths: map<string, string>,
    chatStatus: map<string, bool>)

  /** The store as `__init__` leaves it. */
  const Empty := Store(map[], map[], map[], map[], map[], {}, {}, map[], map[], map[])

  /** `dict.get(key, default)`. */
  function Lookup<V>(m: map<string, V>, key: string, default: V): (v: V)
    ensures key in m ==> v == m[key]
    ensures key !in m ==> v == default
  {
    if key in m then m[key] else default
  }

  /** `dict.get(key)`, whose default is `None`. */
  function Find<V>(m: map<string, V>, key: string): (v: Option<V>)
    ensures v.Some? <==> key in m
    ensures v.Some? ==> v.value == m[key]
  {
    if key in m then Some(m[key]) else None
  }

  // ---------------------------------------------------------------------------
  // Accessors
  // ---------------------------------------------------------------------------

  function SetRecordingStatus(s: Store, id: string, status: bool): (r: Store)
    ensures GetRecordingStatus(r, id) == status
    ensures forall other :: other != id ==> GetRecordingStatus(r, other) == GetRecordingStatus(s, other)
    ensures r.(recordingStatus := s.recordingStatus) == s
  {
    s.(recordingStatus := s.recordingStatus[id := status])
  }

  function GetRecordingStatus(s: Store, id: string): (b: bool)
    ensures b <==> id in s.recordingStatus && s.recordingStatus[id]
  {
    Lookup(s.recordingStatus, id, false)
  }

  function SetRecordingFilename(s: Store, id: string, name: string): (r: Store)
    ensures GetRecordingFilename(r, id) == Some(name)
    ensures forall other :: other != id ==> GetRecordingFilename(r, other) == GetRecordingFilename(s, other)
    ensures r.(filenames := s.filenames) == s
  {
    s.(filenames := s.filenames[id := name])
  }

  function GetRecordingFilename(s: Store, id: string): (r: Option<string>)
    ensures r.Some? <==> id in s.filenames
    ensures r.Some? ==> r.value == s.filenames[id]
  {
    Find(s.filenames, id)
  }

  function RemoveRecordingFilename(s: Store, id: string): (r: Store)
    ensures GetRecordingFilename(r, id).None?
    ensures forall other :: other != id ==> GetRecordingFilename(r, other) == GetRecordingFilename(s, other)
    ensures id !in s.filenames ==> r == s
    ensures r.(filenames := s.filenames) == s
  {
    s.(filenames := s.filenames - {id})
  }

  function SetReservedRecording(s: Store, id: string, status: bool): (r: Store)
    ensures GetReservedRecording(r, id) == status
    ensures forall other :: other != id ==> GetReservedRecording(r, other) == GetReservedRecording(s, other)
    ensures r.(reserved := s.reserved) == s
  {
    s.(reserved := s.reserved[id := status])
  }

  function GetReservedRecording(s: Store, id: string): (b: bool)
    ensures b <==> id in s.reserved && s.reserved[id]
  {
    Lookup(s.reserved, id, false)
  }

  /** `set_recording_start_time`: the stamp of the current time, given as `now`. */
  function SetRecordingStartTime(s: Store, id: string, now: DateTime): (r: Store)
    requires ValidDateTime(now)
    ensures GetRecordingStartTime(r, id) == Some(FormatStamp(now))
    ensures ValidStampYear(now) ==> ParseStamp(GetRecordingStartTime(r, id).value) == Some(now)
    ensures forall other :: other != id ==> GetRecordingStartTime(r, other) == GetRecordingStartTime(s, other)
    ensures r.(startTimes := s.startTimes) == s
  {
    assert ValidStampYear(now) ==> ParseStamp(FormatStamp(now)) == Some(now) by {
      if ValidStampYear(now) { StampRoundTrip(now); }
    }
    s.(startTimes := s.startTimes[id := FormatStamp(now)])
  }

  function GetRecordingStartTime(s: Store, id: string): (r: Option<string>)
    ensures r.Some? <==> id in s.startTimes
    ensures r.Some? ==> r.value == s.startTimes[id]
  {
    Find(s.startTimes, id)
  }

  function RemoveRecordingStartTime(s: Store, id: string): (r: Store)
    ensures GetRecordingStartTime(r, id).None?
    ensures forall other :: other != id ==> GetRecordingStartTime(r, other) == GetRecordingStartTime(s, other)
    ensures id !in s.startTimes ==> r == s
    ensures r.(startTimes := s.startTimes) == s
  {
    s.(startTimes := s.startTimes - {id})
  }

  function SetRecordingProcess(s: Store, id: string, p: nat): (r: Store)
    ensures GetRecordingProcess(r, id) == Some(p)
    ensures forall other :: other != id ==> GetRecordingProcess(r, other) == GetRecordingProcess(s, other)
    ensures r.(processes := s.processes) == s
  {
    s.(processes := s.processes[id := p])
  }

  function GetRecordingProcess(s: Store, id: string): (r: Option<nat>)
    ensures r.Some? <==> id in s.processes
    ensures r.Some? ==> r.value == s.processes[id]
  {
    Find(s.processes, id)
  }

  function RemoveRecordingProcess(s: Store, id: string): (r: Store)
    ensures GetRecordingProcess(r, id).None?
    ensures forall other :: other != id ==> GetRecordingProcess(r, other) == GetRecordingProcess(s, other)
    ensures id !in s.processes ==> r == s
    ensures r.(processes := s.processes) == s
  {
    s.(processes := s.processes - {id})
  }

  function AddStopRequested(s: Store, id: string): (r: Store)
    ensures IsStopRequested(r, id)
    ensures forall other :: other != id ==> IsStopRequested(r, other) == IsStopRequested(s, other)
    ensures r.(stopRequested := s.stopRequested) == s
  {
    s.(stopRequested := s.stopRequested + {id})
  }

  /** `remove_stop_requested_channel` uses `discard`, so an absent id is no error. */
  function RemoveStopRequested(s: Store, id: string): (r: Store)
    ensures !IsStopRequested(r, id)
    ensures forall other :: other != id ==> IsStopRequested(r, other) == IsStopRequested(s, other)
    ensures !IsStopRequested(s, id) ==> r == s
    ensures r.(stopRequested := s.stopRequested) == s
  {
    s.(stopRequested := s.stopRequested - {id})
  }

  predicate IsStopRequested(s: Store, id: string) {
    id in s.stopRequested
  }

  function AddProcessed(s: Store, id: string): (r: Store)
    ensures IsProcessed(r, id)
    ensures forall other :: other != id ==> IsProcessed(r, other) == IsProcessed(s, other)
    ensures r.(processed := s.processed) == s
  {
    s.(processed := s.processed + {id})
  }

  function RemoveProcessed(s: Store, id: string): (r: Store)
    ensures !IsProcessed(r, id)
    ensures forall other :: other != id ==> IsProcessed(r, other) == IsProcessed(s, other)
    ensures !IsProcessed(s, id) ==> r == s
    ensures r.(processed := s.processed) == s
  {
    s.(processed := s.processed - {id})
  }

  predicate IsProcessed(s: Store, id: string) {
    id in s.processed
  }

  function SetChatStatus(s: Store, id: string, status: bool): (r: Store)
    ensures GetChatStatus(r, id) == status
    ensures forall other :: other != id ==> GetChatStatus(r, other) == GetChatStatus(s, other)
    ensures r.(chatStatus := s.chatStatus) == s
  {
    s.(chatStatus := s.chatStatus[id := status])
  }

  function GetChatStatus(s: Store, id: string): (b: bool)
    ensures b <==> id in s.chatStatus && s.chatStatus[id]
  {
    Lookup(s.chatStatus, id, false)
  }

  function SetChatProcess(s: Store, id: string, p: nat): (r: Store)
    ensures GetChatProcess(r, id) == Some(p)
    ensures forall other :: other != id ==> GetChatProcess(r, other) == GetChatProcess(s, other)
    ensures r.(chatProcesses := s.chatProcesses) == s
  {
    s.(chatProcesses := s.chatProcesses[id := p])
  }

  function GetChatProcess(s: Store, id: string): (r: Option<nat>)
    ensures r.Some? <==> id in s.chatProcesses
    ensures r.Some? ==> r.value == s.chatProcesses[id]
  {
    Find(s.chatProcesses, id)
  }

  function RemoveChatProcess(s: Store, id: string): (r: Store)
    ensures GetChatProcess(r, id).None?
    ensures forall other :: other != id ==> GetChatProcess(r, other) == GetChatProcess(s, other)
    ensures id !in s.chatProcesses ==> r == s
    ensures r.(chatProcesses := s.chatProcesses) == s
  {
    s.(chatProcesses := s.chatProcesses - {id})
  }

  function SetChatLogPath(s: Store, id: string, path: string): (r: Store)
    ensures GetChatLogPath(r, id) == Some(path)
    ensures forall other :: other != id ==> GetChatLogPath(r, other) == GetChatLogPath(s, other)
    ensures r.(chatLogPaths := s.chatLogPaths) == s
  {
    s.(chatLogPaths := s.chatLogPaths[id := path])
  }

  function GetChatLogPath(s: Store, id: string): (r: Option<string>)
    ensures r.Some? <==> id in s.chatLogPaths
    ensures r.Some? ==> r.value == s.chatLogPaths[id]
  {
    Find(s.chatLogPaths, id)
  }

  function RemoveChatLogPath(s: Store, id: string): (r: Store)
    ensures GetChatLogPath(r, id).None?
    ensures forall other :: other != id ==> GetChatLogPath(r, other) == GetChatLogPath(s, other)
    ensures id !in s.chatLogPaths ==> r == s
    ensures r.(chatLogPaths := s.chatLogPaths) == s
  {
    s.(chatLogPaths := s.chatLogPaths - {id})
  }

  /** Every getter answers its default for a channel the store has never seen. */
  lemma UnknownChannelDefaults(id: string)
    ensures !GetRecordingStatus(Empty, id) && !GetReservedRecording(Empty, id) && !GetChatStatus(Empty, id)
    ensures GetRecordingFilename(Empty, id).None? && GetRecordingProcess(Empty, id).None?
    ensures GetRecordingStartTime(Empty, id).None? && GetChatLogPath(Empty, id).None?
    ensures GetChatProcess(Empty, id).None?
    ensures !IsStopRequested(Empty, id) && !IsProcessed(Empty, id)
    ensures RecordingDuration(Empty, id, 0) == "00:00:00"
  {
  }

  /** The `pop(…, None)` removals are idempotent. */
  lemma RemovalsIdempotent(s: Store, id: string)
    ensures RemoveRecordingFilename(RemoveRecordingFilename(s, id), id) == RemoveRecordingFilename(s, id)
    ensures RemoveRecordingProcess(RemoveRecordingProcess(s, id), id) == RemoveRecordingProcess(s, id)
    ensures RemoveRecordingStartTime(RemoveRecordingStartTime(s, id), id) == RemoveRecordingStartTime(s, id)
    ensures RemoveChatProcess(RemoveChatProcess(s, id), id) == RemoveChatProcess(s, id)
    ensures RemoveChatLogPath(RemoveChatLogPath(s, id), id) == RemoveChatLogPath(s, id)
    ensures RemoveStopRequested(RemoveStopRequested(s, id), id) == RemoveStopRequested(s, id)
  {
  }

  // ---------------------------------------------------------------------------
  // Start-time stamps and the elapsed-time text
  // ---------------------------------------------------------------------------

  /** A calendar date and time of day, to the second. */
  datatype DateTime = DateTime(year: int, month: int, day: int, hour: int, minute: int, second: int)

  predicate IsLeap(y: int) {
    y % 4 == 0 && (y % 100 != 0 || y % 400 == 0)
  }

  function DaysInMonth(y: int, m: int): (n: int)
    requires 1 <= m <= 12
    ensures 28 <= n <= 31
  {
    if m == 2 then (if IsLeap(y) then 29 else 28)
    else if m == 4 || m == 6 || m == 9 || m == 11 then 30
    else 31
  }

  predicate ValidDateTime(t: DateTime) {
    1 <= t.month <= 12 && 1 <= t.day <= DaysInMonth(t.year, t.month) &&
    0 <= t.hour < 24 && 0 <= t.minute < 60 && 0 <= t.second < 60
  }

  /** The years a two-digit `%y` reads back as: 1969 to 2068. */
  predicate ValidStampYear(t: DateTime) {
    ValidDateTime(t) && 1969 <= t.year <= 2068
  }

  /** Days from 0001-01-01 to the first day of `m` in year `y`, in the proleptic Gregorian calendar. */
  function DaysBefore(y: int, m: int): int
    requires 1 <= y && 1 <= m <= 12
  {
    var prev := y - 1;
    var yearDays := 365 * prev + prev / 4 - prev / 100 + prev / 400;
    yearDays + MonthDaysBefore(y, m)
  }

  function MonthDaysBefore(y: int, m: int): int
    requires 1 <= m <= 12
    decreases m
  {
    if m == 1 then 0 else MonthDaysBefore(y, m - 1) + DaysInMonth(y, m - 1)
  }

  /** Seconds since 0001-01-01 00:00:00, the scale `now` is given in. */
  function Seconds(t: DateTime): int
    requires ValidDateTime(t) && t.year >= 1
  {
    (DaysBefore(t.year, t.month) + t.day - 1) * 86400 + t.hour * 3600 + t.minute * 60 + t.second
  }

  /** `strftime("%y%m%d_%H%M%S")`. */
  function FormatStamp(t: DateTime): (s: string)
    requires ValidDateTime(t)
    ensures |s| == 13 && s[6] == '_'
  {
    Fields3(t.year % 100, t.month, t.day) + ("_" + Fields3(t.hour, t.minute, t.second))
  }

  /** Three two-digit fields side by side. */
  function Fields3(a: nat, b: nat, c: nat): (s: string)
    requires a < 100 && b < 100 && c < 100
    ensures |s| == 6 && AllDigits(s)
    ensures s[0..2] == Pad2(a) && s[2..4] == Pad2(b) && s[4..6] == Pad2(c)
  {
    var s := Pad2(a) + (Pad2(b) + Pad2(c));
    assert s[2..] == Pad2(b) + Pad2(c);
    s
  }

  /** Two decimal digits at `s[i..i+2]`. */
  function Two(s: string, i: nat): (r: Option<nat>)
    requires i + 2 <= |s|
    ensures r.Some? <==> AllDigits(s[i..i + 2])
    ensures r.Some? ==> r.value < 100 && r.value == DigitsValue(s[i..i + 2])
  {
    var d := s[i..i + 2];
    if AllDigits(d) then
      assert d[..1][..0] == [] && d[..1] == [d[0]];
      assert DigitsValue(d[..1]) == DigitValue(d[0]);
      assert DigitsValue(d) == DigitValue(d[0]) * 10 + DigitValue(d[1]);
      Some(DigitsValue(d))
    else None
  }

  /**
   * `strptime(s, "%y%m%d_%H%M%S")` on the fixed-width stamps the store writes:
   * `%y` below 69 is 20yy, otherwise 19yy; an impossible date or time fails.
   */
  function ParseStamp(s: string): (r: Option<DateTime>)
    ensures r.Some? ==> ValidStampYear(r.value)
  {
    if |s| != 13 || s[6] != '_' then None
    else
      var f := [Two(s, 0), Two(s, 2), Two(s, 4), Two(s, 7), Two(s, 9), Two(s, 11)];
      if exists k :: 0 <= k < 6 && f[k].None? then None
      else
        var yy := f[0].value;
        var t := DateTime(if yy < 69 then 2000 + yy else 1900 + yy, f[1].value, f[2].value,
                          f[3].value, f[4].value, f[5].value);
        if ValidDateTime(t) then Some(t) else None
  }

  /** Every stamp the store writes reads back as the time it was written at. */
  lemma StampRoundTrip(t: DateTime)
    requires ValidStampYear(t)
    ensures ParseStamp(FormatStamp(t)) == Some(t)
  {
    var s := FormatStamp(t);
    var date, time := Fields3(t.year % 100, t.month, t.day), Fields3(t.hour, t.minute, t.second);
    assert s[..6] == date && s[7..] == time;
    TwoOfPad2(s, 0, t.year % 100);
    TwoOfPad2(s, 2, t.month);
    TwoOfPad2(s, 4, t.day);
    assert s[7..][0..2] == s[7..9] && s[7..][2..4] == s[9..11] && s[7..][4..6] == s[11..13];
    TwoOfPad2(s, 7, t.hour);
    TwoOfPad2(s, 9, t.minute);
    TwoOfPad2(s, 11, t.second);
    var yy := t.year % 100;
    assert (if yy < 69 then 2000 + yy else 1900 + yy) == t.year;
  }

  /** Two digits written by `Pad2` read back as the number. */
  lemma TwoOfPad2(s: string, i: nat, n: nat)
    requires n < 100 && i + 2 <= |s| && s[i..i + 2] == Pad2(n)
    ensures Two(s, i) == Some(n)
  {
    Pad2Value(n);
  }

  /** `f"{hours:02d}"`: a negative count keeps its sign and is not padded further. */
  function Hours(h: int): (s: string)
    ensures h >= 0 ==> s == Pad2(h)
  {
    if h < 0 then IntToStr(h) else Pad2(h)
  }

  /**
   * `get_recording_duration(channel_id)` at the moment `now` (in seconds on the
   * `Seconds` scale): `HH:MM:SS` of the whole seconds elapsed since the stored
   * start, as `divmod` splits them (flooring), or `00:00:00` when there is no
   * start time or it does not parse.
   */
  function RecordingDuration(s: Store, id: string, now: int): (r: string)
    ensures GetRecordingStartTime(s, id).None? ==> r == "00:00:00"
    ensures id in s.startTimes && ParseStamp(s.startTimes[id]).None? ==> r == "00:00:00"
    ensures id in s.startTimes && ParseStamp(s.startTimes[id]).Some? &&
            now >= Seconds(ParseStamp(s.startTimes[id]).value) ==>
      r == FormatHms(now - Seconds(ParseStamp(s.startTimes[id]).value))
  {
    match GetRecordingStartTime(s, id)
    case None => "00:00:00"
    case Some(stamp) =>
      assert stamp == s.startTimes[id];
      if |stamp| == 0 then
        assert ParseStamp(stamp).None?;
        "00:00:00"
      else match ParseStamp(stamp)
        case None => "00:00:00"
        case Some(t) =>
          ElapsedText(now - Seconds(t))
  }

  /** `divmod` of the elapsed seconds by 3600 and the remainder by 60, each part as `{:02d}`. */
  function ElapsedText(elapsed: int): (r: string)
    ensures elapsed >= 0 ==> r == FormatHms(elapsed)
  {
    var hours := elapsed / 3600;
    var remainder := elapsed % 3600;
    SecondsOfRemainder(elapsed);
    Hours(hours) + ":" + Pad2(remainder / 60) + ":" + Pad2(remainder % 60)
  }

  /** Recording started at `t` and viewed `e` seconds later shows `e` as `HH:MM:SS`. */
  lemma DurationAfterStart(s: Store, id: string, t: DateTime, e: nat)
    requires ValidStampYear(t)
    ensures RecordingDuration(SetRecordingStartTime(s, id, t), id, Seconds(t) + e) == FormatHms(e)
  {
    StampRoundTrip(t);
  }

  // ---------------------------------------------------------------------------
  // Account file and channel list
  // ---------------------------------------------------------------------------

  /** A value of the account file: absent, or a JSON string or other value. */
  datatype Field = Absent | Text(s: string) | NonText(truthy: bool)

  predicate Truthy(f: Field) {
    match f
    case Absent => false
    case Text(s) => |s| > 0
    case NonText(b) => b
  }

  datatype Account = Account(username: Field, password: Field, secretKey: string)

  /** The account file as read: missing, not JSON, or its `username`, `password` and `secret_key` fields. */
  datatype AccountFile = NoFile | NotJson | Fields(username: Field, password: Field, secretKey: Option<string>)

  /**
   * `loadAccount()`: an account only when both username and password are truthy;
   * a missing `secret_key` is replaced by the newly generated `token`.
   */
  function LoadAccount(f: AccountFile, token: string): (r: Option<Account>)
    ensures r.Some? <==> f.Fields? && Truthy(f.username) && Truthy(f.password)
    ensures r.Some? ==> r.value.username == f.username && r.value.password == f.password
    ensures r.Some? && f.secretKey.Some? ==> r.value.secretKey == f.secretKey.value
  {
    match f
    case Fields(u, p, k) =>
      if !Truthy(u) || !Truthy(p) then None else Some(Account(u, p, k.GetOr(token)))
    case _ => None
  }

  /** One entry of `channels.json` as `saveChannels` writes it: exactly these seven keys. */
  datatype SavedChannel = SavedChannel(
    platform: string, id: string, name: string, outputDir: string,
    quality: string, extension: string, recordEnabled: bool)

  /** The keys `saveChannels` requires of every channel. */
  predicate Complete(c: Channel) {
    c.outputDir.Some? && c.quality.Some? && c.extension.Some?
  }

  /**
   * `saveChannels(data)`: each channel projected to seven keys, `platform`
   * defaulting to "unknown" and `record_enabled` to true. A channel lacking a
   * required key raises `KeyError`, which is swallowed: nothing is written.
   */
  function SaveChannels(data: seq<Channel>): (r: Option<seq<SavedChannel>>)
    ensures r.Some? <==> forall k :: 0 <= k < |data| ==> Complete(data[k])
    ensures r.Some? ==> |r.value| == |data|
    ensures r.Some? ==> forall k :: 0 <= k < |data| ==>
      r.value[k].id == data[k].id && r.value[k].name == data[k].name &&
      r.value[k].platform == data[k].platform.GetOr("unknown") &&
      r.value[k].recordEnabled == data[k].recordEnabled.GetOr(true)
    ensures r.Some? ==> forall k :: 0 <= k < |data| ==>
      r.value[k].outputDir == data[k].outputDir.value && r.value[k].quality == data[k].quality.value &&
      r.value[k].extension == data[k].extension.value
  {
    if |data| == 0 then Some([])
    else
      var c := data[0];
      if !Complete(c) then None
      else match SaveChannels(data[1..])
        case None => None
        case Some(rest) =>
          Some([SavedChannel(c.platform.GetOr("unknown"), c.id, c.name, c.outputDir.value,
                             c.quality.value, c.extension.value, c.recordEnabled.GetOr(true))] + rest)
  }

  /** The channel a saved entry reads back as. */
  function Reload(e: SavedChannel): Channel {
    Channel(e.id, e.name, Some(e.outputDir), Some(e.quality), Some(e.extension), Some(e.recordEnabled), Some(e.platform))
  }

  /** The channel list `loadChannels` reads back from saved entries. */
  function ReloadAll(saved: seq<SavedChannel>): (r: seq<Channel>)
    ensures |r| == |saved|
    ensures forall k :: 0 <= k < |saved| ==> r[k] == Reload(saved[k])
  {
    if |saved| == 0 then [] else [Reload(saved[0])] + ReloadAll(saved[1..])
  }

  /** Saving a list read back from saved entries writes those entries again. */
  lemma {:induction false} SaveReloaded(saved: seq<SavedChannel>)
    ensures SaveChannels(ReloadAll(saved)) == Some(saved)
  {
    if |saved| > 0 {
      SaveReloaded(saved[1..]);
      var back := ReloadAll(saved);
      assert back[0] == Reload(saved[0]) && back[1..] == ReloadAll(saved[1..]);
      assert Complete(back[0]);
      assert saved == [saved[0]] + saved[1..];
    }
  }
}

=== FILE: supervisor.dfy ===
/**
 * The per-channel recording thread of `Live_recorder.py` (`RecordingThread.run`).
 *
 * The thread probes the channel. When the channel is not live it probes again;
 * when it is live it launches streamlink, waits for it, and after a fixed
 * pause decides from a second probe whether to restart, to keep watching, or to
 * end. The run is modelled over the sequence of what each loop iteration meets
 * (`Iteration`), and yields how it ended, how many iterations it used, how many
 * recordings it launched and how long it paused.
 */
module Supervisor {

  /** The pause after every session (`retryDelay`). */
  const RetryDelay: nat := 5

  /** A call to `stop(force_stop)` that arrives during an iteration. */
  datatype StopRequest = NoStop | Stop | ForceStop

  /** What one iteration of the watch loop meets. */
  datatype Iteration =
    | Offline(stop: StopRequest)
      // the probe found nothing or a channel that is not open
    | CommandFailed
      // the channel is live but `buildCommand` raised (or returned nothing to unpack)
    | Session(launched: bool, stop: StopRequest, liveAfter: bool)
      // the channel is live; `launched` is false when starting streamlink raised,
      // `liveAfter` is the second probe after the session

  /** The thread's choice after a session. */
  datatype Decision = Exit | KeepWatching | Restart

  /** How the thread's run ended; `StillRunning` when the iterations ran out first. */
  datatype End = StillRunning | Stopped | ForceStopped | Failed | Ended | Crashed

  /**
   * The inputs of the loop that do not change between iterations.
   * `offlineWait` is how long a not-live iteration pauses; `finishRaises` says
   * whether the end-of-session handler raises (so that a finished session takes
   * the failure path).
   */
  datatype Params = Params(autoMode: bool, enabled: bool, offlineWait: nat, finishRaises: bool)

  /**
   * The `finally` block after a session. A forced stop ends the thread. When the
   * channel is offline again, auto mode with recording enabled keeps watching,
   * except after a failure, whose pending `return` then ends the thread. A live
   * channel restarts even after a failure, because the `continue` overrides the
   * `return`.
   */
  function AfterSession(force: bool, liveAfter: bool, autoMode: bool, enabled: bool, failed: bool): (d: Decision)
    ensures force ==> d == Exit
    ensures d == Restart <==> !force && liveAfter
    ensures d == KeepWatching <==> !force && !liveAfter && autoMode && enabled && !failed
  {
    if force then Exit
    else if !liveAfter && autoMode && enabled then (if failed then Exit else KeepWatching)
    else if liveAfter then Restart
    else Exit
  }

  function SessionDecision(it: Iteration, p: Params): (d: Decision)
    requires it.Session?
    ensures it.stop == ForceStop ==> d == Exit
    ensures d == Restart <==> it.stop != ForceStop && it.liveAfter
    ensures d == KeepWatching ==> it.launched && !p.finishRaises && p.autoMode && p.enabled && !it.liveAfter
    ensures !it.launched && !it.liveAfter ==> d == Exit
  {
    AfterSession(it.stop == ForceStop, it.liveAfter, p.autoMode, p.enabled, !it.launched || p.finishRaises)
  }

  /** The iteration lets the loop go on to the next one. */
  predicate Continues(it: Iteration, p: Params) {
    match it
    case Offline(st) => st == NoStop
    case CommandFailed => false
    case Session(_, _, _) => SessionDecision(it, p) != Exit
  }

  function EndOf(it: Iteration, p: Params): End
    requires !Continues(it, p)
  {
    match it
    case Offline(_) => Stopped
    case CommandFailed => Crashed
    case Session(launched, st, _) =>
      if st == ForceStop then ForceStopped
      else if !launched || p.finishRaises then Failed
      else Ended
  }

  function PauseOf(it: Iteration, p: Params): nat {
    match it
    case Offline(_) => p.offlineWait
    case CommandFailed => 0
    case Session(_, _, _) => RetryDelay
  }

  function LaunchesOf(it: Iteration): nat {
    if it.Session? && it.launched then 1 else 0
  }

  datatype RunResult = RunResult(end: End, consumed: nat, launches: nat, paused: nat)

  /** `RecordingThread.run` over the iterations it meets. */
  function Run(its: seq<Iteration>, p: Params): (r: RunResult)
    ensures r.consumed <= |its|
    ensures r.end == StillRunning <==> r.consumed == |its| && forall k :: 0 <= k < |its| ==> Continues(its[k], p)
    ensures r.end != StillRunning ==> r.consumed > 0 && !Continues(its[r.consumed - 1], p)
    ensures forall k :: 0 <= k < r.consumed - 1 ==> Continues(its[k], p)
    decreases |its|
  {
    if |its| == 0 then RunResult(StillRunning, 0, 0, 0)
    else
      var it := its[0];
      if !Continues(it, p) then RunResult(EndOf(it, p), 1, LaunchesOf(it), PauseOf(it, p))
      else
        var r := Run(its[1..], p);
        assert forall k :: 0 < k < |its| ==> its[k] == its[1..][k - 1];
        RunResult(r.end, r.consumed + 1, r.launches + LaunchesOf(it), r.paused + PauseOf(it, p))
  }

  /** The total pause of the first `n` iterations. */
  function TotalPause(its: seq<Iteration>, p: Params, n: nat): nat
    requires n <= |its|
  {
    if n == 0 then 0 else TotalPause(its, p, n - 1) + PauseOf(its[n - 1], p)
  }

  function Count(its: seq<Iteration>, n: nat, offline: bool): nat
    requires n <= |its|
  {
    if n == 0 then 0
    else Count(its, n - 1, offline) + (if its[n - 1].Offline? == offline && !its[n - 1].CommandFailed? then 1 else 0)
  }

  /** The run stops exactly at the first iteration that does not continue, and its pauses add up. */
  lemma {:induction false} RunIsFirstStop(its: seq<Iteration>, p: Params)
    ensures var r := Run(its, p);
      r.end != StillRunning ==> r.end == EndOf(its[r.consumed - 1], p)
    ensures Run(its, p).paused == TotalPause(its, p, Run(its, p).consumed)
    decreases |its|
  {
    if |its| > 0 && Continues(its[0], p) {
      RunIsFirstStop(its[1..], p);
      var r := Run(its[1..], p);
      assert forall k :: 0 < k < |its| ==> its[k] == its[1..][k - 1];
      TotalPauseShift(its, p, r.consumed);
    }
  }

  lemma {:induction false} TotalPauseShift(its: seq<Iteration>, p: Params, n: nat)
    requires 0 < |its| && n < |its|
    ensures TotalPause(its, p, n + 1) == PauseOf(its[0], p) + TotalPause(its[1..], p, n)
  {
    if n > 0 {
      TotalPauseShift(its, p, n - 1);
      assert its[1..][n - 1] == its[n];
    }
  }

  /** The pauses are the session pauses plus `offlineWait` per not-live iteration. */
  lemma {:induction false} TotalPauseCounts(its: seq<Iteration>, p: Params, n: nat)
    requires n <= |its|
    ensures TotalPause(its, p, n) == RetryDelay * Count(its, n, false) + p.offlineWait * Count(its, n, true)
  {
    if n > 0 {
      TotalPauseCounts(its, p, n - 1);
    }
  }

  /** Without auto mode, the thread only goes on after a session when the channel is live again. */
  lemma AutoOffRestartsOnlyWhenLive(its: seq<Iteration>, p: Params)
    requires !p.autoMode
    ensures forall k :: 0 <= k < Run(its, p).consumed - 1 && its[k].Session? ==> its[k].liveAfter
  {
  }

  /** A forced stop during a session always ends the thread at that session. */
  lemma ForceStopEnds(its: seq<Iteration>, p: Params, i: nat)
    requires i < |its| && its[i].Session? && its[i].stop == ForceStop
    requires forall k :: 0 <= k < i ==> Continues(its[k], p)
    ensures Run(its, p).consumed == i + 1 && Run(its, p).end == ForceStopped
  {
    RunIsFirstStop(its, p);
  }

  // ---------------------------------------------------------------------------
  // The thread as written and as evidently intended
  // ---------------------------------------------------------------------------

  /**
   * The parameters as the source behaves. A not-live iteration schedules
   * `asyncio.sleep(recheck_interval)` on the thread's own event loop, which is not
   * running at that moment, and never waits for it, so the next probe follows at
   * once. The end-of-session handler calls `asyncio.create_task` outside a
   * running loop whenever automatic post-processing is on, which raises.
   */
  function AsWritten(autoMode: bool, enabled: bool, recheckInterval: int, autoPostProcessing: bool): (p: Params)
    ensures p.offlineWait == 0
    ensures p.finishRaises == autoPostProcessing
  {
    Params(autoMode, enabled, 0, autoPostProcessing)
  }

  /** The parameters as intended: a not-live iteration pauses `recheckInterval` seconds and finishing does not raise. */
  function Intended(autoMode: bool, enabled: bool, recheckInterval: nat): (p: Params)
    ensures p.offlineWait == recheckInterval
    ensures !p.finishRaises
  {
    Params(autoMode, enabled, recheckInterval, false)
  }

  /** As written, any number of not-live probes in a row are made without a pause. */
  lemma {:induction false} OfflineBusyPoll(its: seq<Iteration>, recheckInterval: nat, autoMode: bool, enabled: bool)
    requires forall k :: 0 <= k < |its| ==> its[k] == Offline(NoStop)
    ensures Run(its, AsWritten(autoMode, enabled, recheckInterval, false)).paused == 0
    ensures Run(its, Intended(autoMode, enabled, recheckInterval)).paused == recheckInterval * |its|
  {
    var pw := AsWritten(autoMode, enabled, recheckInterval, false);
    var pi := Intended(autoMode, enabled, recheckInterval);
    RunIsFirstStop(its, pw);
    RunIsFirstStop(its, pi);
    TotalPauseCounts(its, pw, |its|);
    TotalPauseCounts(its, pi, |its|);
    OnlyOffline(its, |its|);
  }

  lemma {:induction false} OnlyOffline(its: seq<Iteration>, n: nat)
    requires n <= |its|
    requires forall k :: 0 <= k < |its| ==> its[k] == Offline(NoStop)
    ensures Count(its, n, true) == n && Count(its, n, false) == 0
  {
    if n > 0 {
      OnlyOffline(its, n - 1);
    }
  }

  /**
   * With auto mode, recording enabled and post-processing on, a recording that
   * ends with the broadcast ends the thread as written; the intended thread keeps
   * watching the channel.
   */
  lemma PostProcessingEndsWatch(recheckInterval: nat)
    ensures Run([Session(true, NoStop, false)], AsWritten(true, true, recheckInterval, true)).end == Failed
    ensures Run([Session(true, NoStop, false)], Intended(true, true, recheckInterval)).end == StillRunning
  {
  }
}

=== FILE: text.dfy ===
/**
 * Strings, decimal numbers and paths, as the recorder's Python code uses them:
 * `str(n)`, `int(s)`, `f"{n:02}"`, `str.strip`, `str.split`, `str.replace`,
 * and the `os.path` functions `join`, `basename`, `dirname` and `splitext`.
 * Paths use one separator, '/'.
 */
module Text {
  import opened Wrappers

  // ---------------------------------------------------------------------------
  // Characters
  // ---------------------------------------------------------------------------

  predicate IsDigit(c: char) { '0' <= c <= '9' }

  predicate AllDigits(s: string) { forall i :: 0 <= i < |s| ==> IsDigit(s[i]) }

  /**
   * The ASCII characters Python's `str.isspace` and the regex class `\s` accept:
   * space, tab, line feed, vertical tab, form feed, carriage return and the four
   * separators U+001C to U+001F.
   */
  predicate IsSpace(c: char) {
    c == ' ' || '\t' <= c <= '\r' || '\U{001C}' <= c <= '\U{001F}'
  }

  /**
   * Python's `str.isalnum` for one character. ASCII letters and digits are exact;
   * every non-ASCII character counts as alphanumeric (Hangul syllables, the case
   * that matters for channel names, are letters to Python).
   */
  predicate IsAlnum(c: char) {
    IsDigit(c) || 'a' <= c <= 'z' || 'A' <= c <= 'Z' || c as int >= 0x80
  }

  /** The regular-expression class `\w`: alphanumerics and the underscore. */
  predicate IsWordChar(c: char) { IsAlnum(c) || c == '_' }

  predicate IsLowerHex(c: char) { IsDigit(c) || 'a' <= c <= 'f' }

  function DigitChar(d: nat): char
    requires d < 10
  {
    (('0' as int) + d) as char
  }

  function DigitValue(c: char): nat
    requires IsDigit(c)
  {
    (c as int) - ('0' as int)
  }

  /** Value of one lower-case hexadecimal digit. */
  function HexValue(c: char): (v: nat)
    requires IsLowerHex(c)
    ensures v < 16
  {
    if IsDigit(c) then DigitValue(c) else (c as int) - ('a' as int) + 10
  }

  // ---------------------------------------------------------------------------
  // Decimal numbers: str(n), int(s), f"{n:02}"
  // ---------------------------------------------------------------------------

  /** Python's `str(n)` for a natural number: decimal digits, no leading zero. */
  function NatToStr(n: nat): (s: string)
    ensures 1 <= |s| && AllDigits(s)
    ensures n < 10 <==> |s| == 1
    ensures |s| > 1 ==> s[0] != '0'
  {
    if n < 10 then [DigitChar(n)] else NatToStr(n / 10) + [DigitChar(n % 10)]
  }

  /** The value of a string of decimal digits (leading zeros allowed). */
  function DigitsValue(s: string): nat
    requires AllDigits(s)
  {
    if |s| == 0 then 0 else DigitsValue(s[..|s| - 1]) * 10 + DigitValue(s[|s| - 1])
  }

  lemma {:induction false} DigitsValueOfNatToStr(n: nat)
    ensures DigitsValue(NatToStr(n)) == n
  {
    if n >= 10 {
      var s := NatToStr(n);
      assert s[..|s| - 1] == NatToStr(n / 10);
      DigitsValueOfNatToStr(n / 10);
    }
  }

  /** Leading zeros do not change a digit string's value. */
  lemma {:induction false} DigitsValueZeroPrefix(s: string)
    requires AllDigits(s)
    ensures AllDigits("0" + s) && DigitsValue("0" + s) == DigitsValue(s)
  {
    if |s| > 0 {
      var t := "0" + s;
      assert t[..|t| - 1] == "0" + s[..|s| - 1];
      DigitsValueZeroPrefix(s[..|s| - 1]);
    }
  }

  /** A non-empty run of decimal digits, read as a number. */
  function ParseNat(s: string): (r: Option<nat>)
    ensures r.Some? <==> |s| > 0 && AllDigits(s)
  {
    if |s| > 0 && AllDigits(s) then Some(DigitsValue(s)) else None
  }

  lemma ParseNatOfDigits(s: string)
    requires |s| > 0 && AllDigits(s)
    ensures ParseNat(s) == Some(DigitsValue(s))
  {
  }

  lemma ParseNatOfNatToStr(n: nat)
    ensures ParseNat(NatToStr(n)) == Some(n)
  {
    DigitsValueOfNatToStr(n);
  }

  /** Python's `str(i)` for an integer. */
  function IntToStr(i: int): (s: string)
    ensures |s| >= 1
  {
    if i < 0 then "-" + NatToStr(-i) else NatToStr(i)
  }

  /**
   * Python's `int(s)` on a string: surrounding whitespace, an optional sign, then
   * one or more ASCII digits; anything else raises ValueError, modelled as None.
   */
  function PyInt(s: string): (r: Option<int>)
    ensures r.Some? ==> |Strip(s)| > 0
  {
    SignedDigits(Strip(s))
  }

  /** An optional sign and one or more ASCII digits, as `int` reads a stripped text. */
  function SignedDigits(t: string): (r: Option<int>)
    ensures r.Some? ==> |t| > 0
  {
    if |t| > 0 && (t[0] == '-' || t[0] == '+') then
      var body := t[1..];
      if |body| > 0 && AllDigits(body) then
        var v: int := DigitsValue(body);
        Some(if t[0] == '-' then -v else v)
      else None
    else if |t| > 0 && AllDigits(t) then Some(DigitsValue(t))
    else None
  }

  /** `int(str(i)) == i`. */
  lemma PyIntOfIntToStr(i: int)
    ensures PyInt(IntToStr(i)) == Some(i)
  {
    var d := NatToStr(if i < 0 then -i else i);
    DigitsValueOfNatToStr(if i < 0 then -i else i);
    if i < 0 {
      PyIntOfNegative(d, -i);
    } else {
      PyIntOfDigits(d, i);
    }
  }

  lemma PyIntOfDigits(d: string, v: nat)
    requires |d| > 0 && AllDigits(d) && DigitsValue(d) == v
    ensures PyInt(d) == Some(v)
  {
    StripNoSpace(d);
  }

  lemma PyIntOfNegative(d: string, v: nat)
    requires |d| > 0 && AllDigits(d) && DigitsValue(d) == v
    ensures PyInt("-" + d) == Some(-(v as int))
  {
    var s := "-" + d;
    assert s[|s| - 1] == d[|d| - 1];
    StripNoSpace(s);
    SignedNegative(s, d, v);
  }

  lemma SignedNegative(s: string, d: string, v: nat)
    requires |d| > 0 && AllDigits(d) && DigitsValue(d) == v && s == "-" + d
    ensures SignedDigits(s) == Some(-(v as int))
  {
    assert s[1..] == d;
  }

  /** Python's `f"{n:02}"` / `f"{n:02d}"`: at least two digits, zero padded. */
  function Pad2(n: nat): (s: string)
    ensures |s| >= 2 && AllDigits(s)
    ensures n < 100 ==> |s| == 2
  {
    if n < 10 then "0" + NatToStr(n) else NatToStr(n)
  }

  lemma Pad2Value(n: nat)
    ensures DigitsValue(Pad2(n)) == n
  {
    DigitsValueOfNatToStr(n);
    if n < 10 {
      DigitsValueZeroPrefix(NatToStr(n));
    }
  }

  /** `HH:MM:SS` from a number of seconds, as `divmod` by 3600 and 60 computes it. */
  function FormatHms(total: nat): (s: string)
    ensures |s| >= 8
  {
    Pad2(total / 3600) + ":" + Pad2((total % 3600) / 60) + ":" + Pad2(total % 60)
  }

  /** The seconds within the minute do not depend on whole hours taken off first. */
  lemma SecondsOfRemainder(total: int)
    ensures (total % 3600) % 60 == total % 60
  {
    assert total == (total / 3600) * 3600 + total % 3600;
    assert total % 3600 == ((total % 3600) / 60) * 60 + (total % 3600) % 60;
    assert total == ((total / 3600) * 60 + (total % 3600) / 60) * 60 + (total % 3600) % 60;
  }

  /** The seconds of `h` hours, `m` minutes and `s` seconds. */
  function Hms(h: int, m: int, s: int): int {
    h * 3600 + m * 60 + s
  }

  /** Splitting a second count with floor division by 3600 and 60 gives it back. */
  lemma HmsOfDivision(total: nat)
    ensures Hms(total / 3600, (total % 3600) / 60, total % 60) == total
  {
    var h := total / 3600;
    var r := total % 3600;
    assert total == h * 3600 + r;
    var m := r / 60;
    assert r == m * 60 + r % 60;
    assert total == (h * 60 + m) * 60 + r % 60;
    assert total % 60 == r % 60;
  }

  // ---------------------------------------------------------------------------
  // Whitespace
  // ---------------------------------------------------------------------------

  /** Python's `str.lstrip()`: drops the leading whitespace and nothing else. */
  function StripLeft(s: string): (r: string)
    ensures |r| <= |s| && r == s[|s| - |r|..]
    ensures forall i :: 0 <= i < |s| - |r| ==> IsSpace(s[i])
    ensures |r| > 0 ==> !IsSpace(r[0])
  {
    if |s| > 0 && IsSpace(s[0]) then
      var r := StripLeft(s[1..]);
      assert forall i :: 0 < i < |s| ==> s[i] == s[1..][i - 1];
      assert s[1..][|s| - 1 - |r|..] == s[|s| - |r|..];
      r
    else s
  }

  /** Python's `str.rstrip()`: drops the trailing whitespace and nothing else. */
  function StripRight(s: string): (r: string)
    ensures |r| <= |s| && r == s[..|r|]
    ensures forall i :: |r| <= i < |s| ==> IsSpace(s[i])
    ensures |r| > 0 ==> !IsSpace(r[|r| - 1])
  {
    if |s| > 0 && IsSpace(s[|s| - 1]) then
      var r := StripRight(s[..|s| - 1]);
      assert s[..|s| - 1][..|r|] == s[..|r|];
      r
    else s
  }

  /** Python's `str.strip()`: the middle of `s` left once the whitespace at both ends is cut off. */
  function Strip(s: string): (r: string)
    ensures |r| <= |s|
    ensures |r| > 0 ==> !IsSpace(r[0]) && !IsSpace(r[|r| - 1])
    ensures NoEdgeSpace(s) ==> r == s
  {
    StripRight(StripLeft(s))
  }

  predicate NoEdgeSpace(s: string) {
    |s| == 0 || (!IsSpace(s[0]) && !IsSpace(s[|s| - 1]))
  }

  /** The stripped text is a slice of `s` with only whitespace before and after it. */
  lemma StripIsMiddle(s: string)
    ensures exists i, j ::
      && 0 <= i <= j <= |s| && Strip(s) == s[i..j]
      && (forall k :: 0 <= k < i ==> IsSpace(s[k]))
      && (forall k :: j <= k < |s| ==> IsSpace(s[k]))
  {
    var a := StripLeft(s);
    StripMiddle(s, a, StripRight(a));
  }

  lemma StripMiddle(s: string, a: string, r: string)
    requires |a| <= |s| && a == s[|s| - |a|..] && forall k :: 0 <= k < |s| - |a| ==> IsSpace(s[k])
    requires |r| <= |a| && r == a[..|r|] && forall k :: |r| <= k < |a| ==> IsSpace(a[k])
    ensures var i := |s| - |a|; r == s[i..i + |r|] && forall k :: i + |r| <= k < |s| ==> IsSpace(s[k])
  {
    var i := |s| - |a|;
    assert forall k :: i <= k < |s| ==> s[k] == a[k - i];
  }

  /** Stripping a string that has no whitespace at either end leaves it unchanged. */
  lemma StripNoSpace(s: string)
    requires NoEdgeSpace(s)
    ensures Strip(s) == s
  {
  }

  /** Strip only ever removes whitespace: an all-space string strips to "". */
  lemma StripAllSpace(s: string)
    requires forall i :: 0 <= i < |s| ==> IsSpace(s[i])
    ensures Strip(s) == ""
  {
  }

  // ---------------------------------------------------------------------------
  // Searching, splitting, replacing
  // ---------------------------------------------------------------------------

  function FirstIndex(s: string, c: char): (i: nat)
    requires c in s
    ensures i < |s| && s[i] == c && c !in s[..i]
  {
    if s[0] == c then 0 else 1 + FirstIndex(s[1..], c)
  }

  /** The first `c` after a prefix without one is right after the prefix. */
  lemma FirstIndexAfter(a: string, c: char, b: string)
    requires c !in a
    ensures c in a + ([c] + b) && FirstIndex(a + ([c] + b), c) == |a|
  {
    var s := a + ([c] + b);
    assert s[|a|] == c;
  }

  /** Index of the last occurrence of `c`, or -1 (Python's `str.rfind`). */
  function LastIndex(s: string, c: char): (i: int)
    ensures -1 <= i < |s|
    ensures i >= 0 ==> s[i] == c
    ensures forall j :: i < j < |s| ==> s[j] != c
  {
    if |s| == 0 then -1
    else if s[|s| - 1] == c then |s| - 1
    else LastIndex(s[..|s| - 1], c)
  }

  /** `sep.join(parts)` for a one-character separator. */
  function Join(parts: seq<string>, sep: char): string
  {
    if |parts| == 0 then ""
    else if |parts| == 1 then parts[0]
    else parts[0] + [sep] + Join(parts[1..], sep)
  }

  /** Proof helper, modelling nothing of the recorder: regrouping a concatenation of three strings. */
  lemma Assoc(a: string, b: string, c: string)
    ensures (a + b) + c == a + (b + c)
  {
  }

  /** Python's `s.split(sep)` for a one-character separator. */
  function Split(s: string, sep: char): (parts: seq<string>)
    ensures |parts| >= 1
    ensures forall k :: 0 <= k < |parts| ==> sep !in parts[k]
    ensures Join(parts, sep) == s
    decreases |s|
  {
    if sep !in s then [s]
    else
      var i := FirstIndex(s, sep);
      assert s == s[..i] + [sep] + s[i + 1..];
      [s[..i]] + Split(s[i + 1..], sep)
  }

  /** Splitting a join of separator-free pieces gives the pieces back. */
  lemma {:induction false} SplitJoin(parts: seq<string>, sep: char)
    requires |parts| >= 1
    requires forall k :: 0 <= k < |parts| ==> sep !in parts[k]
    ensures Split(Join(parts, sep), sep) == parts
  {
    if |parts| > 1 {
      var s := Join(parts, sep);
      assert s == parts[0] + [sep] + Join(parts[1..], sep);
      assert s[|parts[0]|] == sep;
      assert s[..|parts[0]|] == parts[0];
      assert FirstIndex(s, sep) == |parts[0]|;
      assert s[|parts[0]| + 1..] == Join(parts[1..], sep);
      SplitJoin(parts[1..], sep);
    }
  }

  /** Splitting three separator-free pieces joined by the separator gives the pieces back. */
  lemma Split3(a: string, b: string, c: string, sep: char)
    requires sep !in a && sep !in b && sep !in c
    ensures Split(a + [sep] + b + [sep] + c, sep) == [a, b, c]
  {
    var parts := [a, b, c];
    assert Join(parts[2..], sep) == c;
    assert Join(parts[1..], sep) == b + [sep] + c;
    assert Join(parts, sep) == a + [sep] + b + [sep] + c;
    SplitJoin(parts, sep);
  }

  /** Splitting two separator-free pieces joined by the separator gives the pieces back. */
  lemma Split2(a: string, b: string, sep: char)
    requires sep !in a && sep !in b
    ensures Split(a + [sep] + b, sep) == [a, b]
  {
    var parts := [a, b];
    assert Join(parts[1..], sep) == b;
    assert Join(parts, sep) == a + [sep] + b;
    SplitJoin(parts, sep);
  }

  /** A digit string holds no non-digit character. */
  lemma DigitsExclude(s: string, c: char)
    requires AllDigits(s) && !IsDigit(c)
    ensures c !in s
  {
    assert forall i :: 0 <= i < |s| ==> s[i] != c;
  }

  /** Whether `pat` occurs in `s` (Python's `pat in s`). */
  function Contains(s: string, pat: string): bool
    decreases |s|
  {
    if |s| < |pat| then false else s[..|pat|] == pat || Contains(s[1..], pat)
  }

  /** Python's `s.replace(pat, rep)`: one left-to-right pass, non-overlapping. */
  function ReplaceAll(s: string, pat: string, rep: string): (r: string)
    requires |pat| > 0
    ensures !Contains(s, pat) ==> r == s
    decreases |s|
  {
    if |s| < |pat| then s
    else if s[..|pat|] == pat then rep + ReplaceAll(s[|pat|..], pat, rep)
    else [s[0]] + ReplaceAll(s[1..], pat, rep)
  }

  predicate StartsWith(s: string, pre: string) { |pre| <= |s| && s[..|pre|] == pre }

  predicate EndsWith(s: string, suf: string) { |suf| <= |s| && s[|s| - |suf|..] == suf }

  /** Replace every character of `bad` by `r`, keep the others. */
  function ReplaceChars(s: string, bad: set<char>, r: char): (t: string)
    ensures |t| == |s|
    ensures forall i :: 0 <= i < |s| ==> t[i] == (if s[i] in bad then r else s[i])
  {
    if |s| == 0 then "" else ReplaceChars(s[..|s| - 1], bad, r) + [if s[|s| - 1] in bad then r else s[|s| - 1]]
  }

  /**
   * The first `n` characters of a replacement: as many as the text has, up to
   * `n`, each replaced when it is in `bad`; none of them is then in `bad`
   * (the replacement is not), and none is a character `c` absent from the text.
   */
  lemma TakeReplaced(s: string, bad: set<char>, r: char, n: nat, c: char)
    requires r !in bad && c != r && c !in s
    ensures var t := Take(ReplaceChars(s, bad, r), n);
      |t| == (if |s| <= n then |s| else n) &&
      (forall i :: 0 <= i < |t| ==> t[i] == (if s[i] in bad then r else s[i])) &&
      (forall i :: 0 <= i < |t| ==> t[i] !in bad && t[i] != c)
  {
    var t := Take(ReplaceChars(s, bad, r), n);
    forall i | 0 <= i < |t| ensures t[i] == (if s[i] in bad then r else s[i]) && t[i] !in bad && t[i] != c {
      assert t[i] == ReplaceChars(s, bad, r)[i];
    }
  }

  /** Replacing characters that do not occur changes nothing. */
  lemma ReplaceNothing(s: string, bad: set<char>, r: char)
    requires forall i :: 0 <= i < |s| ==> s[i] !in bad
    ensures ReplaceChars(s, bad, r) == s
  {
    var t := ReplaceChars(s, bad, r);
    assert forall i :: 0 <= i < |s| ==> t[i] == s[i];
  }

  /** Drop every occurrence of `c` (Python's `s.replace(c, "")` for one character). */
  function RemoveChar(s: string, c: char): (t: string)
    ensures c !in t
    ensures |t| <= |s|
    ensures c !in s ==> t == s
  {
    if |s| == 0 then "" else RemoveChar(s[..|s| - 1], c) + (if s[|s| - 1] == c then "" else [s[|s| - 1]])
  }

  /** Python's slice `s[:n]`. */
  function Take(s: string, n: nat): (t: string)
    ensures |t| == if |s| <= n then |s| else n
    ensures t == s[..|t|]
  {
    if |s| <= n then s else s[..n]
  }

  // ---------------------------------------------------------------------------
  // Paths (os.path with a single '/' separator)
  // ---------------------------------------------------------------------------

  const Sep: char := '/'

  predicate IsAbs(p: string) { |p| > 0 && p[0] == Sep }

  /** `os.path.join(dir, name)`. */
  function PathJoin(dir: string, name: string): (r: string)
    ensures IsAbs(dir) || IsAbs(name) ==> IsAbs(r)
  {
    if IsAbs(name) || |dir| == 0 then name
    else if dir[|dir| - 1] == Sep then dir + name
    else dir + [Sep] + name
  }

  /** `os.path.basename(p)`: what follows the last separator. */
  function Basename(p: string): (b: string)
    ensures Sep !in b
    ensures |b| <= |p| && b == p[|p| - |b|..]
  {
    p[LastIndex(p, Sep) + 1..]
  }

  function StripTrailingSeps(p: string): (r: string)
    ensures |r| <= |p| && r == p[..|r|]
  {
    if |p| > 0 && p[|p| - 1] == Sep then StripTrailingSeps(p[..|p| - 1]) else p
  }

  /** `os.path.dirname(p)`: what precedes the last separator, trailing separators removed. */
  function Dirname(p: string): string {
    var i := LastIndex(p, Sep);
    var head := p[..i + 1];
    if |StripTrailingSeps(head)| == 0 then head else StripTrailingSeps(head)
  }

  /** Joining a separator-free name onto a directory: dirname and basename take it apart again. */
  lemma DirBaseOfJoin(dir: string, name: string)
    requires |dir| > 0 && dir[|dir| - 1] != Sep
    requires |name| > 0 && Sep !in name
    ensures Basename(PathJoin(dir, name)) == name
    ensures Dirname(PathJoin(dir, name)) == dir
  {
    var p := PathJoin(dir, name);
    assert p == dir + [Sep] + name;
    assert LastIndex(p, Sep) == |dir| by {
      assert p[|dir|] == Sep;
      forall j | |dir| < j < |p| ensures p[j] != Sep {
        assert p[j] == name[j - |dir| - 1];
      }
      LastIndexIsLast(p, Sep, |dir|);
    }
    assert p[..|dir| + 1] == dir + [Sep];
    assert (dir + [Sep])[..|dir|] == dir;
    assert StripTrailingSeps(dir) == dir;
    assert StripTrailingSeps(dir + [Sep]) == dir;
  }

  /**
   * `os.path.abspath(p)` against the working directory `cwd`; the `normpath`
   * clean-up of `.`, `..` and doubled separators is not modelled.
   */
  function AbsPath(cwd: string, p: string): (r: string)
    requires IsAbs(cwd)
    ensures IsAbs(r)
    ensures IsAbs(p) ==> r == p
  {
    if IsAbs(p) then p else PathJoin(cwd, p)
  }

  /** A separator-free name joined onto any directory is the basename of the result. */
  lemma BasenameOfJoin(dir: string, name: string)
    requires Sep !in name
    ensures Basename(PathJoin(dir, name)) == name
  {
    var p := PathJoin(dir, name);
    assert p == name || p == dir + name || p == dir + [Sep] + name;
    var k := |p| - |name|;
    assert p[k..] == name;
    forall j | k <= j < |p| ensures p[j] != Sep {
      assert p[j] == name[j - k];
    }
    if k > 0 {
      assert p[k - 1] == Sep;
      LastIndexIsLast(p, Sep, k - 1);
    } else {
      assert forall j :: 0 <= j < |p| ==> p[j] != Sep;
    }
  }

  lemma LastIndexIsLast(s: string, c: char, k: nat)
    requires k < |s| && s[k] == c
    requires forall j :: k < j < |s| ==> s[j] != c
    ensures LastIndex(s, c) == k
  {
  }

  /**
   * `os.path.splitext(p)`: the extension is the part from the last '.' of the
   * basename, unless that basename is only dots before it (".bashrc").
   */
  function SplitExt(p: string): (r: (string, string))
    ensures r.0 + r.1 == p
    ensures r.1 == "" || (r.1[0] == '.' && '.' !in r.1[1..] && Sep !in r.1)
  {
    var sepIdx := LastIndex(p, Sep);
    var dotIdx := LastIndex(p, '.');
    if dotIdx > sepIdx && exists k :: sepIdx < k < dotIdx && p[k] != '.' then
      assert p == p[..dotIdx] + p[dotIdx..];
      (p[..dotIdx], p[dotIdx..])
    else (p, "")
  }
}

=== FILE: vod.dfy ===
/**
 * The arithmetic and argument building of the VOD downloader
 * (`module/VOD_downloader.py`): file-name sanitising, `h:m:s` parsing and
 * formatting, splitting a time range into download segments, choosing a DASH
 * Representation (ISO/IEC 23009-1, section 5.3.5) by height, the ffmpeg merge
 * command with its concat filter, and the request headers.
 *
 * Times are exact: segment bounds are Dafny reals (the source uses floats), and
 * the `%06.3f` formatting takes a whole number of milliseconds.
 */
module Vod {
  import opened Wrappers
  import opened Text

  // ---------------------------------------------------------------------------
  // sanitizeFilename
  // ---------------------------------------------------------------------------

  /** The characters `sanitizeFilename` replaces. */
  const VodBad: set<char> := {'<', '>', ':', '"', '/', '\\', '|', '?', '*'}

  /** `sanitizeFilename(filename, maxLength)`: each forbidden character becomes `_`, then only `maxLength` characters are kept. */
  function SanitizeFilename(filename: string, maxLength: nat): (r: string)
    ensures |r| == if |filename| <= maxLength then |filename| else maxLength
    ensures forall i :: 0 <= i < |r| ==> r[i] == (if filename[i] in VodBad then '_' else filename[i])
    ensures forall i :: 0 <= i < |r| ==> r[i] !in VodBad
  {
    Take(ReplaceChars(filename, VodBad, '_'), maxLength)
  }

  /** Sanitising twice is sanitising once. */
  lemma SanitizeIdempotent(filename: string, maxLength: nat)
    ensures SanitizeFilename(SanitizeFilename(filename, maxLength), maxLength) == SanitizeFilename(filename, maxLength)
  {
    var once := SanitizeFilename(filename, maxLength);
    var twice := SanitizeFilename(once, maxLength);
    assert forall i :: 0 <= i < |twice| ==> twice[i] == once[i];
  }

  /** A short name without forbidden characters is kept as it is. */
  lemma SanitizeKeepsClean(filename: string, maxLength: nat)
    requires |filename| <= maxLength
    requires forall i :: 0 <= i < |filename| ==> filename[i] !in VodBad
    ensures SanitizeFilename(filename, maxLength) == filename
  {
    ReplaceNothing(filename, VodBad, '_');
  }

  // ---------------------------------------------------------------------------
  // timeToSeconds, secondsToHhmmss
  // ---------------------------------------------------------------------------

  /**
   * `timeToSeconds(timeStr)`: `None` or `""` is 0; otherwise the text must split
   * at `:` into exactly three integers `h`, `m`, `s` (`None` here: the
   * ValueError the source raises).
   */
  function TimeToSeconds(timeStr: Option<string>): (r: Option<int>)
    ensures timeStr.None? || timeStr == Some("") ==> r == Some(0)
  {
    if timeStr.None? || timeStr.value == "" then Some(0)
    else PartsSeconds(Split(timeStr.value, ':'))
  }

  /** `h, m, s = map(int, parts)`: three integers, or the ValueError as `None`. */
  function PartsSeconds(parts: seq<string>): (r: Option<int>)
    ensures r.Some? <==> |parts| == 3 && PyInt(parts[0]).Some? && PyInt(parts[1]).Some? && PyInt(parts[2]).Some?
  {
    if |parts| != 3 then None
    else
      match (PyInt(parts[0]), PyInt(parts[1]), PyInt(parts[2]))
      case (Some(h), Some(m), Some(s)) => Some(Hms(h, m, s))
      case _ => None
  }

  lemma IntToStrNoColon(i: int)
    ensures ':' !in IntToStr(i)
  {
    var s := IntToStr(i);
    if i < 0 {
      DigitsExclude(NatToStr(-i), ':');
      assert s == "-" + NatToStr(-i);
    } else {
      DigitsExclude(NatToStr(i), ':');
    }
  }

  /** Three parts that parse as integers read as `h*3600 + m*60 + s`. */
  lemma TimeToSecondsOfSplit(a: string, b: string, c: string, h: int, m: int, s: int)
    requires ':' !in a && ':' !in b && ':' !in c
    requires PyInt(a) == Some(h) && PyInt(b) == Some(m) && PyInt(c) == Some(s)
    ensures TimeToSeconds(Some(a + ":" + b + ":" + c)) == Some(Hms(h, m, s))
  {
    SplitTime(a, b, c);
    PartsSecondsOf(a, b, c, h, m, s);
  }

  lemma PartsSecondsOf(a: string, b: string, c: string, h: int, m: int, s: int)
    requires PyInt(a) == Some(h) && PyInt(b) == Some(m) && PyInt(c) == Some(s)
    ensures PartsSeconds([a, b, c]) == Some(Hms(h, m, s))
  {
  }

  lemma SplitTime(a: string, b: string, c: string)
    requires ':' !in a && ':' !in b && ':' !in c
    ensures Split(a + ":" + b + ":" + c, ':') == [a, b, c]
  {
    assert a + ":" + b + ":" + c == a + [':'] + b + [':'] + c;
    Split3(a, b, c, ':');
  }

  /** `h:m:s` written with `str()` reads back as `h*3600 + m*60 + s`, negative parts included. */
  lemma TimeToSecondsOfParts(h: int, m: int, s: int)
    ensures TimeToSeconds(Some(IntToStr(h) + ":" + IntToStr(m) + ":" + IntToStr(s))) == Some(Hms(h, m, s))
  {
    IntToStrNoColon(h);
    IntToStrNoColon(m);
    IntToStrNoColon(s);
    PyIntOfIntToStr(h);
    PyIntOfIntToStr(m);
    PyIntOfIntToStr(s);
    TimeToSecondsOfSplit(IntToStr(h), IntToStr(m), IntToStr(s), h, m, s);
  }

  lemma PyIntOfPad2(n: nat)
    ensures PyInt(Pad2(n)) == Some(n)
  {
    Pad2Value(n);
    PyIntOfDigits(Pad2(n), n);
  }

  /** The zero-padded `HH:MM:SS` of a duration reads back as that duration. */
  lemma TimeToSecondsOfHms(total: nat)
    ensures TimeToSeconds(Some(FormatHms(total))) == Some(total)
  {
    var h, m, s := total / 3600, (total % 3600) / 60, total % 60;
    DigitsExclude(Pad2(h), ':');
    DigitsExclude(Pad2(m), ':');
    DigitsExclude(Pad2(s), ':');
    PyIntOfPad2(h);
    PyIntOfPad2(m);
    PyIntOfPad2(s);
    TimeToSecondsOfSplit(Pad2(h), Pad2(m), Pad2(s), h, m, s);
    HmsOfDivision(total);
  }

  /** Python's `f"{n:03}"` for a number below 1000. */
  function Pad3(n: nat): (s: string)
    requires n < 1000
    ensures |s| == 3 && AllDigits(s) && DigitsValue(s) == n
  {
    DigitsValueOfNatToStr(n);
    if n < 10 then
      DigitsValueZeroPrefix(NatToStr(n));
      DigitsValueZeroPrefix("0" + NatToStr(n));
      assert "0" + ("0" + NatToStr(n)) == "00" + NatToStr(n);
      "00" + NatToStr(n)
    else if n < 100 then
      DigitsValueZeroPrefix(NatToStr(n));
      "0" + NatToStr(n)
    else NatToStr(n)
  }

  /**
   * `secondsToHhmmss(seconds)` for a time of `ms` milliseconds:
   * `f"{h:02}:{m:02}:{s:06.3f}"` with `h`, `m` from floor division and `s` the
   * seconds within the minute, three decimals.
   */
  function SecondsToHhmmss(ms: nat): (r: string)
    ensures |r| >= 12 && r[|r| - 4] == '.'
  {
    var secs := ms / 1000;
    Pad2(secs / 3600) + ":" + Pad2((secs % 3600) / 60) + ":" + (Pad2(secs % 60) + "." + Pad3(ms % 1000))
  }

  /** Reads `H:MM:SS.mmm` back into milliseconds; the reference the formatting is checked against. */
  function HhmmssMillis(t: string): Option<nat> {
    var parts := Split(t, ':');
    if |parts| != 3 then None else GroupsMillis(parts[0], parts[1], Split(parts[2], '.'))
  }

  function GroupsMillis(hh: string, mm: string, sec: seq<string>): Option<nat> {
    if |sec| != 2 then None
    else
      var h, m, s, f := ParseNat(hh), ParseNat(mm), ParseNat(sec[0]), ParseNat(sec[1]);
      if h.None? || m.None? || s.None? || f.None? then None
      else Some(Millis(h.value, m.value, s.value, f.value))
  }

  /** The milliseconds of `h:m:s.f`. */
  function Millis(h: nat, m: nat, s: nat, f: nat): nat {
    Hms(h, m, s) * 1000 + f
  }

  lemma ParseNatOfPad2(n: nat)
    ensures ParseNat(Pad2(n)) == Some(n)
  {
    Pad2Value(n);
  }

  /** Four digit groups `h:m:s.f` read as `((h*3600 + m*60 + s) * 1000) + f` milliseconds. */
  lemma MillisOfGroups(h: string, m: string, s: string, f: string, hv: nat, mv: nat, sv: nat, fv: nat)
    requires ParseNat(h) == Some(hv) && ParseNat(m) == Some(mv) && ParseNat(s) == Some(sv) && ParseNat(f) == Some(fv)
    ensures HhmmssMillis(h + ":" + m + ":" + (s + "." + f)) == Some(Millis(hv, mv, sv, fv))
  {
    var last := s + "." + f;
    SecondsGroup(s, f);
    DigitsExclude(h, ':');
    DigitsExclude(m, ':');
    SplitTime(h, m, last);
    GroupsMillisOf(h, m, [s, f], hv, mv, sv, fv);
    assert HhmmssMillis(h + ":" + m + ":" + last) == GroupsMillis(h, m, [s, f]);
  }

  lemma SecondsGroup(s: string, f: string)
    requires AllDigits(s) && AllDigits(f)
    ensures ':' !in s + "." + f
    ensures Split(s + "." + f, '.') == [s, f]
  {
    DigitsExclude(s, ':');
    DigitsExclude(f, ':');
    DigitsExclude(s, '.');
    DigitsExclude(f, '.');
    var last := s + "." + f;
    assert forall j :: 0 <= j < |last| ==> last[j] != ':';
    assert last == s + ['.'] + f;
    Split2(s, f, '.');
  }

  lemma GroupsMillisOf(hh: string, mm: string, sec: seq<string>, h: nat, m: nat, s: nat, f: nat)
    requires |sec| == 2 && ParseNat(hh) == Some(h) && ParseNat(mm) == Some(m)
    requires ParseNat(sec[0]) == Some(s) && ParseNat(sec[1]) == Some(f)
    ensures GroupsMillis(hh, mm, sec) == Some(Millis(h, m, s, f))
  {
  }

  /** The formatted time reads back as the same number of milliseconds. */
  lemma HhmmssRoundTrip(ms: nat)
    ensures HhmmssMillis(SecondsToHhmmss(ms)) == Some(ms)
  {
    var secs := ms / 1000;
    var h, m, sec, f := Pad2(secs / 3600), Pad2((secs % 3600) / 60), Pad2(secs % 60), Pad3(ms % 1000);
    ParseNatOfPad2(secs / 3600);
    ParseNatOfPad2((secs % 3600) / 60);
    ParseNatOfPad2(secs % 60);
    ParseNatOfDigits(f);
    MillisOfGroups(h, m, sec, f, secs / 3600, (secs % 3600) / 60, secs % 60, ms % 1000);
    assert SecondsToHhmmss(ms) == h + ":" + m + ":" + (sec + "." + f);
    MillisOfDivision(ms);
  }

  /** Splitting milliseconds into hours, minutes, seconds and the rest and adding them up again gives them back. */
  lemma MillisOfDivision(ms: nat)
    ensures Millis((ms / 1000) / 3600, ((ms / 1000) % 3600) / 60, (ms / 1000) % 60, ms % 1000) == ms
  {
    var secs := ms / 1000;
    HmsOfDivision(secs);
    assert Millis(secs / 3600, (secs % 3600) / 60, secs % 60, ms % 1000) == secs * 1000 + ms % 1000;
  }

  // ---------------------------------------------------------------------------
  // calculateSegments
  // ---------------------------------------------------------------------------

  datatype Segment = Segment(start: real, end: real)

  /** Each segment is non-empty and starts where the previous one ends. */
  predicate Chain(segs: seq<Segment>) {
    (forall i :: 0 <= i < |segs| ==> segs[i].start < segs[i].end) &&
    (forall i :: 0 < i < |segs| ==> segs[i].start == segs[i - 1].end)
  }

  /** The `i`-th cut point of a range from `start` cut every `len`. */
  function Cut(start: real, len: real, i: nat): real {
    start + (i as real) * len
  }

  lemma CutStep(start: real, len: real, i: nat)
    ensures Cut(start, len, i + 1) == Cut(start, len, i) + len
  {
    assert ((i + 1) as real) * len == (i as real) * len + len;
  }

  lemma CutBelow(start: real, len: real, i: nat, k: nat)
    requires i < k && len > 0.0
    ensures Cut(start, len, i) < Cut(start, len, k)
  {
    assert (i as real) * len < (k as real) * len;
  }

  /** `n` consecutive segments of length `len` from `start`: what the loop produces. */
  function EvenSplit(start: real, len: real, n: nat): (segs: seq<Segment>)
    ensures |segs| == n
    ensures forall i :: 0 <= i < n ==> segs[i] == Segment(Cut(start, len, i), Cut(start, len, i + 1))
  {
    if n == 0 then [] else EvenSplit(start, len, n - 1) + [Segment(Cut(start, len, n - 1), Cut(start, len, n))]
  }

  /** How many segments the loop yields for a positive span: `segmentOption` above three minutes, else one. */
  function SegmentCount(span: real, segmentOption: int): (k: nat)
    requires segmentOption > 0
    ensures k >= 1
    ensures span > 180.0 && segmentOption != 1 ==> k == segmentOption
    ensures !(span > 180.0 && segmentOption != 1) ==> k == 1
  {
    if span > 180.0 && segmentOption != 1 then segmentOption else 1
  }

  /** The trailing fragment rule: a last segment under one second is joined to the one before, or dropped if alone. */
  function MergeTail(segs: seq<Segment>): (r: seq<Segment>)
    ensures |segs| == 0 || segs[|segs| - 1].end - segs[|segs| - 1].start >= 1.0 ==> r == segs
    ensures |segs| == 1 && segs[0].end - segs[0].start < 1.0 ==> r == []
    ensures |segs| >= 2 && segs[|segs| - 1].end - segs[|segs| - 1].start < 1.0 ==> |r| == |segs| - 1
    ensures |segs| >= 2 && segs[|segs| - 1].end - segs[|segs| - 1].start < 1.0 ==> r[..|r| - 1] == segs[..|segs| - 2]
    ensures |segs| >= 2 && segs[|segs| - 1].end - segs[|segs| - 1].start < 1.0 ==>
      r[|r| - 1] == Segment(segs[|segs| - 2].start, segs[|segs| - 1].end)
  {
    if |segs| > 0 && segs[|segs| - 1].end - segs[|segs| - 1].start < 1.0 then
      var last := segs[|segs| - 1];
      var rest := segs[..|segs| - 1];
      if |rest| > 0 then rest[..|rest| - 1] + [Segment(rest[|rest| - 1].start, last.end)] else []
    else segs
  }

  /** The start and end time `calculateSegments` works between; `None` when parsing a given time raises. */
  function Bounds(duration: real, startTime: Option<string>, endTime: Option<string>): Option<(real, real)> {
    var start := TimeToSeconds(startTime);
    var end := if endTime.None? || endTime.value == "" then Some(duration) else
      match TimeToSeconds(endTime)
      case Some(e) => Some(e as real)
      case None => None;
    if start.None? || end.None? then None else Some((start.value as real, end.value))
  }

  /**
   * The loop of `calculateSegments`: from `start`, cut `min(current + len, end)`
   * while `current < end`, keeping only non-empty pieces. With `k` pieces of
   * `len` filling the range exactly, it produces the even split.
   */
  method CutRange(start: real, end: real, len: real, ghost k: nat) returns (segments: seq<Segment>)
    requires len > 0.0 && Cut(start, len, k) == end
    ensures segments == EvenSplit(start, len, k)
  {
    segments := [];
    var current := start;
    ghost var i: nat := 0;
    while current < end
      invariant i <= k && current == Cut(start, len, i)
      invariant segments == EvenSplit(start, len, i)
      decreases k - i
    {
      CutStep(start, len, i);
      if i + 1 < k {
        CutBelow(start, len, i + 1, k);
      }
      var currentEnd := if current + len < end then current + len else end;
      if currentEnd > current {
        segments := segments + [Segment(current, currentEnd)];
      }
      current := currentEnd;
      i := i + 1;
    }
    if i < k {
      CutBelow(start, len, i, k);
    }
  }

  /** Cutting a range into `k` pieces of a `k`-th of its length ends exactly at its end. */
  lemma CutAll(start: real, end: real, k: nat)
    requires k > 0
    ensures Cut(start, (end - start) / (k as real), k) == end
  {
  }

  /**
   * `calculateSegments(duration, startTime, endTime, segmentOption)`: the range
   * cut into `SegmentCount` equal pieces, then the trailing fragment rule. `None`
   * when a time string does not parse. `segmentOption` is one of the menu's 1,
   * 4, 8, 16.
   */
  method CalculateSegments(duration: real, startTime: Option<string>, endTime: Option<string>, segmentOption: int)
    returns (r: Option<seq<Segment>>)
    requires segmentOption > 0
    ensures r.None? <==> Bounds(duration, startTime, endTime).None?
    ensures r.Some? ==> r.value == RangeSegments(Bounds(duration, startTime, endTime).value, segmentOption)
  {
    var bounds := Bounds(duration, startTime, endTime);
    if bounds.None? {
      return None;
    }
    var segments := CutSegments(bounds.value.0, bounds.value.1, segmentOption);
    return Some(segments);
  }

  /** The body of `calculateSegments` once the start and end time are known. */
  method CutSegments(start: real, end: real, segmentOption: int) returns (segments: seq<Segment>)
    requires segmentOption > 0
    ensures segments == RangeSegments((start, end), segmentOption)
  {
    var span := end - start;
    var len: real;
    if span > 180.0 {
      if segmentOption == 1 {
        len := span;
      } else {
        len := span / (segmentOption as real);
      }
    } else {
      len := span;
    }
    segments := [];
    if start < end {
      ghost var k := SegmentCount(span, segmentOption);
      LengthOfCount(span, segmentOption, len);
      CutAll(start, end, k);
      segments := CutRange(start, end, len, k);
    }
    segments := MergeTail(segments);
  }

  /** The length the source picks branch by branch is the span over `SegmentCount`. */
  lemma LengthOfCount(span: real, segmentOption: int, len: real)
    requires segmentOption > 0
    requires len == if span > 180.0 && segmentOption != 1 then span / (segmentOption as real) else span
    ensures len == span / (SegmentCount(span, segmentOption) as real)
  {
  }

  /** The segments of a range given as `(start, end)`; none for an empty range. */
  function RangeSegments(bounds: (real, real), segmentOption: int): seq<Segment>
    requires segmentOption > 0
  {
    if bounds.1 <= bounds.0 then [] else Segments(bounds.0, bounds.1, segmentOption)
  }

  /** The segments of a non-empty range: `SegmentCount` even pieces, with the trailing fragment rule. */
  function Segments(start: real, end: real, segmentOption: int): seq<Segment>
    requires segmentOption > 0 && start < end
  {
    var k := SegmentCount(end - start, segmentOption);
    MergeTail(EvenSplit(start, (end - start) / (k as real), k))
  }

  /** The even split is a chain from `start` to the `n`-th cut. */
  lemma EvenSplitChain(start: real, len: real, n: nat)
    requires len > 0.0
    ensures Chain(EvenSplit(start, len, n))
  {
    var segs := EvenSplit(start, len, n);
    forall i | 0 <= i < n ensures segs[i].start < segs[i].end {
      CutStep(start, len, i);
    }
  }

  /** Joining the trailing fragment keeps a chain a chain, with the same start and end. */
  lemma MergeTailChain(segs: seq<Segment>)
    requires Chain(segs)
    ensures Chain(MergeTail(segs))
    ensures |MergeTail(segs)| > 0 ==> MergeTail(segs)[0].start == segs[0].start
    ensures |MergeTail(segs)| > 0 ==> MergeTail(segs)[|MergeTail(segs)| - 1].end == segs[|segs| - 1].end
  {
    var r := MergeTail(segs);
    if |segs| >= 2 && segs[|segs| - 1].end - segs[|segs| - 1].start < 1.0 {
      assert forall i :: 0 <= i < |r| - 1 ==> r[i] == segs[i];
    }
  }

  /** The segments form a chain from the start time to the end time, at most `SegmentCount` of them. */
  lemma SegmentsCoverRange(start: real, end: real, segmentOption: int)
    requires segmentOption > 0 && start < end
    ensures Chain(Segments(start, end, segmentOption))
    ensures |Segments(start, end, segmentOption)| <= SegmentCount(end - start, segmentOption)
    ensures |Segments(start, end, segmentOption)| > 0 ==> Segments(start, end, segmentOption)[0].start == start
    ensures |Segments(start, end, segmentOption)| > 0 ==>
      Segments(start, end, segmentOption)[|Segments(start, end, segmentOption)| - 1].end == end
  {
    var k := SegmentCount(end - start, segmentOption);
    var len := (end - start) / (k as real);
    var even := EvenSplit(start, len, k);
    CutAll(start, end, k);
    assert Cut(start, len, 0) == start;
    assert even[0] == Segment(Cut(start, len, 0), Cut(start, len, 1));
    assert even[k - 1].end == end;
    EvenSplitChain(start, len, k);
    MergeTailChain(even);
  }

  /** Nothing is lost but a lone fragment: the result is empty exactly for a single piece under one second. */
  lemma SegmentsEmpty(start: real, end: real, segmentOption: int)
    requires segmentOption > 0 && start < end
    ensures |Segments(start, end, segmentOption)| == 0 <==>
      SegmentCount(end - start, segmentOption) == 1 && end - start < 1.0
  {
    var k := SegmentCount(end - start, segmentOption);
    var len := (end - start) / (k as real);
    var even := EvenSplit(start, len, k);
    CutStep(start, len, k - 1);
    assert Cut(start, len, k) == end;
    assert even[k - 1].end - even[k - 1].start == len;
  }

  /** A span of three minutes or less, or no splitting, gives at most one segment. */
  lemma ShortRangeOneSegment(start: real, end: real, segmentOption: int)
    requires segmentOption > 0 && start < end
    requires end - start <= 180.0 || segmentOption == 1
    ensures |Segments(start, end, segmentOption)| <= 1
  {
  }

  /** Above three minutes and with splitting, every segment before the last is `span / segmentOption` long. */
  lemma SegmentsEqualLength(start: real, end: real, segmentOption: int, i: nat)
    requires segmentOption > 1 && end - start > 180.0
    requires i + 1 < |Segments(start, end, segmentOption)|
    ensures Segments(start, end, segmentOption)[i].end - Segments(start, end, segmentOption)[i].start ==
      (end - start) / (segmentOption as real)
  {
    var len := (end - start) / (segmentOption as real);
    var even := EvenSplit(start, len, segmentOption);
    CutStep(start, len, i);
    assert even[i].end - even[i].start == len;
    var r := MergeTail(even);
    if even[segmentOption - 1].end - even[segmentOption - 1].start < 1.0 {
      assert r[..|r| - 1] == even[..segmentOption - 2];
      assert r[i] == r[..|r| - 1][i];
    }
  }

  // ---------------------------------------------------------------------------
  // getDashStreamLink: Representation selection
  // ---------------------------------------------------------------------------

  /**
   * A `<Representation>` element: its `id` and `height` attributes and its
   * `<BaseURL>` child, `None` when there is none, `Some(None)` when it has no text.
   */
  datatype Representation = Representation(id: Option<string>, height: Option<string>, baseUrl: Option<Option<string>>)

  /** What the loop sees of a height: none (or empty), one `int()` rejects, or a number. */
  datatype Height = NoHeight | BadHeight | Height(value: int)

  function HeightOf(rep: Representation): Height {
    if rep.height.None? || |rep.height.value| == 0 then NoHeight
    else match PyInt(rep.height.value)
      case None => BadHeight
      case Some(v) => Height(v)
  }

  function Heights(reps: seq<Representation>): (hs: seq<Height>)
    ensures |hs| == |reps| && forall k :: 0 <= k < |reps| ==> hs[k] == HeightOf(reps[k])
  {
    seq(|reps|, k requires 0 <= k < |reps| => HeightOf(reps[k]))
  }

  /** The state of the "best" loop: the chosen index and `highestHeight`, or the ValueError of `int(height)`. */
  datatype BestScan = BestRaised | BestSoFar(index: Option<nat>, highest: int)

  /** The "best" loop: a strictly greater height than the highest so far (from 0) replaces the choice. */
  function ScanBest(hs: seq<Height>): (r: BestScan)
    ensures r.BestSoFar? <==> BadHeight !in hs
    ensures r.BestSoFar? ==> r.highest >= 0
    ensures r.BestSoFar? ==> forall k :: 0 <= k < |hs| && hs[k].Height? ==> hs[k].value <= r.highest
    ensures r.BestSoFar? && r.index.None? ==> r.highest == 0
    ensures r.BestSoFar? && r.index.Some? ==> r.index.value < |hs| && r.highest > 0 && hs[r.index.value] == Height(r.highest)
    ensures r.BestSoFar? && r.index.Some? ==>
      forall k :: 0 <= k < r.index.value && hs[k].Height? ==> hs[k].value < r.highest
  {
    if |hs| == 0 then BestSoFar(None, 0)
    else
      var n := |hs| - 1;
      var prev := ScanBest(hs[..n]);
      assert hs == hs[..n] + [hs[n]];
      if prev.BestRaised? then BestRaised
      else match hs[n]
        case NoHeight => prev
        case BadHeight => BestRaised
        case Height(h) => if h > prev.highest then BestSoFar(Some(n), h) else prev
  }

  /** The state of the explicit-quality loop: the first match, none, or a ValueError. */
  datatype ExactScan = ExactRaised | NoMatch | Match(index: nat)

  /**
   * The explicit-quality loop from index `i`: the first height equal to
   * `int(preferredQuality.replace('p', ''))`, given here as `target` (`None` if it
   * raises; it is only computed once a height is met).
   */
  function ScanExact(hs: seq<Height>, target: Option<int>, i: nat): (r: ExactScan)
    requires i <= |hs|
    ensures r.Match? ==> i <= r.index < |hs| && target.Some? && hs[r.index] == Height(target.value)
    ensures r.Match? ==> forall k :: i <= k < r.index ==> hs[k] == NoHeight || (hs[k].Height? && hs[k].value != target.value)
    ensures r.NoMatch? ==> forall k :: i <= k < |hs| ==> hs[k] == NoHeight || (hs[k].Height? && target.Some? && hs[k].value != target.value)
    ensures r.ExactRaised? ==> exists k :: i <= k < |hs| && hs[k] != NoHeight && (hs[k] == BadHeight || target.None?)
    decreases |hs| - i
  {
    if i == |hs| then NoMatch
    else match hs[i]
      case NoHeight => ScanExact(hs, target, i + 1)
      case BadHeight => ExactRaised
      case Height(h) =>
        if target.None? then ExactRaised
        else if h == target.value then Match(i)
        else ScanExact(hs, target, i + 1)
  }

  /**
   * What `getDashStreamLink` returns: the three values `(baseUrl, id, height)`
   * (all `None` when the document could not be fetched or parsed), the two
   * values `(None, None)` when no representation fits, or an exception.
   */
  datatype DashReturn = Triple(url: Option<string>, repId: Option<string>, height: Option<int>) | Pair | Raises

  /**
   * The chosen representation's values: a missing `<BaseURL>` raises (`.text` of
   * `None`), an empty one gives no URL.
   */
  function Picked(rep: Representation, height: int): (r: DashReturn)
    ensures r.Raises? <==> rep.baseUrl.None?
    ensures r.Triple? ==> r == Triple(rep.baseUrl.value, rep.id, Some(height))
  {
    if rep.baseUrl.None? then Raises else Triple(rep.baseUrl.value, rep.id, Some(height))
  }

  /**
   * `getDashStreamLink(videoId, inKey, preferredQuality)` given the parsed
   * list of representations (`None`: the request or the XML parse failed).
   */
  function GetDashStreamLink(doc: Option<seq<Representation>>, preferredQuality: string): (r: DashReturn)
    ensures doc.None? <==> r == Triple(None, None, None)
    ensures r.Triple? && doc.Some? ==> r.height.Some?
    ensures r.Triple? && doc.Some? ==>
      exists k :: 0 <= k < |doc.value| && doc.value[k].baseUrl == Some(r.url) && HeightOf(doc.value[k]) == Height(r.height.value)
  {
    if doc.None? then Triple(None, None, None)
    else
      var reps := doc.value;
      var hs := Heights(reps);
      if preferredQuality == "best" then
        match ScanBest(hs)
        case BestRaised => Raises
        case BestSoFar(index, highest) =>
          if index.None? then Pair
          else
            var r := Picked(reps[index.value], highest);
            assert r.Triple? ==> reps[index.value].baseUrl == Some(r.url) && hs[index.value] == Height(r.height.value);
            r
      else
        var target := PyInt(ReplaceAll(preferredQuality, "p", ""));
        match ScanExact(hs, target, 0)
        case ExactRaised => Raises
        case NoMatch => Pair
        case Match(index) =>
          var r := Picked(reps[index], target.value);
          assert r.Triple? ==> reps[index].baseUrl == Some(r.url) && hs[index] == Height(r.height.value);
          r
  }

  /** The "best" loop settles on the first strictly greatest positive height. */
  lemma ScanBestFirstTallest(hs: seq<Height>, j: nat)
    requires j < |hs| && BadHeight !in hs && hs[j].Height? && hs[j].value > 0
    requires forall k :: 0 <= k < j && hs[k].Height? ==> hs[k].value < hs[j].value
    requires forall k :: j < k < |hs| && hs[k].Height? ==> hs[k].value <= hs[j].value
    ensures ScanBest(hs) == BestSoFar(Some(j), hs[j].value)
  {
    var s := ScanBest(hs);
    assert hs[j].value <= s.highest;
  }

  /** With "best", the choice is the first representation of strictly greatest positive height, and that height is returned. */
  lemma BestIsFirstTallest(reps: seq<Representation>, j: nat)
    requires j < |reps| && forall k :: 0 <= k < |reps| ==> HeightOf(reps[k]) != BadHeight
    requires HeightOf(reps[j]).Height? && HeightOf(reps[j]).value > 0
    requires forall k :: 0 <= k < j && HeightOf(reps[k]).Height? ==> HeightOf(reps[k]).value < HeightOf(reps[j]).value
    requires forall k :: j < k < |reps| && HeightOf(reps[k]).Height? ==> HeightOf(reps[k]).value <= HeightOf(reps[j]).value
    ensures GetDashStreamLink(Some(reps), "best") == Picked(reps[j], HeightOf(reps[j]).value)
  {
    var hs := Heights(reps);
    assert BadHeight !in hs;
    ScanBestFirstTallest(hs, j);
  }

  /** An empty `<BaseURL>` on the chosen representation gives no URL, with its id and height, instead of raising. */
  lemma EmptyBaseUrlGivesNoUrl(rep: Representation, h: int)
    requires HeightOf(rep) == Height(h) && h > 0 && rep.baseUrl == Some(None)
    ensures GetDashStreamLink(Some([rep]), "best") == Triple(None, rep.id, Some(h))
  {
    BestIsFirstTallest([rep], 0);
  }

  /** With an explicit quality, the choice is the first representation of exactly that height. */
  lemma ExactIsFirstMatch(reps: seq<Representation>, quality: string, j: nat)
    requires j < |reps| && quality != "best" && forall k :: 0 <= k < |reps| ==> HeightOf(reps[k]) != BadHeight
    requires PyInt(ReplaceAll(quality, "p", "")).Some?
    requires HeightOf(reps[j]) == Height(PyInt(ReplaceAll(quality, "p", "")).value)
    requires forall k :: 0 <= k < j ==> HeightOf(reps[k]) != HeightOf(reps[j])
    ensures GetDashStreamLink(Some(reps), quality) == Picked(reps[j], HeightOf(reps[j]).value)
  {
    var hs := Heights(reps);
    var target := PyInt(ReplaceAll(quality, "p", ""));
    assert BadHeight !in hs;
    ScanExactFirst(hs, target.value, j);
  }

  /** The explicit-quality loop stops at the first height equal to the target. */
  lemma ScanExactFirst(hs: seq<Height>, target: int, j: nat)
    requires j < |hs| && BadHeight !in hs && hs[j] == Height(target)
    requires forall k :: 0 <= k < j ==> hs[k] != hs[j]
    ensures ScanExact(hs, Some(target), 0) == Match(j)
  {
  }

  /** Without any representation that has a height, nothing is chosen and the two values `(None, None)` come back. */
  lemma NoHeightReturnsPair(reps: seq<Representation>, quality: string)
    requires forall k :: 0 <= k < |reps| ==> HeightOf(reps[k]) == NoHeight
    ensures GetDashStreamLink(Some(reps), quality) == Pair
  {
    var hs := Heights(reps);
    assert forall k :: 0 <= k < |hs| ==> hs[k] == NoHeight;
    if quality == "best" {
      assert BadHeight !in hs;
      var b := ScanBest(hs);
      assert b.BestSoFar? && b.index.None?;
    } else {
      var e := ScanExact(hs, PyInt(ReplaceAll(quality, "p", "")), 0);
      assert e.NoMatch?;
    }
  }

  // ---------------------------------------------------------------------------
  // mergeSegments
  // ---------------------------------------------------------------------------

  /** The video bitrate of a re-encoding merge for the downloader's quality; none for other qualities. */
  function VideoBitrate(quality: string): (r: Option<string>)
    ensures r.Some? <==> quality in {"best", "1080p", "720p"}
    ensures quality == "720p" ==> r == Some("5000k")
    ensures quality in {"best", "1080p"} ==> r == Some("8000k")
  {
    if quality == "1080p" || quality == "best" then Some("8000k")
    else if quality == "720p" then Some("5000k")
    else None
  }

  /** The two input labels of segment `i`: its first video and first audio stream. */
  function Label(i: nat): string {
    "[" + NatToStr(i) + ":v:0][" + NatToStr(i) + ":a:0]"
  }

  /** The labels of the segments `i` to `n - 1`, in order. */
  function Labels(i: nat, n: nat): string
    decreases n - i
  {
    if i >= n then "" else Label(i) + Labels(i + 1, n)
  }

  /** The `-filter_complex` value that concatenates `n` segments. */
  function FilterComplex(n: nat): string {
    Labels(0, n) + "concat=n=" + NatToStr(n) + ":v=1:a=1[v][a]"
  }

  /** The text after the index in a label whose index is written `digits`. */
  function LabelRest(digits: string): string {
    ":v:0][" + digits + ":a:0]"
  }

  /** Reads the leading `[i:v:0][i:a:0]` labels; the leftover text is returned with the indices. */
  function ParseLabels(s: string): (r: Option<(seq<nat>, string)>)
    decreases |s|
  {
    if |s| == 0 || s[0] != '[' || ':' !in s[1..] then Some(([], s))
    else
      var rest := s[1..];
      var k := FirstIndex(rest, ':');
      var digits := rest[..k];
      var after := rest[k..];
      if ParseNat(digits).None? || !StartsWith(after, LabelRest(digits)) then None
      else match ParseLabels(after[|LabelRest(digits)|..])
        case None => None
        case Some((indices, tail)) => Some(([ParseNat(digits).value] + indices, tail))
  }

  /** Reading one label gives its index and continues after it. */
  lemma ParseOneLabel(i: nat, t: string)
    ensures ParseLabels(Label(i) + t) ==
      match ParseLabels(t)
      case None => None
      case Some((indices, tail)) => Some(([i] + indices, tail))
  {
    var d := NatToStr(i);
    var s := Label(i) + t;
    var rest := s[1..];
    assert rest == d + (LabelRest(d) + t);
    DigitsExclude(d, ':');
    assert rest[|d|] == ':';
    assert FirstIndex(rest, ':') == |d|;
    assert rest[..|d|] == d;
    assert rest[|d|..] == LabelRest(d) + t;
    assert (LabelRest(d) + t)[..|LabelRest(d)|] == LabelRest(d);
    assert (LabelRest(d) + t)[|LabelRest(d)|..] == t;
    ParseNatOfNatToStr(i);
  }

  lemma {:induction false} ParseLabelsOfLabels(i: nat, n: nat, tail: string)
    requires |tail| == 0 || tail[0] != '['
    ensures ParseLabels(Labels(i, n) + tail) == Some((Range(i, n), tail))
    decreases n - i
  {
    if i < n {
      ParseLabelsOfLabels(i + 1, n, tail);
      assert Labels(i, n) == Label(i) + Labels(i + 1, n);
      Assoc(Label(i), Labels(i + 1, n), tail);
      ParseOneLabel(i, Labels(i + 1, n) + tail);
    } else {
      assert Labels(i, n) + tail == tail;
    }
  }

  /** Reads a whole filter value back into the input indices and the concat count. */
  function ParseFilter(f: string): Option<(seq<nat>, nat)> {
    match ParseLabels(f)
    case None => None
    case Some((indices, tail)) =>
      match ParseConcat(tail)
      case None => None
      case Some(n) => Some((indices, n))
  }

  /** Reads the count out of `concat=n=<count>:v=1:a=1[v][a]`. */
  function ParseConcat(tail: string): Option<nat> {
    var pre := "concat=n=";
    var post := ":v=1:a=1[v][a]";
    if |tail| < |pre| + |post| || !StartsWith(tail, pre) || !EndsWith(tail, post) then None
    else ParseNat(tail[|pre|..|tail| - |post|])
  }

  lemma ConcatReadsBack(n: nat)
    ensures ParseConcat("concat=n=" + NatToStr(n) + ":v=1:a=1[v][a]") == Some(n)
  {
    var pre := "concat=n=";
    var post := ":v=1:a=1[v][a]";
    var tail := pre + NatToStr(n) + post;
    assert tail[|pre|..|tail| - |post|] == NatToStr(n);
    assert tail[..|pre|] == pre;
    assert tail[|tail| - |post|..] == post;
    ParseNatOfNatToStr(n);
  }

  function Range(i: nat, n: nat): (r: seq<nat>)
    decreases n - i
  {
    if i >= n then [] else [i] + Range(i + 1, n)
  }

  /** The filter names the video and audio stream of every input `0 .. n-1`, in order, and concatenates `n` of them. */
  lemma FilterRoundTrip(n: nat)
    ensures ParseFilter(FilterComplex(n)) == Some((Range(0, n), n))
  {
    var tail := "concat=n=" + NatToStr(n) + ":v=1:a=1[v][a]";
    assert FilterComplex(n) == Labels(0, n) + tail;
    ParseLabelsOfLabels(0, n, tail);
    ConcatReadsBack(n);
  }

  /** Backslashes become slashes (`.replace("\\", "/")`). */
  function Slashes(p: string): string {
    ReplaceAll(p, "\\", "/")
  }

  /** The `-i` pair of every segment, in order. */
  function InputArgs(segs: seq<string>): (argv: seq<string>)
    ensures |argv| == 2 * |segs|
    ensures forall j :: 0 <= j < |segs| ==> argv[2 * j] == "-i" && argv[2 * j + 1] == Slashes(segs[j])
  {
    if |segs| == 0 then []
    else
      var rest := InputArgs(segs[1..]);
      var argv := ["-i", Slashes(segs[0])] + rest;
      assert forall j :: 0 <= j < |segs| ==> argv[2 * j] == "-i" && argv[2 * j + 1] == Slashes(segs[j]) by {
        forall j | 1 <= j < |segs| ensures argv[2 * j] == "-i" && argv[2 * j + 1] == Slashes(segs[j]) {
          var i := j - 1;
          assert segs[1..][i] == segs[j];
          assert argv[2 * j] == rest[2 * i] && argv[2 * j + 1] == rest[2 * i + 1];
        }
      }
      argv
  }

  /** The video encoders of merge methods 1 to 4: x264 on the CPU, then Intel, AMD and NVIDIA hardware. */
  const MergeEncoders: seq<string> := ["libx264", "h264_qsv", "h264_amf", "h264_nvenc"]

  /**
   * The encoder options of merge methods 1 to 4: the method's encoder at the
   * given video bitrate, its speed setting (AMD names it `-quality`), and AAC
   * audio at 192k.
   */
  function EncodeArgs(mergeMethod: int, bitrate: string): (argv: seq<string>)
    requires 1 <= mergeMethod <= 4
    ensures |argv| == 10
    ensures argv[..4] == ["-c:v", MergeEncoders[mergeMethod - 1], "-b:v", bitrate]
    ensures argv[4..6] == (if mergeMethod == 3 then ["-quality", "fast"]
                           else ["-preset", if mergeMethod == 4 then "p2" else "veryfast"])
    ensures argv[6..] == ["-c:a", "aac", "-b:a", "192k"]
  {
    if mergeMethod == 1 then ["-c:v", "libx264", "-b:v", bitrate, "-preset", "veryfast", "-c:a", "aac", "-b:a", "192k"]
    else if mergeMethod == 2 then ["-c:v", "h264_qsv", "-b:v", bitrate, "-preset", "veryfast", "-c:a", "aac", "-b:a", "192k"]
    else if mergeMethod == 3 then ["-c:v", "h264_amf", "-b:v", bitrate, "-quality", "fast", "-c:a", "aac", "-b:a", "192k"]
    else ["-c:v", "h264_nvenc", "-b:v", bitrate, "-preset", "p2", "-c:a", "aac", "-b:a", "192k"]
  }

  /**
   * The ffmpeg argv of `mergeSegments(segmentFilenames, outputFilename,
   * mergeMethod)` for the downloader's `quality`: method 0 concatenates by
   * stream copy through the list file next to the first segment; methods 1 to 4
   * re-encode through the concat filter. `None` when the source raises: an
   * unknown method leaves the command unbound, method 0 needs a first segment,
   * and a re-encode needs a bitrate.
   */
  function MergeCommand(ffmpeg: string, segs: seq<string>, output: string, mergeMethod: int, quality: string)
    : (r: Option<seq<string>>)
    ensures r.Some? <==> (mergeMethod == 0 && |segs| > 0) || (1 <= mergeMethod <= 4 && VideoBitrate(quality).Some?)
    ensures r.Some? && mergeMethod == 0 ==> r.value == [Slashes(ffmpeg), "-y", "-f", "concat", "-safe", "0",
      "-i", Slashes(PathJoin(Dirname(segs[0]), "merge_list.txt")), "-c", "copy", "-fflags", "+genpts",
      "-vsync", "passthrough", Slashes(output)]
    ensures r.Some? && mergeMethod != 0 ==> |r.value| == 2 * |segs| + 19
    ensures r.Some? && mergeMethod != 0 ==> r.value[..2] == [Slashes(ffmpeg), "-y"]
    ensures r.Some? && mergeMethod != 0 ==> r.value[2..2 + 2 * |segs|] == InputArgs(segs)
    ensures r.Some? && mergeMethod != 0 ==> r.value[2 * |segs| + 2..2 * |segs| + 8] == FilterArgs(|segs|)
    ensures r.Some? && mergeMethod != 0 ==> r.value[2 * |segs| + 8..2 * |segs| + 18] == EncodeArgs(mergeMethod, VideoBitrate(quality).value)
    ensures r.Some? && mergeMethod != 0 ==> r.value[2 * |segs| + 18] == Slashes(output)
  {
    if mergeMethod == 0 then
      if |segs| == 0 then None
      else
        var listPath := Slashes(PathJoin(Dirname(segs[0]), "merge_list.txt"));
        Some([Slashes(ffmpeg), "-y", "-f", "concat", "-safe", "0", "-i", listPath, "-c", "copy",
              "-fflags", "+genpts", "-vsync", "passthrough", Slashes(output)])
    else if 1 <= mergeMethod <= 4 && VideoBitrate(quality).Some? then
      var enc := EncodeArgs(mergeMethod, VideoBitrate(quality).value);
      var argv := [Slashes(ffmpeg), "-y"] + (InputArgs(segs) + (FilterArgs(|segs|) + (enc + [Slashes(output)])));
      ReencodeSlices([Slashes(ffmpeg), "-y"], InputArgs(segs), FilterArgs(|segs|), enc, Slashes(output));
      Some(argv)
    else None
  }

  /** Where the four parts of a re-encoding command lie in it. */
  lemma ReencodeSlices(head: seq<string>, inputs: seq<string>, filter: seq<string>, enc: seq<string>, out: string)
    requires |head| == 2 && |filter| == 6 && |enc| == 10
    ensures var argv := head + (inputs + (filter + (enc + [out])));
      var n := |inputs|;
      |argv| == n + 19 && argv[..2] == head && argv[2..2 + n] == inputs &&
      argv[n + 2..n + 8] == filter && argv[n + 8..n + 18] == enc && argv[n + 18] == out
  {
    var n := |inputs|;
    var argv := head + (inputs + (filter + (enc + [out])));
    assert argv[2..] == inputs + (filter + (enc + [out]));
    assert argv[n + 2..] == filter + (enc + [out]);
    assert argv[n + 8..] == enc + [out];
  }

  /** The filter and the two output maps. */
  function FilterArgs(n: nat): seq<string> {
    ["-filter_complex", FilterComplex(n), "-map", "[v]", "-map", "[a]"]
  }

  // ---------------------------------------------------------------------------
  // getAuthHeaders
  // ---------------------------------------------------------------------------

  const UserAgent: string :=
    "Mozilla/5.0 (Windows NT 10.0; Win64; x64) AppleWebKit/537.36 (KHTML, like Gecko) Chrome/58.0.3029.110 Safari/537.3"

  /** The cookies as `key=value` pairs joined by `"; "`, in the dictionary's order. */
  function CookieHeader(cookies: seq<(string, string)>): string
    decreases |cookies|
  {
    if |cookies| == 0 then ""
    else if |cookies| == 1 then cookies[0].0 + ("=" + cookies[0].1)
    else cookies[0].0 + ("=" + cookies[0].1) + ("; " + CookieHeader(cookies[1..]))
  }

  /** `getAuthHeaders(cookies)`: the User-Agent always, the Cookie header only for a non-empty cookie dictionary. */
  function GetAuthHeaders(cookies: seq<(string, string)>): (h: map<string, string>)
    ensures "User-Agent" in h && h["User-Agent"] == UserAgent
    ensures "Cookie" in h <==> |cookies| > 0
    ensures h.Keys <= {"User-Agent", "Cookie"}
    ensures |cookies| > 0 ==> h["Cookie"] == CookieHeader(cookies)
    ensures |cookies| > 0 && PlainCookies(cookies) ==> ParseCookies(h["Cookie"]) == cookies
  {
    var base := map["User-Agent" := UserAgent];
    if |cookies| > 0 then
      assert PlainCookies(cookies) ==> ParseCookies(CookieHeader(cookies)) == cookies by {
        if PlainCookies(cookies) { CookieRoundTrip(cookies); }
      }
      base["Cookie" := CookieHeader(cookies)]
    else base
  }

  /** Reads one `key=value` pair at its first `=`. */
  function KeyValue(p: string): (string, string) {
    if '=' in p then (p[..FirstIndex(p, '=')], p[FirstIndex(p, '=') + 1..]) else (p, "")
  }

  /** Reads a Cookie header back into its pairs: split at `;`, one following space dropped. */
  function ParseCookies(s: string): seq<(string, string)>
    decreases |s|
  {
    if ';' !in s then [KeyValue(s)]
    else
      var i := FirstIndex(s, ';');
      var rest := s[i + 1..];
      [KeyValue(s[..i])] + ParseCookies(if |rest| > 0 && rest[0] == ' ' then rest[1..] else rest)
  }

  /** Cookie names without `=` or `;`, values without `;`. */
  predicate PlainCookies(cookies: seq<(string, string)>) {
    forall k :: 0 <= k < |cookies| ==> '=' !in cookies[k].0 && ';' !in cookies[k].0 && ';' !in cookies[k].1
  }

  lemma KeyValueOf(key: string, value: string)
    requires '=' !in key
    ensures KeyValue(key + ("=" + value)) == (key, value)
  {
    var p := key + ("=" + value);
    FirstIndexAfter(key, '=', value);
    assert p[..|key|] == key;
    assert p[|key| + 1..] == value;
  }

  /** The first pair of a header ends at its first `;`, and one space after it is dropped. */
  lemma ParseCookiesCons(first: string, tail: string)
    requires ';' !in first
    ensures ParseCookies(first + ("; " + tail)) == [KeyValue(first)] + ParseCookies(tail)
  {
    var s := first + ("; " + tail);
    assert "; " + tail == [';'] + (" " + tail);
    FirstIndexAfter(first, ';', " " + tail);
    assert s[..|first|] == first;
    assert s[|first| + 1..] == " " + tail;
    assert (" " + tail)[1..] == tail;
  }

  /** The Cookie header reads back as the same pairs. */
  lemma {:induction false} CookieRoundTrip(cookies: seq<(string, string)>)
    requires |cookies| > 0 && PlainCookies(cookies)
    ensures ParseCookies(CookieHeader(cookies)) == cookies
    decreases |cookies|
  {
    var first := cookies[0].0 + ("=" + cookies[0].1);
    assert ';' !in first by {
      assert forall j :: 0 <= j < |first| ==> first[j] != ';';
    }
    KeyValueOf(cookies[0].0, cookies[0].1);
    if |cookies| > 1 {
      assert PlainCookies(cookies[1..]) by {
        assert forall k :: 0 <= k < |cookies| - 1 ==> cookies[1..][k] == cookies[k + 1];
      }
      CookieRoundTrip(cookies[1..]);
      ParseCookiesCons(first, CookieHeader(cookies[1..]));
    }
  }
}

=== FILE: wrappers.dfy ===
/** Optional values: the model's stand-in for Python's `None`-or-value returns. */
module Wrappers {

  datatype Option<+T> = None | Some(value: T) {

    /** The wrapped value, or `default` when there is none (Python's `d.get(k, default)`). */
    function GetOr(default: T): T {
      match this
      case Some(v) => v
      case None => default
    }
  }
}
